=== FILE: README.md ===
# sdo-check in Dafny

A model of the schema.org annotation checker *sdo-check*, with proofs about it.

The engine at its centre is `isAnnotationValid` in `verification/src/GeneralVerification.js`. It takes one annotation, which is a JSON value or a string holding one. It runs a fixed pipeline over it:

1. the lexical check;
2. the `@context` check;
3. the key escaping around the JSON-LD compaction;
4. the `@type` shape check;
5. the schema.org conformance walk.

Every stage pushes `ErrorEntry` records onto one growing list. The verdict — Valid, ValidWithWarnings or Invalid — is drawn from the severities of those records. The records name the place of each finding with an *annotation path*: `$` for the root, `.prop` for a property, `/index` for the n-th value of a property.

The model also covers the helpers the engine relies on (`VerificationUtilities.js`): the optimal-string-alignment edit distance, URI pretty-printing, type matching and the path resolver. It covers the two record constructors too.

The front end consumes the report and the path scheme; the parts of it that are pure logic are modelled:

- the row paths of the tree view and which errors each row shows (`visualization.js`);
- the "did you mean" suggestions and the explanation dispatch (`errorExplain.js`);
- the small helpers in `utilities.js` and `helper.js`.

## Modules

Each module follows one source file, or one part of `GeneralVerification.js`.

| module | what it models |
|---|---|
| `JsStrings` | the JavaScript string operations the code uses (`split`, `join`, `lastIndexOf`, `replace` with `\s` classes, `<` on strings) |
| `JsValues` | JSON values, with `undefined` kept apart from `null` and objects as ordered entry lists in `Object.keys` order: integer-like keys first, ascending, then the rest in insertion order. The parsed input must arrive in that order; the only keys the model appends are renamed keys holding a space or `%20`, which are never integer-like. Also truthiness, `Object.keys` and `JSON.parse(JSON.stringify(...))` |
| `ErrorEntries` | `ErrorEntry`, `GeneralVerificationReport` and the threading of the error list through stages that may throw |
| `ErrorBuilders` | the `createError_*` builders and the entries built inline by the range check |
| `LevDistance` | `levDist`, as a matrix method proved against a recursive definition |
| `VerificationUtilities` | the rest of `VerificationUtilities.js` |
| `LexicalCheck` | `lexicalCheckJSON` and `recursive_checkAnomalies` |
| `ContextCheck` | `checkContext` and the two `@context` URI patterns |
| `Normalizer` | `recursive_compactPreReplacement` / `recursive_compactPostReplacement` |
| `SemanticCheck` | `semanticCheckJSONLD` / `recursive_semantic_isAnnotationValid` |
| `SdoVocabulary` | the vocabulary as a parameter, and the vocabulary predicates of the engine |
| `Conformance` | the type, property, domain and range checks, and `typePrinter` |
| `SdoWalk` | `recursive_sdo_isAnnotationValid` and `annotationReverseHandling` |
| `GeneralVerification` | `preProcessAnnotation` and `isAnnotationValid` |
| `FrontendUtilities` | `frontend/scripts/utilities.js` |
| `FrontendHelper` | `frontend/scripts/helper.js` |
| `Visualization` | the path and error logic of `frontend/scripts/visualization.js` |
| `ErrorExplain` | `frontend/scripts/errorExplain.js` |

Loops of the source are methods with loop invariants. Each is proved equal to a recursive function, and the properties are proved about that function as lemmas. Exceptions of the source are explicit results:

- an `Outcome` (errors, threw);
- an `Option`;
- a `Processed` / `Compaction` failure.

Where a child walk throws, its own errors are lost, as its fresh array is in JavaScript. The root keeps the errors pushed before the throw, and the catch block adds its entry.

## Where the code decides

The model follows the code in these places, where one would expect other behaviour from the project's own description:

- The early-exit guard of `levDist` never fires. It reads `d[i][j]` before that cell is assigned, so the comparison `undefined > 4` is false. `levDist` is therefore always the full matrix value.
- `lexicalCheckJSON` treats falsy values differently: falsy parsed values (`0`, `""`, `false`) give 102. A string that parses to `null` gives 101, because the anomaly scan throws on it inside the `try`. Anomaly errors (104/205/206) come before the closing 102/103.
- A string value is accepted for any enumeration range without testing membership in the enumeration (`GeneralVerification.js:707-712`).
- `GeneralVerification.js:664` reads as `(!legit && hasNumber) || hasFloat`; the model keeps that reading.
- The misspelling suggestions in the 302/303 descriptions of the engine are in vocabulary order and are not sorted.
- The suggestion loop of `errorExplain.js` has no early exit. It sorts twice: by iri, then, stably, by distance.
- An entity with an empty `@type` array gets a 305 for every known property it uses.

## Model

| member | source | states |
|---|---|---|
| ErrorEntries.NewErrorEntry | verification/src/constructors/ErrorEntry.js:2-21 | kind, severity and code are always the arguments; name, description, dsPath and annotationPath are present exactly when the argument is not null; value is present exactly when the argument is truthy, and is then that argument |
| ErrorEntries.NewReport | verification/src/constructors/GeneralVerificationReport.js:2-11 | the result and the error list are always the arguments; name and description are present exactly when not null |
| ErrorEntries.SequenceOutcome | verification/src/GeneralVerification.js:47-67 | a run of stages throws exactly when one stage throws; when none does, the report holds every stage's errors in stage order |
| ErrorEntries.ConcatMember | verification/src/GeneralVerification.js:446-457 | an entry is in the merged child reports exactly when it is in one of them |
| ErrorBuilders.Error101 | verification/src/GeneralVerification.js:963-973 | 101 is a Critical JSON error without path or value |
| ErrorBuilders.Error102 | verification/src/GeneralVerification.js:976-986 | 102 is a Critical JSON error without path or value |
| ErrorBuilders.Error103 | verification/src/GeneralVerification.js:989-999 | 103 is a Critical JSON error without path or value |
| ErrorBuilders.Error104 | verification/src/GeneralVerification.js:1002-1012 | 104 is an Error-severity JSON error at "$" |
| ErrorBuilders.Error201 | verification/src/GeneralVerification.js:1015-1025 | 201 is a Critical JSON-LD error at "$" |
| ErrorBuilders.Error202 | verification/src/GeneralVerification.js:1028-1038 | 202 is a Critical JSON-LD error at "$" carrying the given description |
| ErrorBuilders.Error203 | verification/src/GeneralVerification.js:1041-1051 | 203 is an Error-severity JSON-LD error at the given path |
| ErrorBuilders.Error204 | verification/src/GeneralVerification.js:1054-1065 | 204 is an Error at the given (possibly null) path, with the value present only when truthy |
| ErrorBuilders.Error205 | verification/src/GeneralVerification.js:1068-1078 | 205 is an Error-severity JSON-LD error at "$" |
| ErrorBuilders.Error206 | verification/src/GeneralVerification.js:1081-1100 | 206 is Critical exactly when the null is a `@type` value, a Warning otherwise |
| ErrorBuilders.Error300Context | verification/src/GeneralVerification.js:1103-1113 | the non-ideal `@context` 300 is a Warning at "$" |
| ErrorBuilders.Error301 | verification/src/GeneralVerification.js:1116-1126 | 301 is a Critical annotation error at "$" |
| ErrorBuilders.Error302 | verification/src/GeneralVerification.js:1129-1140 | 302 is an Error at the type's path, with the offending type as value when truthy |
| ErrorBuilders.Error303 | verification/src/GeneralVerification.js:1143-1154 | 303 is an Error at the entity's path, with the key as value when truthy |
| ErrorBuilders.Error304 | verification/src/GeneralVerification.js:1157-1168 | 304 is an Error at the entity's path, with the key as value when truthy |
| ErrorBuilders.Error305 | verification/src/GeneralVerification.js:1171-1182 | 305 is an Error at the entity's path, with the property as value when truthy |
| ErrorBuilders.Error309 | verification/src/GeneralVerification.js:1185-1195 | 309 is a Warning at the entity's path |
| ErrorBuilders.Error999 | verification/src/GeneralVerification.js:1198-1208 | 999 is a Critical execution error at "$" carrying the message |
| ErrorBuilders.Error207 | verification/src/GeneralVerification.js:752 | the empty-string entry is a Warning 207 at the value's path |
| ErrorBuilders.Error300Trailing | verification/src/GeneralVerification.js:659 | the trailing-spaces entry is a Warning 300 named "Trailing spaces" at the value's path |
| ErrorBuilders.Error300UnknownRange | verification/src/GeneralVerification.js:734 | the unknown-range entry is a Warning 300 at the value's path |
| ErrorBuilders.Error306 | verification/src/GeneralVerification.js:748 | 306 is an Error at the value's path |
| ErrorBuilders.Error307 | verification/src/GeneralVerification.js:745 | 307 is a Warning at the value's path |
| JsValues.TypeTestsExclusive | verification/src/VerificationUtilities.js:3-32 | `isObject` holds exactly for non-null, non-array objects; `isNumber` excludes NaN; at most one type test holds, and none for arrays, null and undefined |
| JsValues.HardCopy | frontend/scripts/utilities.js:92-94 | the deep copy fails exactly on `undefined` |
| JsValues.CopyValuePlain | verification/src/GeneralVerification.js:125 | the deep copy holds no `undefined` and no non-finite number |
| JsValues.CopyValueIdentity | verification/src/GeneralVerification.js:125 | copying plain JSON changes nothing |
| JsValues.CopyValueIdempotent | verification/src/GeneralVerification.js:125 | copying twice is copying once |
| LevDistance.LevDist | verification/src/VerificationUtilities.js:43-79 | the matrix method returns the full optimal-string-alignment distance (deletion, insertion, substitution, adjacent transposition); the guard at line 61 never returns early; the front-end copy (frontend/scripts/utilities.js, lines 114-150, dead guard at line 132 included) is the same algorithm and is modelled by this member too |
| LevDistance.FillRow | verification/src/VerificationUtilities.js:57-75 | one outer iteration fills row i with the recurrence values and never takes the early exit |
| LevDistance.CellValue | verification/src/VerificationUtilities.js:62-74 | one cell is the minimum of the deletion, insertion and substitution costs, lowered by a transposition when the last two characters are swapped |
| LevDistance.DistanceSymmetric | verification/src/VerificationUtilities.js:43-79 | the distance does not depend on argument order |
| LevDistance.DistanceZeroIff | verification/src/VerificationUtilities.js:43-79 | the distance is 0 exactly for equal strings |
| LevDistance.DistanceBounds | verification/src/VerificationUtilities.js:43-79 | the distance lies between the length difference and the longer length; so `levDist(s, "")` is the length of `s` |
| LevDistance.OsaZero | verification/src/VerificationUtilities.js:56-78 | only equal prefixes are at distance 0 |
| VerificationUtilities.PrettyPrintString | verification/src/VerificationUtilities.js:330-340 | one leading "schema:" is removed; other strings are unchanged |
| VerificationUtilities.PrettyPrintURI | verification/src/VerificationUtilities.js:330-340 | non-strings come back unchanged; strings lose one leading "schema:"; the front-end copy (frontend/scripts/utilities.js, lines 82-89) behaves the same and is modelled by this member too |
| VerificationUtilities.ReversePrettyPrintURI | verification/src/VerificationUtilities.js:342-347 | "schema:" is prefixed exactly when the term has no ":" |
| VerificationUtilities.PrettyPrintOfReverse | verification/src/VerificationUtilities.js:330-347 | prefixing a colon-free term and pretty-printing gives the term back |
| VerificationUtilities.ReverseOfPrettyPrint | verification/src/VerificationUtilities.js:330-347 | `reversePrettyPrintURI(prettyPrintURI("schema:" + x)) = "schema:" + x` for colon-free x |
| VerificationUtilities.PrefixedTermsAreFixed | verification/src/VerificationUtilities.js:330-347 | a term with another prefix passes both directions unchanged |
| VerificationUtilities.PrettyPrintURIMTEs | verification/src/VerificationUtilities.js:317-328 | the loop joins the pretty-printed terms with "," and no trailing comma; a single term is pretty-printed alone |
| VerificationUtilities.JoinSnoc | verification/src/VerificationUtilities.js:317-328 | appending a term to the join adds the separator and the term, nothing else |
| VerificationUtilities.StringifyTypeForPath | verification/src/VerificationUtilities.js:304-314 | the loop joins the types with "_", with no delimiter at either end |
| VerificationUtilities.StringifiedTypesSplit | verification/src/VerificationUtilities.js:304-314 | types without "_" split back out of the joined text |
| VerificationUtilities.GetDepthDS | verification/src/VerificationUtilities.js:271-274 | the depth is the number of "/" in the path |
| VerificationUtilities.ChildPathExtends | verification/src/GeneralVerification.js:446-457 | a child path strictly extends its parent's path |
| VerificationUtilities.TypesMatchSymmetric | verification/src/VerificationUtilities.js:277-301 | matching does not depend on argument order |
| VerificationUtilities.TypesMatchReflexive | verification/src/VerificationUtilities.js:277-301 | every value without NaN matches itself |
| VerificationUtilities.TypesMatchPermuted | verification/src/VerificationUtilities.js:277-301 | two lists with the same types in any order match (mutual containment) |
| VerificationUtilities.MergeArrays | verification/src/VerificationUtilities.js:81-86 | the result is the first array followed by the second |
| VerificationUtilities.TokenBefore | verification/src/VerificationUtilities.js:216-221 | the path token is the longest prefix free of "." and "/" |
| VerificationUtilities.GraphProperty | verification/src/VerificationUtilities.js:236-242 | on an object the step succeeds exactly when the object holds the property as an own entry; on null or undefined it throws |
| VerificationUtilities.GraphRange | verification/src/VerificationUtilities.js:246-268 | index 0 on a non-array gives the value itself; a non-zero index beyond a non-array or an array's end throws; an array element that is an object is replaced by the graph entry its `@id` names |
| VerificationUtilities.Advance | verification/src/VerificationUtilities.js:207-223 | one pass of the loop body: a pass that moves on consumes at least the delimiter, so the loop ends |
| VerificationUtilities.ResolvePathGraphAnnotation | verification/src/VerificationUtilities.js:195-232 | the do/while loop returns the value the path leads to, null when the path does not fit |
| VerificationUtilities.ResolveRoot | verification/src/VerificationUtilities.js:195-232 | "$" resolves to the root entity |
| VerificationUtilities.ResolveMissingProperty | verification/src/VerificationUtilities.js:195-232 | a property step that does not fit makes the path resolve to null |
| LexicalCheck.CheckAnomalies | verification/src/GeneralVerification.js:229-263 | the scan method pushes exactly the anomalies of the value, key by key |
| LexicalCheck.CheckMember | verification/src/GeneralVerification.js:235-261 | one key: 104 for undefined, 206 for null (Critical under `@type`), and for an array one entry per anomalous element |
| LexicalCheck.CheckElement | verification/src/GeneralVerification.js:247-259 | one element: 104, 206 or 205 for a nested array, and the recursive scan of an object |
| LexicalCheck.AnomaliesClean | verification/src/GeneralVerification.js:229-263 | the scan finds nothing exactly when no key holds undefined or null and no array holds an array, at any depth |
| LexicalCheck.AnomalyCodes | verification/src/GeneralVerification.js:229-263 | the scan reports only 104, 205 and 206 |
| LexicalCheck.LexicalCheckJSON | verification/src/GeneralVerification.js:108-143 | the method returns the outcome, errors and annotation of the lexical check |
| LexicalCheck.LexicalVerdict | verification/src/GeneralVerification.js:108-143 | the check fails exactly when it pushed one of 101/102/103; it then pushed exactly one, last; on success the annotation is a non-empty object |
| LexicalCheck.LexicalCodes | verification/src/GeneralVerification.js:108-143 | a missing input draws 102 alone; a string that does not parse, or parses to undefined or null, draws 101 alone; any other input draws the anomalies of the scanned value followed by 102 exactly when the annotation is falsy, `{}` or `[]`, else by 103 exactly when it is not an object, else by nothing |
| LexicalCheck.ConcludeVerdict | verification/src/GeneralVerification.js:133-141 | the closing test adds 102 or 103 exactly when it fails |
| LexicalCheck.LexicalCopies | verification/src/GeneralVerification.js:122-126 | a non-string input passes on as its deep copy, which is plain JSON and is the input itself when that was plain |
| LexicalCheck.CleanObjectPasses | verification/src/GeneralVerification.js:108-143 | a non-empty object free of anomalies passes with no error |
| ContextCheck.DropScheme | verification/src/GeneralVerification.js:941-943 | the optional "http://" or "https://" is removed |
| ContextCheck.ComposedAllowed | verification/src/GeneralVerification.js:931-943 | every combination of optional scheme, optional "www." and "schema.org" with optional "/" is allowed; it is recommended exactly when it has a scheme and no "www." |
| ContextCheck.AllowedParts | verification/src/GeneralVerification.js:941-943 | an allowed URI splits into those optional parts |
| ContextCheck.RecommendedParts | verification/src/GeneralVerification.js:931-933 | a recommended URI is "http://" or "https://" then "schema.org" with optional "/" |
| ContextCheck.RecommendedURIsExactly | verification/src/GeneralVerification.js:931-933 | the recommended pattern denotes exactly four URIs |
| ContextCheck.AllowedURIsListed | verification/src/GeneralVerification.js:941-943 | every allowed URI is one of the twelve listed |
| ContextCheck.RecommendedIsAllowed | verification/src/GeneralVerification.js:931-943 | every recommended URI is allowed |
| ContextCheck.CheckContext | verification/src/GeneralVerification.js:152-221 | false exactly when there is no `@context`; the pushed entries are the context findings |
| ContextCheck.CheckVocab | verification/src/GeneralVerification.js:174-193 | the `@vocab` test: a truthy non-string is a 202, a string outside the allowed pattern a 301, an allowed but not recommended one a 300, a recommended one finds schema.org; a falsy value changes nothing |
| ContextCheck.CheckObjectContext | verification/src/GeneralVerification.js:172-214 | the flag loop over an object context: the `@vocab` test, each entry's test, then 301 if neither schema.org nor an error was found |
| ContextCheck.ContextErrorsCodes | verification/src/GeneralVerification.js:152-221 | only 201, 202, 300 and 301 occur, all at "$"; a missing context gives exactly one 201, and 201 occurs in no other case |
| ContextCheck.StringContext | verification/src/GeneralVerification.js:164-171 | a string context: nothing when recommended, one 300 when only allowed, one 301 otherwise |
| ContextCheck.RecommendedObjectContext | verification/src/GeneralVerification.js:172-214 | an object context whose entries are all recommended URIs is accepted silently |
| ContextCheck.RecommendedVocabScan | verification/src/GeneralVerification.js:176-193 | a recommended `@vocab` finds schema.org and adds no error |
| ContextCheck.RecommendedEntriesScan | verification/src/GeneralVerification.js:194-210 | recommended entries add no error and find schema.org |
| Normalizer.SetKey | verification/src/GeneralVerification.js:318 | assigning a key keeps an existing entry in place or adds one at the end |
| Normalizer.Rename | verification/src/GeneralVerification.js:316-320 | renaming throws exactly when the old key holds undefined |
| Normalizer.CompactContext | verification/src/GeneralVerification.js:290-303 | the `@context` loop returns the rewritten context and global context, a prefix counting as bound when the global context holds it truthily or inherits it from `Object.prototype` |
| Normalizer.CompactPreReplacement | verification/src/GeneralVerification.js:286-323 | the method's result is the pre-replacement of the value, each key's value read from the object as it stands after the earlier keys' renames, and `@context` prefixes named like `Object.prototype` members treated as bound |
| Normalizer.CompactPostReplacement | verification/src/GeneralVerification.js:325-348 | the method's result is the post-replacement of the value, each key's value read from the object as it stands after the earlier keys' renames |
| Normalizer.ReplaceKey | verification/src/GeneralVerification.js:305-321 | one key of the pre-replacement: its value is read from the object as it stands, an array or object under a non-"@" key is replaced recursively, and a name with a space moves to its encoded name |
| Normalizer.RestoreKey | verification/src/GeneralVerification.js:330-346 | one key of the post-replacement: its value is read from the object as it stands, an array or object under a non-"@" key is restored recursively, and a name with "%20" moves to its decoded name |
| Normalizer.PreRenameOntoLaterKey | verification/src/GeneralVerification.js:304-320 | a rename onto a key still to come replaces that key's value before its turn: `{"a b":"x","a%20b":{"k":"y"}}` becomes `{"a%20b":"x"}` |
| Normalizer.PostRenameOntoLaterKey | verification/src/GeneralVerification.js:329-345 | the same after compaction: `{"a%20b":"x","a b":{"k":"y"}}` becomes `{"a b":"x"}` |
| Normalizer.KeyRoundTrip | verification/src/GeneralVerification.js:316-342 | decoding "%20" undoes encoding " " for names without "%20" |
| Normalizer.EncodedKeyHasNoSpace | verification/src/GeneralVerification.js:316-317 | an encoded name holds no space |
| Normalizer.DecodedKeyHasNoEncodedSpace | verification/src/GeneralVerification.js:341-342 | a decoded name holds no "%20" |
| Normalizer.SetKeyKeys | verification/src/GeneralVerification.js:318 | assignment adds the key to the names and keeps them distinct |
| Normalizer.DeleteKeyKeys | verification/src/GeneralVerification.js:319 | deletion removes the key from the names and keeps them distinct |
| Normalizer.PreKeys | verification/src/GeneralVerification.js:286-323 | after the pre-replacement an object holds exactly the encoded names of its entries, each once, none with a space |
| Normalizer.PostKeys | verification/src/GeneralVerification.js:325-348 | after the post-replacement an object holds exactly the decoded names, each once, none with "%20" |
| Normalizer.PreThenPostKeys | verification/src/GeneralVerification.js:286-348 | when nothing in between renames, post after pre gives the original names back |
| Normalizer.ContextEntriesRules | verification/src/GeneralVerification.js:276-299 | each context entry naming schema.org, or a prefix already bound (held truthily by the global context, or a name the plain-object global context inherits from `Object.prototype`, such as "constructor" or "toString"), is set to the wished URI; every other entry is kept and handed to the global context; no other binding changes |
| Normalizer.InheritedNameRewritten | verification/src/GeneralVerification.js:276-296 | a "constructor" entry of an `@context` reads as bound in the standard global context, so it is set to the wished URI and the global context stays `{schema}` |
| Normalizer.SchemaPrefixKept | verification/src/GeneralVerification.js:290-299 | the standard `schema` prefix is never rebound, and allowed schema.org URIs are never handed over |
| SemanticCheck.FirstNonString | verification/src/GeneralVerification.js:383-389 | the first index of the type array holding a non-string, or none when all are strings |
| SemanticCheck.CheckTypeShape | verification/src/GeneralVerification.js:374-395 | the `@type` test method pushes 203 without `@type`, else 204 for the first non-string type |
| SemanticCheck.SemanticCheckJSONLD | verification/src/GeneralVerification.js:356-365 | the walk starts at the first `@graph` item, or the annotation; it throws when that item is missing or null |
| SemanticCheck.RecursiveSemantic | verification/src/GeneralVerification.js:373-413 | the method pushes the findings of the entity and every entity below it, key by key |
| SemanticCheck.SemanticFindings | verification/src/GeneralVerification.js:373-413 | every finding lies under the starting path; 203 is only the root's; well-formed types never give 204 |
| SemanticCheck.OwnTypeFlagged | verification/src/GeneralVerification.js:380-395 | conversely, an entity whose `@type` is neither a string nor an array of strings gets a 204 as its walk's first finding, at the first offending index (0 for a non-array) |
| SdoVocabulary.CaseMatch | verification/src/GeneralVerification.js:814-828 | the first term equal to the value up to ASCII case, and none exactly when no term is |
| SdoVocabulary.FindCaseMatch | verification/src/GeneralVerification.js:814-828 | the search loop returns that first case match |
| SdoVocabulary.CheckIfSDOClassHasBadCase | verification/src/GeneralVerification.js:814-828 | a fix is found exactly when some class or enumeration equals the value up to case |
| SdoVocabulary.CheckIfSDOPropertyHasBadCase | verification/src/GeneralVerification.js:868-876 | a fix is found exactly when some property equals the value up to case, and it is that property pretty-printed |
| SdoVocabulary.Misspellings | verification/src/GeneralVerification.js:830-856 | the suggestions are exactly the pretty-printed terms at edit distance below 3 |
| SdoVocabulary.MisspellingsEmpty | verification/src/GeneralVerification.js:830-856 | no suggestion exactly when every term is at least 3 edits away |
| SdoVocabulary.CollectMisspellings | verification/src/GeneralVerification.js:833-842 | the gathering loop collects those suggestions in vocabulary order |
| SdoVocabulary.JoinGuesses | verification/src/GeneralVerification.js:846-854 | the concatenation loop joins the guesses with ", " |
| SdoVocabulary.CheckIfValueIsWrongSpelledSDOClass | verification/src/GeneralVerification.js:830-856 | nothing (false) exactly when every class and enumeration is at least 3 edits away |
| SdoVocabulary.CheckIfValueIsWrongSpelledSDOProperty | verification/src/GeneralVerification.js:878-898 | nothing (false) exactly when every property is at least 3 edits away |
| SdoVocabulary.KnownTermIsGuessed | verification/src/GeneralVerification.js:830-898 | a term of the vocabulary is always among its own suggestions |
| SdoVocabulary.ActionVariants | verification/src/GeneralVerification.js:901-913 | every property has its "-input" and "-output" action variants |
| SdoVocabulary.NoSuffixNoAction | verification/src/GeneralVerification.js:901-913 | a key without either suffix is never an action property |
| SdoVocabulary.ValidActionPropertyRange | verification/src/GeneralVerification.js:916-923 | a string must match the action-value pattern, an object must list PropertyValueSpecification, anything else fails; reading `@type.includes` throws without a string or array `@type` |
| SdoVocabulary.TypesOf | verification/src/GeneralVerification.js:478-482 | an array of types is itself, a single type a one-element list |
| SdoVocabulary.RecCheckCharacterization | verification/src/GeneralVerification.js:775-800 | with a transitive subclass list, a type is in range exactly when it equals a range or a subclass of one |
| SdoVocabulary.InRangeFromIff | verification/src/GeneralVerification.js:775-800 | the recursion over the subclasses adds nothing beyond one level of the closed subclass list |
| Conformance.TypeError302 | verification/src/GeneralVerification.js:486-501 | the 302 for an unknown string type is an Error at the type's path, carrying the type |
| Conformance.TypeLadder | verification/src/GeneralVerification.js:486-501 | the 302 variant is chosen in strict precedence: blank spaces, then case, then misspelling, then plain |
| Conformance.TypeElement | verification/src/GeneralVerification.js:486-502 | a class or enumeration gives nothing, another string one 302, a non-string throws |
| Conformance.CheckTypes | verification/src/GeneralVerification.js:474-504 | the loop of the type check returns the type findings |
| Conformance.StringTypesChecked | verification/src/GeneralVerification.js:474-504 | with string types the check never throws and the j-th type gives a single 302 at `path.@type/j` exactly when invalid |
| Conformance.TypeCheckThrows | verification/src/GeneralVerification.js:474-504 | the check throws exactly when some type is not a string |
| Conformance.PropertyError303 | verification/src/GeneralVerification.js:547-562 | the 303 is an Error at the entity's path carrying the key |
| Conformance.PropertyLadder | verification/src/GeneralVerification.js:547-562 | the 303 variant follows the same precedence as the 302 one |
| Conformance.PropertyCheck | verification/src/GeneralVerification.js:538-564 | an action key gets one 304 exactly when its value is rejected, and throws when the test throws; any other key gets exactly one 303 |
| Conformance.DomainErrors | verification/src/GeneralVerification.js:574-612 | at most one entry, a 305 at the entity's path |
| Conformance.CheckDomain | verification/src/GeneralVerification.js:574-612 | the two flag loops give that entry, an Error 305 |
| Conformance.DomainAllowsListedClass | verification/src/GeneralVerification.js:574-612 | a listed class that has the property, inherited or not, rules out a 305 |
| Conformance.EmptyTypeListRejectsAll | verification/src/GeneralVerification.js:574-612 | an empty `@type` array draws a 305 for every known property |
| Conformance.TypePrinter | verification/src/GeneralVerification.js:758-771 | non-arrays print as themselves, arrays as a string |
| Conformance.PrintTypes | verification/src/GeneralVerification.js:758-771 | the loop joins the types with " + " |
| Conformance.PrintSingleType | verification/src/GeneralVerification.js:758-771 | a single type prints as itself, in an array or not |
| Conformance.CheckStringRange | verification/src/GeneralVerification.js:654-714 | the flag chain accepts a trimmed string exactly when a range admits it |
| Conformance.RangeElement | verification/src/GeneralVerification.js:631-754 | one value throws exactly when it is null, and every entry names the value's path |
| Conformance.CheckRangeElement | verification/src/GeneralVerification.js:631-754 | the method gives that value's findings |
| Conformance.CheckRange | verification/src/GeneralVerification.js:622-755 | the loop gives the findings of every value in order |
| Conformance.EntityValueRules | verification/src/GeneralVerification.js:716-740 | an object value with `@type` gets a 306 exactly when no type is in range; `@id` only gets the "Unknown range" warning; neither gets 203 |
| Conformance.ScalarValueRules | verification/src/GeneralVerification.js:643-749 | a number gets a 306 exactly without a Number/Integer/Float/Thing range, a boolean exactly without a Boolean/Thing range |
| Conformance.StringValueRules | verification/src/GeneralVerification.js:654-753 | a spaces-only string ends with 207 and gets no trailing-spaces warning; that warning comes first exactly when trimming changes the value; 307 exactly when rejected with a class range, 306 exactly when rejected without |
| Conformance.RangeCheckRules | verification/src/GeneralVerification.js:622-755 | the check throws exactly when some value is null; each entry names `path.prop/p` for one of the values |
| SdoWalk.Shield | verification/src/GeneralVerification.js:446-457 | a child walk that throws hands nothing to its parent |
| SdoWalk.RecursiveSdo | verification/src/GeneralVerification.js:422-465 | the key loop with its `foundProperties` flag returns the walk's outcome |
| SdoWalk.CheckMember | verification/src/GeneralVerification.js:426-458 | one key: the type check, nothing for `@id`, the reverse walks, the property check or the domain and range checks, then the child walks |
| SdoWalk.CheckProperty | verification/src/GeneralVerification.js:438-444 | a non-keyword key's own checks: the property check for an unknown property, otherwise the domain entries followed by the range check |
| SdoWalk.VisitChildren | verification/src/GeneralVerification.js:513-528 | the child walks at `path.key/j`, or `/0` for a single object, in order |
| SdoWalk.WalkFindings | verification/src/GeneralVerification.js:422-465 | every entry lies at or below the entity; unless it threw, a 309 for the entity is reported exactly when it has no `@id`, `@reverse` or property key |
| SdoWalk.ChildrenFindings | verification/src/GeneralVerification.js:446-457 | entries of child walks lie strictly below the entity |
| GeneralVerification.PreProcess | verification/src/GeneralVerification.js:271-284 | a pre-processing that succeeds yields an object |
| GeneralVerification.PreProcessAnnotation | verification/src/GeneralVerification.js:271-284 | pre-replacement, compaction, post-replacement in turn |
| GeneralVerification.CaughtErrors | verification/src/GeneralVerification.js:82-99 | the catch block pushes at most one entry, a blocking one, and nothing only for the three `@context` syntax messages |
| GeneralVerification.Classify | verification/src/GeneralVerification.js:68-80 | Valid exactly for no entries; Invalid exactly when some entry is Error or Critical; ValidWithWarnings exactly for entries that are all Warnings |
| GeneralVerification.IsAnnotationValid | verification/src/GeneralVerification.js:45-100 | the method returns the report of the whole pipeline |
| GeneralVerification.ExecutionReportAgrees | verification/src/GeneralVerification.js:82-99 | the catch report is Invalid, keeps every earlier entry, and agrees with the severities unless it pushed nothing |
| GeneralVerification.AnalysisAgrees | verification/src/GeneralVerification.js:62-80 | stages 4 to 6 keep the earlier entries and give a verdict that agrees with the severities |
| GeneralVerification.VerdictRules | verification/src/GeneralVerification.js:45-100 | every report's verdict agrees with its severities, except a `@context` rejected silently by the compaction, which is Invalid; the lexical entries head the report |
| FrontendUtilities.CheckIfObjectIsObject | frontend/scripts/utilities.js:6-14 | true exactly for objects, and equal to the engine's `isObject` |
| FrontendUtilities.UniquifyArray | frontend/scripts/utilities.js:40-51 | the `seen` loop returns the distinct items in first-occurrence order |
| FrontendUtilities.UniquifiedItems | frontend/scripts/utilities.js:40-51 | the result holds every input item and nothing else |
| FrontendUtilities.UniquifiedDistinct | frontend/scripts/utilities.js:40-51 | no item appears twice |
| FrontendUtilities.UniquifiedOrder | frontend/scripts/utilities.js:40-51 | items keep the order of their first occurrences |
| FrontendUtilities.UniquifiedIdempotent | frontend/scripts/utilities.js:40-51 | a second pass changes nothing |
| FrontendUtilities.RangeToString | frontend/scripts/utilities.js:54-80 | the concatenation loop returns the range text |
| FrontendUtilities.RangeTextRules | frontend/scripts/utilities.js:54-80 | a falsy range gives "", a single term itself (pretty-printed when asked), an array of "_"-free terms splits back into its parts |
| FrontendUtilities.EscapedHasNoMarkup | frontend/scripts/utilities.js:96-111 | the escaped text holds none of `<` `>` `"` `'` `/` `` ` `` `=` |
| FrontendUtilities.EscapeUnchanged | frontend/scripts/utilities.js:96-111 | text without special characters is unchanged |
| FrontendUtilities.EscapeRoundTrip | frontend/scripts/utilities.js:96-111 | reading the entities back gives the original text |
| FrontendUtilities.EscapeInjective | frontend/scripts/utilities.js:96-111 | two texts escape alike only if equal |
| FrontendHelper.TransformSemanticExtraction | frontend/scripts/helper.js:19-71 | the nested push loops return the transformed entries |
| FrontendHelper.TransformedParts | frontend/scripts/helper.js:19-71 | JSON-LD entries, then failed scripts, then microdata, then RDFa, each in input order with its markup |
| FrontendHelper.FailedEntriesKept | frontend/scripts/helper.js:34-44 | a failed script has an entry exactly when it mentions "schema.org"; such entries have a null type and an error |
| FrontendHelper.GroupEntriesItems | frontend/scripts/helper.js:22-32 | one entry per annotation, in order, carrying it and its `@type` |
| FrontendHelper.AnticipateJSON | frontend/scripts/helper.js:74-85 | the scan over the first 50 positions returns the guess |
| FrontendHelper.AnticipatedRules | frontend/scripts/helper.js:74-85 | a first marker `{` or `[` means JSON, a first `<` means not |
| FrontendHelper.AnticipatedByEnding | frontend/scripts/helper.js:74-85 | with no marker in the window, the guess is whether the stripped text ends in `}` or `]` |
| FrontendHelper.Int32 | frontend/scripts/helper.js:93 | the signed 32-bit value congruent to the input modulo 2^32 |
| FrontendHelper.GenerateHash | frontend/scripts/helper.js:88-96 | the loop returns the hash of the code units |
| FrontendHelper.HashIsPolynomial | frontend/scripts/helper.js:88-96 | the hash is the signed 32-bit reading of the base-31 polynomial of the code units; "" hashes to 0; every hash is a signed 32-bit integer |
| FrontendHelper.HashStepIsTimes31 | frontend/scripts/helper.js:92-93 | one step is `toInt32(31 * h + c)` |
| FrontendHelper.PrettyPrintAnnotationPath | frontend/scripts/helper.js:99-133 | the do/while loop returns the readable path, none where a pass throws |
| FrontendHelper.PropertyPathText | frontend/scripts/helper.js:99-133 | property steps give text exactly when no copy the walk stands on before a step is undefined or null, and the text is "." and each property without "schema:" |
| FrontendHelper.TypeLabel | frontend/scripts/helper.js:108 | the label throws exactly on a truthy type that is neither a string nor an array |
| FrontendHelper.RootPassAt | frontend/scripts/helper.js:107-109 | a pass at "$" appends the root type label and consumes the "$", or throws when the label is not text |
| FrontendHelper.RangePassAt | frontend/scripts/helper.js:110-120 | a pass at "/" and an index consumes exactly the index, descends only into an array held under it, appends " > " and the copy's type (an object with one) or the index, or throws when that is not text |
| FrontendHelper.PropertyPassAt | frontend/scripts/helper.js:121-127 | a pass at "." and a property consumes exactly the property, descends into it when the copy holds it as an own entry, and appends "." and the property without "schema:" |
| FrontendHelper.SegmentsPathText | frontend/scripts/helper.js:99-133 | a path of "." and "/" steps is read one step at a time, giving the text the steps describe or none where a step is reached on an undefined or null copy or a range label is not text |
| FrontendHelper.SegmentPass | frontend/scripts/helper.js:107-129 | one pass over a path of plain steps consumes exactly the first step, leaving the copy and output that step describes, or throws where it is reached on an undefined or null copy or its range label is not text |
| FrontendHelper.AnnotationPathText | frontend/scripts/helper.js:99-133 | "$" and steps give the escaped root type label followed by the steps' text; none for an undefined or null annotation or a root type that is not text |
| FrontendHelper.PrettyAnnotationPathEscaped | frontend/scripts/helper.js:99-133 | the readable path is HTML-escaped |
| FrontendHelper.TypePrinter | frontend/scripts/helper.js:136-152 | the loop returns the printed type |
| FrontendHelper.TypeTextRules | frontend/scripts/helper.js:136-152 | a falsy type prints "Annotation", a name itself, one type in an array itself, two types with " + " between |
| Visualization.Select | frontend/scripts/visualization.js:225-240 | one filter keeps a subsequence of the errors: its entries in their order in the report, no more of them than the report holds |
| Visualization.SelectMember | frontend/scripts/visualization.js:225-240 | an entry passes a filter exactly when it is an input entry the rule matches |
| Visualization.RelatedMember | frontend/scripts/visualization.js:225-240 | an entry is related to a row exactly when it is an input entry matching one of the six rules |
| Visualization.AttachmentRules | frontend/scripts/visualization.js:233-238 | key codes attach exactly where path + "." + value is the key path; unlisted codes exactly where the path is the row's; root codes only at the "$" row with path "$" or none |
| Visualization.RelatedFromReport | frontend/scripts/visualization.js:225-240 | every related entry comes from the input |
| Visualization.WorstRank | frontend/scripts/visualization.js:111-124 | the worst severity rank is at most Critical |
| Visualization.MarkingIsWorst | frontend/scripts/visualization.js:111-124 | the row's marking is its worst related severity; no marking without related errors |
| Visualization.CreateJsTreeNode | frontend/scripts/visualization.js:61-151 | the recursive method with its child loops builds the node tree |
| Visualization.PushElementRows | frontend/scripts/visualization.js:70-72 | the loop over an array pushes the rows of all elements, in index order, at `path/index` |
| Visualization.PushMemberRows | frontend/scripts/visualization.js:80-94 | the loop over an object pushes a row per entry other than `@context`, in key order, at the property's key path |
| Visualization.CreateJsTree | frontend/scripts/visualization.js:37-58 | the loop over the root keys builds the tree of the copied content |
| Visualization.NodePaths | frontend/scripts/visualization.js:67-101 | object and literal nodes get "/0" unless the path ends in "/digits"; array children get "/i"; property children get ".schema:" + key unless the key has ":" or starts with "@" |
| Visualization.NodeWellFormed | frontend/scripts/visualization.js:61-151 | every node of the tree, at every depth, shows only entries of the report and is marked by the worst of them |
| Visualization.JsTreeShape | frontend/scripts/visualization.js:37-58 | no tree for undefined or null content; otherwise the root row is at "$" and its children at the root property paths |
| Visualization.ExtractElementNameFromPathAsWritten | frontend/scripts/visualization.js:214-222 | the name as the code computes it, even when the path has no "/" |
| Visualization.ElementNameBeforeSlash | frontend/scripts/visualization.js:214-222 | with a "/" after the name, the name runs from after the last ":" (or "@") to the last "/", in both versions |
| Visualization.ElementNameToEnd | frontend/scripts/visualization.js:214-222 | with no "/" after the start of the name, the corrected name runs from there to the end of the path |
| Visualization.ElementNameWithoutSlash | frontend/scripts/visualization.js:214-222 | without a "/", the corrected name runs to the end, while the code as written returns the text before it |
| Visualization.ArrayRowName | frontend/scripts/visualization.js:214-222 | "$.schema:author" gives "$.schema:" as written and "author" corrected |
| Visualization.NestedRowName | frontend/scripts/visualization.js:214-222 | "$.schema:author/0.schema:knows" gives "/0.schema:" as written and "knows" corrected |
| ErrorExplain.ExplainDispatch | frontend/scripts/errorExplain.js:18-65 | codes without a case and a 300 with an unknown name get the no-explanation text; 201/202/301 and the non-ideal 300 share a builder, as do 101/102/103 |
| ErrorExplain.GatheredFacts | frontend/scripts/errorExplain.js:265-280 | the widening loop ends with at least 2 suggestions, no iri twice, each with its distance, and the closest terms included |
| ErrorExplain.PassFacts | frontend/scripts/errorExplain.js:266-278 | one pass extends the list and lists every term closer than the threshold |
| ErrorExplain.PassSound | frontend/scripts/errorExplain.js:266-278 | one pass keeps the list sound: no iri twice, each suggestion a listed term with its distance, every distance below the threshold; with PassFacts, the pass adds exactly the new terms closer than the threshold |
| ErrorExplain.BestMatchIsFirstClosest | frontend/scripts/errorExplain.js:263-271 | the match is the first term, in list order, at minimal distance; none when every distance is at least 1000 |
| ErrorExplain.SortByIriSorted | frontend/scripts/errorExplain.js:282-286 | the first sort orders the suggestions by iri and is a permutation |
| ErrorExplain.SortByDistanceRanks | frontend/scripts/errorExplain.js:287-291 | the stable second sort orders by distance, ties by iri, and is a permutation |
| ErrorExplain.RankedFacts | frontend/scripts/errorExplain.js:282-294 | after sorting and truncation there are 2 to 6 suggestions in non-decreasing distance, and every omitted term is at least as far as the last kept |
| ErrorExplain.SuggestSimilar | frontend/scripts/errorExplain.js:262-294 | the do/while loop and the sorts give the first closest match and the ranked suggestions |
| ErrorExplain.LastUsedPropertyCases | frontend/scripts/errorExplain.js:501-511 | from the last "schema:" up to the last "/" when that comes after it, else to the end |

## Left out

- The JSON-LD compaction (`jsonld.compact`) is a parameter `compact` returning a compacted object or a failure. Its algorithm is that of section 6 of JSON-LD 1.1 Processing Algorithms and API and is not modelled.
- `JSON.parse` of a string input is a parameter `parse`; `JSON.stringify` round trips are modelled (`JsValues.HardCopy`).
- The date, time and date-time tests (moment), `isUrl`, the `Number()` coercion tests and the action-value regular expression are parameters (`SdoVocabulary.Oracles`).
- The schema.org vocabulary is an immutable parameter; loading it (`initSdoAdapter`, network) is not modelled. Its class hierarchy is assumed acyclic: every class has a level that decreases towards its subclasses.
- SdoVocabulary.RecCheckCharacterization: assumes the subclass list of every class is transitive, as `getSubClasses(true)` promises; without that the recursion's result is only the function `InRangeFrom`.
- The exception messages of the catch block are a tagged failure (`CompactionFailure`); third-party message texts other than the three `@context` messages and the `@type` message are not distinguished.
- `resolvePath_graphDS` and the other domain-specification helpers of `VerificationUtilities.js` are not part of this model; they serve the domain-specification verification, not this engine.
- All DOM, jQuery, CodeMirror, network and clipboard code, `sdoCheck.js`, `renderJsTree`, `showRelatedErrors`, `createHtmlForErrorEntry`, `getParameter` and `syntaxHighlight` are not modelled.
- The HTML produced by the explanation builders of `errorExplain.js` (`createRangeExample`, `discoverBest*`, `createHTMLFor*`) is left out; `ErrorExplain.ExplainDispatch` models which builder an entry gets.
- In the tree rows, the HTML text, styling, depth and the escaped value text are left out; a row keeps its paths, related errors, marking and children.
- The extraction layer (`Extractor.js`, the JSON-LD parsers) is not modelled; `transformSemanticExtraction` takes its output as a value.
- The in-place updates of `recursive_compactPre/PostReplacement` and of `globalStandardContext` are modelled on values; the threaded result stands for the mutated object, so aliasing is not captured.
- `mergeArrays` pushes into its first argument; the model returns the new array instead.
- Integers are unbounded; the only 32-bit arithmetic of the source, in `generateHash`, is written out as `FrontendHelper.Int32`.
- Strings are sequences of characters, not UTF-16 code units; `toLowerCase` is modelled on ASCII letters only, and `anticipateJSON` counts characters.
- JsValues.NumberToString: a number with a fractional part is written as its integral part; JavaScript's shortest round-trip decimal form is not modelled. Such numbers only reach the text of descriptions.
- VerificationUtilities.SameTerm: two objects in a type list are equal when their contents are equal; JavaScript compares them by reference.
- Objects are assumed to have distinct keys, as JavaScript objects do.
- ErrorExplain.SuggestSimilar: requires at least two distinct terms, because with fewer the loop of `createExplainHTML_302/303` never ends.
- The in-place sorts of `errorExplain.js` are modelled as stable insertion sorts; the comparators of the source are inconsistent on ties, and the model orders ties by iri, which is unique.
- The term list of the suggestions (classes and enumerations for 302, properties for 303) is a parameter; reading it from the vocabulary is not modelled.
- The `errorEntry.value` truthiness test in front of the suggestion loop is left out; the value is taken as a string.
- Reads of inherited members are not modelled: `JsValues.Index` reads an object's own entries and an array's elements only. An array's or string's `length` and the names every object inherits from `Object.prototype` (`constructor`, `toString`, `__proto__`, ...) read as undefined, where JavaScript finds a number, a function or the prototype object. The members below are stated through these reads and inherit the gap.
- VerificationUtilities.GraphProperty: a property that names an inherited member (`length` of an array, `constructor`) counts as absent, so the step throws where `resultRef[p] !== undefined` at VerificationUtilities.js:237 holds and the walk moves on.
- VerificationUtilities.GraphRange: an `@id` naming an inherited member (`{"@id": "constructor"}`) reads `graphAnn[...]` as undefined, where the source finds a function.
- VerificationUtilities.Advance: its "$" and "." steps read through `Index`, so an inherited root id or property does not resolve.
- VerificationUtilities.ResolvePathGraphAnnotation: a path through an inherited member resolves to null; for example "$.length" on `{"r": ["a", "b"]}` with root id "r" gives 2 in the source.
- VerificationUtilities.ResolveRoot: a root id naming an inherited member resolves to undefined, where the source gives that member.
- VerificationUtilities.ResolveMissingProperty: "missing" includes inherited names such as "constructor", for which the source does not resolve to null.
- FrontendHelper.PrettyPrintAnnotationPath: a step naming an inherited member leaves the copy where it was; for example "$.__proto__/0" on `{"@type": "T"}` gives "T.__proto__ &gt; T", where the source descends into `Object.prototype` and gives "T.__proto__ &gt; 0", and a second `__proto__` step reaches null and throws in the source.
- FrontendHelper.PropertyPathText: `Standing` and the text follow own entries only; the source also follows inherited members and can throw on them.
- FrontendHelper.PropertyPassAt: "descends when present" means present as an own entry; `annotationCopy[p] !== undefined` at helper.js:122 also finds inherited members.
- FrontendHelper.SegmentsPathText: stated through `StepMove` and `Descend`, which read inherited members as absent.
- FrontendHelper.SegmentPass: stated through `StepMove` and `Descend`, which read inherited members as absent.
- FrontendHelper.AnnotationPathText: stated through `SegmentsText`, which reads inherited members as absent.
- `uniquifyArray` stores items as keys of a plain object; the `__proto__` key, which such an object treats specially, is not modelled.

## Findings

| source | as written | input that shows it | evidently intended | confidence | as-written member | corrected member |
|---|---|---|---|---|---|---|
| frontend/scripts/visualization.js:214-222 | the end of the name is the last "/" position or, when that is falsy, the path length; with no "/" the position is -1, which is truthy, so it stays -1; with a "/" before the name only, the end comes before the start and `substring` swaps them | "$.schema:author" gives "$.schema:"; "$.schema:author/0.schema:knows" gives "/0.schema:" | the name runs to the end of the path when no "/" follows its start, giving "author" and "knows" | not executed; high | Visualization.ExtractElementNameFromPathAsWritten (shown by Visualization.ArrayRowName, Visualization.NestedRowName) | Visualization.ExtractElementNameFromPath (Visualization.ElementNameToEnd, Visualization.ElementNameWithoutSlash, Visualization.ElementNameBeforeSlash) |

=== FILE: conformance.dfy ===
/**
 * The vocabulary checks of one key of an entity (`annotationTypeCheck`,
 * `annotationPropertyCheck`, `annotationDomainCheck`,
 * `annotationRangeCheck` and `typePrinter`). Each check returns the entries
 * it pushes and whether it threw a `TypeError` part-way (a non-string
 * `@type`, `@type.includes` on an untyped action value, `null["@type"]`).
 */
module Conformance {
  import opened JsStrings
  import opened JsValues
  import opened ErrorEntries
  import opened ErrorBuilders
  import opened VerificationUtilities
  import opened SdoVocabulary

  // ---------------------------------------------------------------------
  // The texts of the entries

  const Name302Blank: string := "Non-conform @type (blank space)"
  const Name302Case: string := "Non-conform @type (uppercase/lowercase)"
  const Name302Misspell: string := "Non-conform @type (misspell)"
  const Name302Plain: string := "Non-conform @type"
  const Name303Blank: string := "Non-conform property (blank space)"
  const Name303Case: string := "Non-conform property (uppercase/lowercase)"
  const Name303Misspell: string := "Non-conform property (misspell)"
  const Name303Plain: string := "Non-conform property"

  const TypeBlankOpen: string := "The annotation has a @type entry with at least 1 blank space ('"
  const TypeCaseOpen: string := "The annotation has a @type entry with an uppercase/lowercase error ('"
  const TypeMisspellOpen: string := "The annotation has a wrong spelled @type entry ('"
  const TypePlainOpen: string := "The annotation has a @type entry ('"
  const PropertyBlankOpen: string := "The annotation has a property entry with at least 1 blank space ('"
  const PropertyCaseOpen: string := "The annotation has a property entry with an uppercase/lowercase error ('"
  const PropertyMisspellOpen: string := "The annotation has a wrong spelled property entry ('"
  const PropertyPlainOpen: string := "The annotation has a property entry ('"
  const NotConformClose: string := "') that is not conform to schema.org."
  const ShouldBe: string := "' that should be '"
  const CaseClose: string := "')."
  const TypeCouldBe: string := "', could be one of the following: '"
  const PropertyCouldBe: string := "' that could be one of the following: '"
  const ActionOpen: string := "The annotation has an action property ('"
  const ActionClose: string := "') with a value that is not a well-formatted string or a PropertyValueSpecification."
  const DomainOpen: string := "The annotation has an entity ('"
  const DomainMiddle: string := "') with a property that it is not allowed to use ('"
  const DomainClose: string := "') based on the schema.org vocabulary."
  const RangeOpen: string := "The annotation has a property ('"
  const TrailingClose: string := "') with a value that has trailing spaces. If those spaces do not exist on purpose, they should be deleted."
  const ValueTypeMiddle: string := "') with a value type ('"
  const UnknownRangeClose: string := "') with a referenced value (@id is used) for which the range type is unknown. The conformance of the range can not be verified."
  const NoTypeEntity: string := "The annotation has an entity with no @type."
  const StringRangeClose: string := "') with a string as value, although a string is not explicitly allowed as range for this property according to the schema.org vocabulary."
  const ValueTypeClose: string := "') with a value type that is not conform to schema.org."
  const EmptyStringClose: string := "') with an empty string as value."
  const TypeSeparator: string := " + "

  const SchemaText: string := "schema:Text"
  const SchemaThing: string := "schema:Thing"
  const SchemaNumber: string := "schema:Number"
  const SchemaInteger: string := "schema:Integer"
  const SchemaFloat: string := "schema:Float"
  const SchemaBoolean: string := "schema:Boolean"
  const SchemaURL: string := "schema:URL"
  const SchemaTime: string := "schema:Time"
  const SchemaDateTime: string := "schema:DateTime"
  const SchemaDate: string := "schema:Date"

  /** Nothing pushed, nothing thrown. */
  const Quiet: Outcome := Outcome([], false)

  // ---------------------------------------------------------------------
  // @type

  /**
   * The 302 for a string type that is neither a class nor an enumeration:
   * the first explanation that applies among blank spaces, letter case and
   * misspelling, else the plain one.
   */
  function TypeError302(voc: Vocabulary, t: string, path: string): (e: ErrorEntry)
    ensures e.errorCode == 302 && e.severity == Error && e.annotationPath == Some(path)
    ensures e.value == if t == "" then None else Some(Str(t))
  {
    var text := PrettyTermsText(Str(t));
    if ClassHasBlankSpaces(voc, t) then
      Error302(Name302Blank, TypeBlankOpen + text + NotConformClose, path, Str(t))
    else match ClassBadCase(voc, t)
      case Some(good) =>
        Error302(Name302Case, TypeCaseOpen + text + ShouldBe + PrettyTermsText(Str(good)) + CaseClose, path, Str(t))
      case None =>
        match WrongSpelledClass(voc, t)
        case Some(guess) =>
          Error302(Name302Misspell, TypeMisspellOpen + text + TypeCouldBe + guess + NotConformClose, path, Str(t))
        case None =>
          Error302(Name302Plain, TypePlainOpen + text + NotConformClose, path, Str(t))
  }

  /**
   * The explanation of a 302 follows a strict precedence: blank spaces
   * first, then letter case, then misspelling, else the plain one.
   */
  lemma TypeLadder(voc: Vocabulary, t: string, path: string)
    ensures TypeError302(voc, t, path).name == Some(Name302Blank) <==> ClassHasBlankSpaces(voc, t)
    ensures TypeError302(voc, t, path).name == Some(Name302Case) <==>
      !ClassHasBlankSpaces(voc, t) && ClassBadCase(voc, t).Some?
    ensures TypeError302(voc, t, path).name == Some(Name302Misspell) <==>
      !ClassHasBlankSpaces(voc, t) && ClassBadCase(voc, t).None? && WrongSpelledClass(voc, t).Some?
    ensures TypeError302(voc, t, path).name == Some(Name302Plain) <==>
      !ClassHasBlankSpaces(voc, t) && ClassBadCase(voc, t).None? && WrongSpelledClass(voc, t).None?
  {
  }

  /**
   * One listed type at `path`: nothing for a class or an enumeration, one
   * 302 for any other string, a `TypeError` for a non-string (the
   * blank-space test calls `replace` on it).
   */
  function TypeElement(voc: Vocabulary, t: Json, path: string): (o: Outcome)
    ensures IsValidClass(voc, t) ==> o == Quiet
    ensures !IsValidClass(voc, t) && t.Str? ==> !o.threw && o.errors == [TypeError302(voc, t.s, path)]
    ensures o.threw <==> !t.Str?
  {
    if IsValidClass(voc, t) then Quiet
    else if !t.Str? then Outcome([], true)
    else Outcome([TypeError302(voc, t.s, path)], false)
  }

  /** The steps of `annotationTypeCheck`, one per listed type. */
  function TypeSteps(voc: Vocabulary, typeValue: Json, path: string): seq<Outcome>
  {
    var types := TypesOf(typeValue);
    seq(|types|, j requires 0 <= j < |types| => TypeElement(voc, types[j], ChildPath(path, "@type", j)))
  }

  /** `annotationTypeCheck` for the entity at `path` whose `@type` is `typeValue`. */
  function TypeCheck(voc: Vocabulary, typeValue: Json, path: string): Outcome
  {
    Sequence(TypeSteps(voc, typeValue, path))
  }

  /** The loop of `annotationTypeCheck`. */
  method CheckTypes(voc: Vocabulary, typeValue: Json, path: string) returns (o: Outcome)
    ensures o == TypeCheck(voc, typeValue, path)
  {
    var types := TypesOf(typeValue);
    ghost var steps := TypeSteps(voc, typeValue, path);
    o := Quiet;
    var j := 0;
    while j < |types|
      invariant 0 <= j <= |types| == |steps|
      invariant o == Sequence(steps[..j]) && !o.threw
    {
      var step := TypeElement(voc, types[j], ChildPath(path, "@type", j));
      assert step == steps[j];
      SequenceSnoc(steps, j);
      o := Outcome(o.errors + step.errors, step.threw);
      if step.threw {
        SequenceThrown(steps, j + 1);
        return;
      }
      j := j + 1;
    }
    assert steps[..|steps|] == steps;
  }

  /** The 302s a list of string types calls for, type by type. */
  function TypeFindings(voc: Vocabulary, types: seq<Json>, path: string): (parts: seq<seq<ErrorEntry>>)
    ensures |parts| == |types|
  {
    seq(|types|, j requires 0 <= j < |types| =>
      if IsValidClass(voc, types[j]) || !types[j].Str? then [] else [TypeError302(voc, types[j].s, ChildPath(path, "@type", j))])
  }

  /**
   * The type check of an entity whose types are all strings never throws
   * and reports, type by type, exactly the invalid ones: the `j`-th type
   * contributes a single 302 at `path.@type/j` when it is neither a class
   * nor an enumeration, and nothing otherwise.
   */
  lemma StringTypesChecked(voc: Vocabulary, typeValue: Json, path: string)
    requires forall j :: 0 <= j < |TypesOf(typeValue)| ==> TypesOf(typeValue)[j].Str?
    ensures !TypeCheck(voc, typeValue, path).threw
    ensures TypeCheck(voc, typeValue, path).errors == Concat(TypeFindings(voc, TypesOf(typeValue), path))
  {
    var steps := TypeSteps(voc, typeValue, path);
    SequenceOutcome(steps);
    var types := TypesOf(typeValue);
    var expected := TypeFindings(voc, types, path);
    forall k | 0 <= k < |types| ensures ErrorsOf(steps)[k] == expected[k] && !steps[k].threw {
      assert steps[k] == TypeElement(voc, types[k], ChildPath(path, "@type", k));
    }
    assert ErrorsOf(steps) == expected;
  }

  /** A type check throws exactly when some listed type is not a string. */
  lemma TypeCheckThrows(voc: Vocabulary, typeValue: Json, path: string)
    ensures TypeCheck(voc, typeValue, path).threw <==> exists j :: 0 <= j < |TypesOf(typeValue)| && !TypesOf(typeValue)[j].Str?
  {
    var steps := TypeSteps(voc, typeValue, path);
    SequenceOutcome(steps);
    if exists j :: 0 <= j < |TypesOf(typeValue)| && !TypesOf(typeValue)[j].Str? {
      var j :| 0 <= j < |TypesOf(typeValue)| && !TypesOf(typeValue)[j].Str?;
      assert steps[j] == TypeElement(voc, TypesOf(typeValue)[j], ChildPath(path, "@type", j));
    }
  }

  // ---------------------------------------------------------------------
  // Unknown properties

  /** The 303 ladder for a key that is not a vocabulary property (the case fix is printed as found). */
  function PropertyError303(voc: Vocabulary, prop: string, path: string): (e: ErrorEntry)
    ensures e.errorCode == 303 && e.severity == Error && e.annotationPath == Some(path)
    ensures e.value == if prop == "" then None else Some(Str(prop))
  {
    var text := PrettyTermsText(Str(prop));
    if PropertyHasBlankSpaces(voc, prop) then
      Error303(Name303Blank, PropertyBlankOpen + text + NotConformClose, path, Str(prop))
    else match PropertyBadCase(voc, prop)
      case Some(good) =>
        Error303(Name303Case, PropertyCaseOpen + text + ShouldBe + good + CaseClose, path, Str(prop))
      case None =>
        match WrongSpelledProperty(voc, prop)
        case Some(guess) =>
          Error303(Name303Misspell, PropertyMisspellOpen + text + PropertyCouldBe + guess + CaseClose, path, Str(prop))
        case None =>
          Error303(Name303Plain, PropertyPlainOpen + text + NotConformClose, path, Str(prop))
  }

  /** The 303 explanations follow the same precedence as the 302 ones. */
  lemma PropertyLadder(voc: Vocabulary, prop: string, path: string)
    ensures PropertyError303(voc, prop, path).name == Some(Name303Blank) <==> PropertyHasBlankSpaces(voc, prop)
    ensures PropertyError303(voc, prop, path).name == Some(Name303Case) <==>
      !PropertyHasBlankSpaces(voc, prop) && PropertyBadCase(voc, prop).Some?
    ensures PropertyError303(voc, prop, path).name == Some(Name303Misspell) <==>
      !PropertyHasBlankSpaces(voc, prop) && PropertyBadCase(voc, prop).None? && WrongSpelledProperty(voc, prop).Some?
    ensures PropertyError303(voc, prop, path).name == Some(Name303Plain) <==>
      !PropertyHasBlankSpaces(voc, prop) && PropertyBadCase(voc, prop).None? && WrongSpelledProperty(voc, prop).None?
  {
  }

  /**
   * `annotationPropertyCheck` for the key `prop` holding `value`: an action
   * property (`<property>-input` / `-output`) gets a 304 when its value is
   * not accepted and nothing when it is; any other key gets one 303. The
   * entry names the entity's path and carries the key as value.
   */
  function PropertyCheck(voc: Vocabulary, oracles: Oracles, prop: string, value: Json, path: string): (o: Outcome)
    ensures IsActionProperty(voc, prop) ==>
      (o.threw <==> ValidActionPropertyRange(oracles, value).None?) &&
      (o.errors != [] <==> ValidActionPropertyRange(oracles, value) == Some(false))
    ensures IsActionProperty(voc, prop) && o.errors != [] ==>
      |o.errors| == 1 && o.errors[0].errorCode == 304 && o.errors[0].annotationPath == Some(path) &&
      o.errors[0].value == (if prop == "" then None else Some(Str(prop)))
    ensures !IsActionProperty(voc, prop) ==> o == Outcome([PropertyError303(voc, prop, path)], false)
  {
    if IsActionProperty(voc, prop) then
      match ValidActionPropertyRange(oracles, value)
      case None => Outcome([], true)
      case Some(ok) =>
        if ok then Quiet
        else Outcome([Error304(ActionOpen + PrettyTermsText(Str(prop)) + ActionClose, path, Str(prop))], false)
    else Outcome([PropertyError303(voc, prop, path)], false)
  }

  // ---------------------------------------------------------------------
  // Domain

  /** The class `t` lists `prop` among its (inherited) properties. */
  predicate ClassAllows(voc: Vocabulary, t: Json, prop: string)
  {
    t.Str? && t.s in voc.classInfo && prop in voc.classInfo[t.s].properties
  }

  predicate AllTypesValid(voc: Vocabulary, types: seq<Json>)
  {
    forall k :: 0 <= k < |types| ==> IsValidClass(voc, types[k])
  }

  predicate SomeTypeAllows(voc: Vocabulary, types: seq<Json>, prop: string)
  {
    exists k :: 0 <= k < |types| && ClassAllows(voc, types[k], prop)
  }

  /**
   * `annotationDomainCheck`: a known property used by an entity with a
   * `@type` whose types are all classes, none of which has the property.
   */
  function DomainErrors(voc: Vocabulary, typeValue: Json, prop: string, path: string): (r: seq<ErrorEntry>)
    ensures |r| <= 1
    ensures forall k :: 0 <= k < |r| ==> r[k].errorCode == 305 && r[k].annotationPath == Some(path)
  {
    var types := TypesOf(typeValue);
    if !typeValue.Undefined? && AllTypesValid(voc, types) && !SomeTypeAllows(voc, types, prop) then
      [Error305(DomainOpen + PrettyTermsText(typeValue) + DomainMiddle + PrettyTermsText(Str(prop)) + DomainClose,
                path, Str(prop))]
    else []
  }

  /** The two flag loops of `annotationDomainCheck` (`areAllTypesValid`, then `isLegitProperty`). */
  method CheckDomain(voc: Vocabulary, typeValue: Json, prop: string, path: string) returns (r: seq<ErrorEntry>)
    ensures r == DomainErrors(voc, typeValue, prop, path)
    ensures |r| <= 1
    ensures r != [] ==> r[0].errorCode == 305 && r[0].annotationPath == Some(path) && r[0].severity == Error
  {
    r := [];
    if typeValue.Undefined? {
      return;
    }
    var types := TypesOf(typeValue);
    var allValid := true;
    var i := 0;
    while i < |types|
      invariant 0 <= i <= |types|
      invariant allValid <==> forall k :: 0 <= k < i ==> IsValidClass(voc, types[k])
      invariant !allValid ==> !AllTypesValid(voc, types)
    {
      if !IsValidClass(voc, types[i]) {
        allValid := false;
        break;
      }
      i := i + 1;
    }
    if !allValid {
      return;
    }
    var legit := false;
    var j := 0;
    while j < |types|
      invariant 0 <= j <= |types|
      invariant legit ==> SomeTypeAllows(voc, types, prop)
      invariant !legit ==> forall k :: 0 <= k < j ==> !ClassAllows(voc, types[k], prop)
    {
      // `getClass` throws for a name it does not know; the catch skips it
      if types[j].Str? && types[j].s in voc.classInfo && prop in voc.classInfo[types[j].s].properties {
        legit := true;
        break;
      }
      j := j + 1;
    }
    if !legit {
      r := [Error305(DomainOpen + PrettyTermsText(typeValue) + DomainMiddle + PrettyTermsText(Str(prop)) + DomainClose,
                     path, Str(prop))];
    }
  }

  /** A class that has the property (inherited ones included) never draws a 305 for it. */
  lemma DomainAllowsListedClass(voc: Vocabulary, typeValue: Json, prop: string, path: string, k: nat)
    requires k < |TypesOf(typeValue)| && ClassAllows(voc, TypesOf(typeValue)[k], prop)
    ensures DomainErrors(voc, typeValue, prop, path) == []
  {
  }

  /** An entity with an empty `@type` array draws a 305 for every property it uses. */
  lemma EmptyTypeListRejectsAll(voc: Vocabulary, prop: string, path: string)
    ensures |DomainErrors(voc, Arr([]), prop, path)| == 1
  {
  }

  // ---------------------------------------------------------------------
  // Ranges

  /** `typePrinter`: the types of an array joined with " + ", any other value as it is. */
  function TypePrinter(typeValue: Json): (r: Json)
    ensures !typeValue.Arr? ==> r == typeValue
    ensures typeValue.Arr? ==> r.Str?
  {
    if typeValue.Arr? then
      Str(Join(seq(|typeValue.elems|, i requires 0 <= i < |typeValue.elems| => ToJsString(typeValue.elems[i])), TypeSeparator))
    else typeValue
  }

  /** The loop of `typePrinter`: each type, then " + " after all but the last. */
  method PrintTypes(typeValue: Json) returns (r: Json)
    ensures r == TypePrinter(typeValue)
  {
    if !typeValue.Arr? {
      return typeValue;
    }
    var elems := typeValue.elems;
    ghost var parts := seq(|elems|, i requires 0 <= i < |elems| => ToJsString(elems[i]));
    var res := "";
    var i := 0;
    while i < |elems|
      invariant 0 <= i <= |elems|
      invariant res == JoinedSoFar(parts, TypeSeparator, i)
    {
      JoinedStep(parts, TypeSeparator, i);
      res := res + ToJsString(elems[i]);
      if i != |elems| - 1 {
        res := res + TypeSeparator;
      }
      i := i + 1;
    }
    assert parts[..|elems|] == parts;
    r := Str(res);
  }

  /** A single type prints as itself, in an array or not. */
  lemma PrintSingleType(t: string)
    ensures TypePrinter(Arr([Str(t)])) == TypePrinter(Str(t)) == Str(t)
  {
  }

  /** A number is accepted by a Number, Integer, Float or Thing range. */
  predicate NumberAccepted(ranges: seq<string>)
  {
    SchemaNumber in ranges || SchemaInteger in ranges || SchemaFloat in ranges || SchemaThing in ranges
  }

  /** A boolean is accepted by a Boolean or Thing range. */
  predicate BooleanAccepted(ranges: seq<string>)
  {
    SchemaBoolean in ranges || SchemaThing in ranges
  }

  /** Some range names an enumeration of the vocabulary. */
  predicate EnumerationRange(voc: Vocabulary, ranges: seq<string>)
  {
    exists k :: 0 <= k < |ranges| && ReversePrettyPrintURI(ranges[k]) in voc.enumerations
  }

  /**
   * A (trimmed) string is accepted when a range admits it: Text and Thing
   * admit any string, Number and Float a numeric one, Integer an integral
   * one, Boolean "true" and "false", URL, Time, DateTime and Date a string
   * their parser accepts; an enumeration range admits any string.
   */
  predicate StringAccepted(voc: Vocabulary, oracles: Oracles, ranges: seq<string>, s: string)
  {
    SchemaText in ranges || SchemaThing in ranges
    || ((SchemaNumber in ranges || SchemaFloat in ranges) && oracles.isNumeric(s))
    || (SchemaInteger in ranges && oracles.isIntegral(s))
    || (SchemaBoolean in ranges && (s == "true" || s == "false"))
    || (SchemaURL in ranges && oracles.isUrl(s))
    || (SchemaTime in ranges && oracles.isTime(s))
    || (SchemaDateTime in ranges && oracles.isDateTime(s))
    || (SchemaDate in ranges && oracles.isDate(s))
    || EnumerationRange(voc, ranges)
  }

  /**
   * The `isValueTypeLegit` flag chain of the string case, as written: the
   * Number/Float test reads `(!legit && Number) || Float`, which can only
   * set the flag again, so the result is the accepted-string test.
   */
  method CheckStringRange(voc: Vocabulary, oracles: Oracles, ranges: seq<string>, sanitized: string) returns (legit: bool)
    ensures legit == StringAccepted(voc, oracles, ranges, sanitized)
  {
    legit := false;
    if SchemaText in ranges || SchemaThing in ranges {
      legit := true;
    }
    if (!legit && SchemaNumber in ranges) || SchemaFloat in ranges {
      if oracles.isNumeric(sanitized) {
        legit := true;
      }
    }
    if !legit && SchemaInteger in ranges {
      if oracles.isIntegral(sanitized) {
        legit := true;
      }
    }
    if !legit && SchemaBoolean in ranges {
      if sanitized == "true" || sanitized == "false" {
        legit := true;
      }
    }
    if !legit && SchemaURL in ranges {
      if oracles.isUrl(sanitized) {
        legit := true;
      }
    }
    if !legit && SchemaTime in ranges {
      if oracles.isTime(sanitized) {
        legit := true;
      }
    }
    if !legit && SchemaDateTime in ranges {
      if oracles.isDateTime(sanitized) {
        legit := true;
      }
    }
    if !legit && SchemaDate in ranges {
      if oracles.isDate(sanitized) {
        legit := true;
      }
    }
    if !legit {
      var r := 0;
      while r < |ranges|
        invariant 0 <= r <= |ranges|
        invariant legit <==> exists k :: 0 <= k < r && ReversePrettyPrintURI(ranges[k]) in voc.enumerations
      {
        if ReversePrettyPrintURI(ranges[r]) in voc.enumerations {
          legit := true;
        }
        r := r + 1;
      }
    }
  }

  /** `str.replace(/^[\s\t\n\r]* /, "").replace(/[\s\t\n\r]*$/, "")`. */
  function Sanitized(s: string): string
  {
    TrimEnd(TrimStart(s))
  }

  /** Only spaces (or nothing): `str.replace(/ /g, '') === ""`. */
  predicate Blank(s: string)
  {
    RemoveChar(s, ' ') == ""
  }

  /**
   * The findings for an object value (or a nested array, which JavaScript
   * also types as "object"): with a `@type`, a 306 unless the type is in the
   * property's range; else with an `@id`, the "Unknown range" warning; else
   * a 203.
   */
  function EntityFindings(voc: Vocabulary, prop: string, x: Json, epath: string): seq<ErrorEntry>
    requires SdoVocabulary.Valid(voc)
  {
    var text := PrettyTermsText(Str(prop));
    var t := Get(x, "@type");
    var id := Get(x, "@id");
    if !t.Undefined? then
      if RecCheckIfTypeIsInRangeOfProperty(voc, t, RangesOf(voc, prop)) then []
      else [Error306(RangeOpen + text + ValueTypeMiddle + PrettyTermsText(t) + NotConformClose, epath, TypePrinter(t))]
    else if !id.Undefined? then
      [Error300UnknownRange(RangeOpen + text + UnknownRangeClose, epath, if id.Arr? || id.Obj? then Null else id)]
    else [Error203(NoTypeEntity, epath)]
  }

  /** Whether the value's type is legitimate for the ranges, before the verdict entries. */
  function ValueLegit(voc: Vocabulary, oracles: Oracles, ranges: seq<string>, x: Json): bool
  {
    match x
    case Num(_) => NumberAccepted(ranges)
    case Bool(_) => BooleanAccepted(ranges)
    case Str(s) => StringAccepted(voc, oracles, ranges, Sanitized(s))
    case Obj(_) => true
    case Arr(_) => true
    case _ => false
  }

  /**
   * One value of the property `prop` at `epath`, in the order of
   * `annotationRangeCheck`: the trailing-spaces warning, the entity
   * findings, the verdict (307 for a string where the property has a class
   * or enumeration range, else 306) and the empty-string warning.
   * `null["@type"]` throws.
   */
  function RangeElement(voc: Vocabulary, oracles: Oracles, prop: string, x: Json, epath: string): (o: Outcome)
    requires SdoVocabulary.Valid(voc)
    ensures o.threw <==> x.Null?
    ensures o.threw ==> o.errors == []
    ensures forall k :: 0 <= k < |o.errors| ==> o.errors[k].annotationPath == Some(epath)
  {
    if x.Null? then Outcome([], true)
    else
      var entity := if x.Obj? || x.Arr? then EntityFindings(voc, prop, x, epath) else [];
      Outcome(TrailingFinding(prop, x, epath) + entity + VerdictFinding(voc, oracles, prop, x, epath) + EmptyFinding(prop, x, epath), false)
  }

  /** The trailing-spaces warning: a string that trimming changes and that is not only spaces. */
  function TrailingFinding(prop: string, x: Json, epath: string): (r: seq<ErrorEntry>)
    ensures |r| <= 1 && forall k :: 0 <= k < |r| ==> r[k].errorCode == 300 && r[k].annotationPath == Some(epath)
    ensures |r| == 1 <==> x.Str? && Sanitized(x.s) != x.s && !Blank(x.s)
  {
    if x.Str? && Sanitized(x.s) != x.s && !Blank(x.s) then [Error300Trailing(RangeOpen + PrettyTermsText(Str(prop)) + TrailingClose, epath, x)]
    else []
  }

  /** The verdict on a value no range accepts: 307 for a string where the property has a class or enumeration range, else 306. */
  function VerdictFinding(voc: Vocabulary, oracles: Oracles, prop: string, x: Json, epath: string): (r: seq<ErrorEntry>)
    requires SdoVocabulary.Valid(voc)
    ensures |r| <= 1 && forall k :: 0 <= k < |r| ==> r[k].annotationPath == Some(epath)
    ensures |r| == 1 <==> !ValueLegit(voc, oracles, RangesOf(voc, prop), x)
    ensures |r| == 1 ==> r[0].errorCode == (if x.Str? && HasClassRange(voc, prop) then 307 else 306)
  {
    var text := PrettyTermsText(Str(prop));
    var legit := ValueLegit(voc, oracles, RangesOf(voc, prop), x);
    if x.Str? && !legit && HasClassRange(voc, prop) then [Error307(RangeOpen + text + StringRangeClose, epath, x)]
    else if !legit then [Error306(RangeOpen + text + ValueTypeClose, epath, x)]
    else []
  }

  /** The empty-string warning: a string of only spaces. */
  function EmptyFinding(prop: string, x: Json, epath: string): (r: seq<ErrorEntry>)
    ensures |r| <= 1 && forall k :: 0 <= k < |r| ==> r[k].errorCode == 207 && r[k].annotationPath == Some(epath)
    ensures |r| == 1 <==> x.Str? && Blank(x.s)
  {
    if x.Str? && Blank(x.s) then [Error207(RangeOpen + PrettyTermsText(Str(prop)) + EmptyStringClose, epath, x)] else []
  }

  /** One value, as `annotationRangeCheck` handles it inside its loop. */
  method CheckRangeElement(voc: Vocabulary, oracles: Oracles, prop: string, x: Json, epath: string) returns (o: Outcome)
    requires SdoVocabulary.Valid(voc)
    ensures o == RangeElement(voc, oracles, prop, x, epath)
  {
    if x.Null? {
      return Outcome([], true);
    }
    var text := PrettyTermsText(Str(prop));
    var ranges := RangesOf(voc, prop);
    var legit := false;
    var pushed: seq<ErrorEntry> := [];
    match x {
      case Num(_) =>
        legit := NumberAccepted(ranges);
      case Bool(_) =>
        legit := BooleanAccepted(ranges);
      case Str(s) =>
        var sanitized := Sanitized(s);
        if sanitized != s && !Blank(s) {
          pushed := [Error300Trailing(RangeOpen + text + TrailingClose, epath, x)];
        }
        legit := CheckStringRange(voc, oracles, ranges, sanitized);
      case Obj(_) =>
        legit := true;
        pushed := EntityFindings(voc, prop, x, epath);
      case Arr(_) =>
        legit := true;
        pushed := EntityFindings(voc, prop, x, epath);
      case Undefined =>
    }
    ghost var entity := if x.Obj? || x.Arr? then EntityFindings(voc, prop, x, epath) else [];
    assert legit == ValueLegit(voc, oracles, ranges, x);
    assert pushed == TrailingFinding(prop, x, epath) + entity;
    if x.Str? && !legit && HasClassRange(voc, prop) {
      pushed := pushed + [Error307(RangeOpen + text + StringRangeClose, epath, x)];
    } else if !legit {
      pushed := pushed + [Error306(RangeOpen + text + ValueTypeClose, epath, x)];
    }
    assert pushed == TrailingFinding(prop, x, epath) + entity + VerdictFinding(voc, oracles, prop, x, epath);
    if x.Str? && Blank(x.s) {
      pushed := pushed + [Error207(RangeOpen + text + EmptyStringClose, epath, x)];
    }
    o := Outcome(pushed, false);
  }

  /** The steps of `annotationRangeCheck`, one per value of the property. */
  function RangeSteps(voc: Vocabulary, oracles: Oracles, prop: string, value: Json, path: string): seq<Outcome>
    requires SdoVocabulary.Valid(voc)
  {
    var xs := TypesOf(value);
    seq(|xs|, p requires 0 <= p < |xs| => RangeElement(voc, oracles, prop, xs[p], ChildPath(path, prop, p)))
  }

  /** `annotationRangeCheck` for the known property `prop` holding `value` in the entity at `path`. */
  function RangeCheck(voc: Vocabulary, oracles: Oracles, prop: string, value: Json, path: string): Outcome
    requires SdoVocabulary.Valid(voc)
  {
    Sequence(RangeSteps(voc, oracles, prop, value, path))
  }

  /** The loop of `annotationRangeCheck`. */
  method CheckRange(voc: Vocabulary, oracles: Oracles, prop: string, value: Json, path: string) returns (o: Outcome)
    requires SdoVocabulary.Valid(voc)
    ensures o == RangeCheck(voc, oracles, prop, value, path)
  {
    var xs := TypesOf(value);
    ghost var steps := RangeSteps(voc, oracles, prop, value, path);
    o := Quiet;
    var p := 0;
    while p < |xs|
      invariant 0 <= p <= |xs| == |steps|
      invariant o == Sequence(steps[..p]) && !o.threw
    {
      var step := CheckRangeElement(voc, oracles, prop, xs[p], ChildPath(path, prop, p));
      assert step == steps[p];
      SequenceSnoc(steps, p);
      o := Outcome(o.errors + step.errors, step.threw);
      if step.threw {
        SequenceThrown(steps, p + 1);
        return;
      }
      p := p + 1;
    }
    assert steps[..|xs|] == steps;
  }

  // ---------------------------------------------------------------------
  // The range rules

  /**
   * A value that is an object draws at most one entry: with a `@type`, a
   * 306 exactly when no type is a range of the property or a subclass of
   * one; with only an `@id`, the "Unknown range" warning; with neither, a
   * 203.
   */
  lemma EntityValueRules(voc: Vocabulary, oracles: Oracles, prop: string, x: Json, epath: string)
    requires SdoVocabulary.Valid(voc) && SubClassesClosed(voc) && x.Obj?
    ensures !RangeElement(voc, oracles, prop, x, epath).threw
    ensures |RangeElement(voc, oracles, prop, x, epath).errors| <= 1
    ensures !Get(x, "@type").Undefined? ==>
      (RangeElement(voc, oracles, prop, x, epath).errors == [] <==>
         DirectlyInRange(voc, TypesOf(Get(x, "@type")), RangesOf(voc, prop)))
    ensures !Get(x, "@type").Undefined? && RangeElement(voc, oracles, prop, x, epath).errors != [] ==>
      RangeElement(voc, oracles, prop, x, epath).errors[0].errorCode == 306 &&
      RangeElement(voc, oracles, prop, x, epath).errors[0].severity == Error
    ensures Get(x, "@type").Undefined? && !Get(x, "@id").Undefined? ==>
      |RangeElement(voc, oracles, prop, x, epath).errors| == 1 &&
      RangeElement(voc, oracles, prop, x, epath).errors[0].errorCode == 300 &&
      RangeElement(voc, oracles, prop, x, epath).errors[0].name == Some(Name300UnknownRange) &&
      RangeElement(voc, oracles, prop, x, epath).errors[0].severity == Warning
    ensures Get(x, "@type").Undefined? && Get(x, "@id").Undefined? ==>
      |RangeElement(voc, oracles, prop, x, epath).errors| == 1 &&
      RangeElement(voc, oracles, prop, x, epath).errors[0].errorCode == 203
  {
    RecCheckCharacterization(voc, Get(x, "@type"), RangesOf(voc, prop));
  }

  /**
   * A number is reported (one 306) exactly when no Number, Integer, Float
   * or Thing range exists; a boolean exactly when no Boolean or Thing range
   * exists.
   */
  lemma ScalarValueRules(voc: Vocabulary, oracles: Oracles, prop: string, x: Json, epath: string)
    requires SdoVocabulary.Valid(voc) && (x.Num? || x.Bool?)
    ensures !RangeElement(voc, oracles, prop, x, epath).threw
    ensures x.Num? ==> (RangeElement(voc, oracles, prop, x, epath).errors == [] <==> NumberAccepted(RangesOf(voc, prop)))
    ensures x.Bool? ==> (RangeElement(voc, oracles, prop, x, epath).errors == [] <==> BooleanAccepted(RangesOf(voc, prop)))
    ensures RangeElement(voc, oracles, prop, x, epath).errors != [] ==>
      |RangeElement(voc, oracles, prop, x, epath).errors| == 1 &&
      RangeElement(voc, oracles, prop, x, epath).errors[0].errorCode == 306
  {
  }

  /**
   * A string value: a value of only spaces ends with a 207 and never has
   * the trailing-spaces warning, which comes first whenever trimming
   * changes the value; a 307 is reported exactly when no range accepts the
   * trimmed value and the property has a class or enumeration range, a 306
   * exactly when no range accepts it and the property has none.
   */
  lemma StringValueRules(voc: Vocabulary, oracles: Oracles, prop: string, s: string, epath: string)
    requires SdoVocabulary.Valid(voc)
    ensures !RangeElement(voc, oracles, prop, Str(s), epath).threw
    ensures Blank(s) ==>
      |RangeElement(voc, oracles, prop, Str(s), epath).errors| > 0 &&
      Last(RangeElement(voc, oracles, prop, Str(s), epath).errors).errorCode == 207
    ensures (|RangeElement(voc, oracles, prop, Str(s), epath).errors| > 0 &&
             RangeElement(voc, oracles, prop, Str(s), epath).errors[0].errorCode == 300) <==>
            Sanitized(s) != s && !Blank(s)
    ensures HasCode(RangeElement(voc, oracles, prop, Str(s), epath).errors, 307) <==>
      !StringAccepted(voc, oracles, RangesOf(voc, prop), Sanitized(s)) && HasClassRange(voc, prop)
    ensures HasCode(RangeElement(voc, oracles, prop, Str(s), epath).errors, 306) <==>
      !StringAccepted(voc, oracles, RangesOf(voc, prop), Sanitized(s)) && !HasClassRange(voc, prop)
  {
    var x := Str(s);
    var o := RangeElement(voc, oracles, prop, x, epath);
    var trailing := TrailingFinding(prop, x, epath);
    var verdict := VerdictFinding(voc, oracles, prop, x, epath);
    var empty := EmptyFinding(prop, x, epath);
    assert o.errors == trailing + verdict + empty;
    assert !HasCode(trailing, 306) && !HasCode(trailing, 307);
    assert !HasCode(empty, 306) && !HasCode(empty, 307);
    HasCodeConcat(trailing + verdict, empty, 307);
    HasCodeConcat(trailing, verdict, 307);
    HasCodeConcat(trailing + verdict, empty, 306);
    HasCodeConcat(trailing, verdict, 306);
    if trailing == [] {
      assert o.errors == verdict + empty;
    }
  }

  /** A code occurs in two lists joined exactly when it occurs in one of them. */
  lemma HasCodeConcat(a: seq<ErrorEntry>, b: seq<ErrorEntry>, code: int)
    ensures HasCode(a + b, code) <==> HasCode(a, code) || HasCode(b, code)
  {
    if HasCode(a + b, code) {
      var k :| 0 <= k < |a + b| && (a + b)[k].errorCode == code;
      if k < |a| {
        assert a[k] == (a + b)[k];
      } else {
        assert b[k - |a|] == (a + b)[k];
      }
    }
    if HasCode(a, code) {
      var k :| 0 <= k < |a| && a[k].errorCode == code;
      assert (a + b)[k] == a[k];
    }
    if HasCode(b, code) {
      var k :| 0 <= k < |b| && b[k].errorCode == code;
      assert (a + b)[k + |a|] == b[k];
    }
  }

  /** The last entry of a non-empty list. */
  function Last(errors: seq<ErrorEntry>): ErrorEntry
    requires |errors| > 0
  {
    errors[|errors| - 1]
  }

  /** Some entry has the code. */
  predicate HasCode(errors: seq<ErrorEntry>, code: int)
  {
    exists k :: 0 <= k < |errors| && errors[k].errorCode == code
  }

  /**
   * The range check throws exactly when some value of the property is
   * `null`, and every entry it reports names one of the values,
   * `path.prop/p`.
   */
  lemma RangeCheckRules(voc: Vocabulary, oracles: Oracles, prop: string, value: Json, path: string)
    requires SdoVocabulary.Valid(voc)
    ensures RangeCheck(voc, oracles, prop, value, path).threw <==>
      exists p :: 0 <= p < |TypesOf(value)| && TypesOf(value)[p].Null?
    ensures forall e :: e in RangeCheck(voc, oracles, prop, value, path).errors ==>
      exists p :: 0 <= p < |TypesOf(value)| && e.annotationPath == Some(ChildPath(path, prop, p))
  {
    var steps := RangeSteps(voc, oracles, prop, value, path);
    var xs := TypesOf(value);
    SequenceOutcome(steps);
    if exists p :: 0 <= p < |xs| && xs[p].Null? {
      var p :| 0 <= p < |xs| && xs[p].Null?;
      assert steps[p].threw;
    }
    forall e | e in RangeCheck(voc, oracles, prop, value, path).errors
      ensures exists p :: 0 <= p < |xs| && e.annotationPath == Some(ChildPath(path, prop, p))
    {
      SequenceMember(steps, e);
      var p :| 0 <= p < |steps| && e in steps[p].errors;
      assert e.annotationPath == Some(ChildPath(path, prop, p));
    }
  }
}

=== FILE: context_check.dfy ===
/**
 * The `@context` gate of GeneralVerification.js (`checkContext`) and the two
 * URI patterns it uses. The patterns `^https?://schema\.org/?$` and
 * `^(https?://)?(www\.)?schema\.org/?$` are written out as prefix tests and
 * shown to denote exactly 4 and 12 strings.
 */
module ContextCheck {
  import opened JsStrings
  import opened JsValues
  import opened ErrorEntries
  import opened ErrorBuilders

  // ---------------------------------------------------------------------
  // URI patterns

  /** The text after an optional "http://" or "https://". */
  function DropScheme(uri: string): (rest: string)
    ensures uri == "https://" + rest || uri == "http://" + rest || uri == rest
    ensures StartsWith(uri, "https://") || StartsWith(uri, "http://") || rest == uri
  {
    if StartsWith(uri, "https://") then
      assert uri == uri[..8] + uri[8..];
      uri[8..]
    else if StartsWith(uri, "http://") then
      assert uri == uri[..7] + uri[7..];
      uri[7..]
    else uri
  }

  /** The text after an optional "www.". */
  function DropWww(uri: string): (rest: string)
    ensures uri == "www." + rest || uri == rest
  {
    if StartsWith(uri, "www.") then
      assert uri == uri[..4] + uri[4..];
      uri[4..]
    else uri
  }

  /** `checkRecommendedSDOContextURI`: `^https?://schema\.org/?$`. */
  predicate RecommendedContextURI(uri: string)
  {
    (StartsWith(uri, "https://") || StartsWith(uri, "http://"))
    && (DropScheme(uri) == "schema.org" || DropScheme(uri) == "schema.org/")
  }

  /** `checkAllowedSDOContextURI`: `^(https?://)?(www\.)?schema\.org/?$`. */
  predicate AllowedContextURI(uri: string)
  {
    var rest := DropWww(DropScheme(uri));
    rest == "schema.org" || rest == "schema.org/"
  }

  /** The regular expressions test `String(value)` when given a non-string. */
  predicate AllowedContextValue(value: Json)
  {
    AllowedContextURI(ToJsString(value))
  }

  const RecommendedURIs: set<string> :=
    {"http://schema.org", "http://schema.org/", "https://schema.org", "https://schema.org/"}

  const AllowedURIs: set<string> :=
    {"schema.org", "schema.org/", "www.schema.org", "www.schema.org/",
     "http://schema.org", "http://schema.org/", "http://www.schema.org", "http://www.schema.org/",
     "https://schema.org", "https://schema.org/", "https://www.schema.org", "https://www.schema.org/"}

  /** Removing a scheme that is followed by "www." or "schema.org". */
  lemma DropSchemeOf(scheme: string, rest: string)
    requires scheme == "" || scheme == "http://" || scheme == "https://"
    requires |rest| > 0 && (rest[0] == 'w' || rest[0] == 's')
    ensures DropScheme(scheme + rest) == rest
  {
    var uri := scheme + rest;
    if scheme == "https://" {
      assert uri[..8] == scheme;
    } else if scheme == "http://" {
      assert uri[..7] == scheme;
      assert uri[4] == ':';
    } else {
      assert uri[0] == rest[0];
    }
  }

  /** Removing an optional "www." in front of "schema.org". */
  lemma DropWwwOf(www: string, base: string)
    requires www == "" || www == "www."
    requires |base| > 0 && base[0] == 's'
    ensures DropWww(www + base) == base
  {
    var uri := www + base;
    if www == "www." {
      assert uri[..4] == www;
    } else {
      assert uri[0] == 's';
    }
  }

  /** Every combination of the optional parts matches the allowed pattern. */
  lemma ComposedAllowed(scheme: string, www: string, base: string)
    requires scheme == "" || scheme == "http://" || scheme == "https://"
    requires www == "" || www == "www."
    requires base == "schema.org" || base == "schema.org/"
    ensures AllowedContextURI(scheme + www + base)
    ensures RecommendedContextURI(scheme + www + base) <==> scheme != "" && www == ""
  {
    var rest := www + base;
    assert DropWww(rest) == base by { DropWwwOf(www, base); }
    assert |rest| > 0 && (rest[0] == 'w' || rest[0] == 's');
    assert scheme + www + base == scheme + rest;
    SchemeOf(scheme, rest);
    assert rest == "schema.org" || rest == "schema.org/" <==> www == "" by {
      if www != "" {
        assert rest[0] == 'w';
      }
    }
  }

  /** Removing an optional scheme in front of "www." or "schema.org", and whether there was one. */
  lemma SchemeOf(scheme: string, rest: string)
    requires scheme == "" || scheme == "http://" || scheme == "https://"
    requires |rest| > 0 && (rest[0] == 'w' || rest[0] == 's')
    ensures DropScheme(scheme + rest) == rest
    ensures StartsWith(scheme + rest, "https://") || StartsWith(scheme + rest, "http://") <==> scheme != ""
  {
    DropSchemeOf(scheme, rest);
    if scheme == "" {
      assert scheme + rest == rest;
      NoScheme(rest);
    } else {
      SchemePrefix(scheme, rest);
    }
  }

  /** A URI not starting with "h" has no scheme. */
  lemma NoScheme(uri: string)
    requires |uri| > 0 && uri[0] != 'h'
    ensures !StartsWith(uri, "https://") && !StartsWith(uri, "http://")
  {
    assert "https://"[0] == 'h' && "http://"[0] == 'h';
  }

  /** A URI built from "http://" or "https://" starts with one of them. */
  lemma SchemePrefix(scheme: string, rest: string)
    requires scheme == "http://" || scheme == "https://"
    ensures StartsWith(scheme + rest, "https://") || StartsWith(scheme + rest, "http://")
  {
    var uri := scheme + rest;
    if scheme == "https://" {
      assert uri[..8] == scheme;
    } else {
      assert uri[..7] == scheme;
    }
  }

  /** An allowed URI is a scheme, then "www." or nothing, then "schema.org" with an optional "/". */
  lemma AllowedParts(uri: string) returns (scheme: string, www: string, base: string)
    requires AllowedContextURI(uri)
    ensures scheme == "" || scheme == "http://" || scheme == "https://"
    ensures www == "" || www == "www."
    ensures base == "schema.org" || base == "schema.org/"
    ensures uri == scheme + www + base
  {
    var rest := DropScheme(uri);
    base := DropWww(rest);
    www := if rest == base then "" else "www.";
    scheme := if uri == rest then "" else if uri == "http://" + rest then "http://" else "https://";
  }

  /** A recommended URI is "http://" or "https://", then "schema.org" with an optional "/". */
  lemma RecommendedParts(uri: string) returns (scheme: string, www: string, base: string)
    requires RecommendedContextURI(uri)
    ensures scheme == "http://" || scheme == "https://"
    ensures www == ""
    ensures base == "schema.org" || base == "schema.org/"
    ensures uri == scheme + www + base
  {
    base := DropScheme(uri);
    www := "";
    scheme := if uri == "http://" + base then "http://" else "https://";
    assert uri == scheme + base;
  }

  /** The recommended pattern denotes exactly four URIs. */
  lemma RecommendedURIsExactly(uri: string)
    ensures RecommendedContextURI(uri) <==> uri in RecommendedURIs
  {
    if RecommendedContextURI(uri) {
      DropWwwOf("", DropScheme(uri));
      assert "" + DropScheme(uri) == DropScheme(uri);
      var scheme, www, base := AllowedParts(uri);
      ComposedAllowed(scheme, www, base);
      RecommendedListed(scheme, base);
    } else {
      RecommendedListedComposed();
    }
  }

  lemma RecommendedListed(scheme: string, base: string)
    requires scheme == "http://" || scheme == "https://"
    requires base == "schema.org" || base == "schema.org/"
    ensures scheme + "" + base in RecommendedURIs
  {
    assert scheme + "" + base == scheme + base;
    if scheme == "http://" {
      if base == "schema.org" { assert scheme + base == "http://schema.org"; }
      else { assert scheme + base == "http://schema.org/"; }
    } else {
      if base == "schema.org" { assert scheme + base == "https://schema.org"; }
      else { assert scheme + base == "https://schema.org/"; }
    }
  }

  lemma RecommendedListedComposed()
    ensures forall uri :: uri in RecommendedURIs ==> RecommendedContextURI(uri)
  {
    forall uri | uri in RecommendedURIs ensures RecommendedContextURI(uri) {
      if uri == "http://schema.org" {
        RecommendedComposed("http://", "schema.org");
      } else if uri == "http://schema.org/" {
        RecommendedComposed("http://", "schema.org/");
      } else if uri == "https://schema.org" {
        RecommendedComposed("https://", "schema.org");
      } else {
        RecommendedComposed("https://", "schema.org/");
      }
    }
  }

  lemma RecommendedComposed(scheme: string, base: string)
    requires scheme == "http://" || scheme == "https://"
    requires base == "schema.org" || base == "schema.org/"
    ensures RecommendedContextURI(scheme + base)
  {
    ComposedAllowed(scheme, "", base);
    assert scheme + "" + base == scheme + base;
  }

  /**
   * The allowed pattern denotes at most the twelve listed URIs; by
   * `ComposedAllowed` it matches each of them.
   */
  lemma AllowedURIsListed(uri: string)
    requires AllowedContextURI(uri)
    ensures uri in AllowedURIs
  {
    var scheme, www, base := AllowedParts(uri);
    AllowedListed(scheme, www, base);
  }

  /** Each combination of the parts is one of the twelve listed URIs. */
  lemma AllowedListed(scheme: string, www: string, base: string)
    requires scheme == "" || scheme == "http://" || scheme == "https://"
    requires www == "" || www == "www."
    requires base == "schema.org" || base == "schema.org/"
    ensures scheme + www + base in AllowedURIs
  {
    if scheme == "" {
      AllowedListedBare(www, base);
    } else if scheme == "http://" {
      AllowedListedHttp(www, base);
    } else {
      AllowedListedHttps(www, base);
    }
  }

  /** The four combinations without a scheme are listed. */
  lemma AllowedListedBare(www: string, base: string)
    requires www == "" || www == "www."
    requires base == "schema.org" || base == "schema.org/"
    ensures "" + www + base in AllowedURIs
  {
    var uri := "" + www + base;
    if www == "" {
      if base == "schema.org" { assert uri == "schema.org"; } else { assert uri == "schema.org/"; }
    } else {
      if base == "schema.org" { assert uri == "www.schema.org"; } else { assert uri == "www.schema.org/"; }
    }
  }

  /** The four combinations with "http://" are listed. */
  lemma AllowedListedHttp(www: string, base: string)
    requires www == "" || www == "www."
    requires base == "schema.org" || base == "schema.org/"
    ensures "http://" + www + base in AllowedURIs
  {
    var uri := "http://" + www + base;
    if www == "" {
      if base == "schema.org" { assert uri == "http://schema.org"; } else { assert uri == "http://schema.org/"; }
    } else {
      if base == "schema.org" { assert uri == "http://www.schema.org"; } else { assert uri == "http://www.schema.org/"; }
    }
  }

  /** The four combinations with "https://" are listed. */
  lemma AllowedListedHttps(www: string, base: string)
    requires www == "" || www == "www."
    requires base == "schema.org" || base == "schema.org/"
    ensures "https://" + www + base in AllowedURIs
  {
    var uri := "https://" + www + base;
    if www == "" {
      if base == "schema.org" { assert uri == "https://schema.org"; } else { assert uri == "https://schema.org/"; }
    } else {
      if base == "schema.org" { assert uri == "https://www.schema.org"; } else { assert uri == "https://www.schema.org/"; }
    }
  }

  /** Every recommended URI is allowed. */
  lemma RecommendedIsAllowed(uri: string)
    requires RecommendedContextURI(uri)
    ensures AllowedContextURI(uri)
  {
    var scheme, www, base := RecommendedParts(uri);
    ComposedAllowed(scheme, www, base);
  }

  // ---------------------------------------------------------------------
  // checkContext

  const VocabNotString := "The '@context' of the annotation has a '@vocab' value that is not a String. This value should be a string referencing the schema.org vocabulary."
  const InvalidContextFormat := "The '@context' of the annotation has an invalid format."
  const NotStringOrObject := "The '@context' of the annotation has a value that is not a String or an Object."

  /** The errors of an object `@context` so far and its two flags. */
  datatype ContextScan = ContextScan(errors: seq<ErrorEntry>, foundSdo: bool, foundError: bool)

  /** The `@vocab` entry: only a truthy one is looked at. */
  function VocabScan(vocab: Json): ContextScan
  {
    if !Truthy(vocab) then ContextScan([], false, false)
    else if IsString(vocab) then
      if !AllowedContextURI(vocab.s) then ContextScan([Error301()], false, true)
      else if !RecommendedContextURI(vocab.s) then ContextScan([Error300Context()], false, true)
      else ContextScan([], true, false)
    else ContextScan([Error202(VocabNotString)], false, true)
  }

  /** One entry other than `@vocab`: a recommended URI finds schema.org, an allowed one warns, a non-string is an error. */
  function EntryScan(scan: ContextScan, entry: Member): ContextScan
  {
    if entry.key == "@vocab" then scan
    else if IsString(entry.value) then
      if RecommendedContextURI(entry.value.s) then scan.(foundSdo := true)
      else if AllowedContextURI(entry.value.s) then ContextScan(scan.errors + [Error300Context()], true, true)
      else scan
    else ContextScan(scan.errors + [Error202(InvalidContextFormat)], scan.foundSdo, true)
  }

  function ScanEntries(start: ContextScan, entries: seq<Member>): ContextScan
  {
    if |entries| == 0 then start
    else EntryScan(ScanEntries(start, entries[..|entries| - 1]), entries[|entries| - 1])
  }

  /** An object `@context`: the entry findings, then 301 when neither schema.org nor an error was found. */
  function ObjectContextErrors(entries: seq<Member>): seq<ErrorEntry>
  {
    var scan := ScanEntries(VocabScan(Lookup(entries, "@vocab")), entries);
    if !scan.foundError && !scan.foundSdo then scan.errors + [Error301()] else scan.errors
  }

  /** The errors `checkContext` pushes for the value of `@context`. */
  function ContextErrors(context: Json): seq<ErrorEntry>
  {
    if context.Undefined? then [Error201()]
    else if IsString(context) then
      if !AllowedContextURI(context.s) then [Error301()]
      else if !RecommendedContextURI(context.s) then [Error300Context()]
      else []
    else if IsObject(context) then ObjectContextErrors(context.members)
    else [Error202(NotStringOrObject)]
  }

  /**
   * `checkContext`: false, after a 201, only when there is no `@context`;
   * the object form is checked by the flag loop over its entries.
   */
  method CheckContext(annotation: Json) returns (outcome: bool, pushed: seq<ErrorEntry>)
    requires annotation.Obj?
    ensures outcome <==> Get(annotation, "@context") != Undefined
    ensures pushed == ContextErrors(Get(annotation, "@context"))
  {
    var context := Get(annotation, "@context");
    if context == Undefined {
      return false, [Error201()];
    }
    outcome := true;
    if IsString(context) {
      if !AllowedContextURI(context.s) {
        pushed := [Error301()];
      } else if !RecommendedContextURI(context.s) {
        pushed := [Error300Context()];
      } else {
        pushed := [];
      }
    } else if IsObject(context) {
      pushed := CheckObjectContext(context.members);
    } else {
      pushed := [Error202(NotStringOrObject)];
    }
  }

  /** The object branch of `checkContext`: the `@vocab` test, then the flag loop over the other entries. */
  method CheckObjectContext(entries: seq<Member>) returns (pushed: seq<ErrorEntry>)
    ensures pushed == ObjectContextErrors(entries)
  {
    var vocab := Lookup(entries, "@vocab");
    var foundSdo, foundError;
    pushed, foundSdo, foundError := CheckVocab(vocab);
    var i := 0;
    while i < |entries|
      invariant 0 <= i <= |entries|
      invariant ContextScan(pushed, foundSdo, foundError) == ScanEntries(VocabScan(vocab), entries[..i])
    {
      assert entries[..i + 1][..i] == entries[..i];
      var entry := entries[i];
      if entry.key != "@vocab" {
        if IsString(entry.value) {
          if RecommendedContextURI(entry.value.s) {
            foundSdo := true;
          } else if AllowedContextURI(entry.value.s) {
            pushed := pushed + [Error300Context()];
            foundError := true;
            foundSdo := true;
          }
        } else {
          foundError := true;
          pushed := pushed + [Error202(InvalidContextFormat)];
        }
      }
      i := i + 1;
    }
    assert entries[..|entries|] == entries;
    if !foundError && !foundSdo {
      pushed := pushed + [Error301()];
    }
  }

  /** The `@vocab` test of `checkContext`: a truthy value must be a string naming schema.org. */
  method CheckVocab(vocab: Json) returns (pushed: seq<ErrorEntry>, foundSdo: bool, foundError: bool)
    ensures ContextScan(pushed, foundSdo, foundError) == VocabScan(vocab)
  {
    foundSdo := false;
    foundError := false;
    pushed := [];
    if Truthy(vocab) {
      if IsString(vocab) {
        if !AllowedContextURI(vocab.s) {
          pushed := pushed + [Error301()];
          foundError := true;
        } else if !RecommendedContextURI(vocab.s) {
          pushed := pushed + [Error300Context()];
          foundError := true;
        } else {
          foundSdo := true;
        }
      } else {
        foundError := true;
        pushed := pushed + [Error202(VocabNotString)];
      }
    }
  }

  // ---------------------------------------------------------------------
  // Properties

  /** The codes `checkContext` can produce. */
  predicate ContextCode(e: ErrorEntry)
  {
    e.errorCode == 201 || e.errorCode == 202 || e.errorCode == 300 || e.errorCode == 301
  }

  lemma {:induction false} ScanEntriesCodes(start: ContextScan, entries: seq<Member>)
    requires forall e :: e in start.errors ==> ContextCode(e) && e.errorCode != 201 && e.annotationPath == Some("$")
    ensures forall e :: e in ScanEntries(start, entries).errors ==>
      ContextCode(e) && e.errorCode != 201 && e.annotationPath == Some("$")
    decreases |entries|
  {
    if |entries| > 0 {
      ScanEntriesCodes(start, entries[..|entries| - 1]);
    }
  }

  /**
   * Only the codes 201, 202, 300 and 301 occur, 201 only for a missing
   * `@context` (and then alone), and every finding is reported at the root.
   */
  lemma ContextErrorsCodes(context: Json)
    ensures forall e :: e in ContextErrors(context) ==> ContextCode(e) && e.annotationPath == Some("$")
    ensures context.Undefined? ==> ContextErrors(context) == [Error201()]
    ensures !context.Undefined? ==> forall e :: e in ContextErrors(context) ==> e.errorCode != 201
  {
    if IsObject(context) {
      ScanEntriesCodes(VocabScan(Lookup(context.members, "@vocab")), context.members);
    }
  }

  /** A string `@context`: nothing when recommended, 300 when only allowed, 301 otherwise. */
  lemma StringContext(uri: string)
    ensures RecommendedContextURI(uri) ==> ContextErrors(Str(uri)) == []
    ensures AllowedContextURI(uri) && !RecommendedContextURI(uri) ==> ContextErrors(Str(uri)) == [Error300Context()]
    ensures !AllowedContextURI(uri) ==> ContextErrors(Str(uri)) == [Error301()]
  {
    if RecommendedContextURI(uri) {
      RecommendedIsAllowed(uri);
    }
  }

  /** Entries that all hold recommended URIs add no error and keep any schema.org already found. */
  lemma {:induction false} RecommendedEntriesScan(start: ContextScan, entries: seq<Member>)
    requires forall k :: 0 <= k < |entries| ==> entries[k].value.Str? && RecommendedContextURI(entries[k].value.s)
    ensures ScanEntries(start, entries).errors == start.errors
    ensures ScanEntries(start, entries).foundError == start.foundError
    ensures ScanEntries(start, entries).foundSdo
      <==> start.foundSdo || exists k :: 0 <= k < |entries| && entries[k].key != "@vocab"
    decreases |entries|
  {
    if |entries| > 0 {
      var n := |entries| - 1;
      var prefix := entries[..n];
      assert forall k :: 0 <= k < |prefix| ==> prefix[k] == entries[k];
      RecommendedEntriesScan(start, prefix);
      RecommendedEntryScan(ScanEntries(start, prefix), entries[n]);
      NonVocabSnoc(entries);
    }
  }

  /** A recommended URI under a key other than `@vocab` finds schema.org and adds nothing else. */
  lemma RecommendedEntryScan(scan: ContextScan, entry: Member)
    requires entry.value.Str? && RecommendedContextURI(entry.value.s)
    ensures EntryScan(scan, entry) == scan.(foundSdo := scan.foundSdo || entry.key != "@vocab")
  {
  }

  predicate HasNonVocab(entries: seq<Member>)
  {
    exists k :: 0 <= k < |entries| && entries[k].key != "@vocab"
  }

  /** Some entry has a key other than `@vocab` exactly when the front has one or the last one has. */
  lemma NonVocabSnoc(entries: seq<Member>)
    requires |entries| > 0
    ensures HasNonVocab(entries) <==> HasNonVocab(entries[..|entries| - 1]) || entries[|entries| - 1].key != "@vocab"
  {
    var n := |entries| - 1;
    var prefix := entries[..n];
    if exists k :: 0 <= k < |entries| && entries[k].key != "@vocab" {
      var k :| 0 <= k < |entries| && entries[k].key != "@vocab";
      if k < n {
        assert prefix[k] == entries[k];
      }
    }
    if exists k :: 0 <= k < n && prefix[k].key != "@vocab" {
      var k :| 0 <= k < n && prefix[k].key != "@vocab";
      assert entries[k] == prefix[k];
    }
  }

  /** A non-empty object `@context` whose every entry is a recommended schema.org URI is accepted silently. */
  lemma RecommendedObjectContext(entries: seq<Member>)
    requires |entries| > 0
    requires forall k :: 0 <= k < |entries| ==> entries[k].value.Str? && RecommendedContextURI(entries[k].value.s)
    ensures ObjectContextErrors(entries) == []
  {
    var vocab := Lookup(entries, "@vocab");
    RecommendedEntriesScan(VocabScan(vocab), entries);
    if vocab != Undefined {
      var i :| 0 <= i < |entries| && entries[i].key == "@vocab" && entries[i].value == vocab;
      RecommendedVocabScan(vocab);
    } else {
      assert entries[0].key != "@vocab";
    }
  }

  /** A recommended `@vocab` finds schema.org and adds no error. */
  lemma RecommendedVocabScan(vocab: Json)
    requires vocab.Str? && RecommendedContextURI(vocab.s)
    ensures VocabScan(vocab) == ContextScan([], true, false)
  {
    RecommendedURIsExactly(vocab.s);
    RecommendedIsAllowed(vocab.s);
  }
}

=== FILE: error_builders.dfy ===
/**
 * The `createError_*` builders of the verification engine. Each fixes the
 * kind, severity, code and name of one finding; no engine error carries a
 * `dsPath`.
 */
module ErrorBuilders {
  import opened JsValues
  import opened ErrorEntries

  // The fixed names and descriptions of the entries, as the builders write them.

  const Name101: string := "Invalid JSON"
  const Description101: string := "The input annotation can not be parsed to JSON."
  const Name102: string := "Empty JSON"
  const Description102: string := "The input annotation is empty."
  const Name103: string := "No JSON Object"
  const Description103: string := "The input annotation is not a JSON object, as required."
  const Name104: string := "Use of undefined"
  const Description104: string := "The annotation contains an 'undefined' value, which is not conform to the JSON specification."
  const Name201: string := "No @Context"
  const Description201: string := "The annotation has no '@context' entry, as expected."
  const Name202: string := "Bad @Context"
  const Name203: string := "No @type"
  const Name204: string := "Bad @type"
  const Description204: string := "The annotation has an entity with an invalid @type entry."
  const Name205: string := "Double Nested Array"
  const Description205: string := "The annotation contains a double nested array, which is not conform to the JSON-LD specification."
  const Name206: string := "Use of null"
  const Description206Type: string := "The annotation contains a 'null' value as a @type, which causes errors during the JSON-LD processing."
  const Description206: string := "The annotation contains a 'null' value, which is allowed by the JSON-LD specification, but not recommended to use."
  const Name300Context: string := "Non-ideal @context"
  const Description300Context: string := "The '@context' of schema.org annotations should be 'https://schema.org/'."
  const Name301: string := "Non-conform @context"
  const Description301: string := "The '@context' of the annotation does not contain the schema.org vocabulary."
  const Name304: string := "Non-conform action property"
  const Name305: string := "Non-conform domain"
  const Name309: string := "Empty entity"
  const Description309: string := "The annotation has an entity with no properties other than @type."
  const Name999: string := "Execution Error"
  const Name207: string := "Empty string"
  const Name300Trailing: string := "Trailing spaces"
  const Name300UnknownRange: string := "Unknown range"
  const Name306: string := "Non-conform range"
  const Name307: string := "Non-conform range (string)"

  /** Invalid JSON: the input string does not parse. */
  function Error101(): (e: ErrorEntry)
    ensures e.errorCode == 101 && e.kind == JsonError && e.severity == Critical
    ensures e.dsPath.None? && e.annotationPath.None? && e.value.None?
  {
    NewErrorEntry(JsonError, Critical, 101, Some(Name101),
      Some(Description101), None, None, Undefined)
  }

  /** Empty JSON. */
  function Error102(): (e: ErrorEntry)
    ensures e.errorCode == 102 && e.kind == JsonError && e.severity == Critical
    ensures e.dsPath.None? && e.annotationPath.None? && e.value.None?
  {
    NewErrorEntry(JsonError, Critical, 102, Some(Name102),
      Some(Description102), None, None, Undefined)
  }

  /** The input is not a JSON object. */
  function Error103(): (e: ErrorEntry)
    ensures e.errorCode == 103 && e.kind == JsonError && e.severity == Critical
    ensures e.dsPath.None? && e.annotationPath.None? && e.value.None?
  {
    NewErrorEntry(JsonError, Critical, 103, Some(Name103),
      Some(Description103), None, None, Undefined)
  }

  /** Use of `undefined`. */
  function Error104(): (e: ErrorEntry)
    ensures e.errorCode == 104 && e.kind == JsonError && e.severity == Error
    ensures e.dsPath.None? && e.annotationPath == Some("$")
  {
    NewErrorEntry(JsonError, Error, 104, Some(Name104),
      Some(Description104),
      None, Some("$"), Undefined)
  }

  /** No `@context`. */
  function Error201(): (e: ErrorEntry)
    ensures e.errorCode == 201 && e.kind == JsonLdError && e.severity == Critical
    ensures e.dsPath.None? && e.annotationPath == Some("$")
  {
    NewErrorEntry(JsonLdError, Critical, 201, Some(Name201),
      Some(Description201), None, Some("$"), Undefined)
  }

  /** A `@context` of an unusable shape. */
  function Error202(description: string): (e: ErrorEntry)
    ensures e.errorCode == 202 && e.kind == JsonLdError && e.severity == Critical
    ensures e.description == Some(description)
    ensures e.dsPath.None? && e.annotationPath == Some("$")
  {
    NewErrorEntry(JsonLdError, Critical, 202, Some(Name202), Some(description), None, Some("$"), Undefined)
  }

  /** An entity without `@type`. */
  function Error203(description: string, path: string): (e: ErrorEntry)
    ensures e.errorCode == 203 && e.kind == JsonLdError && e.severity == Error
    ensures e.description == Some(description)
    ensures e.dsPath.None? && e.annotationPath == Some(path)
  {
    NewErrorEntry(JsonLdError, Error, 203, Some(Name203), Some(description), None, Some(path), Undefined)
  }

  /** A `@type` that is neither a string nor an array of strings. */
  function Error204(path: Option<string>, value: Json): (e: ErrorEntry)
    ensures e.errorCode == 204 && e.kind == JsonLdError && e.severity == Error
    ensures e.dsPath.None? && e.annotationPath == path
    ensures e.value.Some? <==> Truthy(value)
  {
    NewErrorEntry(JsonLdError, Error, 204, Some(Name204),
      Some(Description204), None, path, value)
  }

  /** An array directly inside an array. */
  function Error205(): (e: ErrorEntry)
    ensures e.errorCode == 205 && e.kind == JsonLdError && e.severity == Error
    ensures e.dsPath.None? && e.annotationPath == Some("$")
  {
    NewErrorEntry(JsonLdError, Error, 205, Some(Name205),
      Some(Description205),
      None, Some("$"), Undefined)
  }

  /** Use of `null`; critical exactly when the null is a `@type`. */
  function Error206(errorCausingNull: bool): (e: ErrorEntry)
    ensures e.errorCode == 206 && e.kind == JsonLdError
    ensures e.severity == (if errorCausingNull then Critical else Warning)
    ensures e.dsPath.None? && e.annotationPath == Some("$")
  {
    NewErrorEntry(JsonLdError, if errorCausingNull then Critical else Warning, 206, Some(Name206),
      Some(if errorCausingNull
           then Description206Type
           else Description206),
      None, Some("$"), Undefined)
  }

  /** A schema.org `@context` in a form other than the recommended one. */
  function Error300Context(): (e: ErrorEntry)
    ensures e.errorCode == 300 && e.kind == AnnotationError && e.severity == Warning
    ensures e.name == Some(Name300Context)
    ensures e.dsPath.None? && e.annotationPath == Some("$")
  {
    NewErrorEntry(AnnotationError, Warning, 300, Some(Name300Context),
      Some(Description300Context), None, Some("$"), Undefined)
  }

  /** A `@context` without the schema.org vocabulary. */
  function Error301(): (e: ErrorEntry)
    ensures e.errorCode == 301 && e.kind == AnnotationError && e.severity == Critical
    ensures e.dsPath.None? && e.annotationPath == Some("$")
  {
    NewErrorEntry(AnnotationError, Critical, 301, Some(Name301),
      Some(Description301), None, Some("$"), Undefined)
  }

  /** A `@type` entry outside the vocabulary. */
  function Error302(name: string, description: string, path: string, value: Json): (e: ErrorEntry)
    ensures e.errorCode == 302 && e.kind == AnnotationError && e.severity == Error
    ensures e.name == Some(name) && e.description == Some(description)
    ensures e.dsPath.None? && e.annotationPath == Some(path)
    ensures e.value.Some? <==> Truthy(value)
  {
    NewErrorEntry(AnnotationError, Error, 302, Some(name), Some(description), None, Some(path), value)
  }

  /** A property outside the vocabulary. */
  function Error303(name: string, description: string, path: string, value: Json): (e: ErrorEntry)
    ensures e.errorCode == 303 && e.kind == AnnotationError && e.severity == Error
    ensures e.name == Some(name) && e.description == Some(description)
    ensures e.dsPath.None? && e.annotationPath == Some(path)
    ensures e.value.Some? <==> Truthy(value)
  {
    NewErrorEntry(AnnotationError, Error, 303, Some(name), Some(description), None, Some(path), value)
  }

  /** An action property with an unusable value. */
  function Error304(description: string, path: string, value: Json): (e: ErrorEntry)
    ensures e.errorCode == 304 && e.kind == AnnotationError && e.severity == Error
    ensures e.description == Some(description)
    ensures e.dsPath.None? && e.annotationPath == Some(path)
    ensures e.value.Some? <==> Truthy(value)
  {
    NewErrorEntry(AnnotationError, Error, 304, Some(Name304), Some(description), None, Some(path), value)
  }

  /** A property the entity's types may not use. */
  function Error305(description: string, path: string, value: Json): (e: ErrorEntry)
    ensures e.errorCode == 305 && e.kind == AnnotationError && e.severity == Error
    ensures e.description == Some(description)
    ensures e.dsPath.None? && e.annotationPath == Some(path)
    ensures e.value.Some? <==> Truthy(value)
  {
    NewErrorEntry(AnnotationError, Error, 305, Some(Name305), Some(description), None, Some(path), value)
  }

  /** An entity with no property besides `@type`. */
  function Error309(path: string): (e: ErrorEntry)
    ensures e.errorCode == 309 && e.kind == AnnotationError && e.severity == Warning
    ensures e.dsPath.None? && e.annotationPath == Some(path)
  {
    NewErrorEntry(AnnotationError, Warning, 309, Some(Name309),
      Some(Description309), None, Some(path), Undefined)
  }

  /** An exception during the verification. */
  function Error999(description: string): (e: ErrorEntry)
    ensures e.errorCode == 999 && e.kind == ExecutionError && e.severity == Critical
    ensures e.description == Some(description)
    ensures e.dsPath.None? && e.annotationPath == Some("$")
  {
    NewErrorEntry(ExecutionError, Critical, 999, Some(Name999), Some(description), None, Some("$"), Undefined)
  }

  // The entries `annotationRangeCheck` builds with the constructor directly.

  /** An empty (or space-only) string value. */
  function Error207(description: string, path: string, value: Json): (e: ErrorEntry)
    ensures e.errorCode == 207 && e.kind == JsonLdError && e.severity == Warning
    ensures e.name == Some(Name207) && e.description == Some(description)
    ensures e.dsPath.None? && e.annotationPath == Some(path)
    ensures e.value.Some? <==> Truthy(value)
  {
    NewErrorEntry(JsonLdError, Warning, 207, Some(Name207), Some(description), None, Some(path), value)
  }

  /** A string value with leading or trailing white space. */
  function Error300Trailing(description: string, path: string, value: Json): (e: ErrorEntry)
    ensures e.errorCode == 300 && e.kind == AnnotationError && e.severity == Warning
    ensures e.name == Some(Name300Trailing) && e.description == Some(description)
    ensures e.dsPath.None? && e.annotationPath == Some(path)
    ensures e.value.Some? <==> Truthy(value)
  {
    NewErrorEntry(AnnotationError, Warning, 300, Some(Name300Trailing), Some(description), None, Some(path), value)
  }

  /** A referenced value (`@id` without `@type`) whose range cannot be verified. */
  function Error300UnknownRange(description: string, path: string, value: Json): (e: ErrorEntry)
    ensures e.errorCode == 300 && e.kind == AnnotationError && e.severity == Warning
    ensures e.name == Some(Name300UnknownRange) && e.description == Some(description)
    ensures e.dsPath.None? && e.annotationPath == Some(path)
    ensures e.value.Some? <==> Truthy(value)
  {
    NewErrorEntry(AnnotationError, Warning, 300, Some(Name300UnknownRange), Some(description), None, Some(path), value)
  }

  /** A value whose type the property's ranges do not allow. */
  function Error306(description: string, path: string, value: Json): (e: ErrorEntry)
    ensures e.errorCode == 306 && e.kind == AnnotationError && e.severity == Error
    ensures e.name == Some(Name306) && e.description == Some(description)
    ensures e.dsPath.None? && e.annotationPath == Some(path)
    ensures e.value.Some? <==> Truthy(value)
  {
    NewErrorEntry(AnnotationError, Error, 306, Some(Name306), Some(description), None, Some(path), value)
  }

  /** A string where the property expects an entity. */
  function Error307(description: string, path: string, value: Json): (e: ErrorEntry)
    ensures e.errorCode == 307 && e.kind == AnnotationError && e.severity == Warning
    ensures e.name == Some(Name307) && e.description == Some(description)
    ensures e.dsPath.None? && e.annotationPath == Some(path)
    ensures e.value.Some? <==> Truthy(value)
  {
    NewErrorEntry(AnnotationError, Warning, 307, Some(Name307), Some(description), None, Some(path), value)
  }
}

=== FILE: error_entry.dfy ===
/**
 * The records the verification engine produces: one `ErrorEntry` per
 * finding, and the `GeneralVerificationReport` that carries them. A field
 * the JavaScript constructor leaves out of the object is `None` here.
 */
module ErrorEntries {
  import opened JsStrings
  import opened JsValues

  /** The `@type` of an error entry. */
  datatype ErrorKind =
    | AnnotationError
    | DSMetaError
    | ComplianceError
    | ExecutionError
    | JsonError
    | JsonLdError

  datatype Severity = Informational | Warning | Error | Critical

  datatype ErrorEntry = ErrorEntry(
    kind: ErrorKind,
    severity: Severity,
    errorCode: int,
    name: Option<string>,
    description: Option<string>,
    dsPath: Option<string>,
    annotationPath: Option<string>,
    value: Option<Json>)

  /**
   * `new ErrorEntry(type, severity, errorCode, name, description, dsPath,
   * annotationPath, value)`; a `None` argument stands for `null`, an absent
   * value for `undefined`.
   */
  function NewErrorEntry(kind: ErrorKind, severity: Severity, errorCode: int, name: Option<string>,
                         description: Option<string>, dsPath: Option<string>,
                         annotationPath: Option<string>, value: Json): (e: ErrorEntry)
    ensures e.kind == kind && e.severity == severity && e.errorCode == errorCode
    ensures e.name == name && e.description == description
    ensures e.dsPath == dsPath && e.annotationPath == annotationPath
    ensures e.value.Some? <==> Truthy(value)
    ensures e.value.Some? ==> e.value.value == value
  {
    ErrorEntry(kind, severity, errorCode, name, description, dsPath, annotationPath,
               if Truthy(value) then Some(value) else None)
  }

  /** The errors one step of the engine pushed, and whether it ended by throwing. */
  datatype Outcome = Outcome(errors: seq<ErrorEntry>, threw: bool)

  /** The error lists in order, one after the other. */
  function Concat(parts: seq<seq<ErrorEntry>>): (r: seq<ErrorEntry>)
    ensures |parts| == 0 ==> r == []
  {
    if |parts| == 0 then [] else Concat(parts[..|parts| - 1]) + parts[|parts| - 1]
  }

  /** An entry is in the concatenation exactly when it is in one of the lists. */
  lemma {:induction false} ConcatMember(parts: seq<seq<ErrorEntry>>, e: ErrorEntry)
    ensures e in Concat(parts) <==> exists k :: 0 <= k < |parts| && e in parts[k]
  {
    if |parts| > 0 {
      var init := parts[..|parts| - 1];
      ConcatMember(init, e);
      assert forall k :: 0 <= k < |init| ==> init[k] == parts[k];
      if e in Concat(init) {
        var k :| 0 <= k < |init| && e in init[k];
        assert e in parts[k];
      }
    }
  }

  /** A property of every entry of every list holds of every entry of their concatenation. */
  lemma {:induction false} ConcatAll(parts: seq<seq<ErrorEntry>>, p: ErrorEntry -> bool)
    requires forall j, k :: 0 <= j < |parts| && 0 <= k < |parts[j]| ==> p(parts[j][k])
    ensures forall k :: 0 <= k < |Concat(parts)| ==> p(Concat(parts)[k])
  {
    if |parts| > 0 {
      var init := parts[..|parts| - 1];
      assert forall j :: 0 <= j < |init| ==> init[j] == parts[j];
      ConcatAll(init, p);
    }
  }

  /** Concatenating one more list appends it. */
  lemma ConcatSnoc(parts: seq<seq<ErrorEntry>>, i: nat)
    requires i < |parts|
    ensures Concat(parts[..i + 1]) == Concat(parts[..i]) + parts[i]
  {
    assert parts[..i + 1][..i] == parts[..i];
  }

  /**
   * Steps run one after the other until one throws: the errors of the steps
   * that ran, the throwing one's included, and whether one threw.
   */
  function Sequence(steps: seq<Outcome>): Outcome
  {
    if |steps| == 0 then Outcome([], false)
    else
      var prev := Sequence(steps[..|steps| - 1]);
      if prev.threw then prev
      else Outcome(prev.errors + steps[|steps| - 1].errors, steps[|steps| - 1].threw)
  }

  /** The errors each step pushes, in order. */
  function ErrorsOf(steps: seq<Outcome>): (parts: seq<seq<ErrorEntry>>)
    ensures |parts| == |steps| && forall k :: 0 <= k < |steps| ==> parts[k] == steps[k].errors
  {
    seq(|steps|, k requires 0 <= k < |steps| => steps[k].errors)
  }

  /**
   * A sequence of steps throws exactly when one of them throws; when none
   * does, it pushes the errors of every step in order.
   */
  lemma {:induction false} SequenceOutcome(steps: seq<Outcome>)
    ensures Sequence(steps).threw <==> exists k :: 0 <= k < |steps| && steps[k].threw
    ensures !Sequence(steps).threw ==> Sequence(steps).errors == Concat(ErrorsOf(steps))
  {
    if |steps| > 0 {
      var init := steps[..|steps| - 1];
      SequenceOutcome(init);
      assert ErrorsOf(init) == ErrorsOf(steps)[..|init|];
      if exists k :: 0 <= k < |init| && init[k].threw {
        var k :| 0 <= k < |init| && init[k].threw;
        assert steps[k].threw;
      }
    }
  }

  /** Once a step has thrown, later steps change nothing. */
  lemma {:induction false} SequenceThrown(steps: seq<Outcome>, i: nat)
    requires i <= |steps| && Sequence(steps[..i]).threw
    ensures Sequence(steps) == Sequence(steps[..i])
    decreases |steps| - i
  {
    if i < |steps| {
      SequenceSnoc(steps, i);
      SequenceThrown(steps, i + 1);
    } else {
      assert steps[..i] == steps;
    }
  }

  /** Every error of a sequence of steps is an error of one of the steps. */
  lemma {:induction false} SequenceMember(steps: seq<Outcome>, e: ErrorEntry)
    requires e in Sequence(steps).errors
    ensures exists k :: 0 <= k < |steps| && e in steps[k].errors
  {
    var init := steps[..|steps| - 1];
    if !Sequence(init).threw && e !in Sequence(init).errors {
      assert e in steps[|steps| - 1].errors;
    } else {
      SequenceMember(init, e);
      var k :| 0 <= k < |init| && e in init[k].errors;
      assert steps[k] == init[k];
    }
  }

  /** One more step: it runs only when no earlier one threw. */
  lemma SequenceSnoc(steps: seq<Outcome>, i: nat)
    requires i < |steps|
    ensures Sequence(steps[..i + 1]) ==
      if Sequence(steps[..i]).threw then Sequence(steps[..i])
      else Outcome(Sequence(steps[..i]).errors + steps[i].errors, steps[i].threw)
  {
    assert steps[..i + 1][..i] == steps[..i];
  }

  /** Every finding names an entity at or below `path`. */
  predicate Under(e: ErrorEntry, path: string)
  {
    e.annotationPath.Some? && StartsWith(e.annotationPath.value, path)
  }

  /** Every `@type` met anywhere in the value is a string or an array of strings (or absent). */
  predicate TypesWellFormed(v: Json)
  {
    match v
    case Obj(members) =>
      var t := Get(v, "@type");
      (t.Undefined? || t.Str? || (t.Arr? && forall j :: 0 <= j < |t.elems| ==> IsString(t.elems[j]))) &&
      forall i :: 0 <= i < |members| ==> TypesWellFormed(members[i].value)
    case Arr(elems) => forall i :: 0 <= i < |elems| ==> TypesWellFormed(elems[i])
    case _ => true
  }

  /** An entry whose severity makes the annotation invalid. */
  predicate IsBlocking(e: ErrorEntry)
  {
    e.severity == Error || e.severity == Critical
  }

  // ---------------------------------------------------------------------
  // GeneralVerificationReport

  datatype VerificationResult = Valid | ValidWithWarnings | Invalid

  datatype GeneralVerificationReport = GeneralVerificationReport(
    verificationResult: VerificationResult,
    name: Option<string>,
    description: Option<string>,
    errors: seq<ErrorEntry>)

  /** `new GeneralVerificationReport(verificationResult, name, description, errors)`. */
  function NewReport(verificationResult: VerificationResult, name: Option<string>,
                     description: Option<string>, errors: seq<ErrorEntry>): (r: GeneralVerificationReport)
    ensures r.verificationResult == verificationResult && r.errors == errors
    ensures r.name == name && r.description == description
  {
    GeneralVerificationReport(verificationResult, name, description, errors)
  }
}

=== FILE: frontend_explain.dfy ===
/**
 * The additional explanation of an error entry
 * (frontend/scripts/errorExplain.js): which explanation an entry gets, the
 * "did you mean" suggestions offered for an unknown class or property, and
 * the property named at the end of an annotation path.
 */
module ErrorExplain {
  import opened JsStrings
  import opened JsValues
  import opened ErrorEntries
  import opened LevDistance

  // ---------------------------------------------------------------------
  // createExplainHTML

  /** The explanation builders, one per `createExplainHTML_...` function. */
  datatype Builder =
    | Explain999 | Explain201 | Explain101 | Explain203 | Explain204 | Explain205 | Explain206
    | Explain207 | Explain300Id | Explain300TrailingSpaces | Explain302 | Explain303 | Explain305
    | Explain306 | Explain307 | Explain309

  /** What an entry gets: the HTML of a builder, or a plain message. */
  datatype Explanation = Built(builder: Builder) | Plain(text: string)

  const NoExplanation := "No explanation for this error available."
  const NonIdealContext := "Non-ideal @context"
  const UnknownRange := "Unknown range"
  const TrailingSpaces := "Trailing spaces"

  /** The codes that have a `case` of their own in the dispatch. */
  const CodesWithCase: set<int> :=
    {999, 201, 202, 301, 101, 102, 103, 203, 204, 205, 206, 207, 300, 302, 303, 305, 306, 307, 309}

  /** `createExplainHTML`: the builder for the entry's code; code 300 is told apart by the entry's name. */
  function CreateExplainHTML(e: ErrorEntry): Explanation
  {
    match e.errorCode
    case 999 => Built(Explain999)
    case 201 | 202 | 301 => Built(Explain201)
    case 101 | 102 | 103 => Built(Explain101)
    case 203 => Built(Explain203)
    case 204 => Built(Explain204)
    case 205 => Built(Explain205)
    case 206 => Built(Explain206)
    case 207 => Built(Explain207)
    case 300 =>
      if e.name == Some(NonIdealContext) then Built(Explain201)
      else if e.name == Some(UnknownRange) then Built(Explain300Id)
      else if e.name == Some(TrailingSpaces) then Built(Explain300TrailingSpaces)
      else Plain(NoExplanation)
    case 302 => Built(Explain302)
    case 303 => Built(Explain303)
    case 305 => Built(Explain305)
    case 306 => Built(Explain306)
    case 307 => Built(Explain307)
    case 309 => Built(Explain309)
    case _ => Plain(NoExplanation)
  }

  /**
   * The fallback message is given exactly to codes without a case and to
   * code 300 under a name it does not know; the context builder is shared
   * by 201, 202, 301 and 300 "Non-ideal @context", the syntax builder by
   * 101, 102 and 103, and every other builder serves one code.
   */
  lemma ExplainDispatch(e: ErrorEntry)
    ensures CreateExplainHTML(e).Plain? ==> CreateExplainHTML(e).text == NoExplanation
    ensures CreateExplainHTML(e).Plain? <==>
      e.errorCode !in CodesWithCase
      || (e.errorCode == 300 && e.name != Some(NonIdealContext) && e.name != Some(UnknownRange)
          && e.name != Some(TrailingSpaces))
    ensures CreateExplainHTML(e) == Built(Explain201) <==>
      e.errorCode in {201, 202, 301} || (e.errorCode == 300 && e.name == Some(NonIdealContext))
    ensures CreateExplainHTML(e) == Built(Explain101) <==> e.errorCode in {101, 102, 103}
    ensures CreateExplainHTML(e) == Built(Explain302) <==> e.errorCode == 302
    ensures CreateExplainHTML(e) == Built(Explain303) <==> e.errorCode == 303
    ensures CreateExplainHTML(e) == Built(Explain300Id) <==> e.errorCode == 300 && e.name == Some(UnknownRange)
  {
  }

  // ---------------------------------------------------------------------
  // Similar terms (createExplainHTML_302 and createExplainHTML_303)

  /** An entry of the suggestion list: `{iri, distance}`. */
  datatype Suggestion = Suggestion(iri: string, distance: nat)

  /** `similarMatches.find(el => el.iri === c)` finds an entry. */
  predicate HasIri(matches: seq<Suggestion>, c: string)
  {
    exists k :: 0 <= k < |matches| && matches[k].iri == c
  }

  /** The loop's body for one term of a pass: listed with its distance when under the threshold and not yet listed. */
  function AddSimilar(value: string, matches: seq<Suggestion>, c: string, threshold: int): seq<Suggestion>
  {
    var d := Distance(value, c);
    if d < threshold && !HasIri(matches, c) then matches + [Suggestion(c, d)] else matches
  }

  /** One pass over the terms from index `i` on. */
  function PassFrom(value: string, terms: seq<string>, threshold: int, matches: seq<Suggestion>, i: nat): seq<Suggestion>
    requires i <= |terms|
    decreases |terms| - i
  {
    if i == |terms| then matches
    else PassFrom(value, terms, threshold, AddSimilar(value, matches, terms[i], threshold), i + 1)
  }

  /** Some two terms differ; with fewer the loop never ends. */
  predicate TwoDistinct(terms: seq<string>)
  {
    exists i, j :: 0 <= i < |terms| && 0 <= j < |terms| && terms[i] != terms[j]
  }

  /** The greatest distance of a term from the value. */
  function MaxDistance(value: string, terms: seq<string>): (r: nat)
    ensures forall c :: c in terms ==> Distance(value, c) <= r
  {
    if |terms| == 0 then 0
    else
      var rest := MaxDistance(value, terms[1..]);
      assert forall c :: c in terms ==> c == terms[0] || c in terms[1..];
      if Distance(value, terms[0]) > rest then Distance(value, terms[0]) else rest
  }

  /** No threshold the loop reaches goes beyond this one. */
  function Bound(value: string, terms: seq<string>): int
  {
    if MaxDistance(value, terms) + 1 > 4 then MaxDistance(value, terms) + 1 else 4
  }

  /** The passes from `threshold` on, until at least two terms are listed. */
  function Gathered(value: string, terms: seq<string>, threshold: int, matches: seq<Suggestion>): seq<Suggestion>
    requires TwoDistinct(terms) && 4 <= threshold <= Bound(value, terms)
    decreases Bound(value, terms) - threshold
  {
    var m := PassFrom(value, terms, threshold, matches, 0);
    if |m| >= 2 then m
    else
      PassFacts(value, terms, threshold, matches, 0);
      MoreThresholds(value, terms, threshold, m);
      Gathered(value, terms, threshold + 1, m)
  }

  /** The suggestions the loop gathers. */
  function Suggestions(value: string, terms: seq<string>): seq<Suggestion>
    requires TwoDistinct(terms)
  {
    Gathered(value, terms, 4, [])
  }

  predicate NoDuplicateIris(matches: seq<Suggestion>)
  {
    forall k, l :: 0 <= k < l < |matches| ==> matches[k].iri != matches[l].iri
  }

  /** Every entry is a term with its own distance. */
  predicate Measured(value: string, terms: seq<string>, matches: seq<Suggestion>)
  {
    forall k :: 0 <= k < |matches| ==> matches[k].iri in terms && matches[k].distance == Distance(value, matches[k].iri)
  }

  predicate Below(matches: seq<Suggestion>, threshold: int)
  {
    forall k :: 0 <= k < |matches| ==> matches[k].distance < threshold
  }

  predicate Sound(value: string, terms: seq<string>, matches: seq<Suggestion>, threshold: int)
  {
    NoDuplicateIris(matches) && Measured(value, terms, matches) && Below(matches, threshold)
  }

  lemma HasIriPrefix(matches: seq<Suggestion>, r: seq<Suggestion>, c: string)
    requires matches <= r && HasIri(matches, c)
    ensures HasIri(r, c)
  {
    var k :| 0 <= k < |matches| && matches[k].iri == c;
    assert r[k] == matches[k];
  }

  /** A pass extends the list and lists every term closer than the threshold. */
  lemma {:induction false} PassFacts(value: string, terms: seq<string>, threshold: int, matches: seq<Suggestion>, i: nat)
    requires i <= |terms|
    ensures matches <= PassFrom(value, terms, threshold, matches, i)
    ensures forall k :: i <= k < |terms| && Distance(value, terms[k]) < threshold ==>
      HasIri(PassFrom(value, terms, threshold, matches, i), terms[k])
    decreases |terms| - i
  {
    if i < |terms| {
      var next := AddSimilar(value, matches, terms[i], threshold);
      PassFacts(value, terms, threshold, next, i + 1);
      var r := PassFrom(value, terms, threshold, next, i + 1);
      if Distance(value, terms[i]) < threshold {
        assert HasIri(next, terms[i]) by {
          if !HasIri(matches, terms[i]) {
            assert next[|matches|].iri == terms[i];
          }
        }
        HasIriPrefix(next, r, terms[i]);
      }
    }
  }

  /** A pass keeps the list sound. */
  lemma {:induction false} PassSound(value: string, terms: seq<string>, threshold: int, matches: seq<Suggestion>, i: nat)
    requires i <= |terms| && Sound(value, terms, matches, threshold)
    ensures Sound(value, terms, PassFrom(value, terms, threshold, matches, i), threshold)
    decreases |terms| - i
  {
    if i < |terms| {
      var next := AddSimilar(value, matches, terms[i], threshold);
      if next != matches {
        forall k | 0 <= k < |matches| ensures matches[k].iri != terms[i] {
          if matches[k].iri == terms[i] {
            assert HasIri(matches, terms[i]);
          }
        }
        assert terms[i] in terms;
      }
      PassSound(value, terms, threshold, next, i + 1);
    }
  }

  lemma TwoIris(matches: seq<Suggestion>, a: string, b: string)
    requires HasIri(matches, a) && HasIri(matches, b) && a != b
    ensures |matches| >= 2
  {
  }

  /** A pass that leaves fewer than two entries ran under a threshold some term is not below. */
  lemma MoreThresholds(value: string, terms: seq<string>, threshold: int, m: seq<Suggestion>)
    requires TwoDistinct(terms) && 4 <= threshold <= Bound(value, terms)
    requires forall k :: 0 <= k < |terms| && Distance(value, terms[k]) < threshold ==> HasIri(m, terms[k])
    requires |m| < 2
    ensures threshold + 1 <= Bound(value, terms)
  {
    var i, j :| 0 <= i < |terms| && 0 <= j < |terms| && terms[i] != terms[j];
    if threshold >= Bound(value, terms) {
      assert terms[i] in terms && terms[j] in terms;
      TwoIris(m, terms[i], terms[j]);
    }
  }

  /** Every term left out is farther than every term listed. */
  predicate Closest(value: string, terms: seq<string>, matches: seq<Suggestion>)
  {
    forall k, c :: 0 <= k < |matches| && c in terms && !HasIri(matches, c) ==> matches[k].distance < Distance(value, c)
  }

  /**
   * The gathered list has at least two entries, lists no term twice, gives
   * each term its own distance, and lists every term closer than one it
   * lists.
   */
  lemma {:induction false} GatheredFacts(value: string, terms: seq<string>, threshold: int, matches: seq<Suggestion>)
    requires TwoDistinct(terms) && 4 <= threshold <= Bound(value, terms)
    requires Sound(value, terms, matches, threshold)
    ensures var r := Gathered(value, terms, threshold, matches);
      |r| >= 2 && NoDuplicateIris(r) && Measured(value, terms, r) && Closest(value, terms, r)
    decreases Bound(value, terms) - threshold
  {
    var m := PassFrom(value, terms, threshold, matches, 0);
    PassFacts(value, terms, threshold, matches, 0);
    PassSound(value, terms, threshold, matches, 0);
    if |m| >= 2 {
      forall k, c | 0 <= k < |m| && c in terms && !HasIri(m, c) ensures m[k].distance < Distance(value, c) {
        var j :| 0 <= j < |terms| && terms[j] == c;
      }
    } else {
      MoreThresholds(value, terms, threshold, m);
      GatheredFacts(value, terms, threshold + 1, m);
    }
  }

  // The best match

  /** `similarityMatch` and `match`: the smallest distance seen so far and the term that first had it. */
  datatype Best = Best(distance: int, term: Option<string>)

  const NoMatch := Best(1000, None)

  /** The updates of `similarityMatch` and `match` over the terms from index `i` on. */
  function MatchFrom(value: string, terms: seq<string>, i: nat, b: Best): Best
    requires i <= |terms|
    decreases |terms| - i
  {
    if i == |terms| then b
    else
      var d := Distance(value, terms[i]);
      MatchFrom(value, terms, i + 1, if d < b.distance then Best(d, Some(terms[i])) else b)
  }

  /** `match` after the loop. */
  function BestMatch(value: string, terms: seq<string>): Option<string>
  {
    MatchFrom(value, terms, 0, NoMatch).term
  }

  /** The fold ends with no greater distance than it started, at most every distance it met, and either unchanged or at the first term with that distance. */
  lemma {:induction false} MatchFromFacts(value: string, terms: seq<string>, i: nat, b: Best)
    requires i <= |terms|
    ensures var r := MatchFrom(value, terms, i, b);
      r.distance <= b.distance
      && (forall j :: i <= j < |terms| ==> r.distance <= Distance(value, terms[j]))
      && (r == b || exists k :: (i <= k < |terms| && r == Best(Distance(value, terms[k]), Some(terms[k]))
            && Distance(value, terms[k]) < b.distance
            && forall j :: i <= j < k ==> Distance(value, terms[j]) > r.distance))
    decreases |terms| - i
  {
    if i < |terms| {
      var d := Distance(value, terms[i]);
      var next := if d < b.distance then Best(d, Some(terms[i])) else b;
      MatchFromFacts(value, terms, i + 1, next);
      var r := MatchFrom(value, terms, i + 1, next);
      if r == next && next != b {
        assert i <= i < |terms| && r == Best(Distance(value, terms[i]), Some(terms[i]));
      } else if r != next {
        var k :| i + 1 <= k < |terms| && r == Best(Distance(value, terms[k]), Some(terms[k]))
          && Distance(value, terms[k]) < next.distance
          && forall j :: i + 1 <= j < k ==> Distance(value, terms[j]) > r.distance;
        assert forall j :: i <= j < k ==> Distance(value, terms[j]) > r.distance;
      }
    }
  }

  /**
   * `match` is the first term, in list order, at the smallest distance, and
   * it stays unset exactly when every term is 1000 or more away.
   */
  lemma BestMatchIsFirstClosest(value: string, terms: seq<string>)
    ensures BestMatch(value, terms).None? <==> forall j :: 0 <= j < |terms| ==> Distance(value, terms[j]) >= 1000
    ensures BestMatch(value, terms).Some? ==>
      exists k :: 0 <= k < |terms| && BestMatch(value, terms) == Some(terms[k])
        && (forall j :: 0 <= j < |terms| ==> Distance(value, terms[k]) <= Distance(value, terms[j]))
        && (forall j :: 0 <= j < k ==> Distance(value, terms[j]) > Distance(value, terms[k]))
  {
    MatchFromFacts(value, terms, 0, NoMatch);
  }

  /** A further pass changes neither `similarityMatch` nor `match`. */
  lemma MatchSettled(value: string, terms: seq<string>)
    ensures MatchFrom(value, terms, 0, MatchFrom(value, terms, 0, NoMatch)) == MatchFrom(value, terms, 0, NoMatch)
  {
    var m := MatchFrom(value, terms, 0, NoMatch);
    MatchFromFacts(value, terms, 0, NoMatch);
    MatchFromFacts(value, terms, 0, m);
  }

  // Sorting and truncation

  /** Inserts behind every entry with a smaller iri (the comparator `a.iri < b.iri ? -1 : 1`). */
  function InsertByIri(sorted: seq<Suggestion>, x: Suggestion): (r: seq<Suggestion>)
    ensures multiset(r) == multiset(sorted) + multiset{x}
  {
    if |sorted| == 0 then [x]
    else if Less(sorted[|sorted| - 1].iri, x.iri) then sorted + [x]
    else
      assert sorted == sorted[..|sorted| - 1] + [sorted[|sorted| - 1]];
      InsertByIri(sorted[..|sorted| - 1], x) + [sorted[|sorted| - 1]]
  }

  /** The first `sort`, by iri. */
  function SortByIri(s: seq<Suggestion>): (r: seq<Suggestion>)
    ensures multiset(r) == multiset(s)
  {
    if |s| == 0 then []
    else
      assert s == s[..|s| - 1] + [s[|s| - 1]];
      InsertByIri(SortByIri(s[..|s| - 1]), s[|s| - 1])
  }

  /** Inserts behind every entry at the same or a smaller distance, so equal distances keep their order. */
  function InsertByDistance(sorted: seq<Suggestion>, x: Suggestion): (r: seq<Suggestion>)
    ensures multiset(r) == multiset(sorted) + multiset{x}
  {
    if |sorted| == 0 then [x]
    else if sorted[|sorted| - 1].distance <= x.distance then sorted + [x]
    else
      assert sorted == sorted[..|sorted| - 1] + [sorted[|sorted| - 1]];
      InsertByDistance(sorted[..|sorted| - 1], x) + [sorted[|sorted| - 1]]
  }

  /** The second `sort`, by distance, stable. */
  function SortByDistance(s: seq<Suggestion>): (r: seq<Suggestion>)
    ensures multiset(r) == multiset(s)
  {
    if |s| == 0 then []
    else
      assert s == s[..|s| - 1] + [s[|s| - 1]];
      InsertByDistance(SortByDistance(s[..|s| - 1]), s[|s| - 1])
  }

  const MaxSuggestions := 6

  /** `slice(0, 6)` when there are more than six. */
  function Truncated(s: seq<Suggestion>): seq<Suggestion>
  {
    if |s| > MaxSuggestions then s[..MaxSuggestions] else s
  }

  /** The suggestions shown. */
  function Ranked(value: string, terms: seq<string>): seq<Suggestion>
    requires TwoDistinct(terms)
  {
    Truncated(SortByDistance(SortByIri(Suggestions(value, terms))))
  }

  predicate IriSorted(s: seq<Suggestion>)
  {
    forall i, j :: 0 <= i < j < |s| ==> Less(s[i].iri, s[j].iri)
  }

  /** Closer first; at the same distance, the smaller iri first. */
  predicate Before(a: Suggestion, b: Suggestion)
  {
    a.distance < b.distance || (a.distance == b.distance && Less(a.iri, b.iri))
  }

  predicate RankSorted(s: seq<Suggestion>)
  {
    forall i, j :: 0 <= i < j < |s| ==> Before(s[i], s[j])
  }

  lemma {:induction false} InsertByIriSorted(sorted: seq<Suggestion>, x: Suggestion)
    requires IriSorted(sorted)
    requires forall y :: y in sorted ==> y.iri != x.iri
    ensures IriSorted(InsertByIri(sorted, x))
    decreases |sorted|
  {
    if |sorted| > 0 {
      var n := |sorted| - 1;
      var last := sorted[n];
      var front := sorted[..n];
      IriFrontBelowLast(sorted, x);
      if Less(last.iri, x.iri) {
        IriAllBelow(sorted, x);
        AppendIriSorted(sorted, x);
      } else {
        assert last in sorted;
        LessTotal(last.iri, x.iri);
        InsertByIriSorted(front, x);
        InsertedBelowLast(front, x, last);
        AppendIriSorted(InsertByIri(front, x), last);
      }
    }
  }

  /** Appending an entry whose iri follows every iri keeps the list ordered by iri. */
  lemma AppendIriSorted(s: seq<Suggestion>, z: Suggestion)
    requires IriSorted(s) && forall y :: y in s ==> Less(y.iri, z.iri)
    ensures IriSorted(s + [z])
  {
    var r := s + [z];
    forall i, j | 0 <= i < j < |r| ensures Less(r[i].iri, r[j].iri) {
      if j == |s| {
        assert r[i] in s;
      }
    }
  }

  /** In a list ordered by iri the front stays ordered, below the last iri, and clear of `x`'s iri. */
  lemma IriFrontBelowLast(sorted: seq<Suggestion>, x: Suggestion)
    requires |sorted| > 0 && IriSorted(sorted)
    requires forall y :: y in sorted ==> y.iri != x.iri
    ensures IriSorted(sorted[..|sorted| - 1])
    ensures forall y :: y in sorted[..|sorted| - 1] ==> y.iri != x.iri && Less(y.iri, sorted[|sorted| - 1].iri)
  {
    var n := |sorted| - 1;
    forall y | y in sorted[..n] ensures y.iri != x.iri && Less(y.iri, sorted[n].iri) {
      var k :| 0 <= k < n && sorted[..n][k] == y;
      assert sorted[k] == y;
    }
  }

  /** An iri after the last one of a list ordered by iri is after all of them. */
  lemma IriAllBelow(sorted: seq<Suggestion>, x: Suggestion)
    requires |sorted| > 0 && IriSorted(sorted) && Less(sorted[|sorted| - 1].iri, x.iri)
    ensures forall y :: y in sorted ==> Less(y.iri, x.iri)
  {
    var n := |sorted| - 1;
    forall y | y in sorted ensures Less(y.iri, x.iri) {
      var k :| 0 <= k < |sorted| && sorted[k] == y;
      if k < n {
        LessTransitive(sorted[k].iri, sorted[n].iri, x.iri);
      }
    }
  }

  /** Inserting an entry below `last` into entries all below `last` keeps them all below it. */
  lemma InsertedBelowLast(front: seq<Suggestion>, x: Suggestion, last: Suggestion)
    requires forall y :: y in front ==> Less(y.iri, last.iri)
    requires Less(x.iri, last.iri)
    ensures forall y :: y in InsertByIri(front, x) ==> Less(y.iri, last.iri)
  {
    var inserted := InsertByIri(front, x);
    forall y | y in inserted ensures Less(y.iri, last.iri) {
      assert y in multiset(inserted);
      if y != x {
        assert y in multiset(front);
      }
    }
  }

  /** With no iri listed twice, the first sort orders by iri. */
  lemma {:induction false} SortByIriSorted(s: seq<Suggestion>)
    requires NoDuplicateIris(s)
    ensures IriSorted(SortByIri(s))
    decreases |s|
  {
    if |s| > 0 {
      var n := |s| - 1;
      var front := s[..n];
      assert NoDuplicateIris(front) by {
        forall k, l | 0 <= k < l < |front| ensures front[k].iri != front[l].iri {
          assert front[k] == s[k] && front[l] == s[l];
        }
      }
      SortByIriSorted(front);
      SortedClearOfLast(s);
      InsertByIriSorted(SortByIri(front), s[n]);
    }
  }

  /** No entry of the sorted front of a list without repeated iris has the last entry's iri. */
  lemma SortedClearOfLast(s: seq<Suggestion>)
    requires |s| > 0 && NoDuplicateIris(s)
    ensures forall y :: y in SortByIri(s[..|s| - 1]) ==> y.iri != s[|s| - 1].iri
  {
    var n := |s| - 1;
    var front := s[..n];
    forall y | y in SortByIri(front) ensures y.iri != s[n].iri {
      assert y in multiset(SortByIri(front));
      assert y in multiset(front);
      var k :| 0 <= k < n && front[k] == y;
      assert s[k] == y;
    }
  }

  lemma {:induction false} InsertByDistanceSorted(sorted: seq<Suggestion>, x: Suggestion)
    requires RankSorted(sorted)
    requires forall y :: y in sorted ==> Less(y.iri, x.iri)
    ensures RankSorted(InsertByDistance(sorted, x))
    decreases |sorted|
  {
    if |sorted| > 0 {
      var n := |sorted| - 1;
      var last := sorted[n];
      var front := sorted[..n];
      FrontBeforeLast(sorted, x);
      if last.distance <= x.distance {
        assert forall y :: y in sorted ==> Before(y, x) by {
          AllBeforeLater(sorted, x);
        }
        AppendRankSorted(sorted, x);
      } else {
        InsertByDistanceSorted(front, x);
        InsertedBeforeLast(front, x, last);
        AppendRankSorted(InsertByDistance(front, x), last);
      }
    }
  }

  /** In a ranked list every entry but the last comes before the last, and the list's iris stay below `x`'s. */
  lemma FrontBeforeLast(sorted: seq<Suggestion>, x: Suggestion)
    requires |sorted| > 0 && RankSorted(sorted)
    requires forall y :: y in sorted ==> Less(y.iri, x.iri)
    ensures RankSorted(sorted[..|sorted| - 1])
    ensures forall y :: y in sorted[..|sorted| - 1] ==> Less(y.iri, x.iri) && Before(y, sorted[|sorted| - 1])
  {
    var n := |sorted| - 1;
    forall y | y in sorted[..n] ensures Less(y.iri, x.iri) && Before(y, sorted[n]) {
      var k :| 0 <= k < n && sorted[..n][k] == y;
      assert sorted[k] == y;
    }
  }

  /** An entry at no smaller distance than the last, with a greater iri than all, comes after every entry. */
  lemma AllBeforeLater(sorted: seq<Suggestion>, x: Suggestion)
    requires |sorted| > 0 && RankSorted(sorted)
    requires forall y :: y in sorted ==> Less(y.iri, x.iri)
    requires sorted[|sorted| - 1].distance <= x.distance
    ensures forall y :: y in sorted ==> Before(y, x)
  {
    var n := |sorted| - 1;
    forall y | y in sorted ensures Before(y, x) {
      var k :| 0 <= k < |sorted| && sorted[k] == y;
      if k < n {
        assert Before(sorted[k], sorted[n]);
      }
    }
  }

  /** Inserting an entry closer than `last` into entries all before `last` keeps them all before it. */
  lemma InsertedBeforeLast(front: seq<Suggestion>, x: Suggestion, last: Suggestion)
    requires forall y :: y in front ==> Before(y, last)
    requires x.distance < last.distance
    ensures forall y :: y in InsertByDistance(front, x) ==> Before(y, last)
  {
    var inserted := InsertByDistance(front, x);
    forall y | y in inserted ensures Before(y, last) {
      assert y in multiset(inserted);
      if y != x {
        assert y in multiset(front);
      }
    }
  }

  /** Appending an entry that every entry comes before keeps the order. */
  lemma AppendRankSorted(s: seq<Suggestion>, z: Suggestion)
    requires RankSorted(s) && forall y :: y in s ==> Before(y, z)
    ensures RankSorted(s + [z])
  {
    var r := s + [z];
    forall i, j | 0 <= i < j < |r| ensures Before(r[i], r[j]) {
      if j == |s| {
        assert r[i] in s;
      }
    }
  }

  /** The stable sort by distance of a list ordered by iri orders by distance, then iri. */
  lemma {:induction false} SortByDistanceRanks(s: seq<Suggestion>)
    requires IriSorted(s)
    ensures RankSorted(SortByDistance(s))
    decreases |s|
  {
    if |s| > 0 {
      var n := |s| - 1;
      var front := s[..n];
      SortByDistanceRanks(front);
      forall y | y in SortByDistance(front) ensures Less(y.iri, s[n].iri) {
        assert y in multiset(front);
        var k :| 0 <= k < n && front[k] == y;
      }
      InsertByDistanceSorted(SortByDistance(front), s[n]);
    }
  }

  /** The sorted list holds the gathered suggestions, no more and no fewer, closest first and by iri at equal distance. */
  lemma SortedSuggestions(value: string, terms: seq<string>)
    requires TwoDistinct(terms)
    ensures var g := Suggestions(value, terms);
      var sorted := SortByDistance(SortByIri(g));
      multiset(sorted) == multiset(g) && |sorted| == |g| && |g| >= 2 && RankSorted(sorted)
      && NoDuplicateIris(g) && Measured(value, terms, g) && Closest(value, terms, g)
  {
    var g := Suggestions(value, terms);
    GatheredFacts(value, terms, 4, []);
    SortByIriSorted(g);
    SortByDistanceRanks(SortByIri(g));
    var sorted := SortByDistance(SortByIri(g));
    assert |multiset(sorted)| == |multiset(g)|;
  }

  /**
   * The suggestions shown: two to six terms, closest first and by iri at
   * equal distance, each with its own distance, and no term left out is
   * closer than any term shown.
   */
  lemma RankedFacts(value: string, terms: seq<string>)
    requires TwoDistinct(terms)
    ensures var r := Ranked(value, terms);
      2 <= |r| <= MaxSuggestions
      && RankSorted(r)
      && (forall k :: 0 <= k < |r| ==> r[k].iri in terms && r[k].distance == Distance(value, r[k].iri))
      && (forall k, c :: 0 <= k < |r| && c in terms && !HasIri(r, c) ==> r[k].distance <= Distance(value, c))
  {
    var g := Suggestions(value, terms);
    var sorted := SortByDistance(SortByIri(g));
    SortedSuggestions(value, terms);
    var r := Truncated(sorted);
    assert r == Ranked(value, terms);
    assert r <= sorted && 2 <= |r| <= MaxSuggestions;
    assert RankSorted(r) by {
      forall i, j | 0 <= i < j < |r| ensures Before(r[i], r[j]) {
        assert r[i] == sorted[i] && r[j] == sorted[j];
      }
    }
    forall k | 0 <= k < |r| ensures r[k].iri in terms && r[k].distance == Distance(value, r[k].iri) {
      KeptMeasured(value, terms, g, sorted, r, k);
    }
    forall k, c | 0 <= k < |r| && c in terms && !HasIri(r, c) ensures r[k].distance <= Distance(value, c) {
      KeptCloser(value, terms, g, sorted, r, k, c);
    }
  }

  /** An entry kept by the truncation is a term at its own distance. */
  lemma KeptMeasured(value: string, terms: seq<string>, g: seq<Suggestion>, sorted: seq<Suggestion>, r: seq<Suggestion>,
                     k: nat)
    requires multiset(sorted) == multiset(g) && Measured(value, terms, g)
    requires r <= sorted && k < |r|
    ensures r[k].iri in terms && r[k].distance == Distance(value, r[k].iri)
  {
    assert r[k] == sorted[k];
    assert r[k] in multiset(g);
    InGathered(g, r[k]);
  }

  lemma InGathered(g: seq<Suggestion>, x: Suggestion)
    requires x in multiset(g)
    ensures exists l :: 0 <= l < |g| && g[l] == x
  {
  }

  /** An entry kept by the truncation is no farther than a term the list leaves out. */
  lemma KeptCloser(value: string, terms: seq<string>, g: seq<Suggestion>, sorted: seq<Suggestion>, r: seq<Suggestion>,
                   k: nat, c: string)
    requires multiset(sorted) == multiset(g) && RankSorted(sorted) && Measured(value, terms, g) && Closest(value, terms, g)
    requires r <= sorted && k < |r| && c in terms && !HasIri(r, c)
    ensures r[k].distance <= Distance(value, c)
  {
    assert r[k] in multiset(g);
    var l :| 0 <= l < |g| && g[l] == r[k];
    if HasIri(g, c) {
      var m :| 0 <= m < |g| && g[m].iri == c;
      assert g[m] in multiset(sorted);
      var p :| 0 <= p < |sorted| && sorted[p] == g[m];
      if p >= |r| {
        assert Before(sorted[k], sorted[p]);
      }
    }
  }

  /**
   * The loop of `createExplainHTML_302`/`_303` and the sort and slice after
   * it: passes over the terms with a threshold from 4 up, one higher per
   * pass, until two terms are listed, keeping the closest term seen as
   * `match`.
   */
  method SuggestSimilar(value: string, terms: seq<string>) returns (bestMatch: Option<string>, suggestions: seq<Suggestion>)
    requires TwoDistinct(terms)
    ensures bestMatch == BestMatch(value, terms)
    ensures suggestions == Ranked(value, terms)
  {
    var similarityThreshold := 4;
    var similarityMatch := 1000;
    bestMatch := None;
    var similarMatches: seq<Suggestion> := [];
    var enough := false;
    while !enough
      invariant 4 <= similarityThreshold
      invariant enough ==> similarityThreshold > 4
      invariant !enough ==> similarityThreshold <= Bound(value, terms)
      invariant !enough ==> Gathered(value, terms, similarityThreshold, similarMatches) == Suggestions(value, terms)
      invariant enough ==> similarMatches == Suggestions(value, terms)
      invariant similarityThreshold == 4 ==> Best(similarityMatch, bestMatch) == NoMatch
      invariant similarityThreshold > 4 ==> Best(similarityMatch, bestMatch) == MatchFrom(value, terms, 0, NoMatch)
      decreases if enough then 0 else 1, Bound(value, terms) - similarityThreshold
    {
      ghost var startMatches := similarMatches;
      ghost var startBest := Best(similarityMatch, bestMatch);
      for i := 0 to |terms|
        invariant PassFrom(value, terms, similarityThreshold, similarMatches, i)
          == PassFrom(value, terms, similarityThreshold, startMatches, 0)
        invariant MatchFrom(value, terms, i, Best(similarityMatch, bestMatch)) == MatchFrom(value, terms, 0, startBest)
      {
        var c := terms[i];
        var actualDistance := LevDist(value, c);
        if actualDistance < similarityMatch {
          similarityMatch := actualDistance;
          bestMatch := Some(c);
        }
        if actualDistance < similarityThreshold && !HasIri(similarMatches, c) {
          similarMatches := similarMatches + [Suggestion(c, actualDistance)];
        }
      }
      if similarityThreshold > 4 {
        MatchSettled(value, terms);
      }
      if |similarMatches| < 2 {
        PassFacts(value, terms, similarityThreshold, startMatches, 0);
        MoreThresholds(value, terms, similarityThreshold, similarMatches);
      }
      similarityThreshold := similarityThreshold + 1;
      enough := |similarMatches| >= 2;
    }
    suggestions := SortByDistance(SortByIri(similarMatches));
    if |suggestions| > MaxSuggestions {
      suggestions := suggestions[..MaxSuggestions];
    }
  }

  // ---------------------------------------------------------------------
  // discoverLastUsedProperty

  const SchemaPrefix := "schema:"

  /** The property named last in an annotation path: from the last "schema:" up to a later "/", or to the end. */
  function DiscoverLastUsedProperty(path: string): string
  {
    var firstIndex := LastIndexOf(path, SchemaPrefix);
    var lastIndex := LastIndexOf(path, "/");
    if lastIndex < firstIndex then Substring(path, firstIndex, |path|) else Substring(path, firstIndex, lastIndex)
  }

  /**
   * From the last "schema:" on, the text runs up to the last "/" when that
   * comes later and to the end of the path otherwise, and it starts with
   * "schema:"; without "schema:" it is the text before the last "/".
   */
  lemma LastUsedPropertyCases(path: string)
    ensures var f := LastIndexOf(path, SchemaPrefix);
      var l := LastIndexOf(path, "/");
      (0 <= f && l < f ==> DiscoverLastUsedProperty(path) == path[f..])
      && (0 <= f < l ==> DiscoverLastUsedProperty(path) == path[f..l])
      && (0 <= f ==> StartsWith(DiscoverLastUsedProperty(path), SchemaPrefix))
      && (f == -1 ==> DiscoverLastUsedProperty(path) == path[..if l < 0 then 0 else l])
  {
    var f := LastIndexOf(path, SchemaPrefix);
    var l := LastIndexOf(path, "/");
    if 0 <= f {
      assert OccursAt(path, SchemaPrefix, f);
      if f < l {
        assert OccursAt(path, "/", l);
        assert l >= f + 7 by { SlashAfterPrefix(path, f, l); }
        PrefixedSlice(path, f, l);
      } else {
        assert l != f by {
          assert path[f..f + 7] == SchemaPrefix && path[f] == 's';
          if 0 <= l {
            assert OccursAt(path, "/", l) && path[l..l + 1] == "/";
          }
        }
        PrefixedSlice(path, f, |path|);
      }
    }
  }

  /** A slice of the path that starts at an occurrence of "schema:" and ends past it starts with "schema:". */
  lemma PrefixedSlice(path: string, f: int, e: int)
    requires OccursAt(path, SchemaPrefix, f) && f + 7 <= e <= |path|
    ensures Substring(path, f, e) == path[f..e]
    ensures StartsWith(path[f..e], SchemaPrefix)
  {
    assert path[f..e][..7] == path[f..f + 7];
  }

  /** A "/" after the start of a "schema:" lies past its end, as "schema:" holds no "/". */
  lemma SlashAfterPrefix(path: string, f: int, l: int)
    requires f < l && OccursAt(path, SchemaPrefix, f) && OccursAt(path, "/", l)
    ensures l >= f + 7
  {
    assert path[f..f + 7] == SchemaPrefix;
    assert path[l..l + 1] == "/";
    assert path[l] == '/';
    forall k | f <= k < f + 7 && k < |path| ensures path[k] != '/' {
      assert path[k] == SchemaPrefix[k - f];
    }
  }
}

=== FILE: frontend_helper.dfy ===
/**
 * The helper functions of the frontend (frontend/scripts/helper.js): the
 * flattening of an extraction result into annotation entries, the guess
 * whether a text is JSON, the 32-bit string hash, the readable form of an
 * annotation path and of a type.
 */
module FrontendHelper {
  import opened JsStrings
  import opened JsValues
  import opened VerificationUtilities
  import opened FrontendUtilities

  // ---------------------------------------------------------------------
  // transformSemanticExtraction

  /** The annotations found under one key of an extraction (an array in the source). */
  datatype Group = Group(key: string, items: seq<Json>)

  /** A JSON-LD script that did not parse: its text and the parser's message. */
  datatype FailedJsonLd = FailedJsonLd(failedJSONLD: string, message: Json)

  /** The result of the extraction service; each object is listed in `Object.keys` order. */
  datatype Extraction = Extraction(
    jsonld: seq<Group>,
    jsonldFailed: seq<FailedJsonLd>,
    microdata: seq<Group>,
    rdfa: seq<Group>)

  /** One entry of the frontend's annotation list; `error` is present for failed JSON-LD only. */
  datatype AnnotationEntry = AnnotationEntry(markup: string, annotationType: Json, content: Json, error: Option<Json>)

  const JsonLdMarkup := "jsonld"
  const InvalidJsonLdMarkup := "invalid jsonld"
  const MicrodataMarkup := "microdata"
  const RdfaMarkup := "rdfa"
  const SchemaOrg := "schema.org"

  /** Reading `item["@type"]` throws on null and undefined; the extraction yields neither. */
  predicate Readable(groups: seq<Group>)
  {
    forall g, j :: 0 <= g < |groups| && 0 <= j < |groups[g].items| ==>
      !groups[g].items[j].Undefined? && !groups[g].items[j].Null?
  }

  lemma ReadablePrefix(groups: seq<Group>, n: nat)
    requires Readable(groups) && n <= |groups|
    ensures Readable(groups[..n])
  {
    forall g, j | 0 <= g < n && 0 <= j < |groups[..n][g].items|
      ensures !groups[..n][g].items[j].Undefined? && !groups[..n][g].items[j].Null?
    {
      assert groups[..n][g] == groups[g];
    }
  }

  /** All annotations of all groups, group after group. */
  function Items(groups: seq<Group>): seq<Json>
  {
    if |groups| == 0 then [] else Items(groups[..|groups| - 1]) + groups[|groups| - 1].items
  }

  lemma {:induction false} ItemsReadable(groups: seq<Group>)
    requires Readable(groups)
    ensures forall k :: 0 <= k < |Items(groups)| ==> !Items(groups)[k].Undefined? && !Items(groups)[k].Null?
    decreases |groups|
  {
    if |groups| > 0 {
      var init := groups[..|groups| - 1];
      ReadablePrefix(groups, |groups| - 1);
      ItemsReadable(init);
    }
  }

  /** The entry made of an annotation found with the given markup. */
  function Typed(markup: string, item: Json): AnnotationEntry
    requires !item.Undefined? && !item.Null?
  {
    AnnotationEntry(markup, Index(item, "@type"), item, None)
  }

  /** The entries made of a list of groups, in order. */
  function GroupEntries(groups: seq<Group>, markup: string): (r: seq<AnnotationEntry>)
    requires Readable(groups)
  {
    if |groups| == 0 then []
    else
      var init := groups[..|groups| - 1];
      var items := groups[|groups| - 1].items;
      ReadablePrefix(groups, |groups| - 1);
      GroupEntries(init, markup)
        + seq(|items|, j requires 0 <= j < |items| && !items[j].Undefined? && !items[j].Null? => Typed(markup, items[j]))
  }

  /** One entry per annotation, in order, carrying that annotation and its `@type`. */
  lemma {:induction false} GroupEntriesItems(groups: seq<Group>, markup: string)
    requires Readable(groups)
    ensures ItemsReadableFact(groups)
    ensures |GroupEntries(groups, markup)| == |Items(groups)|
    ensures forall k :: 0 <= k < |Items(groups)| ==>
      GroupEntries(groups, markup)[k] == AnnotationEntry(markup, Index(Items(groups)[k], "@type"), Items(groups)[k], None)
    decreases |groups|
  {
    ItemsReadable(groups);
    if |groups| > 0 {
      var init := groups[..|groups| - 1];
      ReadablePrefix(groups, |groups| - 1);
      GroupEntriesItems(init, markup);
      GroupEntriesSnoc(groups, markup);
    }
  }

  /** The step of `GroupEntriesItems`: a last group's entries follow those of the groups before it. */
  lemma GroupEntriesSnoc(groups: seq<Group>, markup: string)
    requires Readable(groups) && |groups| > 0
    requires Readable(groups[..|groups| - 1]) && ItemsReadableFact(groups[..|groups| - 1]) && ItemsReadableFact(groups)
    requires var init := groups[..|groups| - 1];
      |GroupEntries(init, markup)| == |Items(init)| &&
      forall k :: 0 <= k < |Items(init)| ==>
        GroupEntries(init, markup)[k] == AnnotationEntry(markup, Index(Items(init)[k], "@type"), Items(init)[k], None)
    ensures |GroupEntries(groups, markup)| == |Items(groups)|
    ensures forall k :: 0 <= k < |Items(groups)| ==>
      GroupEntries(groups, markup)[k] == AnnotationEntry(markup, Index(Items(groups)[k], "@type"), Items(groups)[k], None)
  {
    var init := groups[..|groups| - 1];
    var items := groups[|groups| - 1].items;
    var n := |Items(init)|;
    assert Items(groups) == Items(init) + items;
    forall k | 0 <= k < |Items(groups)|
      ensures GroupEntries(groups, markup)[k] == AnnotationEntry(markup, Index(Items(groups)[k], "@type"), Items(groups)[k], None)
    {
      if k < n {
        assert GroupEntries(groups, markup)[k] == GroupEntries(init, markup)[k];
        assert Items(groups)[k] == Items(init)[k];
      } else {
        assert Items(groups)[k] == items[k - n];
      }
    }
  }

  predicate ItemsReadableFact(groups: seq<Group>)
  {
    forall k :: 0 <= k < |Items(groups)| ==> !Items(groups)[k].Undefined? && !Items(groups)[k].Null?
  }

  /** The entry of a failed JSON-LD script. */
  function Invalid(failed: FailedJsonLd): AnnotationEntry
  {
    AnnotationEntry(InvalidJsonLdMarkup, Null, Str(failed.failedJSONLD), Some(failed.message))
  }

  /** The entries of the failed scripts that mention "schema.org", in order. */
  function FailedEntries(failed: seq<FailedJsonLd>): seq<AnnotationEntry>
  {
    if |failed| == 0 then []
    else
      var last := failed[|failed| - 1];
      FailedEntries(failed[..|failed| - 1]) + (if Contains(last.failedJSONLD, SchemaOrg) then [Invalid(last)] else [])
  }

  /** A failed script has an entry exactly when its text mentions "schema.org"; every entry is an invalid-JSON-LD entry. */
  lemma {:induction false} FailedEntriesKept(failed: seq<FailedJsonLd>)
    ensures forall f :: f in failed && Contains(f.failedJSONLD, SchemaOrg) ==> Invalid(f) in FailedEntries(failed)
    ensures forall e :: e in FailedEntries(failed) ==>
      exists f :: f in failed && Contains(f.failedJSONLD, SchemaOrg) && e == Invalid(f)
    ensures forall e :: e in FailedEntries(failed) ==> e.markup == InvalidJsonLdMarkup && e.annotationType == Null && e.error.Some?
    decreases |failed|
  {
    if |failed| > 0 {
      var init := failed[..|failed| - 1];
      FailedEntriesKept(init);
      assert failed == init + [failed[|failed| - 1]];
      forall e | e in FailedEntries(failed)
        ensures exists f :: f in failed && Contains(f.failedJSONLD, SchemaOrg) && e == Invalid(f)
      {
        if e in FailedEntries(init) {
          var f :| f in init && Contains(f.failedJSONLD, SchemaOrg) && e == Invalid(f);
          assert f in failed;
        } else {
          assert failed[|failed| - 1] in failed;
        }
      }
    }
  }

  /** What `transformSemanticExtraction` returns. */
  function Transformed(input: Extraction): seq<AnnotationEntry>
    requires Readable(input.jsonld) && Readable(input.microdata) && Readable(input.rdfa)
  {
    GroupEntries(input.jsonld, JsonLdMarkup) + FailedEntries(input.jsonldFailed)
      + GroupEntries(input.microdata, MicrodataMarkup) + GroupEntries(input.rdfa, RdfaMarkup)
  }

  /** `transformSemanticExtraction`: pushes one entry per annotation in four passes. */
  method TransformSemanticExtraction(input: Extraction) returns (output: seq<AnnotationEntry>)
    requires Readable(input.jsonld) && Readable(input.microdata) && Readable(input.rdfa)
    ensures output == Transformed(input)
  {
    output := [];
    output := PushGroups(output, input.jsonld, JsonLdMarkup);
    var failed := input.jsonldFailed;
    for j := 0 to |failed|
      invariant output == GroupEntries(input.jsonld, JsonLdMarkup) + FailedEntries(failed[..j])
    {
      assert failed[..j + 1][..j] == failed[..j];
      var newObj := Invalid(failed[j]);
      if Contains(failed[j].failedJSONLD, SchemaOrg) {
        output := output + [newObj];
      }
    }
    assert failed[..|failed|] == failed;
    output := PushGroups(output, input.microdata, MicrodataMarkup);
    output := PushGroups(output, input.rdfa, RdfaMarkup);
  }

  /** One of the three nested loops of `transformSemanticExtraction`. */
  method PushGroups(output: seq<AnnotationEntry>, groups: seq<Group>, markup: string)
    returns (r: seq<AnnotationEntry>)
    requires Readable(groups)
    ensures r == output + GroupEntries(groups, markup)
  {
    r := output;
    for i := 0 to |groups|
      invariant Readable(groups[..i])
      invariant r == output + GroupEntries(groups[..i], markup)
    {
      var actualArray := groups[i].items;
      assert groups[..i + 1][..i] == groups[..i];
      assert forall j :: 0 <= j < |actualArray| ==> !actualArray[j].Undefined? && !actualArray[j].Null?;
      ReadablePrefix(groups, i + 1);
      var pushed: seq<AnnotationEntry> := [];
      for j := 0 to |actualArray|
        invariant pushed == seq(j, k requires 0 <= k < j => Typed(markup, actualArray[k]))
      {
        var newObj := AnnotationEntry(markup, Index(actualArray[j], "@type"), actualArray[j], None);
        pushed := pushed + [newObj];
      }
      r := r + pushed;
    }
    assert groups[..|groups|] == groups;
  }

  /**
   * The output lists the JSON-LD annotations, then the failed scripts that
   * mention "schema.org", then the microdata and the RDFa annotations, each
   * part in input order and marked with its markup.
   */
  lemma TransformedParts(input: Extraction)
    requires Readable(input.jsonld) && Readable(input.microdata) && Readable(input.rdfa)
    ensures var out := Transformed(input);
      var a := |Items(input.jsonld)|;
      var b := a + |FailedEntries(input.jsonldFailed)|;
      var c := b + |Items(input.microdata)|;
      |out| == c + |Items(input.rdfa)| &&
      (forall k :: 0 <= k < a ==> out[k].markup == JsonLdMarkup && out[k].content == Items(input.jsonld)[k]) &&
      (forall k :: a <= k < b ==> out[k].markup == InvalidJsonLdMarkup && out[k].annotationType == Null) &&
      (forall k :: b <= k < c ==> out[k].markup == MicrodataMarkup && out[k].content == Items(input.microdata)[k - b]) &&
      (forall k :: c <= k < |out| ==> out[k].markup == RdfaMarkup && out[k].content == Items(input.rdfa)[k - c])
  {
    TransformedJsonLd(input);
    TransformedFailed(input);
    TransformedMicrodata(input);
    TransformedRdfa(input);
  }

  /** The output is the four parts joined, in this order. */
  lemma TransformedJoin(input: Extraction)
    requires Readable(input.jsonld) && Readable(input.microdata) && Readable(input.rdfa)
    ensures Transformed(input) == GroupEntries(input.jsonld, JsonLdMarkup) + FailedEntries(input.jsonldFailed)
      + GroupEntries(input.microdata, MicrodataMarkup) + GroupEntries(input.rdfa, RdfaMarkup)
    ensures |GroupEntries(input.jsonld, JsonLdMarkup)| == |Items(input.jsonld)|
    ensures |GroupEntries(input.microdata, MicrodataMarkup)| == |Items(input.microdata)|
    ensures |GroupEntries(input.rdfa, RdfaMarkup)| == |Items(input.rdfa)|
  {
    GroupEntriesItems(input.jsonld, JsonLdMarkup);
    GroupEntriesItems(input.microdata, MicrodataMarkup);
    GroupEntriesItems(input.rdfa, RdfaMarkup);
  }

  /** The JSON-LD part comes first, one entry per annotation. */
  lemma TransformedJsonLd(input: Extraction)
    requires Readable(input.jsonld) && Readable(input.microdata) && Readable(input.rdfa)
    ensures var out := Transformed(input);
      var a := |Items(input.jsonld)|;
      |out| == a + |FailedEntries(input.jsonldFailed)| + |Items(input.microdata)| + |Items(input.rdfa)| &&
      forall k :: 0 <= k < a ==> out[k].markup == JsonLdMarkup && out[k].content == Items(input.jsonld)[k]
  {
    var out := Transformed(input);
    var g1 := GroupEntries(input.jsonld, JsonLdMarkup);
    TransformedJoin(input);
    FourParts(g1, FailedEntries(input.jsonldFailed), GroupEntries(input.microdata, MicrodataMarkup), GroupEntries(input.rdfa, RdfaMarkup));
    GroupEntriesItems(input.jsonld, JsonLdMarkup);
    forall k | 0 <= k < |g1|
      ensures out[k].markup == JsonLdMarkup && out[k].content == Items(input.jsonld)[k]
    {
      assert out[k] == g1[k];
    }
  }

  /** The failed scripts follow, as invalid JSON-LD entries without a type. */
  lemma TransformedFailed(input: Extraction)
    requires Readable(input.jsonld) && Readable(input.microdata) && Readable(input.rdfa)
    ensures var out := Transformed(input);
      var a := |Items(input.jsonld)|;
      var b := a + |FailedEntries(input.jsonldFailed)|;
      |out| == |Items(input.jsonld)| + |FailedEntries(input.jsonldFailed)| + |Items(input.microdata)| + |Items(input.rdfa)| &&
      forall k :: a <= k < b ==> out[k].markup == InvalidJsonLdMarkup && out[k].annotationType == Null
  {
    var f := FailedEntries(input.jsonldFailed);
    TransformedJoin(input);
    FourParts(GroupEntries(input.jsonld, JsonLdMarkup), f, GroupEntries(input.microdata, MicrodataMarkup), GroupEntries(input.rdfa, RdfaMarkup));
    FailedEntriesKept(input.jsonldFailed);
  }

  /** The microdata part follows the failed scripts. */
  lemma TransformedMicrodata(input: Extraction)
    requires Readable(input.jsonld) && Readable(input.microdata) && Readable(input.rdfa)
    ensures var out := Transformed(input);
      var b := |Items(input.jsonld)| + |FailedEntries(input.jsonldFailed)|;
      var c := b + |Items(input.microdata)|;
      |out| == |Items(input.jsonld)| + |FailedEntries(input.jsonldFailed)| + |Items(input.microdata)| + |Items(input.rdfa)| &&
      forall k :: b <= k < c ==> out[k].markup == MicrodataMarkup && out[k].content == Items(input.microdata)[k - b]
  {
    var out := Transformed(input);
    var g3 := GroupEntries(input.microdata, MicrodataMarkup);
    var b := |Items(input.jsonld)| + |FailedEntries(input.jsonldFailed)|;
    TransformedJoin(input);
    FourParts(GroupEntries(input.jsonld, JsonLdMarkup), FailedEntries(input.jsonldFailed), g3, GroupEntries(input.rdfa, RdfaMarkup));
    GroupEntriesItems(input.microdata, MicrodataMarkup);
    forall k | b <= k < b + |g3|
      ensures out[k].markup == MicrodataMarkup && out[k].content == Items(input.microdata)[k - b]
    {
      assert out[k] == g3[k - b];
    }
  }

  /** The RDFa part comes last. */
  lemma TransformedRdfa(input: Extraction)
    requires Readable(input.jsonld) && Readable(input.microdata) && Readable(input.rdfa)
    ensures var out := Transformed(input);
      var c := |Items(input.jsonld)| + |FailedEntries(input.jsonldFailed)| + |Items(input.microdata)|;
      |out| == |Items(input.jsonld)| + |FailedEntries(input.jsonldFailed)| + |Items(input.microdata)| + |Items(input.rdfa)| &&
      forall k :: c <= k < |out| ==> out[k].markup == RdfaMarkup && out[k].content == Items(input.rdfa)[k - c]
  {
    var out := Transformed(input);
    var g4 := GroupEntries(input.rdfa, RdfaMarkup);
    var c := |Items(input.jsonld)| + |FailedEntries(input.jsonldFailed)| + |Items(input.microdata)|;
    TransformedJoin(input);
    FourParts(GroupEntries(input.jsonld, JsonLdMarkup), FailedEntries(input.jsonldFailed), GroupEntries(input.microdata, MicrodataMarkup), g4);
    GroupEntriesItems(input.rdfa, RdfaMarkup);
    forall k | c <= k < |out|
      ensures out[k].markup == RdfaMarkup && out[k].content == Items(input.rdfa)[k - c]
    {
      assert out[k] == g4[k - c];
    }
  }

  /** Each part of four joined lists sits at its offset. */
  lemma FourParts<T>(g1: seq<T>, f: seq<T>, g3: seq<T>, g4: seq<T>)
    ensures var out := g1 + f + g3 + g4;
      var a := |g1|;
      var b := a + |f|;
      var c := b + |g3|;
      (forall k :: 0 <= k < a ==> out[k] == g1[k]) &&
      (forall k :: a <= k < b ==> out[k] == f[k - a] && out[k] in f) &&
      (forall k :: b <= k < c ==> out[k] == g3[k - b]) &&
      (forall k :: c <= k < |out| ==> out[k] == g4[k - c])
  {
    var out := g1 + f + g3 + g4;
    forall k | |g1| <= k < |g1| + |f| ensures out[k] == f[k - |g1|] && out[k] in f {
      assert f[k - |g1|] in f;
    }
  }

  // ---------------------------------------------------------------------
  // anticipateJSON

  /** How many leading characters `anticipateJSON` inspects. */
  const Window := 50

  predicate Opens(c: char)
  {
    c == '{' || c == '['
  }

  predicate Marker(c: char)
  {
    c == '<' || Opens(c)
  }

  function Limit(t: string): nat
  {
    if |t| < Window then |t| else Window
  }

  /** The first position from `i` on, within the window, that holds `<`, `{` or `[`; the window's end if none does. */
  function FirstMarker(t: string, i: nat): (k: nat)
    requires i <= Limit(t)
    ensures i <= k <= Limit(t)
    ensures k < Limit(t) ==> Marker(t[k])
    ensures forall j :: i <= j < k ==> !Marker(t[j])
    decreases Limit(t) - i
  {
    if i == Limit(t) then i
    else if Marker(t[i]) then i
    else FirstMarker(t, i + 1)
  }

  /**
   * The guess of `anticipateJSON`: with whitespace removed, the first of
   * `<`, `{`, `[` among the first 50 characters decides; without one, the
   * text must end in `}` or `]`.
   */
  function Anticipated(input: string): bool
  {
    var t := RemoveWhitespace(input);
    var k := FirstMarker(t, 0);
    if k < Limit(t) then Opens(t[k]) else EndsWith(t, "}") || EndsWith(t, "]")
  }

  /** `anticipateJSON`: scans the first 50 positions (`charAt` past the end is ""). */
  method AnticipateJSON(input: string) returns (r: bool)
    ensures r == Anticipated(input)
  {
    var t := RemoveWhitespace(input);
    for i := 0 to Window
      invariant forall j :: 0 <= j < i && j < |t| ==> !Marker(t[j])
    {
      if i < |t| && t[i] == '<' {
        assert FirstMarker(t, 0) == i by { FirstMarkerAt(t, 0, i); }
        return false;
      }
      if i < |t| && (t[i] == '{' || t[i] == '[') {
        assert FirstMarker(t, 0) == i by { FirstMarkerAt(t, 0, i); }
        return true;
      }
    }
    assert FirstMarker(t, 0) == Limit(t) by { FirstMarkerAt(t, 0, Limit(t)); }
    return EndsWith(t, "}") || EndsWith(t, "]");
  }

  lemma {:induction false} FirstMarkerAt(t: string, i: nat, k: nat)
    requires i <= k <= Limit(t)
    requires k < Limit(t) ==> Marker(t[k])
    requires forall j :: i <= j < k ==> !Marker(t[j])
    ensures FirstMarker(t, i) == k
    decreases k - i
  {
    if i < k {
      FirstMarkerAt(t, i + 1, k);
    }
  }

  /**
   * A text whose first non-blank character is `{` or `[` is taken for JSON,
   * one starting with `<` is not, and a `<` ahead of every bracket in the
   * window rules JSON out.
   */
  lemma AnticipatedRules(input: string, k: nat)
    requires k < |RemoveWhitespace(input)| && k < Window
    requires forall j :: 0 <= j < k ==> !Marker(RemoveWhitespace(input)[j])
    ensures RemoveWhitespace(input)[k] == '<' ==> !Anticipated(input)
    ensures Opens(RemoveWhitespace(input)[k]) ==> Anticipated(input)
  {
    var t := RemoveWhitespace(input);
    if Marker(t[k]) {
      FirstMarkerAt(t, 0, k);
    }
  }

  /** Without `<`, `{` or `[` in the window, only the last character decides. */
  lemma AnticipatedByEnding(input: string)
    requires forall j :: 0 <= j < Limit(RemoveWhitespace(input)) ==> !Marker(RemoveWhitespace(input)[j])
    ensures Anticipated(input) == (EndsWith(RemoveWhitespace(input), "}") || EndsWith(RemoveWhitespace(input), "]"))
  {
    var t := RemoveWhitespace(input);
    FirstMarkerAt(t, 0, Limit(t));
  }

  // ---------------------------------------------------------------------
  // generateHash

  const TwoTo32 := 0x1_0000_0000
  const TwoTo31 := 0x8000_0000

  /** `ToInt32`: the value modulo 2^32, read as a signed 32-bit integer. */
  function Int32(x: int): (r: int)
    ensures -TwoTo31 <= r < TwoTo31
    ensures (r - x) % TwoTo32 == 0
  {
    var m := x % TwoTo32;
    if m >= TwoTo31 then m - TwoTo32 else m
  }

  /** The UTF-16 code units of a string, as `charCodeAt` reads them. */
  function CodeUnits(s: string): seq<int>
  {
    if |s| == 0 then []
    else
      var cp := s[0] as int;
      (if cp < 0x1_0000 then [cp]
       else [0xD800 + (cp - 0x1_0000) / 0x400, 0xDC00 + (cp - 0x1_0000) % 0x400])
      + CodeUnits(s[1..])
  }

  /** One step of the loop: `((hash << 5) - hash) + chr`, then `| 0`. */
  function HashStep(hash: int, chr: int): int
  {
    Int32(Int32(hash * 32) - hash + chr)
  }

  /** The hash of a sequence of code units, folded from the left starting at 0. */
  function Hash(units: seq<int>): int
  {
    if |units| == 0 then 0 else HashStep(Hash(units[..|units| - 1]), units[|units| - 1])
  }

  /** `generateHash`. */
  method GenerateHash(data: string) returns (hash: int)
    ensures hash == Hash(CodeUnits(data))
  {
    var units := CodeUnits(data);
    hash := 0;
    for i := 0 to |units|
      invariant hash == Hash(units[..i])
    {
      var chr := units[i];
      assert units[..i + 1][..i] == units[..i];
      hash := Int32(Int32(hash * 32) - hash + chr);
    }
    assert units[..|units|] == units;
  }

  /** The polynomial `Σ units[i]·31^(n-1-i)` in Horner form, without any wrap-around. */
  function Polynomial(units: seq<int>): int
  {
    if |units| == 0 then 0 else 31 * Polynomial(units[..|units| - 1]) + units[|units| - 1]
  }

  lemma Int32Congruent(x: int, y: int)
    requires (x - y) % TwoTo32 == 0
    ensures Int32(x) == Int32(y)
  {
    var k := (x - y) / TwoTo32;
    assert x == y + k * TwoTo32;
  }

  lemma ScaledCongruent(a: int, b: int, c: int)
    requires (a - b) % TwoTo32 == 0
    ensures ((31 * a + c) - (31 * b + c)) % TwoTo32 == 0
  {
    var k := (a - b) / TwoTo32;
    assert a - b == k * TwoTo32;
    assert (31 * a + c) - (31 * b + c) == (31 * k) * TwoTo32;
  }

  /** A step multiplies by 31 and adds the code unit, modulo 2^32. */
  lemma HashStepIsTimes31(hash: int, chr: int)
    requires -TwoTo31 <= hash < TwoTo31
    ensures HashStep(hash, chr) == Int32(31 * hash + chr)
  {
    var s := Int32(hash * 32);
    assert ((s - hash + chr) - (31 * hash + chr)) % TwoTo32 == 0 by {
      assert (s - hash + chr) - (31 * hash + chr) == s - hash * 32;
    }
    Int32Congruent(s - hash + chr, 31 * hash + chr);
  }

  /**
   * The hash is the signed 32-bit reading of the base-31 polynomial of the
   * code units; the hash of "" is 0 and every hash is a signed 32-bit integer.
   */
  lemma {:induction false} HashIsPolynomial(units: seq<int>)
    ensures Hash(units) == Int32(Polynomial(units))
    ensures -TwoTo31 <= Hash(units) < TwoTo31
    ensures units == [] ==> Hash(units) == 0
    decreases |units|
  {
    if |units| > 0 {
      var init := units[..|units| - 1];
      var c := units[|units| - 1];
      HashIsPolynomial(init);
      HashStepIsTimes31(Hash(init), c);
      ScaledCongruent(Hash(init), Polynomial(init), c);
      Int32Congruent(31 * Hash(init) + c, 31 * Polynomial(init) + c);
    }
  }

  // ---------------------------------------------------------------------
  // prettyPrintAnnotationPath

  /** Where one pass of the do/while loop leaves the path, the annotation copy and the output. */
  datatype PathStep = Continue(path: string, copy: Json, output: string) | Stop | Throws

  /**
   * `rangeToString(x, true).replace("_", "+")`; `replace` throws on a value
   * that is not a string, which is a truthy type that is neither a string
   * nor an array.
   */
  function TypeLabel(x: Json): (r: Option<string>)
    ensures r.None? <==> Truthy(x) && !x.Str? && !x.Arr?
  {
    var text := RangeText(x, true);
    if text.Str? then Some(ReplaceFirst(text.s, "_", "+")) else None
  }

  /** One pass of the loop of `prettyPrintAnnotationPath`. */
  function PathPass(path: string, copy: Json, output: string): (r: PathStep)
    ensures r.Continue? ==> |r.path| < |path|
  {
    var bigTokens := Split(path, '/');
    if !(StartsWith(path, "$") || StartsWith(path, "/") || StartsWith(path, ".")) then Stop
    else if copy.Undefined? || copy.Null? then Throws
    else if StartsWith(path, "$") then RootPass(path, copy, output)
    else if StartsWith(path, "/") then RangePass(path, copy, output)
    else PropertyPass(path, copy, output)
  }

  /** A pass at "$": the root type is appended. */
  function RootPass(path: string, copy: Json, output: string): (r: PathStep)
    requires StartsWith(path, "$") && !copy.Undefined? && !copy.Null?
    ensures r.Continue? ==> |r.path| < |path|
  {
    var shown := TypeLabel(Index(copy, "@type"));
    if shown.None? then Throws else Continue(path[1..], copy, output + shown.value)
  }

  /** A pass at "/": the copy descends into an array it holds under the index, and " > " and a type are appended. */
  function RangePass(path: string, copy: Json, output: string): (r: PathStep)
    requires StartsWith(path, "/") && !copy.Undefined? && !copy.Null?
    ensures r.Continue? ==> |r.path| < |path|
  {
    var token := Split(Split(path, '/')[1], '.')[0];
    var next := if Index(copy, token).Arr? then Index(copy, token) else copy;
    var text := if CheckIfObjectIsObject(next) && !Index(next, "@type").Undefined? then Index(next, "@type") else Str(token);
    var shown := TypeLabel(text);
    if shown.None? then Throws else Continue(Substring(path, |token| + 1, |path|), next, output + " > " + shown.value)
  }

  /** A pass at ".": the copy descends into the property if it is there, and "." and the property are appended. */
  function PropertyPass(path: string, copy: Json, output: string): (r: PathStep)
    requires StartsWith(path, ".") && !copy.Undefined? && !copy.Null?
    ensures r.Continue? ==> |r.path| < |path|
  {
    var property := Split(Split(path, '/')[0], '.')[1];
    var pretty := PrettyPrintString(property);
    var next := if !Index(copy, pretty).Undefined? then Index(copy, pretty) else copy;
    Continue(Substring(path, |property| + 1, |path|), next, output + "." + pretty)
  }

  /** The passes repeated until none of "$", "/", "." starts the rest of the path; `None` if one throws. */
  function PathText(path: string, copy: Json, output: string): Option<string>
    decreases |path|
  {
    match PathPass(path, copy, output)
    case Stop => Some(output)
    case Throws => None
    case Continue(rest, next, out) => PathText(rest, next, out)
  }

  function Escaped(text: Option<string>): Option<string>
  {
    if text.Some? then Some(EscapeText(text.value)) else None
  }

  /** What `prettyPrintAnnotationPath` returns, `None` where it throws. */
  function PrettyAnnotationPath(annotationPath: string, annotation: Json): Option<string>
  {
    match HardCopy(annotation)
    case None => None
    case Some(copy) => Escaped(PathText(annotationPath, copy, ""))
  }

  /** `prettyPrintAnnotationPath`: consumes the path from the front in a do/while loop. */
  method PrettyPrintAnnotationPath(annotationPath: string, annotation: Json) returns (r: Option<string>)
    ensures r == PrettyAnnotationPath(annotationPath, annotation)
  {
    if annotation.Undefined? {
      return None;
    }
    var path := annotationPath;
    var output := "";
    var annotationCopy := CopyValue(annotation);
    var foundDelimiter := true;
    while foundDelimiter
      invariant PrettyAnnotationPath(annotationPath, annotation) == Escaped(PathText(path, annotationCopy, output))
      invariant !foundDelimiter ==> PathText(path, annotationCopy, output) == Some(output)
      decreases if foundDelimiter then |path| + 1 else 0
    {
      var bigTokens := Split(path, '/');
      if StartsWith(path, "$") {
        if annotationCopy.Undefined? || annotationCopy.Null? {
          return None;
        }
        var text := RangeText(Index(annotationCopy, "@type"), true);
        if !text.Str? {
          return None;
        }
        output := output + ReplaceFirst(text.s, "_", "+");
        path := path[1..];
      } else if StartsWith(path, "/") {
        if annotationCopy.Undefined? || annotationCopy.Null? {
          return None;
        }
        var token := Split(bigTokens[1], '.')[0];
        if Index(annotationCopy, token).Arr? {
          annotationCopy := Index(annotationCopy, token);
        }
        path := Substring(path, |token| + 1, |path|);
        var text := Str(token);
        if CheckIfObjectIsObject(annotationCopy) && !Index(annotationCopy, "@type").Undefined? {
          text := Index(annotationCopy, "@type");
        }
        var shown := RangeText(text, true);
        if !shown.Str? {
          return None;
        }
        output := output + " > " + ReplaceFirst(shown.s, "_", "+");
      } else if StartsWith(path, ".") {
        if annotationCopy.Undefined? || annotationCopy.Null? {
          return None;
        }
        var smallTokens := Split(bigTokens[0], '.');
        var property := smallTokens[1];
        var pretty := PrettyPrintString(property);
        if !Index(annotationCopy, pretty).Undefined? {
          annotationCopy := Index(annotationCopy, pretty);
        }
        path := Substring(path, |property| + 1, |path|);
        output := output + "." + pretty;
      } else {
        foundDelimiter := false;
      }
    }
    EscapedHasNoMarkup(output);
    return Some(EscapeText(output));
  }

  /** A path of property steps: "." and the property, for each property in turn. */
  function PropertySteps(properties: seq<string>): string
  {
    if |properties| == 0 then "" else "." + properties[0] + PropertySteps(properties[1..])
  }

  /** The readable form of property steps: "." and the property without its "schema:" prefix, for each. */
  function PrettySteps(properties: seq<string>): string
  {
    if |properties| == 0 then "" else "." + PrettyPrintString(properties[0]) + PrettySteps(properties[1..])
  }

  /** A property name or index that holds neither delimiter. */
  predicate PlainProperty(p: string)
  {
    forall i :: 0 <= i < |p| ==> p[i] != '.' && p[i] != '/'
  }

  /** What may follow one step of a path: nothing, or the delimiter of the next step. */
  predicate StepBoundary(rest: string)
  {
    |rest| == 0 || rest[0] == '.' || rest[0] == '/'
  }

  /** Where a property step leaves the copy: in the property if the copy holds it as an own entry, else where it was. */
  function Descend(copy: Json, p: string): (r: Json)
    ensures copy.Undefined? || copy.Null? ==> r == copy
  {
    if copy.Undefined? || copy.Null? then copy
    else if !Index(copy, PrettyPrintString(p)).Undefined? then Index(copy, PrettyPrintString(p))
    else copy
  }

  /** The copies a walk along property steps stands on, one before each step. */
  function PropertyCopies(properties: seq<string>, copy: Json): (r: seq<Json>)
    ensures |r| == |properties|
  {
    if |properties| == 0 then [] else [copy] + PropertyCopies(properties[1..], Descend(copy, properties[0]))
  }

  lemma PropertyStep(p: string, rest: string)
    requires PlainProperty(p) && StepBoundary(rest)
    ensures Split(("." + p + rest), '/')[0] == "." + p + Split(rest, '/')[0]
    ensures Split(Split(("." + p + rest), '/')[0], '.')[1] == p
  {
    var x := "." + p;
    assert forall i :: 0 <= i < |x| ==> x[i] != '/' by {
      forall i | 0 <= i < |x| ensures x[i] != '/' {
        if i > 0 { assert x[i] == p[i - 1]; }
      }
    }
    SplitHeadFree(x + rest, x, rest, '/');
    FirstPartAfterBoundary(rest);
    PropertyHead(p, Split(rest, '/')[0]);
  }

  /** Cut at "/", what follows a step boundary begins with "." or is empty, and so has nothing before its first ".". */
  lemma FirstPartAfterBoundary(rest: string)
    requires StepBoundary(rest)
    ensures var head := Split(rest, '/')[0]; (|head| == 0 || head[0] == '.') && Split(head, '.')[0] == ""
  {
    if |rest| > 0 && rest[0] == '.' {
      SplitStartsWithSep(rest, '.', '/');
    } else if |rest| > 0 {
      SplitFirstEmpty(rest, '/');
    }
    SplitFirstEmpty(Split(rest, '/')[0], '.');
  }

  lemma PropertyHead(p: string, head: string)
    requires PlainProperty(p)
    requires |head| == 0 || head[0] == '.'
    ensures Split("." + p + head, '.')[1] == p
  {
    var s := "." + p + head;
    assert s[1..] == p + head;
    assert Split(s, '.')[1] == Split(p + head, '.')[0] by {
      SplitAfterSep(s, '.');
    }
    assert Split(p + head, '.')[0] == p + Split(head, '.')[0] by {
      SplitHeadFree(p + head, p, head, '.');
    }
    SplitFirstEmpty(head, '.');
  }

  lemma SplitFirstEmpty(h: string, sep: char)
    requires |h| == 0 || h[0] == sep
    ensures Split(h, sep)[0] == ""
  {
  }

  lemma SplitAfterSep(s: string, sep: char)
    requires |s| > 0 && s[0] == sep
    ensures |Split(s, sep)| >= 2 && Split(s, sep)[1] == Split(s[1..], sep)[0]
  {
  }

  /** Splitting `x + y` where `x` holds no separator extends the first part of `y` by `x`. */
  lemma {:induction false} SplitHeadFree(s: string, x: string, y: string, sep: char)
    requires s == x + y
    requires forall i :: 0 <= i < |x| ==> x[i] != sep
    ensures Split(s, sep)[0] == x + Split(y, sep)[0]
    ensures |Split(s, sep)| == |Split(y, sep)|
    ensures Split(s, sep)[1..] == Split(y, sep)[1..]
    decreases |x|
  {
    if |x| > 0 {
      SplitHeadFree(s[1..], x[1..], y, sep);
      assert s[1..] == x[1..] + y;
    } else {
      assert s == y;
    }
  }

  lemma SplitStartsWithSep(s: string, first: char, sep: char)
    requires |s| > 0 && s[0] == first && first != sep
    ensures |Split(s, sep)[0]| > 0 && Split(s, sep)[0][0] == first
  {
  }

  /** No copy the walk stands on is undefined or null. */
  predicate Standing(copies: seq<Json>)
  {
    forall k :: 0 <= k < |copies| ==> !copies[k].Undefined? && !copies[k].Null?
  }

  lemma StandingCons(copy: Json, copies: seq<Json>)
    ensures Standing([copy] + copies) <==> !copy.Undefined? && !copy.Null? && Standing(copies)
  {
    var all := [copy] + copies;
    assert all[0] == copy;
    assert forall k :: 0 <= k < |copies| ==> all[k + 1] == copies[k];
  }

  /**
   * Property steps read as "." and each property without its "schema:"
   * prefix; they give no text exactly when one of the copies the walk stands
   * on before a step is undefined or null, where the pass throws.
   */
  lemma {:induction false} PropertyPathText(properties: seq<string>, copy: Json, output: string)
    requires forall k :: 0 <= k < |properties| ==> PlainProperty(properties[k])
    ensures PathText(PropertySteps(properties), copy, output).Some? <==> Standing(PropertyCopies(properties, copy))
    ensures PathText(PropertySteps(properties), copy, output).Some? ==>
      PathText(PropertySteps(properties), copy, output).value == output + PrettySteps(properties)
    decreases |properties|
  {
    if |properties| > 0 {
      var p := properties[0];
      var rest := PropertySteps(properties[1..]);
      assert PropertySteps(properties) == "." + p + rest;
      assert StepBoundary(rest);
      PropertyPathStep(p, rest, copy, output);
      StandingCons(copy, PropertyCopies(properties[1..], Descend(copy, p)));
      if !copy.Undefined? && !copy.Null? {
        PropertyPathText(properties[1..], Descend(copy, p), output + "." + PrettyPrintString(p));
        PrettyStepsCons(properties, output);
      }
    } else {
      assert PropertySteps(properties) == "";
      assert PathPass("", copy, output) == Stop;
      assert PrettySteps(properties) == "";
      assert output + PrettySteps(properties) == output;
    }
  }

  lemma PrettyStepsCons(properties: seq<string>, output: string)
    requires |properties| > 0
    ensures output + "." + PrettyPrintString(properties[0]) + PrettySteps(properties[1..]) == output + PrettySteps(properties)
  {
    var p := PrettyPrintString(properties[0]);
    var rest := PrettySteps(properties[1..]);
    assert PrettySteps(properties) == "." + p + rest;
    Regroup(output, ".", p, rest);
  }

  /** Joining four strings does not depend on the grouping. */
  lemma Regroup(a: string, b: string, c: string, d: string)
    ensures a + b + c + d == a + (b + c + d)
  {
    assert a + b + c + d == a + b + (c + d);
    assert a + b + (c + d) == a + (b + (c + d));
    assert b + c + d == b + (c + d);
  }

  lemma PropertyPathStep(p: string, rest: string, copy: Json, output: string)
    requires PlainProperty(p) && StepBoundary(rest)
    ensures copy.Undefined? || copy.Null? ==> PathText("." + p + rest, copy, output) == None
    ensures !copy.Undefined? && !copy.Null? ==>
      PathText("." + p + rest, copy, output) == PathText(rest, Descend(copy, p), output + "." + PrettyPrintString(p))
  {
    PropertyPassAt(p, rest, copy, output);
  }

  /** A pass over "." and a plain property: the property is consumed and appended. */
  lemma PropertyPassAt(p: string, rest: string, copy: Json, output: string)
    requires PlainProperty(p) && StepBoundary(rest)
    ensures !copy.Undefined? && !copy.Null? ==>
      PathPass("." + p + rest, copy, output) == Continue(rest, Descend(copy, p), output + "." + PrettyPrintString(p))
    ensures copy.Undefined? || copy.Null? ==> PathPass("." + p + rest, copy, output) == Throws
  {
    var path := "." + p + rest;
    PropertyStep(p, rest);
    assert path[0] == '.';
    assert StartsWith(path, ".");
    assert !StartsWith(path, "$") && !StartsWith(path, "/");
    assert Substring(path, |p| + 1, |path|) == rest;
  }

  /**
   * A pass over "/" and a plain index: the index is consumed, the copy
   * descends only into an array it holds under the index, and " > " is
   * appended with the copy's type when it is an object that has one, else
   * the index; the pass throws when that label is not text.
   */
  lemma RangePassAt(i: string, rest: string, copy: Json, output: string)
    requires PlainProperty(i) && StepBoundary(rest)
    requires !copy.Undefined? && !copy.Null?
    ensures var next := (if Index(copy, i).Arr? then Index(copy, i) else copy);
      var shown := TypeLabel(if next.Obj? && !Index(next, "@type").Undefined? then Index(next, "@type") else Str(i));
      PathPass("/" + i + rest, copy, output) ==
        (if shown.None? then Throws else Continue(rest, next, output + " > " + shown.value))
  {
    var path := "/" + i + rest;
    assert path[0] == '/';
    assert !StartsWith(path, "$") && StartsWith(path, "/");
    RangeToken(i, rest);
  }

  /** After "/", the token up to the next "." or "/" is the index, and the rest of the path follows it. */
  lemma RangeToken(i: string, rest: string)
    requires PlainProperty(i) && StepBoundary(rest)
    ensures Split(Split("/" + i + rest, '/')[1], '.')[0] == i
    ensures Substring("/" + i + rest, |i| + 1, |"/" + i + rest|) == rest
  {
    var path := "/" + i + rest;
    assert path[1..] == i + rest;
    SplitAfterSep(path, '/');
    SplitHeadFree(i + rest, i, rest, '/');
    FirstPartAfterBoundary(rest);
    var head := Split(rest, '/')[0];
    SplitHeadFree(i + head, i, head, '.');
    assert path[|i| + 1..] == rest;
  }

  /** A pass over "$": the root type is appended; it throws when that type is not text. */
  lemma RootPassAt(rest: string, copy: Json, output: string)
    requires !copy.Undefined? && !copy.Null?
    ensures var shown := TypeLabel(Index(copy, "@type"));
      PathPass("$" + rest, copy, output) ==
        (if shown.None? then Throws else Continue(rest, copy, output + shown.value))
  {
    assert ("$" + rest)[1..] == rest;
    assert StartsWith("$" + rest, "$");
  }

  /** One step of an annotation path: `.p` into a property, `/i` into a range by its index. */
  datatype Segment = Into(name: string) | At(name: string)

  /** The path text of the steps: "." before a property, "/" before an index. */
  function SegmentsPath(segments: seq<Segment>): string
  {
    if |segments| == 0 then ""
    else (if segments[0].Into? then "." else "/") + segments[0].name + SegmentsPath(segments[1..])
  }

  /**
   * Where one step leaves the copy and the output: a property step appends
   * "." and the property without "schema:" and descends into the property if
   * the copy holds it; a range step descends into an array the copy holds
   * under the index and appends " > " and a type label. `None` where the
   * pass throws: on an undefined or null copy, or a label that is not text.
   */
  function StepMove(segment: Segment, copy: Json, output: string): Option<(Json, string)>
  {
    if copy.Undefined? || copy.Null? then None
    else match segment
      case Into(p) => Some((Descend(copy, p), output + "." + PrettyPrintString(p)))
      case At(i) =>
        var next := if Index(copy, i).Arr? then Index(copy, i) else copy;
        var shown := TypeLabel(if next.Obj? && !Index(next, "@type").Undefined? then Index(next, "@type") else Str(i));
        if shown.None? then None else Some((next, output + " > " + shown.value))
  }

  /** What the readable path says for the steps read against `copy`, after `output`. */
  function SegmentsText(segments: seq<Segment>, copy: Json, output: string): Option<string>
  {
    if |segments| == 0 then Some(output)
    else match StepMove(segments[0], copy, output)
      case None => None
      case Some(moved) => SegmentsText(segments[1..], moved.0, moved.1)
  }

  /** One pass over the first of plain steps makes exactly that step's move. */
  lemma SegmentPass(segments: seq<Segment>, copy: Json, output: string)
    requires |segments| > 0
    requires forall k :: 0 <= k < |segments| ==> PlainProperty(segments[k].name)
    ensures PathPass(SegmentsPath(segments), copy, output) ==
      match StepMove(segments[0], copy, output)
      case None => Throws
      case Some(moved) => Continue(SegmentsPath(segments[1..]), moved.0, moved.1)
  {
    var rest := SegmentsPath(segments[1..]);
    assert StepBoundary(rest);
    StepPass(segments[0], rest, copy, output);
  }

  /** A pass over one plain step followed by a step boundary makes that step's move. */
  lemma StepPass(segment: Segment, rest: string, copy: Json, output: string)
    requires PlainProperty(segment.name) && StepBoundary(rest)
    ensures PathPass((if segment.Into? then "." else "/") + segment.name + rest, copy, output) ==
      match StepMove(segment, copy, output)
      case None => Throws
      case Some(moved) => Continue(rest, moved.0, moved.1)
  {
    match segment
    case Into(p) =>
      PropertyPassAt(p, rest, copy, output);
    case At(i) =>
      if copy.Undefined? || copy.Null? {
        assert ("/" + i + rest)[0] == '/';
      } else {
        RangePassAt(i, rest, copy, output);
      }
  }

  /** The passes read a path of plain steps one step at a time. */
  lemma {:induction false} SegmentsPathText(segments: seq<Segment>, copy: Json, output: string)
    requires forall k :: 0 <= k < |segments| ==> PlainProperty(segments[k].name)
    ensures PathText(SegmentsPath(segments), copy, output) == SegmentsText(segments, copy, output)
    decreases |segments|
  {
    if |segments| == 0 {
      assert PathPass("", copy, output) == Stop;
    } else {
      SegmentPass(segments, copy, output);
      var moved := StepMove(segments[0], copy, output);
      if moved.Some? {
        SegmentsPathText(segments[1..], moved.value.0, moved.value.1);
      }
    }
  }

  /**
   * `prettyPrintAnnotationPath` on "$" and plain steps: the root type shown
   * of the annotation, then each step as `SegmentsText` reads it, escaped;
   * `None` for an undefined or null annotation, a root type that is not
   * text, or a step `SegmentsText` cannot read.
   */
  lemma AnnotationPathText(segments: seq<Segment>, annotation: Json)
    requires forall k :: 0 <= k < |segments| ==> PlainProperty(segments[k].name)
    ensures var copy := CopyValue(annotation);
      PrettyAnnotationPath("$" + SegmentsPath(segments), annotation) ==
        if annotation.Undefined? || copy.Null? || TypeLabel(Index(copy, "@type")).None? then None
        else Escaped(SegmentsText(segments, copy, TypeLabel(Index(copy, "@type")).value))
  {
    var copy := CopyValue(annotation);
    if !annotation.Undefined? {
      assert !copy.Undefined?;
      if !copy.Null? {
        RootPassAt(SegmentsPath(segments), copy, "");
        var shown := TypeLabel(Index(copy, "@type"));
        if shown.Some? {
          SegmentsPathText(segments, copy, "" + shown.value);
          assert "" + shown.value == shown.value;
        }
      } else {
        assert PathPass("$" + SegmentsPath(segments), copy, "") == Throws;
      }
    }
  }

  /** The readable path is HTML-escaped: it holds none of `<` `>` `"` `'` `/` `` ` `` `=`. */
  lemma PrettyAnnotationPathEscaped(annotationPath: string, annotation: Json)
    ensures PrettyAnnotationPath(annotationPath, annotation).Some? ==>
      forall i :: 0 <= i < |PrettyAnnotationPath(annotationPath, annotation).value| ==>
        !Markup(PrettyAnnotationPath(annotationPath, annotation).value[i])
  {
    if PrettyAnnotationPath(annotationPath, annotation).Some? {
      var copy := HardCopy(annotation).value;
      var text := PathText(annotationPath, copy, "").value;
      EscapedHasNoMarkup(text);
    }
  }

  // ---------------------------------------------------------------------
  // typePrinter

  /** What `typePrinter` returns: "Annotation" for a missing type, an array's items joined by " + ", anything else as it is. */
  function TypeText(typeValue: Json): Json
  {
    if !Truthy(typeValue) then Str("Annotation")
    else if typeValue.Arr? then
      Str(Join(seq(|typeValue.elems|, i requires 0 <= i < |typeValue.elems| => ToJsString(typeValue.elems[i])), " + "))
    else typeValue
  }

  /** `typePrinter`: appends each item and, between items, " + ". */
  method TypePrinter(typeValue: Json) returns (res: Json)
    ensures res == TypeText(typeValue)
  {
    if !Truthy(typeValue) {
      return Str("Annotation");
    }
    if typeValue.Arr? {
      var items := typeValue.elems;
      var parts := seq(|items|, i requires 0 <= i < |items| => ToJsString(items[i]));
      var text := "";
      for i := 0 to |items|
        invariant text == JoinedSoFar(parts, " + ", i)
      {
        JoinedStep(parts, " + ", i);
        text := text + ToJsString(items[i]);
        if i != |items| - 1 {
          text := text + " + ";
        }
      }
      assert parts[..|items|] == parts;
      return Str(text);
    }
    return typeValue;
  }

  /**
   * A missing type prints as "Annotation", a type name as itself, a single
   * type in an array as that type, and two types with " + " between them.
   */
  lemma TypeTextRules(typeValue: Json, a: string, b: string)
    ensures !Truthy(typeValue) ==> TypeText(typeValue) == Str("Annotation")
    ensures typeValue.Str? && typeValue.s != "" ==> TypeText(typeValue) == typeValue
    ensures TypeText(Arr([Str(a)])) == Str(a)
    ensures TypeText(Arr([Str(a), Str(b)])) == Str(a + " + " + b)
  {
    var one := seq(1, i requires 0 <= i < 1 => ToJsString([Str(a)][i]));
    assert one == [a];
    var two := seq(2, i requires 0 <= i < 2 => ToJsString([Str(a), Str(b)][i]));
    assert two == [a, b];
    assert Join(two, " + ") == a + " + " + Join([b], " + ");
  }
}

=== FILE: frontend_utilities.dfy ===
/**
 * The small helpers of the frontend (frontend/scripts/utilities.js): the
 * object test, removal of repeated items, the range formatter, HTML escaping.
 * The frontend's `prettyPrintURI` and `levDist` are the engine's
 * (`VerificationUtilities.PrettyPrintURI`, `LevDistance.LevDist`).
 */
module FrontendUtilities {
  import opened JsStrings
  import opened JsValues
  import opened VerificationUtilities

  // ---------------------------------------------------------------------
  // checkIfObjectIsObject

  /** `checkIfObjectIsObject`: arrays, null and undefined are not objects; otherwise `typeof` decides. */
  function CheckIfObjectIsObject(v: Json): (r: bool)
    ensures r <==> v.Obj?
    ensures r == IsObject(v)
  {
    if v.Arr? then false
    else if v.Undefined? || v.Null? then false
    else v.Obj?
  }

  // ---------------------------------------------------------------------
  // uniquifyArray

  /** The distinct items of `s` in the order of their first occurrence. */
  function Uniquified(s: seq<string>): seq<string>
  {
    if |s| == 0 then []
    else
      var r := Uniquified(s[..|s| - 1]);
      if s[|s| - 1] in r then r else r + [s[|s| - 1]]
  }

  predicate NoDuplicates(s: seq<string>)
  {
    forall i, j :: 0 <= i < j < |s| ==> s[i] != s[j]
  }

  /** The position of the first occurrence of `x` in `s`. */
  function FirstIndex(s: seq<string>, x: string): (k: nat)
    requires x in s
    ensures k < |s| && s[k] == x
    ensures forall j :: 0 <= j < k ==> s[j] != x
  {
    if s[0] == x then 0 else 1 + FirstIndex(s[1..], x)
  }

  /**
   * `uniquifyArray`: items are remembered in a `seen` object and pushed to
   * the result the first time they come up.
   */
  method UniquifyArray(items: seq<string>) returns (result: seq<string>)
    ensures result == Uniquified(items)
  {
    var seen: map<string, int> := map[];
    result := [];
    for i := 0 to |items|
      invariant result == Uniquified(items[..i])
      invariant forall x :: x in seen <==> x in result
      invariant forall x :: x in seen ==> seen[x] == 1
    {
      var item := items[i];
      assert items[..i + 1][..i] == items[..i];
      if !(item in seen && seen[item] == 1) {
        seen := seen[item := 1];
        result := result + [item];
      }
    }
    assert items[..|items|] == items;
  }

  /** The result holds every item of the input, and nothing else. */
  lemma {:induction false} UniquifiedItems(s: seq<string>)
    ensures forall x :: x in Uniquified(s) <==> x in s
    decreases |s|
  {
    if |s| > 0 {
      var init := s[..|s| - 1];
      UniquifiedItems(init);
      assert s == init + [s[|s| - 1]];
    }
  }

  /** No item appears twice in the result. */
  lemma {:induction false} UniquifiedDistinct(s: seq<string>)
    ensures NoDuplicates(Uniquified(s))
    decreases |s|
  {
    if |s| > 0 {
      UniquifiedDistinct(s[..|s| - 1]);
    }
  }

  /** Items keep the order of their first occurrences in the input. */
  lemma {:induction false} UniquifiedOrder(s: seq<string>)
    ensures forall i, j :: 0 <= i < j < |Uniquified(s)| ==>
      Uniquified(s)[i] in s && Uniquified(s)[j] in s &&
      FirstIndex(s, Uniquified(s)[i]) < FirstIndex(s, Uniquified(s)[j])
    decreases |s|
  {
    UniquifiedItems(s);
    if |s| > 0 {
      var init := s[..|s| - 1];
      var r := Uniquified(init);
      UniquifiedOrder(init);
      UniquifiedItems(init);
      forall x | x in init ensures x in s && FirstIndex(s, x) == FirstIndex(init, x) {
        FirstIndexPrefix(init, s, x);
      }
      var last := s[|s| - 1];
      if last !in r {
        forall x | x in init ensures FirstIndex(s, x) < FirstIndex(s, last) {
          FirstIndexPrefix(init, s, x);
          assert last !in init;
          assert FirstIndex(s, last) == |s| - 1;
        }
      }
    }
  }

  lemma {:induction false} FirstIndexPrefix(init: seq<string>, s: seq<string>, x: string)
    requires x in init && init <= s
    ensures x in s && FirstIndex(s, x) == FirstIndex(init, x)
    decreases |init|
  {
    if init[0] != x {
      FirstIndexPrefix(init[1..], s[1..], x);
    }
  }

  /** Input without repeated items comes back unchanged; so a second pass changes nothing. */
  lemma {:induction false} UniquifiedFixed(s: seq<string>)
    requires NoDuplicates(s)
    ensures Uniquified(s) == s
    decreases |s|
  {
    if |s| > 0 {
      var init := s[..|s| - 1];
      UniquifiedFixed(init);
      assert s == init + [s[|s| - 1]];
    }
  }

  lemma UniquifiedIdempotent(s: seq<string>)
    ensures Uniquified(Uniquified(s)) == Uniquified(s)
  {
    UniquifiedDistinct(s);
    UniquifiedFixed(Uniquified(s));
  }

  // ---------------------------------------------------------------------
  // rangeToString

  /** The text of one range term, pretty-printed when asked. */
  function RangePart(term: Json, prettyPrint: bool): string
  {
    ToJsString(if prettyPrint then PrettyPrintURI(term) else term)
  }

  function RangeParts(terms: seq<Json>, prettyPrint: bool): (parts: seq<string>)
    ensures |parts| == |terms|
  {
    seq(|terms|, i requires 0 <= i < |terms| => RangePart(terms[i], prettyPrint))
  }

  /**
   * What `rangeToString` returns: the terms of an array joined by "_"; a
   * missing (falsy) range as ""; any other value as it is, pretty-printed
   * when asked.
   */
  function RangeText(range: Json, prettyPrint: bool): Json
  {
    if range.Arr? then Str(Join(RangeParts(range.elems, prettyPrint), "_"))
    else if !Truthy(range) then Str("")
    else if prettyPrint then PrettyPrintURI(range)
    else range
  }

  /** `rangeToString`: concatenates the terms of an array one by one, "_" after all but the last. */
  method RangeToString(range: Json, prettyPrint: bool) returns (r: Json)
    ensures r == RangeText(range, prettyPrint)
  {
    if range.Arr? {
      var terms := range.elems;
      var parts := RangeParts(terms, prettyPrint);
      var text := "";
      for i := 0 to |terms|
        invariant text == JoinedSoFar(parts, "_", i)
      {
        var part := if prettyPrint then ToJsString(PrettyPrintURI(terms[i])) else ToJsString(terms[i]);
        JoinedStep(parts, "_", i);
        text := text + part;
        if i + 1 != |terms| {
          text := text + "_";
        }
      }
      assert parts[..|terms|] == parts;
      return Str(text);
    }
    var value := range;
    if !Truthy(value) {
      value := Str("");
    }
    if prettyPrint {
      return PrettyPrintURI(value);
    }
    return value;
  }

  /**
   * A missing range gives ""; a single term keeps its value, pretty-printed
   * when asked; the parts of an array of "_"-free terms split back out of
   * the result.
   */
  lemma RangeTextRules(range: Json, prettyPrint: bool)
    ensures !range.Arr? && !Truthy(range) ==> RangeText(range, prettyPrint) == Str("")
    ensures !range.Arr? && Truthy(range) && !prettyPrint ==> RangeText(range, prettyPrint) == range
    ensures range.Str? && range.s != "" && prettyPrint ==>
      RangeText(range, prettyPrint) == Str(PrettyPrintString(range.s))
    ensures (range.Arr? && |range.elems| >= 1 &&
      forall k, i :: 0 <= k < |range.elems| && 0 <= i < |RangePart(range.elems[k], prettyPrint)| ==>
        RangePart(range.elems[k], prettyPrint)[i] != '_') ==>
      Split(RangeText(range, prettyPrint).s, '_') == RangeParts(range.elems, prettyPrint)
  {
    if range.Arr? && |range.elems| >= 1 &&
      (forall k, i :: 0 <= k < |range.elems| && 0 <= i < |RangePart(range.elems[k], prettyPrint)| ==>
        RangePart(range.elems[k], prettyPrint)[i] != '_') {
      SplitJoin(RangeParts(range.elems, prettyPrint), '_');
    }
  }

  // ---------------------------------------------------------------------
  // escapeHtml

  const AmpEntity := "&amp;"
  const LtEntity := "&lt;"
  const GtEntity := "&gt;"
  const QuotEntity := "&quot;"
  const AposEntity := "&#39;"
  const SlashEntity := "&#x2F;"
  const BacktickEntity := "&#x60;"
  const EqualsEntity := "&#x3D;"

  /** The characters `entityMap` covers. */
  predicate Special(c: char)
  {
    c == '&' || c == '<' || c == '>' || c == '"' || c == '\'' || c == '/' || c == '`' || c == '='
  }

  /** The characters HTML escaping must remove: the special ones except "&". */
  predicate Markup(c: char)
  {
    Special(c) && c != '&'
  }

  /** `entityMap[c]`. */
  function Entity(c: char): string
    requires Special(c)
  {
    match c
    case '&' => AmpEntity
    case '<' => LtEntity
    case '>' => GtEntity
    case '"' => QuotEntity
    case '\'' => AposEntity
    case '/' => SlashEntity
    case '`' => BacktickEntity
    case '=' => EqualsEntity
  }

  /** What one character becomes. */
  function EscapeChar(c: char): string
  {
    if Special(c) then Entity(c) else [c]
  }

  /** Every special character replaced by its entity, left to right. */
  function EscapeText(s: string): string
  {
    if |s| == 0 then "" else EscapeChar(s[0]) + EscapeText(s[1..])
  }

  /** `escapeHtml(x)`: the value converted with `String(x)`, then escaped. */
  function EscapeHtml(v: Json): string
  {
    EscapeText(ToJsString(v))
  }

  /** The reading of an entity back as its character, the inverse of escaping. */
  function Unescape(s: string): string
    decreases |s|
  {
    if |s| == 0 then ""
    else if StartsWith(s, AmpEntity) then "&" + Unescape(s[|AmpEntity|..])
    else if StartsWith(s, LtEntity) then "<" + Unescape(s[|LtEntity|..])
    else if StartsWith(s, GtEntity) then ">" + Unescape(s[|GtEntity|..])
    else if StartsWith(s, QuotEntity) then "\"" + Unescape(s[|QuotEntity|..])
    else if StartsWith(s, AposEntity) then "'" + Unescape(s[|AposEntity|..])
    else if StartsWith(s, SlashEntity) then "/" + Unescape(s[|SlashEntity|..])
    else if StartsWith(s, BacktickEntity) then "`" + Unescape(s[|BacktickEntity|..])
    else if StartsWith(s, EqualsEntity) then "=" + Unescape(s[|EqualsEntity|..])
    else [s[0]] + Unescape(s[1..])
  }

  /** The escaped text holds none of the markup characters `<` `>` `"` `'` `/` `` ` `` `=`. */
  lemma {:induction false} EscapedHasNoMarkup(s: string)
    ensures forall i :: 0 <= i < |EscapeText(s)| ==> !Markup(EscapeText(s)[i])
    decreases |s|
  {
    if |s| > 0 {
      EscapedHasNoMarkup(s[1..]);
      var head := EscapeChar(s[0]);
      assert forall i :: 0 <= i < |head| ==> !Markup(head[i]);
      var r := EscapeText(s);
      forall i | 0 <= i < |r| ensures !Markup(r[i]) {
        if i >= |head| {
          assert r[i] == EscapeText(s[1..])[i - |head|];
        }
      }
    }
  }

  /** Text without special characters is not changed by escaping. */
  lemma {:induction false} EscapeUnchanged(s: string)
    requires forall i :: 0 <= i < |s| ==> !Special(s[i])
    ensures EscapeText(s) == s
    decreases |s|
  {
    if |s| > 0 {
      EscapeUnchanged(s[1..]);
      assert s == [s[0]] + s[1..];
    }
  }

  /** Reading back the escape of one character gives that character. */
  lemma UnescapeStep(c: char, rest: string)
    ensures Unescape(EscapeChar(c) + rest) == [c] + Unescape(rest)
  {
    if Special(c) {
      UnescapeEntity(c, rest);
    } else {
      var s := [c] + rest;
      assert s[1..] == rest;
      PlainStart(s);
    }
  }

  /** A text not starting with "&" reads back its first character as it is. */
  lemma PlainStart(s: string)
    requires |s| > 0 && s[0] != '&'
    ensures Unescape(s) == [s[0]] + Unescape(s[1..])
  {
    NotEntity(s, AmpEntity, 0);
    NotEntity(s, LtEntity, 0);
    NotEntity(s, GtEntity, 0);
    NotEntity(s, QuotEntity, 0);
    NotEntity(s, AposEntity, 0);
    NotEntity(s, SlashEntity, 0);
    NotEntity(s, BacktickEntity, 0);
    NotEntity(s, EqualsEntity, 0);
  }

  lemma UnescapeEntity(c: char, rest: string)
    requires Special(c)
    ensures Unescape(Entity(c) + rest) == [c] + Unescape(rest)
  {
    var s := Entity(c) + rest;
    assert s[..|Entity(c)|] == Entity(c);
    assert s[|Entity(c)|..] == rest;
    if c != '&' {
      assert s[1] != '&';
      NotEntity(s, AmpEntity, 1);
    }
    if c != '&' && c != '<' {
      NotEntity(s, LtEntity, 1);
    }
    if c != '&' && c != '<' && c != '>' {
      NotEntity(s, GtEntity, 1);
    }
    if c == '\'' || c == '/' || c == '`' || c == '=' {
      NotEntity(s, QuotEntity, 1);
    }
    if c == '/' || c == '`' || c == '=' {
      NotEntity(s, AposEntity, 2);
    }
    if c == '`' || c == '=' {
      NotEntity(s, SlashEntity, 3);
    }
    if c == '=' {
      NotEntity(s, BacktickEntity, 3);
    }
  }

  /** A text whose `k`-th character differs from an entity's does not start with it. */
  lemma NotEntity(s: string, e: string, k: nat)
    requires k < |e| && (k >= |s| || s[k] != e[k])
    ensures !StartsWith(s, e)
  {
  }

  /** Escaping loses nothing: reading the entities back gives the original text. */
  lemma {:induction false} EscapeRoundTrip(s: string)
    ensures Unescape(EscapeText(s)) == s
    decreases |s|
  {
    if |s| > 0 {
      var rest := EscapeText(s[1..]);
      assert EscapeText(s) == EscapeChar(s[0]) + rest;
      assert Unescape(EscapeChar(s[0]) + rest) == [s[0]] + Unescape(rest) by {
        UnescapeStep(s[0], rest);
      }
      assert Unescape(rest) == s[1..] by {
        EscapeRoundTrip(s[1..]);
      }
      assert s == [s[0]] + s[1..];
    }
  }

  /** Two texts escape alike only if they are equal. */
  lemma EscapeInjective(s: string, t: string)
    requires EscapeText(s) == EscapeText(t)
    ensures s == t
  {
    EscapeRoundTrip(s);
    EscapeRoundTrip(t);
  }
}

=== FILE: frontend_visualization.dfy ===
/**
 * The tree view of an annotation (frontend/scripts/visualization.js): the
 * annotation path of every row, the error entries a row shows, the marking
 * of a row by its worst error, and the element name shown for a row.
 */
module Visualization {
  import opened JsStrings
  import opened JsValues
  import opened ErrorEntries
  import opened FrontendUtilities

  // ---------------------------------------------------------------------
  // findRelatedErrors

  /** Codes shown at the root row, at keys, at values, at `@type` keys and at `@id` keys. */
  const RootErrorCodes: seq<int> := [100, 101, 102, 103, 104, 201, 202, 203, 205, 206, 300, 301, 999]
  const KeyBasedErrorCodes: seq<int> := [303, 304, 305]
  const ValueBasedErrorCodes: seq<int> := [207, 300]
  const TypeBasedErrorCodes: seq<int> := [309, 200]
  const IdBasedErrorCodes: seq<int> := [300]

  /** The paths of a row: where its entity is, where its key is, and where its literal value is (null if none). */
  datatype Row = Row(annotationPath: string, keyPath: string, valuePath: Option<string>)

  /** The six filters of `findRelatedErrors`, in the order their results are listed. */
  datatype Rule = ValueRule | KeyRule | RootRule | TypeRule | IdRule | PathRule

  /** `el.annotationPath` in a string concatenation: an absent path reads "undefined". */
  function PathString(e: ErrorEntry): string
  {
    if e.annotationPath.Some? then e.annotationPath.value else "undefined"
  }

  /** `el.value` in a string concatenation. */
  function ValueString(e: ErrorEntry): string
  {
    if e.value.Some? then ToJsString(e.value.value) else "undefined"
  }

  /** A code in none of the special lists is shown where its path is. */
  predicate Unlisted(code: int)
  {
    code !in ValueBasedErrorCodes && code !in KeyBasedErrorCodes && code !in TypeBasedErrorCodes
    && code !in IdBasedErrorCodes
  }

  /** The condition of each filter. */
  predicate Matches(e: ErrorEntry, rule: Rule, row: Row)
  {
    match rule
    case ValueRule => e.annotationPath.Some? && row.valuePath == e.annotationPath && e.errorCode in ValueBasedErrorCodes
    case KeyRule => PathString(e) + "." + ValueString(e) == row.keyPath && e.errorCode in KeyBasedErrorCodes
    case RootRule =>
      row.keyPath == "$" && (e.annotationPath == Some("$") || e.annotationPath == None || e.annotationPath == Some(""))
      && e.errorCode in RootErrorCodes
    case TypeRule => PathString(e) + ".@type" == row.keyPath && e.errorCode in TypeBasedErrorCodes
    case IdRule => PathString(e) + ".@id" == row.keyPath && e.errorCode in IdBasedErrorCodes
    case PathRule => e.annotationPath == Some(row.annotationPath) && Unlisted(e.errorCode)
  }

  /** `errors.filter(...)` for one rule. */
  function Select(errors: seq<ErrorEntry>, rule: Rule, row: Row): (r: seq<ErrorEntry>)
    ensures |r| <= |errors|
    ensures Within(r, errors)
  {
    if |errors| == 0 then []
    else
      var rest := Select(errors[1..], rule, row);
      if Matches(errors[0], rule, row) then [errors[0]] + rest else rest
  }

  /** `r` is a subsequence of `s`: its entries occur in `s` in the same order. */
  predicate Within(r: seq<ErrorEntry>, s: seq<ErrorEntry>)
    decreases |s|
  {
    |r| == 0 || (|s| > 0 && ((r[0] == s[0] && Within(r[1..], s[1..])) || Within(r, s[1..])))
  }

  /** `findRelatedErrors`: the six filtered lists one after the other. */
  function FindRelatedErrors(row: Row, errors: seq<ErrorEntry>): seq<ErrorEntry>
  {
    Select(errors, ValueRule, row) + Select(errors, KeyRule, row) + Select(errors, RootRule, row)
      + Select(errors, TypeRule, row) + Select(errors, IdRule, row) + Select(errors, PathRule, row)
  }

  /** A filter keeps exactly the entries meeting its condition. */
  lemma {:induction false} SelectMember(errors: seq<ErrorEntry>, rule: Rule, row: Row, e: ErrorEntry)
    ensures e in Select(errors, rule, row) <==> e in errors && Matches(e, rule, row)
    decreases |errors|
  {
    if |errors| > 0 {
      SelectMember(errors[1..], rule, row, e);
      assert errors == [errors[0]] + errors[1..];
    }
  }

  /** Whether some filter takes the entry for the row. */
  predicate Related(e: ErrorEntry, row: Row)
  {
    Matches(e, ValueRule, row) || Matches(e, KeyRule, row) || Matches(e, RootRule, row)
    || Matches(e, TypeRule, row) || Matches(e, IdRule, row) || Matches(e, PathRule, row)
  }

  /** A row shows an entry exactly when the entry is in the report and some filter takes it. */
  lemma RelatedMember(row: Row, errors: seq<ErrorEntry>, e: ErrorEntry)
    ensures e in FindRelatedErrors(row, errors) <==> e in errors && Related(e, row)
  {
    SelectMember(errors, ValueRule, row, e);
    SelectMember(errors, KeyRule, row, e);
    SelectMember(errors, RootRule, row, e);
    SelectMember(errors, TypeRule, row, e);
    SelectMember(errors, IdRule, row, e);
    SelectMember(errors, PathRule, row, e);
  }

  /**
   * Codes 303, 304 and 305 are shown at the key they name (the entry's path,
   * ".", its value); a code on no list is shown at the row of its path;
   * the other root codes at the root row or the row of their path.
   */
  lemma AttachmentRules(row: Row, errors: seq<ErrorEntry>, e: ErrorEntry)
    requires e in errors
    ensures e.errorCode in KeyBasedErrorCodes ==>
      (e in FindRelatedErrors(row, errors) <==> PathString(e) + "." + ValueString(e) == row.keyPath)
    ensures Unlisted(e.errorCode) && e.errorCode !in RootErrorCodes ==>
      (e in FindRelatedErrors(row, errors) <==> e.annotationPath == Some(row.annotationPath))
    ensures Unlisted(e.errorCode) && e.errorCode in RootErrorCodes ==>
      (e in FindRelatedErrors(row, errors) <==>
        (row.keyPath == "$" && (e.annotationPath == Some("$") || e.annotationPath == None || e.annotationPath == Some("")))
        || e.annotationPath == Some(row.annotationPath))
  {
    RelatedMember(row, errors, e);
  }

  /** Everything a row shows comes from the report. */
  lemma RelatedFromReport(row: Row, errors: seq<ErrorEntry>)
    ensures forall e :: e in FindRelatedErrors(row, errors) ==> e in errors
  {
    forall e | e in FindRelatedErrors(row, errors) ensures e in errors {
      RelatedMember(row, errors, e);
    }
  }

  // ---------------------------------------------------------------------
  // Marking of a row

  /** The icon and class of a row. */
  datatype Marking = Unmarked | WarningMark | ErrorMark | CriticalMark

  predicate HasSeverity(related: seq<ErrorEntry>, severity: Severity)
  {
    exists e :: e in related && e.severity == severity
  }

  /** The first of Critical, Error, Warning found among the row's errors decides (`find` in that order). */
  function RowMarking(related: seq<ErrorEntry>): Marking
  {
    if |related| == 0 then Unmarked
    else if HasSeverity(related, Critical) then CriticalMark
    else if HasSeverity(related, Error) then ErrorMark
    else if HasSeverity(related, Warning) then WarningMark
    else Unmarked
  }

  function Rank(severity: Severity): nat
  {
    match severity
    case Informational => 0
    case Warning => 1
    case Error => 2
    case Critical => 3
  }

  function MarkingRank(m: Marking): nat
  {
    match m
    case Unmarked => 0
    case WarningMark => 1
    case ErrorMark => 2
    case CriticalMark => 3
  }

  /** The highest rank among the entries, 0 for none. */
  function WorstRank(related: seq<ErrorEntry>): (r: nat)
    ensures r <= 3
  {
    if |related| == 0 then 0
    else
      var rest := WorstRank(related[1..]);
      if Rank(related[0].severity) > rest then Rank(related[0].severity) else rest
  }

  lemma {:induction false} WorstRankWitness(related: seq<ErrorEntry>)
    ensures forall e :: e in related ==> Rank(e.severity) <= WorstRank(related)
    ensures WorstRank(related) > 0 ==> exists e :: e in related && Rank(e.severity) == WorstRank(related)
    decreases |related|
  {
    if |related| > 0 {
      WorstRankWitness(related[1..]);
      assert related == [related[0]] + related[1..];
      if WorstRank(related) > 0 && Rank(related[0].severity) <= WorstRank(related[1..]) {
        var e :| e in related[1..] && Rank(e.severity) == WorstRank(related[1..]);
        assert e in related;
      }
    }
  }

  /** A row is marked by the worst severity among its errors: Critical over Error over Warning; informational errors alone leave it unmarked. */
  lemma MarkingIsWorst(related: seq<ErrorEntry>)
    ensures MarkingRank(RowMarking(related)) == WorstRank(related)
  {
    WorstRankWitness(related);
    if WorstRank(related) > 0 {
      var e :| e in related && Rank(e.severity) == WorstRank(related);
    }
  }

  // ---------------------------------------------------------------------
  // Paths of the rows (createJsTree, createJsTreeNode)

  /** The number of decimal digits at the end of `s`. */
  function TrailingDigits(s: string): (d: nat)
    ensures d <= |s|
    ensures forall i :: |s| - d <= i < |s| ==> '0' <= s[i] <= '9'
  {
    if |s| == 0 || !('0' <= s[|s| - 1] <= '9') then 0 else TrailingDigits(s[..|s| - 1]) + 1
  }

  /** The test `/.*\/[0-9]+$/`: the path ends in "/" and at least one digit. */
  predicate EndsWithIndex(path: string)
  {
    var d := TrailingDigits(path);
    d >= 1 && d < |path| && path[|path| - d - 1] == '/'
  }

  /** The path of an entity or literal row: "/0" added unless it already ends in an index. */
  function RowPath(path: string): string
  {
    if EndsWithIndex(path) then path else path + "/0"
  }

  /** The key path of a property below a nested entity. */
  function PropertyPath(entityPath: string, key: string): string
  {
    if !StartsWith(key, "@") then
      if Contains(key, ":") then entityPath + "." + key else entityPath + ".schema:" + key
    else entityPath + "." + key
  }

  /** The key path of a property of the root entity; only `@type` and `@reverse` escape the "schema:" prefix among "@" keys. */
  function RootPropertyPath(key: string): string
  {
    if key == "@type" || key == "@reverse" then "$." + key
    else if Contains(key, ":") then "$." + key
    else "$.schema:" + key
  }

  const ContextKey := "@context"

  /** A row of the tree: its label, paths, the errors it shows and its marking; a literal row has no children. */
  datatype TreeNode = TreeNode(
    text: string,
    annotationPath: string,
    keyPath: string,
    valuePath: Option<string>,
    relatedErrors: seq<ErrorEntry>,
    marking: Marking,
    children: Children)

  /** The `children` of a row: absent on a literal row, the list of rows below otherwise. */
  datatype Children = Absent | Rows(rows: seq<TreeNode>)

  /** A row with its errors looked up in the report. */
  function MakeNode(text: string, row: Row, errors: seq<ErrorEntry>, children: Children): TreeNode
  {
    var related := FindRelatedErrors(row, errors);
    TreeNode(text, row.annotationPath, row.keyPath, row.valuePath, related, RowMarking(related), children)
  }

  /** The entries of an object that get a row: all but `@context`. */
  function Shown(members: seq<Member>): (r: seq<Member>)
    ensures |r| <= |members|
    ensures forall m :: m in r <==> m in members && m.key != ContextKey
  {
    if |members| == 0 then []
    else if members[0].key == ContextKey then Shown(members[1..])
    else [members[0]] + Shown(members[1..])
  }

  /** What `createJsTreeNode` builds for a value reached at `path`. */
  function Node(text: string, value: Json, path: string, errors: seq<ErrorEntry>): TreeNode
    decreases value, 1
  {
    if value.Arr? then
      MakeNode(text, Row(path, path, None), errors, Rows(ElementNodes(value, 0, path, errors)))
    else if CheckIfObjectIsObject(value) then
      var entityPath := RowPath(path);
      MakeNode(text, Row(entityPath, path, None), errors, Rows(MemberNodes(value, Shown(value.members), 0, entityPath, errors)))
    else
      MakeNode(text, Row(RowPath(path), path, Some(RowPath(path))), errors, Absent)
  }

  /** The rows of the array elements from index `i` on, at `path` + "/" + index. */
  function ElementNodes(value: Json, i: nat, path: string, errors: seq<ErrorEntry>): (r: seq<TreeNode>)
    requires value.Arr? && i <= |value.elems|
    ensures |r| == |value.elems| - i
    decreases value, 0, |value.elems| - i
  {
    if i == |value.elems| then []
    else
      [Node(NatToString(i), value.elems[i], path + "/" + NatToString(i), errors)]
        + ElementNodes(value, i + 1, path, errors)
  }

  /** The rows of the given entries of an object from index `i` on. */
  function MemberNodes(value: Json, shown: seq<Member>, i: nat, entityPath: string, errors: seq<ErrorEntry>): (r: seq<TreeNode>)
    requires value.Obj? && i <= |shown| && forall m :: m in shown ==> m in value.members
    ensures |r| == |shown| - i
    decreases value, 0, |shown| - i
  {
    if i == |shown| then []
    else
      assert shown[i] in value.members;
      [Node(shown[i].key, shown[i].value, PropertyPath(entityPath, shown[i].key), errors)]
        + MemberNodes(value, shown, i + 1, entityPath, errors)
  }

  /** `createJsTreeNode`: builds the children by pushing one recursively built row at a time. */
  method CreateJsTreeNode(text: string, value: Json, annotationPath: string, errors: seq<ErrorEntry>)
    returns (node: TreeNode)
    ensures node == Node(text, value, annotationPath, errors)
    decreases value, 1
  {
    var keyPath := annotationPath;
    var path := annotationPath;
    var valuePath: Option<string> := None;
    var children: seq<TreeNode> := [];
    if value.Arr? {
      children := PushElementRows(value, path, errors);
    } else if CheckIfObjectIsObject(value) {
      if !EndsWithIndex(path) {
        path := path + "/0";
      }
      children := PushMemberRows(value, path, errors);
    } else {
      if !EndsWithIndex(path) {
        path := path + "/0";
      }
      valuePath := Some(path);
    }
    var related := FindRelatedErrors(Row(path, keyPath, valuePath), errors);
    var marking := RowMarking(related);
    node := TreeNode(text, path, keyPath, valuePath, related, marking,
                     if !value.Arr? && !CheckIfObjectIsObject(value) then Absent else Rows(children));
  }

  /** The loop of `createJsTreeNode` over the elements of an array. */
  method PushElementRows(value: Json, path: string, errors: seq<ErrorEntry>) returns (children: seq<TreeNode>)
    requires value.Arr?
    ensures children == ElementNodes(value, 0, path, errors)
    decreases value, 0
  {
    children := [];
    for i := 0 to |value.elems|
      invariant children + ElementNodes(value, i, path, errors) == ElementNodes(value, 0, path, errors)
    {
      var child := CreateJsTreeNode(NatToString(i), value.elems[i], path + "/" + NatToString(i), errors);
      AppendOne(children, child, ElementNodes(value, i + 1, path, errors));
      children := children + [child];
    }
    assert children == children + ElementNodes(value, |value.elems|, path, errors);
  }

  /** The loop of `createJsTreeNode` over the entries of an object, `@context` skipped. */
  method PushMemberRows(value: Json, path: string, errors: seq<ErrorEntry>) returns (children: seq<TreeNode>)
    requires value.Obj?
    ensures children == MemberNodes(value, Shown(value.members), 0, path, errors)
    decreases value, 0
  {
    children := [];
    var shown := Shown(value.members);
    for i := 0 to |shown|
      invariant children + MemberNodes(value, shown, i, path, errors) == MemberNodes(value, shown, 0, path, errors)
    {
      assert shown[i] in value.members;
      var prop := shown[i].key;
      var newAnnotationPath := path;
      if !StartsWith(prop, "@") {
        if Contains(prop, ":") {
          newAnnotationPath := newAnnotationPath + "." + prop;
        } else {
          newAnnotationPath := newAnnotationPath + ".schema:" + prop;
        }
      } else {
        newAnnotationPath := newAnnotationPath + "." + prop;
      }
      assert newAnnotationPath == PropertyPath(path, prop);
      var child := CreateJsTreeNode(prop, shown[i].value, newAnnotationPath, errors);
      AppendOne(children, child, MemberNodes(value, shown, i + 1, path, errors));
      children := children + [child];
    }
    assert children == children + MemberNodes(value, shown, |shown|, path, errors);
  }

  /** What `createJsTree` builds: the root row ("$", shown as a literal) with a row per property; `None` where it throws. */
  function JsTree(content: Json, errors: seq<ErrorEntry>): Option<TreeNode>
  {
    var copy := HardCopy(content);
    if copy.None? || copy.value.Null? then None
    else
      var copy := copy.value;
      var root := Node("Annotation", Str(""), "$", errors);
      Some(root.(children := Rows(RootNodes(copy, Keys(copy), 0, errors))))
  }

  /** The rows of the root's properties, `@context` left out. */
  function RootNodes(copy: Json, keys: seq<string>, i: nat, errors: seq<ErrorEntry>): seq<TreeNode>
    requires !copy.Undefined? && !copy.Null? && i <= |keys|
    decreases |keys| - i
  {
    if i == |keys| then []
    else if keys[i] == ContextKey then RootNodes(copy, keys, i + 1, errors)
    else [Node(keys[i], Index(copy, keys[i]), RootPropertyPath(keys[i]), errors)] + RootNodes(copy, keys, i + 1, errors)
  }

  lemma AppendOne<T>(front: seq<T>, x: T, back: seq<T>)
    ensures front + [x] + back == front + ([x] + back)
  {
  }

  /** `createJsTree`. */
  method CreateJsTree(content: Json, errors: seq<ErrorEntry>) returns (tree: Option<TreeNode>)
    ensures tree == JsTree(content, errors)
  {
    var parsed := HardCopy(content);
    if parsed.None? || parsed.value.Null? {
      return None;
    }
    var copy := parsed.value;
    var rootNode := CreateJsTreeNode("Annotation", Str(""), "$", errors);
    var rootChildren: seq<TreeNode> := [];
    var keys := Keys(copy);
    for i := 0 to |keys|
      invariant rootChildren + RootNodes(copy, keys, i, errors) == RootNodes(copy, keys, 0, errors)
    {
      var prop := keys[i];
      if prop != ContextKey {
        var annotationPath;
        if prop == "@type" || prop == "@reverse" {
          annotationPath := "$." + prop;
        } else if Contains(prop, ":") {
          annotationPath := "$." + prop;
        } else {
          annotationPath := "$.schema:" + prop;
        }
        var child := CreateJsTreeNode(prop, Index(copy, prop), annotationPath, errors);
        assert annotationPath == RootPropertyPath(prop);
        AppendOne(rootChildren, child, RootNodes(copy, keys, i + 1, errors));
        rootChildren := rootChildren + [child];
      }
    }
    assert rootChildren == RootNodes(copy, keys, 0, errors);
    return Some(rootNode.(children := Rows(rootChildren)));
  }

  /** Appending "/0" gives a path that ends in an index, and a path that already does is kept. */
  lemma RowPathEndsWithIndex(path: string)
    ensures EndsWithIndex(RowPath(path))
    ensures EndsWithIndex(path) ==> RowPath(path) == path
    ensures !EndsWithIndex(path) ==> RowPath(path) == path + "/0"
  {
    if !EndsWithIndex(path) {
      var p := path + "/0";
      assert p[..|p| - 1] == path + "/";
      assert TrailingDigits(path + "/") == 0;
      assert TrailingDigits(p) == 1;
    }
  }

  /**
   * The paths of a row: an array row keeps its path and its element `i`
   * is at path + "/" + i; entity and literal rows end in an index; a
   * literal's value path is its row path; an entity's property rows
   * extend its path, skip `@context`, and get "schema:" unless the key
   * has a prefix or starts with "@".
   */
  lemma NodePaths(text: string, value: Json, path: string, errors: seq<ErrorEntry>)
    ensures Node(text, value, path, errors).keyPath == path
    ensures Node(text, value, path, errors).children.Rows? == (value.Arr? || value.Obj?)
    ensures value.Arr? ==> (var n := Node(text, value, path, errors);
      n.annotationPath == path && n.valuePath == None && |n.children.rows| == |value.elems|
      && forall i :: 0 <= i < |value.elems| ==> n.children.rows[i].keyPath == path + "/" + NatToString(i))
    ensures !value.Arr? ==> (var n := Node(text, value, path, errors);
      EndsWithIndex(n.annotationPath) && (EndsWithIndex(path) ==> n.annotationPath == path))
    ensures !value.Arr? && !value.Obj? ==> (var n := Node(text, value, path, errors);
      n.valuePath == Some(n.annotationPath))
    ensures value.Obj? ==> (var n := Node(text, value, path, errors);
      n.valuePath == None
      && forall c :: c in n.children.rows ==>
        c.text != ContextKey && c.keyPath == PropertyPath(n.annotationPath, c.text)
        && StartsWith(c.keyPath, n.annotationPath + "."))
  {
    RowPathEndsWithIndex(path);
    var n := Node(text, value, path, errors);
    if value.Arr? {
      ElementNodesPaths(value, 0, path, errors);
    } else if value.Obj? {
      var shown := Shown(value.members);
      MemberNodesPaths(value, shown, 0, RowPath(path), errors);
    }
  }

  lemma {:induction false} ElementNodesPaths(value: Json, i: nat, path: string, errors: seq<ErrorEntry>)
    requires value.Arr? && i <= |value.elems|
    ensures forall k :: 0 <= k < |value.elems| - i ==>
      ElementNodes(value, i, path, errors)[k].keyPath == path + "/" + NatToString(i + k)
    decreases |value.elems| - i
  {
    if i < |value.elems| {
      var rows := ElementNodes(value, i, path, errors);
      var head := Node(NatToString(i), value.elems[i], path + "/" + NatToString(i), errors);
      var tail := ElementNodes(value, i + 1, path, errors);
      assert rows == [head] + tail by { ElementNodesUnfold(value, i, path, errors); }
      assert head.keyPath == path + "/" + NatToString(i) by {
        NodeKeyPath(NatToString(i), value.elems[i], path + "/" + NatToString(i), errors);
      }
      assert forall k :: 0 <= k < |tail| ==> tail[k].keyPath == path + "/" + NatToString(i + 1 + k) by {
        ElementNodesPaths(value, i + 1, path, errors);
      }
      KeyPathsCons(head, tail, path, i);
    }
  }

  /** Rows at consecutive indices from `i + 1`, after a row at index `i`, are at consecutive indices from `i`. */
  lemma KeyPathsCons(head: TreeNode, tail: seq<TreeNode>, path: string, i: nat)
    requires head.keyPath == path + "/" + NatToString(i)
    requires forall k :: 0 <= k < |tail| ==> tail[k].keyPath == path + "/" + NatToString(i + 1 + k)
    ensures forall k :: 0 <= k < |[head] + tail| ==> ([head] + tail)[k].keyPath == path + "/" + NatToString(i + k)
  {
    forall k | 0 <= k < |[head] + tail|
      ensures ([head] + tail)[k].keyPath == path + "/" + NatToString(i + k)
    {
      if k > 0 {
        assert ([head] + tail)[k] == tail[k - 1];
      }
    }
  }

  lemma ElementNodesUnfold(value: Json, i: nat, path: string, errors: seq<ErrorEntry>)
    requires value.Arr? && i < |value.elems|
    ensures ElementNodes(value, i, path, errors)
      == [Node(NatToString(i), value.elems[i], path + "/" + NatToString(i), errors)] + ElementNodes(value, i + 1, path, errors)
  {
  }

  /** A row's key path is the path it was built at. */
  lemma NodeKeyPath(text: string, value: Json, path: string, errors: seq<ErrorEntry>)
    ensures Node(text, value, path, errors).keyPath == path
  {
  }

  lemma {:induction false} MemberNodesPaths(value: Json, shown: seq<Member>, i: nat, entityPath: string, errors: seq<ErrorEntry>)
    requires value.Obj? && i <= |shown| && forall m :: m in shown ==> m in value.members && m.key != ContextKey
    ensures forall c :: c in MemberNodes(value, shown, i, entityPath, errors) ==>
      c.text != ContextKey && c.keyPath == PropertyPath(entityPath, c.text)
      && StartsWith(c.keyPath, entityPath + ".")
    decreases |shown| - i
  {
    if i < |shown| {
      var key := shown[i].key;
      var head := Node(key, shown[i].value, PropertyPath(entityPath, key), errors);
      var tail := MemberNodes(value, shown, i + 1, entityPath, errors);
      assert MemberNodes(value, shown, i, entityPath, errors) == [head] + tail;
      assert MemberRowFits(head, entityPath) by {
        assert shown[i] in shown;
        NodeKeyPath(key, shown[i].value, PropertyPath(entityPath, key), errors);
        PropertyPathExtends(entityPath, key);
      }
      assert forall c :: c in tail ==> MemberRowFits(c, entityPath) by {
        MemberNodesPaths(value, shown, i + 1, entityPath, errors);
      }
      MemberRowsCons(head, tail, entityPath);
    }
  }

  /** A member row under `entityPath`: not `@context`, at its property path below the entity. */
  predicate MemberRowFits(c: TreeNode, entityPath: string)
  {
    c.text != ContextKey && c.keyPath == PropertyPath(entityPath, c.text) && StartsWith(c.keyPath, entityPath + ".")
  }

  lemma MemberRowsCons(head: TreeNode, tail: seq<TreeNode>, entityPath: string)
    requires MemberRowFits(head, entityPath) && forall c :: c in tail ==> MemberRowFits(c, entityPath)
    ensures forall c :: c in [head] + tail ==>
      c.text != ContextKey && c.keyPath == PropertyPath(entityPath, c.text) && StartsWith(c.keyPath, entityPath + ".")
  {
  }

  lemma PropertyPathExtends(entityPath: string, key: string)
    ensures StartsWith(PropertyPath(entityPath, key), entityPath + ".")
  {
    var p := PropertyPath(entityPath, key);
    var q := entityPath + ".";
    if !StartsWith(key, "@") && !Contains(key, ":") {
      assert p == q + "schema:" + key;
    } else {
      assert p == q + key;
    }
    assert p[..|q|] == q;
  }

  /** Every row below a node shows only entries of the report, and its marking is its worst severity. */
  predicate WellFormedTree(n: TreeNode, errors: seq<ErrorEntry>)
  {
    (forall e :: e in n.relatedErrors ==> e in errors)
    && MarkingRank(n.marking) == WorstRank(n.relatedErrors)
    && match n.children
       case Absent => true
       case Rows(rows) => forall c :: c in rows ==> WellFormedTree(c, errors)
  }

  /** Every row of the tree built for a value shows only entries of the report, marked by the worst of them. */
  lemma {:induction false} NodeWellFormed(text: string, value: Json, path: string, errors: seq<ErrorEntry>)
    ensures WellFormedTree(Node(text, value, path, errors), errors)
    decreases value, 1
  {
    var n := Node(text, value, path, errors);
    RelatedFromReport(Row(n.annotationPath, n.keyPath, n.valuePath), errors);
    MarkingIsWorst(n.relatedErrors);
    if value.Arr? {
      ElementNodesWellFormed(value, 0, path, errors);
    } else if value.Obj? {
      MemberNodesWellFormed(value, Shown(value.members), 0, RowPath(path), errors);
    }
  }

  lemma {:induction false} ElementNodesWellFormed(value: Json, i: nat, path: string, errors: seq<ErrorEntry>)
    requires value.Arr? && i <= |value.elems|
    ensures forall c :: c in ElementNodes(value, i, path, errors) ==> WellFormedTree(c, errors)
    decreases value, 0, |value.elems| - i
  {
    if i < |value.elems| {
      NodeWellFormed(NatToString(i), value.elems[i], path + "/" + NatToString(i), errors);
      ElementNodesWellFormed(value, i + 1, path, errors);
    }
  }

  lemma {:induction false} MemberNodesWellFormed(value: Json, shown: seq<Member>, i: nat, entityPath: string, errors: seq<ErrorEntry>)
    requires value.Obj? && i <= |shown| && forall m :: m in shown ==> m in value.members
    ensures forall c :: c in MemberNodes(value, shown, i, entityPath, errors) ==> WellFormedTree(c, errors)
    decreases value, 0, |shown| - i
  {
    if i < |shown| {
      var m := shown[i];
      assert m in value.members;
      var head := Node(m.key, m.value, PropertyPath(entityPath, m.key), errors);
      var tail := MemberNodes(value, shown, i + 1, entityPath, errors);
      assert WellFormedTree(head, errors) by {
        NodeWellFormed(m.key, m.value, PropertyPath(entityPath, m.key), errors);
      }
      assert forall c :: c in tail ==> WellFormedTree(c, errors) by {
        MemberNodesWellFormed(value, shown, i + 1, entityPath, errors);
      }
      assert MemberNodes(value, shown, i, entityPath, errors) == [head] + tail by {
        MemberNodesUnfold(value, shown, i, entityPath, errors);
      }
      ConsWellFormed(head, tail, errors);
    }
  }

  lemma ConsWellFormed(head: TreeNode, tail: seq<TreeNode>, errors: seq<ErrorEntry>)
    requires WellFormedTree(head, errors) && forall c :: c in tail ==> WellFormedTree(c, errors)
    ensures forall c :: c in [head] + tail ==> WellFormedTree(c, errors)
  {
    forall c | c in [head] + tail ensures WellFormedTree(c, errors) {
      if c != head {
        assert c in tail;
      }
    }
  }

  lemma MemberNodesUnfold(value: Json, shown: seq<Member>, i: nat, entityPath: string, errors: seq<ErrorEntry>)
    requires value.Obj? && i < |shown| && forall m :: m in shown ==> m in value.members
    ensures MemberNodes(value, shown, i, entityPath, errors)
      == [Node(shown[i].key, shown[i].value, PropertyPath(entityPath, shown[i].key), errors)]
        + MemberNodes(value, shown, i + 1, entityPath, errors)
  {
  }

  /**
   * The tree of an annotation: none where the copy of the content is null
   * or missing; otherwise the root row sits at "$" (its errors are looked up
   * as for the literal at "$/0"), every root property but `@context` gets a
   * row at its root key path, and every row in the tree is well formed.
   */
  lemma JsTreeShape(content: Json, errors: seq<ErrorEntry>)
    ensures JsTree(content, errors).None? <==> content.Undefined? || CopyValue(content).Null?
    ensures JsTree(content, errors).Some? ==> (var t := JsTree(content, errors).value;
      t.text == "Annotation" && t.keyPath == "$" && t.annotationPath == "$/0" && t.valuePath == Some("$/0")
      && WellFormedTree(t, errors)
      && forall c :: c in t.children.rows ==> c.text != ContextKey && c.keyPath == RootPropertyPath(c.text))
  {
    if JsTree(content, errors).Some? {
      var copy := CopyValue(content);
      var root := Node("Annotation", Str(""), "$", errors);
      var rows := RootNodes(copy, Keys(copy), 0, errors);
      assert JsTree(content, errors).value == root.(children := Rows(rows));
      AnnotationRow(errors);
      RootNodesFacts(copy, Keys(copy), 0, errors);
    }
  }

  /** The root's own row: "Annotation" at "$", its value at "$/0", well formed. */
  lemma AnnotationRow(errors: seq<ErrorEntry>)
    ensures var root := Node("Annotation", Str(""), "$", errors);
      root.text == "Annotation" && root.keyPath == "$" && root.annotationPath == "$/0" && root.valuePath == Some("$/0")
      && (forall e :: e in root.relatedErrors ==> e in errors)
      && MarkingRank(root.marking) == WorstRank(root.relatedErrors)
  {
    RowPathEndsWithIndex("$");
    assert RowPath("$") == "$/0" by {
      assert !EndsWithIndex("$");
    }
    NodeWellFormed("Annotation", Str(""), "$", errors);
  }

  lemma {:induction false} RootNodesFacts(copy: Json, keys: seq<string>, i: nat, errors: seq<ErrorEntry>)
    requires !copy.Undefined? && !copy.Null? && i <= |keys|
    ensures forall c :: c in RootNodes(copy, keys, i, errors) ==>
      WellFormedTree(c, errors) && c.text != ContextKey && c.keyPath == RootPropertyPath(c.text)
    decreases |keys| - i
  {
    if i < |keys| {
      var tail := RootNodes(copy, keys, i + 1, errors);
      assert forall c :: c in tail ==>
        WellFormedTree(c, errors) && c.text != ContextKey && c.keyPath == RootPropertyPath(c.text) by {
        RootNodesFacts(copy, keys, i + 1, errors);
      }
      if keys[i] != ContextKey {
        var key := keys[i];
        var head := Node(key, Index(copy, key), RootPropertyPath(key), errors);
        assert WellFormedTree(head, errors) by {
          NodeWellFormed(key, Index(copy, key), RootPropertyPath(key), errors);
        }
        assert head.text == key && head.keyPath == RootPropertyPath(key) by {
          NodePaths(key, Index(copy, key), RootPropertyPath(key), errors);
        }
        assert RootNodes(copy, keys, i, errors) == [head] + tail;
        forall c | c in [head] + tail
          ensures WellFormedTree(c, errors) && c.text != ContextKey && c.keyPath == RootPropertyPath(c.text)
        {
          if c != head {
            assert c in tail;
          }
        }
      }
    }
  }

  // ---------------------------------------------------------------------
  // extractElementNameFromPath

  /** `x || d` on a number: 0 is falsy, every other index (-1 included) is kept. */
  function OrElse(x: int, d: int): int
  {
    if x == 0 then d else x
  }

  /** Where the name starts, less one: the last ":", or just before the last "@" if that comes later. */
  function NameStart(path: string): int
  {
    var colon := OrElse(LastIndexOf(path, ":"), 0);
    var at := OrElse(LastIndexOf(path, "@"), 0);
    if at > colon then at - 1 else colon
  }

  /** `extractElementNameFromPath` as written: a missing "/" gives -1, which is truthy, so the end is -1. */
  function ExtractElementNameFromPathAsWritten(path: string): string
  {
    Substring(path, NameStart(path) + 1, OrElse(LastIndexOf(path, "/"), |path|))
  }

  /**
   * The end of the name: the last "/" when it comes after the name's start,
   * else the end of the path (a "/" at position 0 is falsy and falls back
   * too, as in the source).
   */
  function NameEnd(path: string): int
  {
    var slash := LastIndexOf(path, "/");
    if slash <= 0 || slash <= NameStart(path) then |path| else slash
  }

  /** `extractElementNameFromPath` with the fallback to the path's length taken when no "/" follows the name's start. */
  function ExtractElementNameFromPath(path: string): string
  {
    Substring(path, NameStart(path) + 1, NameEnd(path))
  }

  lemma NameStartBounds(path: string)
    ensures -1 <= NameStart(path) < |path|
  {
  }

  /** With a "/" after the start of the name, both read the text from the name's start up to the last "/". */
  lemma ElementNameBeforeSlash(path: string)
    requires LastIndexOf(path, "/") > 0 && LastIndexOf(path, "/") > NameStart(path)
    ensures ExtractElementNameFromPath(path) == path[NameStart(path) + 1..LastIndexOf(path, "/")]
    ensures ExtractElementNameFromPathAsWritten(path) == ExtractElementNameFromPath(path)
  {
    NameStartBounds(path);
  }

  /** With no "/" after the start of the name, the corrected reading runs from there to the end of the path. */
  lemma ElementNameToEnd(path: string)
    requires forall i :: NameStart(path) < i < |path| ==> path[i] != '/'
    ensures ExtractElementNameFromPath(path) == path[NameStart(path) + 1..]
  {
    NameStartBounds(path);
    NoOccurrenceAfter(path, '/', NameStart(path));
    assert "/" == ['/'];
  }

  /** Without any "/", the code as written returns the text before the name instead. */
  lemma ElementNameWithoutSlash(path: string)
    requires forall i :: 0 <= i < |path| ==> path[i] != '/'
    ensures ExtractElementNameFromPath(path) == path[NameStart(path) + 1..]
    ensures ExtractElementNameFromPathAsWritten(path) == path[..NameStart(path) + 1]
  {
    NameStartBounds(path);
    NoOccurrence(path, '/');
    assert "/" == ['/'];
    ElementNameToEnd(path);
  }

  lemma NoOccurrence(path: string, c: char)
    requires forall i :: 0 <= i < |path| ==> path[i] != c
    ensures LastIndexOf(path, [c]) == -1
  {
    NoOccurrenceAfter(path, c, -1);
  }

  /** A character missing after `start` has its last occurrence, if any, at or before `start`. */
  lemma NoOccurrenceAfter(path: string, c: char, start: int)
    requires forall i :: start < i < |path| && 0 <= i ==> path[i] != c
    ensures LastIndexOf(path, [c]) == -1 || LastIndexOf(path, [c]) <= start
  {
    forall k | start < k ensures !OccursAt(path, [c], k) {
      if 0 <= k && k + 1 <= |path| {
        assert path[k..k + 1] == [path[k]];
      }
    }
  }

  /** The last position of a character is where it occurs and does not occur again. */
  lemma LastOccurrence(path: string, c: char, k: nat)
    requires k < |path| && path[k] == c
    requires forall i :: k < i < |path| ==> path[i] != c
    ensures LastIndexOf(path, [c]) == k
  {
    assert OccursAt(path, [c], k) by { assert path[k..k + 1] == [path[k]]; }
    forall i | k < i ensures !OccursAt(path, [c], i) {
      if i + 1 <= |path| {
        assert path[i..i + 1] == [path[i]];
      }
    }
  }

  /** The key path of a root property holding an array, as the tree builds it. */
  const ArrayRowPath := "$.schema:author"

  /**
   * For the row of a root property holding an array the source shows the
   * text before the name ("$.schema:"); the corrected reading gives the
   * property's name.
   */
  lemma ArrayRowName()
    ensures ExtractElementNameFromPathAsWritten(ArrayRowPath) == "$.schema:"
    ensures ExtractElementNameFromPath(ArrayRowPath) == "author"
  {
    var path := ArrayRowPath;
    assert path[8] == ':';
    LastOccurrence(path, ':', 8);
    assert ":" == [':'];
    assert LastIndexOf(path, ":") == 8;
    assert "@" == ['@'] && "/" == ['/'];
    NoOccurrence(path, '@');
    NoOccurrence(path, '/');
    assert LastIndexOf(path, "@") == -1;
    assert OrElse(LastIndexOf(path, "@"), 0) == -1;
    assert OrElse(LastIndexOf(path, ":"), 0) == 8;
    assert NameStart(path) == 8;
    ElementNameWithoutSlash(path);
    assert path[..9] == "$.schema:";
    assert path[9..] == "author";
  }

  /** The key path of a property inside an element of such an array. */
  const NestedRowPath := "$.schema:author/0.schema:knows"

  /**
   * Below an array element the last "/" comes before the name: the source
   * shows the text between them ("/0.schema:"); the corrected reading gives
   * the property's name.
   */
  lemma NestedRowName()
    ensures ExtractElementNameFromPathAsWritten(NestedRowPath) == "/0.schema:"
    ensures ExtractElementNameFromPath(NestedRowPath) == "knows"
  {
    var path := NestedRowPath;
    NestedRowMarks();
    NestedRowParts();
    ElementNameToEnd(path);
  }

  /** The text from the last "/" up to the name, and the name itself. */
  lemma NestedRowParts()
    ensures NestedRowPath[15..25] == "/0.schema:" && NestedRowPath[25..] == "knows"
  {
    assert NestedRowPath == "$.schema:author" + "/0.schema:" + "knows";
  }

  /** In that path the name starts after the ":" at 24, and the last "/" is at 15. */
  lemma NestedRowMarks()
    ensures NameStart(NestedRowPath) == 24
    ensures LastIndexOf(NestedRowPath, "/") == 15
  {
    var path := NestedRowPath;
    assert ":" == [':'] && "@" == ['@'] && "/" == ['/'];
    LastOccurrence(path, ':', 24);
    LastOccurrence(path, '/', 15);
    NestedRowHasNoAt();
    NoOccurrence(path, '@');
  }

  /** No "@" occurs in that path. */
  lemma NestedRowHasNoAt()
    ensures forall i :: 0 <= i < |NestedRowPath| ==> NestedRowPath[i] != '@'
  {
    var path := NestedRowPath;
    assert path == ArrayRowPath + "/0.schema:knows";
    forall i | 0 <= i < |path| ensures path[i] != '@' {
      if i < |ArrayRowPath| {
        assert path[i] == ArrayRowPath[i];
      }
    }
  }
}

=== FILE: general_verification.dfy ===
/**
 * `isAnnotationValid`: the lexical check, the `@context` check, the
 * pre-processing around the JSON-LD compaction, the semantic check and the
 * schema.org walk, one after the other on one growing list of errors, and
 * the verdict drawn from the severities of the entries. An exception in any
 * stage is caught and ends the verification as invalid.
 */
module GeneralVerification {
  import opened JsValues
  import opened ErrorEntries
  import opened ErrorBuilders
  import opened LexicalCheck
  import opened ContextCheck
  import opened Normalizer
  import opened SemanticCheck
  import opened SdoVocabulary
  import opened SdoWalk

  const LexicalProblem: string := "There was a lexical problem with the annotation."
  const ContextProblem: string := "There was a problem with the @context of the annotation."
  const ValidDescription: string := "The annotation is a valid Schema.org annotation."
  const WarningsDescription: string := "The annotation is valid, but with warnings."
  const InvalidDescription: string := "The annotation is invalid."
  const ExecutionProblem: string :=
    "There was an execution error during the verification process, make sure the sent annotation has a valid serialization."
  const SerializationProblem: string :=
    "There was an error during the verification process, make sure the sent annotation has a valid serialization."
  const TypeSyntaxMessage: string :=
    "Invalid JSON-LD syntax; \"@type\" value must a string, an array of strings, an empty object, or a default object."
  const VocabSyntaxMessage: string :=
    "Invalid JSON-LD syntax; the value of \"@vocab\" in a @context must be a string or null."
  const TermSyntaxMessage: string := "Invalid JSON-LD syntax; @context term values must be strings or objects."
  const ContextSyntaxMessage: string := "Invalid JSON-LD syntax; @context must be an object."
  const CodeSeparator: string := ": "
  const UrlSeparator: string := " - "

  // ---------------------------------------------------------------------
  // The JSON-LD compaction

  /** An exception of the JSON-LD processor, by its name. */
  datatype CompactionFailure =
    | InvalidUrl(code: string, url: string, message: string)   // jsonld.InvalidUrl
    | SyntaxError(message: string, value: Json)                // jsonld.SyntaxError
    | OtherFailure                                             // anything else

  /** `jsonld.compact(annotation, context)`: a compacted object, or an exception. */
  datatype Compaction = Compacted(members: seq<Member>) | Failed(failure: CompactionFailure)

  /** The outcome of `preProcessAnnotation`; `Threw(None)` for an exception of the replacements. */
  datatype Processed = Done(annotation: Json) | Threw(failure: Option<CompactionFailure>)

  /** `preProcessAnnotation`: the pre-replacement, the compaction, the post-replacement. */
  function PreProcess(compact: (Json, Context) -> Compaction, annotation: Json): (r: Processed)
    ensures r.Done? ==> r.annotation.Obj?
  {
    var pre := Pre(annotation, StandardContext);
    if pre.threw then Threw(None)
    else match compact(pre.value, pre.global)
      case Failed(f) => Threw(Some(f))
      case Compacted(members) =>
        match Post(Obj(members))
        case None => Threw(None)
        case Some(post) => Done(post)
  }

  method PreProcessAnnotation(compact: (Json, Context) -> Compaction, annotation: Json) returns (r: Processed)
    ensures r == PreProcess(compact, annotation)
  {
    var pre := CompactPreReplacement(annotation, StandardContext);
    if pre.threw {
      return Threw(None);
    }
    var compacted := compact(pre.value, pre.global);
    if compacted.Failed? {
      return Threw(Some(compacted.failure));
    }
    var post := CompactPostReplacement(Obj(compacted.members));
    if post.None? {
      return Threw(None);
    }
    r := Done(post.value);
  }

  // ---------------------------------------------------------------------
  // The catch block

  /** The three messages on a bad `@context`, which `checkContext` has reported already. */
  predicate ContextSyntax(f: CompactionFailure)
  {
    f.SyntaxError? &&
    (f.message == VocabSyntaxMessage || f.message == TermSyntaxMessage || f.message == ContextSyntaxMessage)
  }

  /** What the catch block pushes for an exception (`None`: not one of the processor's). */
  function CaughtErrors(failure: Option<CompactionFailure>): (r: seq<ErrorEntry>)
    ensures |r| <= 1
    ensures |r| == 0 <==> failure.Some? && ContextSyntax(failure.value)
    ensures forall k :: 0 <= k < |r| ==> IsBlocking(r[k])
  {
    match failure
    case Some(InvalidUrl(code, url, message)) =>
      [Error999(code + CodeSeparator + url + UrlSeparator + message)]
    case Some(SyntaxError(message, value)) =>
      if message == TypeSyntaxMessage then [Error204(None, value)]
      else if ContextSyntax(failure.value) then []
      else [Error999(SerializationProblem)]
    case _ => [Error999(SerializationProblem)]
  }

  function ExecutionReport(errors: seq<ErrorEntry>, failure: Option<CompactionFailure>): GeneralVerificationReport
  {
    NewReport(Invalid, None, Some(ExecutionProblem), errors + CaughtErrors(failure))
  }

  // ---------------------------------------------------------------------
  // The verdict

  /** Step 6: valid without entries, invalid with an Error or Critical entry, else valid with warnings. */
  function Classification(errors: seq<ErrorEntry>): VerificationResult
  {
    if |errors| == 0 then Valid
    else if exists k :: 0 <= k < |errors| && IsBlocking(errors[k]) then Invalid
    else ValidWithWarnings
  }

  function ResultDescription(result: VerificationResult): string
  {
    match result
    case Valid => ValidDescription
    case ValidWithWarnings => WarningsDescription
    case Invalid => InvalidDescription
  }

  /** Step 6 as written: the result starts valid, and the loop stops at the first blocking entry. */
  method Classify(errors: seq<ErrorEntry>) returns (result: VerificationResult, description: string)
    ensures result == Classification(errors) && description == ResultDescription(result)
    ensures result == Valid <==> |errors| == 0
    ensures result == Invalid <==> exists k :: 0 <= k < |errors| && IsBlocking(errors[k])
    ensures result == ValidWithWarnings <==>
      |errors| > 0 && forall k :: 0 <= k < |errors| ==> !IsBlocking(errors[k])
  {
    result := Valid;
    description := ValidDescription;
    if |errors| > 0 {
      result := ValidWithWarnings;
      description := WarningsDescription;
      var i := 0;
      while i < |errors|
        invariant 0 <= i <= |errors|
        invariant result == ValidWithWarnings && description == WarningsDescription
        invariant forall k :: 0 <= k < i ==> !IsBlocking(errors[k])
      {
        if errors[i].severity == Error || errors[i].severity == Critical {
          result := Invalid;
          description := InvalidDescription;
          break;
        }
        i := i + 1;
      }
    }
  }

  // ---------------------------------------------------------------------
  // The whole verification

  /**
   * `isAnnotationValid(input)`, with JSON.parse as `parse`, the JSON-LD
   * processor as `compact`, and the schema.org vocabulary as `voc`.
   */
  function Verification(voc: Vocabulary, oracles: Oracles, parse: string -> Option<Json>,
                        compact: (Json, Context) -> Compaction, input: Json): GeneralVerificationReport
    requires SdoVocabulary.Valid(voc)
  {
    var lex := Lexical(parse, input);
    LexicalVerdict(parse, input);
    if !lex.outcome then NewReport(Invalid, None, Some(LexicalProblem), lex.errors)
    else
      var context := Get(lex.annotation, ContextKey);
      var errors := lex.errors + ContextErrors(context);
      if context.Undefined? then NewReport(Invalid, None, Some(ContextProblem), errors)
      else match PreProcess(compact, lex.annotation)
        case Threw(failure) => ExecutionReport(errors, failure)
        case Done(annotation) => Analysis(voc, oracles, errors, annotation)
  }

  /** Steps 4 to 6 on the pre-processed annotation, after the entries `errors`. */
  function Analysis(voc: Vocabulary, oracles: Oracles, errors: seq<ErrorEntry>, annotation: Json): GeneralVerificationReport
    requires SdoVocabulary.Valid(voc) && annotation.Obj?
  {
    var semantic := Semantic(annotation);
    if semantic.threw then ExecutionReport(errors + semantic.errors, None)
    else
      var walk := Walk(voc, oracles, annotation, "$");
      var all := errors + semantic.errors + walk.errors;
      if walk.threw then ExecutionReport(all, None)
      else
        var result := Classification(all);
        NewReport(result, None, Some(ResultDescription(result)), all)
  }

  method IsAnnotationValid(voc: Vocabulary, oracles: Oracles, parse: string -> Option<Json>,
                           compact: (Json, Context) -> Compaction, input: Json)
    returns (report: GeneralVerificationReport)
    requires SdoVocabulary.Valid(voc)
    ensures report == Verification(voc, oracles, parse, compact, input)
  {
    var lex := LexicalCheckJSON(parse, input);
    LexicalVerdict(parse, input);
    if !lex.outcome {
      return NewReport(Invalid, None, Some(LexicalProblem), lex.errors);
    }
    var annotation := lex.annotation;
    var hasContext, pushed := CheckContext(annotation);
    var errorReport := lex.errors + pushed;
    if !hasContext {
      return NewReport(Invalid, None, Some(ContextProblem), errorReport);
    }
    var processed := PreProcessAnnotation(compact, annotation);
    if processed.Threw? {
      return ExecutionReport(errorReport, processed.failure);
    }
    annotation := processed.annotation;
    var semantic := SemanticCheckJSONLD(annotation);
    errorReport := errorReport + semantic.errors;
    if semantic.threw {
      return ExecutionReport(errorReport, None);
    }
    var walk := RecursiveSdo(voc, oracles, annotation, "$");
    errorReport := errorReport + walk.errors;
    if walk.threw {
      return ExecutionReport(errorReport, None);
    }
    var result, description := Classify(errorReport);
    report := NewReport(result, None, Some(description), errorReport);
  }

  // ---------------------------------------------------------------------
  // What the report promises

  predicate HasBlocking(errors: seq<ErrorEntry>)
  {
    exists k :: 0 <= k < |errors| && IsBlocking(errors[k])
  }

  /**
   * The verdict agrees with the severities: invalid exactly when an Error or
   * Critical entry is there, valid only without entries, valid with
   * warnings only with non-blocking entries.
   */
  predicate VerdictAgrees(r: GeneralVerificationReport)
  {
    (HasBlocking(r.errors) <==> r.verificationResult == Invalid) &&
    (r.verificationResult == Valid ==> r.errors == []) &&
    (r.verificationResult == ValidWithWarnings ==> |r.errors| > 0 && !HasBlocking(r.errors))
  }

  /** A list ending in a blocking entry holds one. */
  lemma EndsBlocking(errors: seq<ErrorEntry>, e: ErrorEntry)
    requires IsBlocking(e)
    ensures HasBlocking(errors + [e])
  {
    assert (errors + [e])[|errors|] == e;
  }

  /** The report of the catch block is invalid, and agrees unless it pushed nothing. */
  lemma ExecutionReportAgrees(errors: seq<ErrorEntry>, failure: Option<CompactionFailure>)
    ensures ExecutionReport(errors, failure).verificationResult == Invalid
    ensures errors <= ExecutionReport(errors, failure).errors
    ensures !(failure.Some? && ContextSyntax(failure.value)) ==> VerdictAgrees(ExecutionReport(errors, failure))
  {
    var caught := CaughtErrors(failure);
    if |caught| > 0 {
      assert caught == [caught[0]];
      EndsBlocking(errors, caught[0]);
    }
  }

  /** The classified report agrees with the severities. */
  lemma ClassificationAgrees(all: seq<ErrorEntry>)
    ensures VerdictAgrees(NewReport(Classification(all), None, Some(ResultDescription(Classification(all))), all))
  {
  }

  /** Steps 4 to 6 keep the entries found before and give a verdict that agrees. */
  lemma AnalysisAgrees(voc: Vocabulary, oracles: Oracles, errors: seq<ErrorEntry>, annotation: Json)
    requires SdoVocabulary.Valid(voc) && annotation.Obj?
    ensures VerdictAgrees(Analysis(voc, oracles, errors, annotation))
    ensures errors <= Analysis(voc, oracles, errors, annotation).errors
  {
    var semantic := Semantic(annotation);
    if semantic.threw {
      ExecutionReportAgrees(errors + semantic.errors, None);
    } else {
      var walk := Walk(voc, oracles, annotation, "$");
      var all := errors + semantic.errors + walk.errors;
      assert errors <= all;
      if walk.threw {
        ExecutionReportAgrees(all, None);
      } else {
        ClassificationAgrees(all);
      }
    }
  }

  /** The verification ended in the catch block on a bad `@context` that pushes nothing. */
  predicate SilentContextFailure(parse: string -> Option<Json>, compact: (Json, Context) -> Compaction, input: Json)
  {
    var lex := Lexical(parse, input);
    lex.outcome && Get(lex.annotation, ContextKey) != Undefined &&
    var processed := PreProcess(compact, lex.annotation);
    processed.Threw? && processed.failure.Some? && ContextSyntax(processed.failure.value)
  }

  /**
   * The verdict of every report agrees with its severities, except when the
   * compaction rejected the `@context` with nothing pushed, which is
   * invalid; every entry of the lexical check heads the report.
   */
  lemma VerdictRules(voc: Vocabulary, oracles: Oracles, parse: string -> Option<Json>,
                     compact: (Json, Context) -> Compaction, input: Json)
    requires SdoVocabulary.Valid(voc)
    ensures var r := Verification(voc, oracles, parse, compact, input);
      (!SilentContextFailure(parse, compact, input) ==> VerdictAgrees(r)) &&
      (SilentContextFailure(parse, compact, input) ==> r.verificationResult == Invalid) &&
      Lexical(parse, input).errors <= r.errors
  {
    var lex := Lexical(parse, input);
    if !lex.outcome {
      LexicalFailureAgrees(parse, input);
    } else {
      LexicalVerdict(parse, input);
      var context := Get(lex.annotation, ContextKey);
      var errors := lex.errors + ContextErrors(context);
      assert lex.errors <= errors;
      if context.Undefined? {
        assert errors == lex.errors + [Error201()];
        EndsBlocking(lex.errors, Error201());
      } else {
        match PreProcess(compact, lex.annotation)
        case Threw(failure) =>
          ExecutionReportAgrees(errors, failure);
        case Done(annotation) =>
          AnalysisAgrees(voc, oracles, errors, annotation);
      }
    }
  }

  /** A failed lexical check ends in a blocking entry, so its report agrees with its verdict. */
  lemma LexicalFailureAgrees(parse: string -> Option<Json>, input: Json)
    requires !Lexical(parse, input).outcome
    ensures VerdictAgrees(NewReport(Invalid, None, Some(LexicalProblem), Lexical(parse, input).errors))
  {
    var lex := Lexical(parse, input);
    if input.Undefined? || input.Null? {
      EndsBlocking([], Error102());
    } else if input.Str? && (parse(input.s).None? || parse(input.s).value.Undefined? || parse(input.s).value.Null?) {
      EndsBlocking([], Error101());
    } else {
      var annotation := if input.Str? then parse(input.s).value else CopyValue(input);
      var found := if input.Str? then Anomalies(parse(input.s).value) else Anomalies(input);
      assert lex == Conclude(annotation, found);
      if lex.errors == found + [Error102()] {
        EndsBlocking(found, Error102());
      } else {
        EndsBlocking(found, Error103());
      }
    }
  }
}

=== FILE: js_strings.dfy ===
/**
 * The string operations of JavaScript that the verification engine and the
 * frontend scripts rely on (`startsWith`, `split`, `lastIndexOf`,
 * `substring`, `replace` with a global pattern, `\s` in regular expressions,
 * comparison with `<`). A JavaScript string is a sequence of characters.
 */
module JsStrings {

  /** The characters matched by `\s` in an ECMAScript regular expression. */
  predicate IsJsWhitespace(c: char)
  {
    c == '\t' || c == '\n' || c == '\U{B}' || c == '\U{C}' || c == '\r' || c == ' '
    || c == '\U{A0}' || c == '\U{1680}' || ('\U{2000}' <= c <= '\U{200A}')
    || c == '\U{2028}' || c == '\U{2029}' || c == '\U{202F}' || c == '\U{205F}'
    || c == '\U{3000}' || c == '\U{FEFF}'
  }

  predicate StartsWith(s: string, prefix: string)
  {
    |prefix| <= |s| && s[..|prefix|] == prefix
  }

  predicate EndsWith(s: string, suffix: string)
  {
    |suffix| <= |s| && s[|s| - |suffix|..] == suffix
  }

  /** `s.includes(part)`, equivalently `s.indexOf(part) >= 0`. */
  predicate Contains(s: string, part: string)
    decreases |s|
  {
    StartsWith(s, part) || (|s| > 0 && Contains(s[1..], part))
  }

  /** `s.replace(/c/g, '')`: every occurrence of `c` removed. */
  function RemoveChar(s: string, c: char): (r: string)
    ensures |r| <= |s|
    ensures forall i :: 0 <= i < |r| ==> r[i] != c
  {
    if |s| == 0 then ""
    else if s[0] == c then RemoveChar(s[1..], c)
    else [s[0]] + RemoveChar(s[1..], c)
  }

  /** `s.replace(/[\s\t\n\r]/g, "")`: every whitespace character removed. */
  function RemoveWhitespace(s: string): (r: string)
    ensures |r| <= |s|
    ensures forall i :: 0 <= i < |r| ==> !IsJsWhitespace(r[i])
  {
    if |s| == 0 then ""
    else if IsJsWhitespace(s[0]) then RemoveWhitespace(s[1..])
    else [s[0]] + RemoveWhitespace(s[1..])
  }

  /** `s.replace(/^[\s\t\n\r]* /, "")`: the leading whitespace removed. */
  function TrimStart(s: string): string
  {
    if |s| > 0 && IsJsWhitespace(s[0]) then TrimStart(s[1..]) else s
  }

  /** `s.replace(/[\s\t\n\r]*$/, "")`: the trailing whitespace removed. */
  function TrimEnd(s: string): string
  {
    if |s| > 0 && IsJsWhitespace(s[|s| - 1]) then TrimEnd(s[..|s| - 1]) else s
  }

  /** `s.replaceAll(pattern, replacement)`: left to right, non-overlapping. */
  function ReplaceAll(s: string, pattern: string, replacement: string): string
    requires |pattern| > 0
    decreases |s|
  {
    if |s| == 0 then ""
    else if StartsWith(s, pattern) then replacement + ReplaceAll(s[|pattern|..], pattern, replacement)
    else [s[0]] + ReplaceAll(s[1..], pattern, replacement)
  }

  /** `s.replace(pattern, replacement)` with a string pattern: only the first occurrence. */
  function ReplaceFirst(s: string, pattern: string, replacement: string): string
    decreases |s|
  {
    if StartsWith(s, pattern) then replacement + s[|pattern|..]
    else if |s| == 0 then ""
    else [s[0]] + ReplaceFirst(s[1..], pattern, replacement)
  }

  /** `toLowerCase` on the ASCII letters. */
  function ToLower(s: string): (r: string)
    ensures |r| == |s|
  {
    if |s| == 0 then ""
    else [if 'A' <= s[0] <= 'Z' then (s[0] as int + 32) as char else s[0]] + ToLower(s[1..])
  }

  /** `part` occurs in `s` starting at position `k`. */
  predicate OccursAt(s: string, part: string, k: int)
  {
    0 <= k && k + |part| <= |s| && s[k..k + |part|] == part
  }

  /** `s.lastIndexOf(part)`: the last position where `part` starts, or -1. */
  function LastIndexOf(s: string, part: string): (r: int)
    ensures r == -1 || OccursAt(s, part, r)
    ensures forall k :: r < k ==> !OccursAt(s, part, k)
  {
    LastIndexFrom(s, part, |s| - |part|)
  }

  function LastIndexFrom(s: string, part: string, i: int): (r: int)
    requires i + |part| <= |s|
    ensures r == -1 || (OccursAt(s, part, r) && r <= i)
    ensures forall k :: r < k <= i ==> !OccursAt(s, part, k)
    decreases i + 1
  {
    if i < 0 then -1
    else if s[i..i + |part|] == part then i
    else LastIndexFrom(s, part, i - 1)
  }

  function Clamp(x: int, n: nat): (r: nat)
    ensures r <= n
  {
    if x < 0 then 0 else if x > n then n else x
  }

  /** `s.substring(start, end)`: both bounds clamped, swapped when reversed. */
  function Substring(s: string, start: int, end: int): (r: string)
    ensures |r| <= |s|
  {
    var a := Clamp(start, |s|);
    var b := Clamp(end, |s|);
    if a <= b then s[a..b] else s[b..a]
  }

  /** Number of occurrences of `c` in `s`. */
  function Count(s: string, c: char): nat
  {
    if |s| == 0 then 0 else (if s[0] == c then 1 else 0) + Count(s[1..], c)
  }

  /** `s.split(sep)` for a one-character separator. */
  function Split(s: string, sep: char): (parts: seq<string>)
    ensures |parts| >= 1
    decreases |s|
  {
    if |s| == 0 then [""]
    else
      var rest := Split(s[1..], sep);
      if s[0] == sep then [""] + rest
      else [[s[0]] + rest[0]] + rest[1..]
  }

  /** The parts in order with `sep` between neighbours (`Array.prototype.join`). */
  function Join(parts: seq<string>, sep: string): string
  {
    if |parts| == 0 then ""
    else if |parts| == 1 then parts[0]
    else parts[0] + sep + Join(parts[1..], sep)
  }

  /** `a < b` on strings: lexicographic order of the character codes. */
  predicate Less(a: string, b: string)
  {
    if |a| == 0 then |b| > 0
    else if |b| == 0 then false
    else if a[0] != b[0] then a[0] < b[0]
    else Less(a[1..], b[1..])
  }

  // ---------------------------------------------------------------------
  // Properties

  /** Splitting at `sep` yields one more part than there are separators. */
  lemma {:induction false} SplitCount(s: string, sep: char)
    ensures |Split(s, sep)| == Count(s, sep) + 1
    decreases |s|
  {
    if |s| > 0 {
      SplitCount(s[1..], sep);
    }
  }

  /** No part of a split contains the separator. */
  lemma {:induction false} SplitPartsFree(s: string, sep: char)
    ensures forall k, i :: 0 <= k < |Split(s, sep)| && 0 <= i < |Split(s, sep)[k]| ==> Split(s, sep)[k][i] != sep
    decreases |s|
  {
    if |s| > 0 {
      SplitPartsFree(s[1..], sep);
    }
  }

  /** Joining the parts of a split with the separator gives back the string. */
  lemma {:induction false} JoinSplit(s: string, sep: char)
    ensures Join(Split(s, sep), [sep]) == s
    decreases |s|
  {
    if |s| > 0 {
      JoinSplit(s[1..], sep);
      var rest := Split(s[1..], sep);
      if s[0] != sep && |rest| > 1 {
        assert rest == [rest[0]] + rest[1..];
        calc {
          Join(Split(s, sep), [sep]);
          ([s[0]] + rest[0]) + [sep] + Join(rest[1..], [sep]);
          [s[0]] + Join(rest, [sep]);
        }
      }
    }
  }

  /** A string without the separator splits into itself alone. */
  lemma {:induction false} SplitFree(s: string, sep: char)
    requires forall i :: 0 <= i < |s| ==> s[i] != sep
    ensures Split(s, sep) == [s]
    decreases |s|
  {
    if |s| > 0 {
      SplitFree(s[1..], sep);
      assert [s[0]] + s[1..] == s;
    }
  }

  /** A leading separator-free part followed by the separator splits off as the first part. */
  lemma {:induction false} SplitHead(x: string, sep: char, y: string)
    requires forall i :: 0 <= i < |x| ==> x[i] != sep
    ensures Split(x + [sep] + y, sep) == [x] + Split(y, sep)
    decreases |x|
  {
    if |x| == 0 {
      assert x + [sep] + y == [sep] + y;
      assert ([sep] + y)[1..] == y;
    } else {
      SplitHead(x[1..], sep, y);
      assert (x + [sep] + y)[1..] == x[1..] + [sep] + y;
      assert [x[0]] + x[1..] == x;
    }
  }

  /** Splitting a join of separator-free parts recovers the parts. */
  lemma {:induction false} SplitJoin(parts: seq<string>, sep: char)
    requires |parts| >= 1
    requires forall k, i :: 0 <= k < |parts| && 0 <= i < |parts[k]| ==> parts[k][i] != sep
    ensures Split(Join(parts, [sep]), sep) == parts
    decreases |parts|
  {
    if |parts| == 1 {
      SplitFree(parts[0], sep);
    } else {
      SplitJoin(parts[1..], sep);
      SplitHead(parts[0], sep, Join(parts[1..], [sep]));
      assert [parts[0]] + parts[1..] == parts;
    }
  }

  /** A prefix of a prefix is a prefix. */
  lemma StartsWithTrans(s: string, mid: string, prefix: string)
    requires StartsWith(s, mid) && StartsWith(mid, prefix)
    ensures StartsWith(s, prefix)
  {
    assert s[..|prefix|] == mid[..|prefix|];
  }

  /** `<` on strings is a strict total order: irreflexive, ... */
  lemma {:induction false} LessIrreflexive(a: string)
    ensures !Less(a, a)
    decreases |a|
  {
    if |a| > 0 {
      LessIrreflexive(a[1..]);
    }
  }

  /** ... transitive ... */
  lemma {:induction false} LessTransitive(a: string, b: string, c: string)
    requires Less(a, b) && Less(b, c)
    ensures Less(a, c)
    decreases |a|
  {
    if |a| > 0 && |b| > 0 && |c| > 0 && a[0] == b[0] && b[0] == c[0] {
      LessTransitive(a[1..], b[1..], c[1..]);
    }
  }

  /** ... and total on distinct strings, in exactly one direction. */
  lemma {:induction false} LessTotal(a: string, b: string)
    requires a != b
    ensures Less(a, b) != Less(b, a)
    decreases |a|
  {
    if |a| > 0 && |b| > 0 && a[0] == b[0] {
      LessTotal(a[1..], b[1..]);
    }
  }
}

=== FILE: js_values.dfy ===
/**
 * JavaScript values as the engine and the frontend handle them: the JSON
 * data types plus `undefined` and the non-finite numbers, with the type tests
 * of VerificationUtilities.js, truthiness, property access, `Object.keys`,
 * the hard copy `JSON.parse(JSON.stringify(x))` and `String(x)`.
 */
module JsValues {
  import opened JsStrings

  datatype Option<T> = None | Some(value: T)

  /** A JavaScript number. */
  datatype JsNumber = Finite(r: real) | NaN | Infinity(negative: bool)

  /**
   * One entry of an object; an object lists its entries in `Object.keys`
   * order. That order puts integer-like keys first, in ascending order, and
   * the others after them in insertion order; the lists a caller hands in
   * (the result of `JSON.parse`) must already be in that order. Entries the
   * model appends at the end (`SetKey` on a new key) are the renamed keys,
   * which hold a space or "%20" and so are never integer-like, so the order
   * is kept.
   */
  datatype Member = Member(key: string, value: Json)

  datatype Json =
    | Undefined
    | Null
    | Bool(b: bool)
    | Num(n: JsNumber)
    | Str(s: string)
    | Arr(elems: seq<Json>)
    | Obj(members: seq<Member>)

  // ---------------------------------------------------------------------
  // Type tests (VerificationUtilities.js isObject, isString, isNumber, isBoolean)

  /** A non-array, non-null object. */
  predicate IsObject(v: Json)
  {
    if v.Arr? then false else if v.Undefined? || v.Null? then false else v.Obj?
  }

  predicate IsString(v: Json)
  {
    if v.Undefined? || v.Null? then false else v.Str?
  }

  /** `typeof v === 'number'`, NaN excluded. */
  predicate IsNumber(v: Json)
  {
    if v.Undefined? || v.Null? || (v.Num? && v.n.NaN?) then false else v.Num?
  }

  predicate IsBoolean(v: Json)
  {
    if v.Undefined? || v.Null? then false else v.Bool?
  }

  /** At most one of the type tests holds, and none for arrays, null and undefined. */
  lemma TypeTestsExclusive(v: Json)
    ensures !(IsObject(v) && IsString(v)) && !(IsObject(v) && IsNumber(v)) && !(IsObject(v) && IsBoolean(v))
    ensures !(IsString(v) && IsNumber(v)) && !(IsString(v) && IsBoolean(v)) && !(IsNumber(v) && IsBoolean(v))
    ensures v.Arr? || v.Undefined? || v.Null? ==> !IsObject(v) && !IsString(v) && !IsNumber(v) && !IsBoolean(v)
    ensures IsObject(v) <==> v.Obj?
    ensures IsNumber(v) <==> v.Num? && !v.n.NaN?
  {
  }

  /** JavaScript truthiness: false, 0, NaN, "", null and undefined are falsy. */
  predicate Truthy(v: Json)
  {
    match v
    case Undefined => false
    case Null => false
    case Bool(b) => b
    case Num(n) => !(n.NaN? || (n.Finite? && n.r == 0.0))
    case Str(s) => s != ""
    case Arr(_) => true
    case Obj(_) => true
  }

  // ---------------------------------------------------------------------
  // Property access

  /** The value of the first entry named `key`, or undefined. */
  function Lookup(members: seq<Member>, key: string): (r: Json)
    ensures r != Undefined ==> exists i :: 0 <= i < |members| && members[i].key == key && members[i].value == r
    ensures (forall i :: 0 <= i < |members| ==> members[i].key != key) ==> r == Undefined
  {
    if |members| == 0 then Undefined
    else if members[0].key == key then members[0].value
    else Lookup(members[1..], key)
  }

  /**
   * `v[key]` for a key that is never an array index (it starts with "@" or
   * names a vocabulary term): an object's entry, undefined otherwise.
   */
  function Get(v: Json, key: string): Json
  {
    if v.Obj? then Lookup(v.members, key) else Undefined
  }

  /** The decimal digits of `n` (`String(n)` for a natural number). */
  function NatToString(n: nat): (s: string)
    ensures |s| >= 1
    ensures forall i :: 0 <= i < |s| ==> '0' <= s[i] <= '9'
    decreases n
  {
    if n < 10 then [DigitChar(n)] else NatToString(n / 10) + [DigitChar(n % 10)]
  }

  function DigitChar(d: nat): (c: char)
    requires d < 10
    ensures '0' <= c <= '9' && c as int - '0' as int == d
  {
    (d + '0' as int) as char
  }

  predicate AllDigits(s: string)
  {
    forall i :: 0 <= i < |s| ==> '0' <= s[i] <= '9'
  }

  /** The value of a string of decimal digits. */
  function DigitsValue(s: string): nat
    requires AllDigits(s)
  {
    if |s| == 0 then 0 else DigitsValue(s[..|s| - 1]) * 10 + (s[|s| - 1] as int - '0' as int)
  }

  /** The decimal form of a number reads back as that number. */
  lemma {:induction false} NatToStringValue(n: nat)
    ensures DigitsValue(NatToString(n)) == n
    decreases n
  {
    if n >= 10 {
      NatToStringValue(n / 10);
      var s := NatToString(n);
      assert s[..|s| - 1] == NatToString(n / 10);
    }
  }

  /** A canonical array index: digits without a leading zero. */
  predicate IsIndexKey(k: string)
  {
    |k| >= 1 && AllDigits(k) && (k[0] == '0' ==> |k| == 1)
  }

  /** The decimal form of a number is a canonical array index. */
  lemma {:induction false} NatToStringIsIndexKey(n: nat)
    ensures IsIndexKey(NatToString(n))
    decreases n
  {
    if n >= 10 {
      NatToStringIsIndexKey(n / 10);
    }
  }

  /**
   * `Number(token)` for the tokens a path walk reads, which are runs of
   * digits or empty: digits give their value, "" gives 0. Any other token is
   * read as NaN here; JavaScript would also accept forms such as "1.0",
   * " 1", "1e0" or "0x1", which such a walk never produces.
   */
  function TokenToNumber(token: string): (r: JsNumber)
    ensures r.Finite? <==> AllDigits(token)
  {
    if AllDigits(token) then Finite(DigitsValue(token) as real) else NaN
  }

  /**
   * `v[key]` on a value that is neither null nor undefined, for the value's
   * own entries and array indices only: an object's entry, an array's
   * element, undefined otherwise. Inherited members (an array's or string's
   * `length`, the names an object inherits from `Object.prototype`) read as
   * undefined here, whereas JavaScript finds them.
   */
  function Index(v: Json, key: string): Json
    requires !v.Undefined? && !v.Null?
  {
    match v
    case Obj(members) => Lookup(members, key)
    case Arr(elems) =>
      if IsIndexKey(key) && DigitsValue(key) < |elems| then elems[DigitsValue(key)] else Undefined
    case Str(s) =>
      if IsIndexKey(key) && DigitsValue(key) < |s| then Str([s[DigitsValue(key)]]) else Undefined
    case _ => Undefined
  }

  /** `Object.keys(v)` for a value that is neither null nor undefined. */
  function Keys(v: Json): (keys: seq<string>)
    ensures v.Obj? ==> |keys| == |v.members|
    ensures v.Arr? ==> |keys| == |v.elems|
  {
    match v
    case Obj(members) => seq(|members|, i requires 0 <= i < |members| => members[i].key)
    case Arr(elems) => seq(|elems|, i requires 0 <= i < |elems| => NatToString(i))
    case Str(s) => seq(|s|, i requires 0 <= i < |s| => NatToString(i))
    case _ => []
  }

  // ---------------------------------------------------------------------
  // JSON.parse(JSON.stringify(v))

  /** A value JSON can carry: no undefined and no non-finite number anywhere. */
  predicate Plain(v: Json)
  {
    match v
    case Undefined => false
    case Num(n) => n.Finite?
    case Arr(elems) => forall i :: 0 <= i < |elems| ==> Plain(elems[i])
    case Obj(members) => forall i :: 0 <= i < |members| ==> Plain(members[i].value)
    case _ => true
  }

  /**
   * The copy of a value nested in an object or array: undefined and
   * non-finite numbers become null, object entries holding undefined are
   * dropped.
   */
  function CopyValue(v: Json): (r: Json)
  {
    match v
    case Undefined => Null
    case Num(n) => if n.Finite? then v else Null
    case Arr(elems) => Arr(seq(|elems|, i requires 0 <= i < |elems| => CopyValue(elems[i])))
    case Obj(members) =>
      Obj(Somes(seq(|members|, i requires 0 <= i < |members| =>
        if members[i].value.Undefined? then None else Some(Member(members[i].key, CopyValue(members[i].value))))))
    case _ => v
  }

  function Somes(s: seq<Option<Member>>): (r: seq<Member>)
    ensures |r| <= |s|
    ensures forall x :: x in r <==> Some(x) in s
  {
    if |s| == 0 then []
    else if s[0].Some? then [s[0].value] + Somes(s[1..])
    else Somes(s[1..])
  }

  /** `JSON.parse(JSON.stringify(v))`; `None` when it throws (on undefined). */
  function HardCopy(v: Json): (r: Option<Json>)
    ensures r.None? <==> v.Undefined?
  {
    if v.Undefined? then None else Some(CopyValue(v))
  }

  /** The copy is plain JSON. */
  lemma {:induction false} CopyValuePlain(v: Json)
    ensures Plain(CopyValue(v))
    decreases v
  {
    match v
    case Arr(elems) =>
      forall i | 0 <= i < |elems| ensures Plain(CopyValue(elems[i])) {
        CopyValuePlain(elems[i]);
      }
    case Obj(members) =>
      var r := CopyValue(v).members;
      forall i | 0 <= i < |r| ensures Plain(r[i].value) {
        var opts := seq(|members|, j requires 0 <= j < |members| =>
          if members[j].value.Undefined? then None else Some(Member(members[j].key, CopyValue(members[j].value))));
        assert Some(r[i]) in opts;
        var j :| 0 <= j < |opts| && opts[j] == Some(r[i]);
        assert members[j] in members;
        CopyValuePlain(members[j].value);
      }
    case _ =>
  }

  /** Copying plain JSON changes nothing. */
  lemma {:induction false} CopyValueIdentity(v: Json)
    requires Plain(v)
    ensures CopyValue(v) == v
    decreases v
  {
    match v
    case Arr(elems) =>
      forall i | 0 <= i < |elems| ensures CopyValue(elems[i]) == elems[i] {
        CopyValueIdentity(elems[i]);
      }
      assert CopyValue(v).elems == elems;
    case Obj(members) =>
      var opts := seq(|members|, j requires 0 <= j < |members| =>
        if members[j].value.Undefined? then None else Some(Member(members[j].key, CopyValue(members[j].value))));
      forall j | 0 <= j < |members| ensures opts[j] == Some(members[j]) {
        assert members[j] in members;
        CopyValueIdentity(members[j].value);
      }
      SomesAll(opts, members);
    case _ =>
  }

  lemma {:induction false} SomesAll(opts: seq<Option<Member>>, xs: seq<Member>)
    requires |opts| == |xs|
    requires forall j :: 0 <= j < |xs| ==> opts[j] == Some(xs[j])
    ensures Somes(opts) == xs
    decreases |xs|
  {
    if |xs| > 0 {
      SomesAll(opts[1..], xs[1..]);
      assert xs == [xs[0]] + xs[1..];
    }
  }

  /** Copying twice is copying once. */
  lemma CopyValueIdempotent(v: Json)
    ensures CopyValue(CopyValue(v)) == CopyValue(v)
  {
    CopyValuePlain(v);
    CopyValueIdentity(CopyValue(v));
  }

  // ---------------------------------------------------------------------
  // String(v)

  /**
   * `String(n)`. Integral values are written in decimal; a value with a
   * fractional part is written as its integral part (see the README).
   */
  function NumberToString(n: JsNumber): string
  {
    match n
    case NaN => "NaN"
    case Infinity(negative) => if negative then "-Infinity" else "Infinity"
    case Finite(r) =>
      var k := r.Floor;
      if k >= 0 then NatToString(k) else "-" + NatToString(-k)
  }

  /** `String(v)`, the coercion of `+` on strings. */
  function ToJsString(v: Json): string
  {
    match v
    case Undefined => "undefined"
    case Null => "null"
    case Bool(b) => if b then "true" else "false"
    case Num(n) => NumberToString(n)
    case Str(s) => s
    case Arr(elems) =>
      Join(seq(|elems|, i requires 0 <= i < |elems| =>
        if elems[i].Undefined? || elems[i].Null? then "" else ToJsString(elems[i])), ",")
    case Obj(_) => "[object Object]"
  }
}

=== FILE: lev_dist.dfy ===
/**
 * `levDist` of VerificationUtilities.js (and its character-for-character copy
 * in the frontend's utilities.js): the optimal-string-alignment distance,
 * Levenshtein's edit distance extended by the transposition of two adjacent
 * characters, computed in a matrix `d` whose cells start out `undefined`.
 */
module LevDistance {
  import opened JsValues

  function Min(a: int, b: int): int
  {
    if a <= b then a else b
  }

  /** The substitution cost of the `i`-th character of `s` against the `j`-th of `t` (both 1-based). */
  function Cost(s: string, t: string, i: nat, j: nat): nat
    requires 1 <= i <= |s| && 1 <= j <= |t|
  {
    if s[i - 1] == t[j - 1] then 0 else 1
  }

  /** The two characters before position `i` of `s` and `j` of `t` appear swapped. */
  predicate Swapped(s: string, t: string, i: nat, j: nat)
    requires i <= |s| && j <= |t|
  {
    i > 1 && j > 1 && s[i - 1] == t[j - 2] && s[i - 2] == t[j - 1]
  }

  /**
   * The matrix cell `d[i][j]`: the distance of the first `i` characters of `s`
   * from the first `j` characters of `t` by deletion, insertion, substitution
   * and transposition, where a transposition costs what the substitution of
   * the last characters would.
   */
  function Osa(s: string, t: string, i: nat, j: nat): nat
    requires i <= |s| && j <= |t|
    decreases i + j
  {
    if i == 0 then j
    else if j == 0 then i
    else
      var best := Step(Osa(s, t, i - 1, j), Osa(s, t, i, j - 1), Osa(s, t, i - 1, j - 1), Cost(s, t, i, j));
      if Swapped(s, t, i, j) then Min(best, Osa(s, t, i - 2, j - 2) + Cost(s, t, i, j)) else best
  }

  /** The cheapest of a deletion, an insertion and a substitution. */
  function Step(up: nat, left: nat, diag: nat, cost: nat): nat
  {
    Min(Min(up + 1, left + 1), diag + cost)
  }

  /** `levDist(s, t)`: the length of the other string when one is empty, else the full matrix value. */
  function Distance(s: string, t: string): nat
  {
    if |s| == 0 then |t| else if |t| == 0 then |s| else Osa(s, t, |s|, |t|)
  }

  /**
   * The matrix computation. A cell is `None` until it is assigned, as the
   * JavaScript array entries are `undefined`; the guard that compares the
   * current cell with 4 before the cell is assigned therefore never returns.
   */
  method LevDist(s: string, t: string) returns (r: nat)
    ensures r == Distance(s, t)
  {
    var n: nat := |s|;
    var m: nat := |t|;
    if n == 0 {
      return m;
    }
    if m == 0 {
      return n;
    }
    var d := NewMatrix(s, t);
    var i;
    i := 1;
    while i <= n
      invariant 1 <= i <= n + 1
      invariant RowsDone(d, s, t, i)
      invariant RowsFresh(d, i)
    {
      var exceeded := FillRow(d, s, t, i);
      if exceeded {
        return n;
      }
      i := i + 1;
    }
    r := d[n, m].value;
  }

  /** The matrix with its first column and its first row filled in, every other cell `undefined`. */
  method NewMatrix(s: string, t: string) returns (d: array2<Option<nat>>)
    ensures fresh(d) && d.Length0 == |s| + 1 && d.Length1 == |t| + 1
    ensures RowsDone(d, s, t, 1) && RowsFresh(d, 1)
  {
    var n := |s|;
    var m := |t|;
    d := new Option<nat>[n + 1, m + 1]((_, _) => None);
    var i := n;
    while i >= 0
      invariant -1 <= i <= n
      invariant forall a, b :: 0 <= a <= n && 0 <= b <= m ==>
        d[a, b] == (if b == 0 && i < a then Some(a) else None)
    {
      d[i, 0] := Some(i);
      i := i - 1;
    }
    var j := m;
    while j >= 0
      invariant -1 <= j <= m
      invariant forall a, b :: 0 <= a <= n && 0 <= b <= m ==>
        d[a, b] == (if b == 0 then Some(a) else if a == 0 && j < b then Some(b) else None)
    {
      d[0, j] := Some(j);
      j := j - 1;
    }
  }

  /** Rows `0 .. i - 1` of `d` hold their matrix values. */
  ghost predicate RowsDone(d: array2<Option<nat>>, s: string, t: string, i: nat)
    reads d
    requires d.Length0 == |s| + 1 && d.Length1 == |t| + 1
  {
    forall a, b {:trigger d[a, b]} :: 0 <= a < i && a <= |s| && 0 <= b <= |t| ==> d[a, b] == Some(Osa(s, t, a, b))
  }

  /** Rows from `i` on hold only their first column. */
  ghost predicate RowsFresh(d: array2<Option<nat>>, i: nat)
    reads d
  {
    forall a, b :: i <= a < d.Length0 && 0 <= b < d.Length1 ==> d[a, b] == (if b == 0 then Some(a) else None)
  }

  /**
   * Row `i` of the matrix, left to right. `exceeded` reports the early exit
   * taken when the diagonal cell exceeds 4 before it is assigned.
   */
  method FillRow(d: array2<Option<nat>>, s: string, t: string, i: nat) returns (exceeded: bool)
    requires d.Length0 == |s| + 1 && d.Length1 == |t| + 1
    requires 1 <= i <= |s|
    requires RowsDone(d, s, t, i) && RowsFresh(d, i)
    modifies d
    ensures !exceeded
    ensures RowsDone(d, s, t, i + 1) && RowsFresh(d, i + 1)
  {
    var m := |t|;
    var j := 1;
    while j <= m
      invariant 1 <= j <= m + 1
      invariant RowsDone(d, s, t, i)
      invariant forall b {:trigger d[i, b]} :: 0 <= b < j ==> d[i, b] == Some(Osa(s, t, i, b))
      invariant forall b {:trigger d[i, b]} :: j <= b <= m ==> d[i, b] == None
      invariant RowsFresh(d, i + 1)
    {
      if i == j && Exceeds(d[i, j], 4) {
        return true;
      }
      var mi := CellValue(d, s, t, i, j);
      label before:
      d[i, j] := Some(mi);
      assert forall a, b {:trigger d[a, b]} :: 0 <= a < d.Length0 && 0 <= b < d.Length1 && (a != i || b != j) ==> d[a, b] == old@before(d[a, b]);
      j := j + 1;
    }
    exceeded := false;
  }

  /** `cell > limit` in JavaScript, where an `undefined` cell compares false. */
  predicate Exceeds(cell: Option<nat>, limit: nat)
  {
    cell.Some? && cell.value > limit
  }

  /** One cell of the matrix from its neighbours above, to the left and on the diagonals. */
  method CellValue(d: array2<Option<nat>>, s: string, t: string, i: nat, j: nat) returns (mi: nat)
    requires d.Length0 == |s| + 1 && d.Length1 == |t| + 1
    requires 1 <= i <= |s| && 1 <= j <= |t|
    requires d[i - 1, j] == Some(Osa(s, t, i - 1, j)) && d[i, j - 1] == Some(Osa(s, t, i, j - 1))
    requires d[i - 1, j - 1] == Some(Osa(s, t, i - 1, j - 1))
    requires i > 1 && j > 1 ==> d[i - 2, j - 2] == Some(Osa(s, t, i - 2, j - 2))
    ensures mi == Osa(s, t, i, j)
  {
    var cost := if s[i - 1] == t[j - 1] then 0 else 1;
    mi := d[i - 1, j].value + 1;
    var b := d[i, j - 1].value + 1;
    var c := d[i - 1, j - 1].value + cost;
    if b < mi {
      mi := b;
    }
    if c < mi {
      mi := c;
    }
    assert mi == Step(Osa(s, t, i - 1, j), Osa(s, t, i, j - 1), Osa(s, t, i - 1, j - 1), Cost(s, t, i, j));
    if i > 1 && j > 1 && s[i - 1] == t[j - 2] && s[i - 2] == t[j - 1] {
      mi := Min(mi, d[i - 2, j - 2].value + cost);
    }
  }

  // ---------------------------------------------------------------------
  // Properties of the distance

  /** The distance does not depend on the order of its arguments. */
  lemma {:induction false} OsaSymmetric(s: string, t: string, i: nat, j: nat)
    requires i <= |s| && j <= |t|
    ensures Osa(s, t, i, j) == Osa(t, s, j, i)
    decreases i + j
  {
    if i > 0 && j > 0 {
      OsaSymmetric(s, t, i - 1, j);
      OsaSymmetric(s, t, i, j - 1);
      OsaSymmetric(s, t, i - 1, j - 1);
      if Swapped(s, t, i, j) {
        OsaSymmetric(s, t, i - 2, j - 2);
      }
      CellSymmetric(s, t, i, j);
    }
  }

  /** A cell is symmetric when the cells it is computed from are. */
  lemma CellSymmetric(s: string, t: string, i: nat, j: nat)
    requires 1 <= i <= |s| && 1 <= j <= |t|
    requires Osa(s, t, i - 1, j) == Osa(t, s, j, i - 1) && Osa(s, t, i, j - 1) == Osa(t, s, j - 1, i)
    requires Osa(s, t, i - 1, j - 1) == Osa(t, s, j - 1, i - 1)
    requires Swapped(s, t, i, j) ==> Osa(s, t, i - 2, j - 2) == Osa(t, s, j - 2, i - 2)
    ensures Osa(s, t, i, j) == Osa(t, s, j, i)
  {
    assert Cost(s, t, i, j) == Cost(t, s, j, i);
    assert Swapped(s, t, i, j) == Swapped(t, s, j, i);
    var up, left, diag := Osa(s, t, i - 1, j), Osa(s, t, i, j - 1), Osa(s, t, i - 1, j - 1);
    assert Step(up, left, diag, Cost(s, t, i, j)) == Step(left, up, diag, Cost(s, t, i, j));
  }

  /** The distance never exceeds the longer length. */
  lemma {:induction false} OsaAtMostMax(s: string, t: string, i: nat, j: nat)
    requires i <= |s| && j <= |t|
    ensures Osa(s, t, i, j) <= if i <= j then j else i
    decreases i + j
  {
    if i > 0 && j > 0 {
      OsaAtMostMax(s, t, i - 1, j - 1);
    }
  }

  /** The distance is at least the difference of the lengths. */
  lemma {:induction false} OsaAtLeastDiff(s: string, t: string, i: nat, j: nat)
    requires i <= |s| && j <= |t|
    ensures Osa(s, t, i, j) >= j - i && Osa(s, t, i, j) >= i - j
    decreases i + j
  {
    if i > 0 && j > 0 {
      OsaAtLeastDiff(s, t, i - 1, j);
      OsaAtLeastDiff(s, t, i, j - 1);
      OsaAtLeastDiff(s, t, i - 1, j - 1);
      if Swapped(s, t, i, j) {
        OsaAtLeastDiff(s, t, i - 2, j - 2);
      }
      CellAtLeast(s, t, i, j, j - i);
      CellAtLeast(s, t, i, j, i - j);
    }
  }

  /** A cell is at least any bound that every way of reaching it meets. */
  lemma CellAtLeast(s: string, t: string, i: nat, j: nat, bound: int)
    requires 1 <= i <= |s| && 1 <= j <= |t|
    requires Osa(s, t, i - 1, j) + 1 >= bound && Osa(s, t, i, j - 1) + 1 >= bound
    requires Osa(s, t, i - 1, j - 1) + Cost(s, t, i, j) >= bound
    requires Swapped(s, t, i, j) ==> Osa(s, t, i - 2, j - 2) + Cost(s, t, i, j) >= bound
    ensures Osa(s, t, i, j) >= bound
  {
  }

  /** Equal prefixes are at distance 0. */
  lemma {:induction false} OsaSelf(s: string, i: nat)
    requires i <= |s|
    ensures Osa(s, s, i, i) == 0
    decreases i
  {
    if i > 0 {
      OsaSelf(s, i - 1);
    }
  }

  /** A zero cell comes from a zero diagonal neighbour and equal last characters. */
  lemma DiagonalZero(s: string, t: string, i: nat, j: nat)
    requires 1 <= i <= |s| && 1 <= j <= |t|
    requires Osa(s, t, i, j) == 0
    ensures Osa(s, t, i - 1, j - 1) == 0 && Cost(s, t, i, j) == 0
  {
    if Swapped(s, t, i, j) && Osa(s, t, i - 2, j - 2) + Cost(s, t, i, j) == 0 {
      assert Osa(s, t, i - 1, j - 1) <= Osa(s, t, i - 2, j - 2) + Cost(s, t, i - 1, j - 1);
    }
  }

  /** Only equal prefixes are at distance 0. */
  lemma {:induction false} OsaZero(s: string, t: string, i: nat, j: nat)
    requires i <= |s| && j <= |t|
    requires Osa(s, t, i, j) == 0
    ensures i == j && s[..i] == t[..j]
    decreases i + j
  {
    OsaAtLeastDiff(s, t, i, j);
    if i > 0 {
      DiagonalZero(s, t, i, j);
      OsaZero(s, t, i - 1, j - 1);
      PrefixGrows(s, t, i);
    }
  }

  /** Equal prefixes followed by equal characters are longer equal prefixes. */
  lemma PrefixGrows(s: string, t: string, i: nat)
    requires 1 <= i <= |s| && i <= |t|
    requires s[..i - 1] == t[..i - 1] && Cost(s, t, i, i) == 0
    ensures s[..i] == t[..i]
  {
    assert s[..i] == s[..i - 1] + [s[i - 1]];
    assert t[..i] == t[..i - 1] + [t[i - 1]];
  }

  /** `levDist(s, t) == levDist(t, s)`. */
  lemma DistanceSymmetric(s: string, t: string)
    ensures Distance(s, t) == Distance(t, s)
  {
    OsaSymmetric(s, t, |s|, |t|);
  }

  /** `levDist(s, t) == 0` exactly when the strings are equal. */
  lemma DistanceZeroIff(s: string, t: string)
    ensures Distance(s, t) == 0 <==> s == t
  {
    if s == t {
      OsaSelf(s, |s|);
    }
    if Distance(s, t) == 0 && |s| > 0 && |t| > 0 {
      OsaZero(s, t, |s|, |t|);
    }
  }

  /** `||s| - |t|| <= levDist(s, t) <= max(|s|, |t|)`. */
  lemma DistanceBounds(s: string, t: string)
    ensures Distance(s, t) <= if |s| <= |t| then |t| else |s|
    ensures Distance(s, t) >= if |s| <= |t| then |t| - |s| else |s| - |t|
  {
    OsaAtMostMax(s, t, |s|, |t|);
    OsaAtLeastDiff(s, t, |s|, |t|);
  }
}

=== FILE: lexical_check.dfy ===
/**
 * The first step of the engine: the lexical check of the input annotation
 * (`lexicalCheckJSON`) and the scan for values JSON-LD cannot process
 * (`recursive_checkAnomalies`). `JSON.parse` is a parameter of the model.
 */
module LexicalCheck {
  import opened JsValues
  import opened ErrorEntries
  import opened ErrorBuilders

  // ---------------------------------------------------------------------
  // Anomalies: undefined, null and arrays directly inside arrays

  /**
   * The errors for the value `x` held under a key of an object (or of the
   * root array); `isType` tells whether that key is "@type".
   */
  function MemberAnomalies(isType: bool, x: Json): seq<ErrorEntry>
    decreases x, 2
  {
    match x
    case Undefined => [Error104()]
    case Null => [Error206(isType)]
    case Obj(_) => Anomalies(x)
    case Arr(elems) => Concat(seq(|elems|, i requires 0 <= i < |elems| => ElementAnomalies(isType, elems[i])))
    case _ => []
  }

  /** The errors for an element of an array held under a key. */
  function ElementAnomalies(isType: bool, e: Json): seq<ErrorEntry>
    decreases e, 2
  {
    match e
    case Undefined => [Error104()]
    case Null => [Error206(isType)]
    case Obj(_) => Anomalies(e)
    case Arr(_) => [Error205()]
    case _ => []
  }

  /** The errors for every key `Object.keys` lists, in order; a string's characters are never anomalous. */
  function Anomalies(v: Json): seq<ErrorEntry>
    decreases v, 1
  {
    match v
    case Obj(members) =>
      Concat(seq(|members|, i requires 0 <= i < |members| => MemberAnomalies(members[i].key == "@type", members[i].value)))
    case Arr(elems) => Concat(seq(|elems|, i requires 0 <= i < |elems| => MemberAnomalies(false, elems[i])))
    case _ => []
  }

  /** The scan, pushing its findings in the order of the keys. */
  method CheckAnomalies(v: Json) returns (pushed: seq<ErrorEntry>)
    ensures pushed == Anomalies(v)
    decreases v, 1
  {
    pushed := [];
    match v
    case Obj(members) =>
      ghost var parts := seq(|members|, i requires 0 <= i < |members| =>
        MemberAnomalies(members[i].key == "@type", members[i].value));
      var i := 0;
      while i < |members|
        invariant 0 <= i <= |members|
        invariant pushed == Concat(parts[..i])
      {
        var found := CheckMember(members[i].key == "@type", members[i].value);
        ConcatSnoc(parts, i);
        pushed := pushed + found;
        i := i + 1;
      }
      assert parts[..|members|] == parts;
    case Arr(elems) =>
      ghost var parts := seq(|elems|, i requires 0 <= i < |elems| => MemberAnomalies(false, elems[i]));
      var i := 0;
      while i < |elems|
        invariant 0 <= i <= |elems|
        invariant pushed == Concat(parts[..i])
      {
        var found := CheckMember(false, elems[i]);
        ConcatSnoc(parts, i);
        pushed := pushed + found;
        i := i + 1;
      }
      assert parts[..|elems|] == parts;
    case _ =>
  }

  /** One key of the scan, with the inner loop over an array's elements. */
  method CheckMember(isType: bool, x: Json) returns (pushed: seq<ErrorEntry>)
    ensures pushed == MemberAnomalies(isType, x)
    decreases x, 2
  {
    match x
    case Undefined => pushed := [Error104()];
    case Null => pushed := [Error206(isType)];
    case Obj(_) => pushed := CheckAnomalies(x);
    case Arr(elems) =>
      ghost var parts := seq(|elems|, i requires 0 <= i < |elems| => ElementAnomalies(isType, elems[i]));
      pushed := [];
      var i := 0;
      while i < |elems|
        invariant 0 <= i <= |elems|
        invariant pushed == Concat(parts[..i])
      {
        var found := CheckElement(isType, elems[i]);
        ConcatSnoc(parts, i);
        pushed := pushed + found;
        i := i + 1;
      }
      assert parts[..|elems|] == parts;
    case _ => pushed := [];
  }

  /** One element of an array held under a key. */
  method CheckElement(isType: bool, e: Json) returns (found: seq<ErrorEntry>)
    ensures found == ElementAnomalies(isType, e)
    decreases e, 2
  {
    found := [];
    if e.Undefined? {
      found := [Error104()];
    } else if e.Null? {
      found := [Error206(isType)];
    } else if e.Obj? {
      found := CheckAnomalies(e);
    } else if e.Arr? {
      found := [Error205()];
    }
  }

  // ---------------------------------------------------------------------
  // What a value free of anomalies looks like

  /** No key holds undefined or null, and no array held under a key holds an array. */
  predicate Clean(v: Json)
    decreases v, 1
  {
    match v
    case Obj(members) => forall i :: 0 <= i < |members| ==> CleanMember(members[i].value)
    case Arr(elems) => forall i :: 0 <= i < |elems| ==> CleanMember(elems[i])
    case _ => true
  }

  predicate CleanMember(x: Json)
    decreases x, 2
  {
    !x.Undefined? && !x.Null? && (x.Obj? ==> Clean(x)) &&
    (x.Arr? ==> forall i :: 0 <= i < |x.elems| ==> CleanElement(x.elems[i]))
  }

  predicate CleanElement(e: Json)
    decreases e, 2
  {
    !e.Undefined? && !e.Null? && !e.Arr? && (e.Obj? ==> Clean(e))
  }

  /** The concatenation is empty exactly when every list is. */
  lemma {:induction false} ConcatEmpty(parts: seq<seq<ErrorEntry>>)
    ensures Concat(parts) == [] <==> forall k :: 0 <= k < |parts| ==> parts[k] == []
  {
    if |parts| > 0 {
      var init := parts[..|parts| - 1];
      ConcatEmpty(init);
      assert forall k :: 0 <= k < |init| ==> init[k] == parts[k];
    }
  }

  /** The scan finds nothing exactly when the value is clean. */
  lemma {:induction false} AnomaliesClean(v: Json)
    ensures Anomalies(v) == [] <==> Clean(v)
    decreases v, 1
  {
    match v
    case Obj(members) =>
      var parts := seq(|members|, i requires 0 <= i < |members| =>
        MemberAnomalies(members[i].key == "@type", members[i].value));
      ConcatEmpty(parts);
      forall i | 0 <= i < |members| ensures parts[i] == [] <==> CleanMember(members[i].value) {
        MemberAnomaliesClean(members[i].key == "@type", members[i].value);
      }
    case Arr(elems) =>
      var parts := seq(|elems|, i requires 0 <= i < |elems| => MemberAnomalies(false, elems[i]));
      ConcatEmpty(parts);
      forall i | 0 <= i < |elems| ensures parts[i] == [] <==> CleanMember(elems[i]) {
        MemberAnomaliesClean(false, elems[i]);
      }
    case _ =>
  }

  lemma {:induction false} MemberAnomaliesClean(isType: bool, x: Json)
    ensures MemberAnomalies(isType, x) == [] <==> CleanMember(x)
    decreases x, 2
  {
    match x
    case Obj(_) => AnomaliesClean(x);
    case Arr(elems) =>
      var parts := seq(|elems|, i requires 0 <= i < |elems| => ElementAnomalies(isType, elems[i]));
      ConcatEmpty(parts);
      forall i | 0 <= i < |elems| ensures parts[i] == [] <==> CleanElement(elems[i]) {
        ElementAnomaliesClean(isType, elems[i]);
      }
    case _ =>
  }

  lemma {:induction false} ElementAnomaliesClean(isType: bool, e: Json)
    ensures ElementAnomalies(isType, e) == [] <==> CleanElement(e)
    decreases e, 2
  {
    if e.Obj? {
      AnomaliesClean(e);
    }
  }

  /** The codes the scan can push. */
  predicate AnomalyCode(e: ErrorEntry)
  {
    e.errorCode == 104 || e.errorCode == 205 || e.errorCode == 206
  }

  predicate AnomalyCodesOnly(errors: seq<ErrorEntry>)
  {
    forall k :: 0 <= k < |errors| ==> AnomalyCode(errors[k])
  }

  /** Every list holds only codes of the scan, so their concatenation does. */
  lemma {:induction false} ConcatCodes(parts: seq<seq<ErrorEntry>>)
    requires forall j :: 0 <= j < |parts| ==> AnomalyCodesOnly(parts[j])
    ensures AnomalyCodesOnly(Concat(parts))
  {
    if |parts| > 0 {
      var init := parts[..|parts| - 1];
      assert forall j :: 0 <= j < |init| ==> init[j] == parts[j];
      ConcatCodes(init);
    }
  }

  /** The scan reports undefined (104), null (206) and double nested arrays (205) only. */
  lemma {:induction false} AnomalyCodes(v: Json)
    ensures AnomalyCodesOnly(Anomalies(v))
    decreases v, 1
  {
    match v
    case Obj(members) =>
      var parts := seq(|members|, i requires 0 <= i < |members| =>
        MemberAnomalies(members[i].key == "@type", members[i].value));
      forall i | 0 <= i < |members| ensures AnomalyCodesOnly(parts[i]) {
        MemberAnomalyCodes(members[i].key == "@type", members[i].value);
      }
      ConcatCodes(parts);
    case Arr(elems) =>
      var parts := seq(|elems|, i requires 0 <= i < |elems| => MemberAnomalies(false, elems[i]));
      forall i | 0 <= i < |elems| ensures AnomalyCodesOnly(parts[i]) {
        MemberAnomalyCodes(false, elems[i]);
      }
      ConcatCodes(parts);
    case _ =>
  }

  lemma {:induction false} MemberAnomalyCodes(isType: bool, x: Json)
    ensures AnomalyCodesOnly(MemberAnomalies(isType, x))
    decreases x, 2
  {
    match x
    case Obj(_) => AnomalyCodes(x);
    case Arr(elems) =>
      var parts := seq(|elems|, i requires 0 <= i < |elems| => ElementAnomalies(isType, elems[i]));
      forall i | 0 <= i < |elems| ensures AnomalyCodesOnly(parts[i]) {
        ElementAnomalyCodes(isType, elems[i]);
      }
      ConcatCodes(parts);
    case _ =>
  }

  lemma {:induction false} ElementAnomalyCodes(isType: bool, x: Json)
    ensures AnomalyCodesOnly(ElementAnomalies(isType, x))
    decreases x, 2
  {
    if x.Obj? {
      AnomalyCodes(x);
    }
  }

  // ---------------------------------------------------------------------
  // lexicalCheckJSON

  /** The result object of the lexical check; `annotation` is undefined when it was never set. */
  datatype LexicalResult = LexicalResult(outcome: bool, annotation: Json, errors: seq<ErrorEntry>)

  /** The closing tests on the parsed or copied annotation, after the scan found `errors`. */
  function Conclude(annotation: Json, errors: seq<ErrorEntry>): LexicalResult
  {
    if !Truthy(annotation) || (IsObject(annotation) && |annotation.members| == 0) ||
       (annotation.Arr? && |annotation.elems| == 0)
    then LexicalResult(false, annotation, errors + [Error102()])
    else if !IsObject(annotation) then LexicalResult(false, annotation, errors + [Error103()])
    else LexicalResult(true, annotation, errors)
  }

  /**
   * The lexical check. A missing input is empty (102); a string is parsed
   * by `parse` (`None` when `JSON.parse` throws), and a failed parse, or a
   * parsed `null` on which the scan throws, is invalid JSON (101); any other
   * input is scanned and then copied. The result must be a non-empty object.
   */
  function Lexical(parse: string -> Option<Json>, input: Json): LexicalResult
  {
    if input.Undefined? || input.Null? then LexicalResult(false, Undefined, [Error102()])
    else if input.Str? then
      match parse(input.s)
      case None => LexicalResult(false, Undefined, [Error101()])
      case Some(parsed) =>
        if parsed.Undefined? || parsed.Null? then LexicalResult(false, parsed, [Error101()])
        else Conclude(parsed, Anomalies(parsed))
    else Conclude(CopyValue(input), Anomalies(input))
  }

  /** `lexicalCheckJSON`: the result object, with the errors it pushed. */
  method LexicalCheckJSON(parse: string -> Option<Json>, input: Json) returns (r: LexicalResult)
    ensures r == Lexical(parse, input)
  {
    if input.Undefined? || input.Null? {
      return LexicalResult(false, Undefined, [Error102()]);
    }
    var annotation: Json;
    var found: seq<ErrorEntry>;
    if input.Str? {
      var parsed := parse(input.s);
      if parsed.None? {
        return LexicalResult(false, Undefined, [Error101()]);
      }
      annotation := parsed.value;
      if annotation.Undefined? || annotation.Null? {
        return LexicalResult(false, annotation, [Error101()]);
      }
      found := CheckAnomalies(annotation);
    } else {
      found := CheckAnomalies(input);
      annotation := CopyValue(input);
    }
    if !Truthy(annotation) || (IsObject(annotation) && |annotation.members| == 0) ||
       (annotation.Arr? && |annotation.elems| == 0) {
      r := LexicalResult(false, annotation, found + [Error102()]);
    } else if !IsObject(annotation) {
      r := LexicalResult(false, annotation, found + [Error103()]);
    } else {
      r := LexicalResult(true, annotation, found);
    }
  }

  /** The codes that end the verification after the lexical check. */
  predicate LexicalCode(e: ErrorEntry)
  {
    e.errorCode == 101 || e.errorCode == 102 || e.errorCode == 103
  }

  /**
   * The check passes exactly when it pushed none of 101, 102 and 103; when it
   * fails, exactly one of them was pushed, last; when it passes, the
   * annotation is a non-empty object.
   */
  lemma LexicalVerdict(parse: string -> Option<Json>, input: Json)
    ensures var r := Lexical(parse, input);
      (r.outcome <==> forall k :: 0 <= k < |r.errors| ==> !LexicalCode(r.errors[k])) &&
      (!r.outcome ==> |r.errors| > 0 && LexicalCode(r.errors[|r.errors| - 1]) &&
                      forall k :: 0 <= k < |r.errors| - 1 ==> !LexicalCode(r.errors[k])) &&
      (r.outcome ==> r.annotation.Obj? && |r.annotation.members| > 0)
  {
    if input.Str? && parse(input.s).Some? && !parse(input.s).value.Undefined? && !parse(input.s).value.Null? {
      AnomalyCodes(parse(input.s).value);
      ConcludeVerdict(parse(input.s).value, Anomalies(parse(input.s).value));
    } else if !input.Undefined? && !input.Null? && !input.Str? {
      AnomalyCodes(input);
      ConcludeVerdict(CopyValue(input), Anomalies(input));
      assert Lexical(parse, input) == Conclude(CopyValue(input), Anomalies(input));
    } else {
      var r := Lexical(parse, input);
      assert r.errors == [Error101()] || r.errors == [Error102()];
      assert LexicalCode(r.errors[0]);
    }
  }

  /** An annotation the closing tests call empty: falsy, `{}` or `[]`. */
  predicate Blank(a: Json)
  {
    !Truthy(a) || a == Obj([]) || a == Arr([])
  }

  /**
   * The codes each input draws. A missing input draws 102 alone; a string
   * that does not parse, or parses to `null`, draws 101 alone; any other
   * input draws the anomalies of the scanned value, then 102 when the
   * annotation is blank, else 103 when it is no object, else nothing more.
   */
  lemma LexicalCodes(parse: string -> Option<Json>, input: Json)
    ensures input.Undefined? || input.Null? ==> Lexical(parse, input).errors == [Error102()]
    ensures input.Str? && (parse(input.s).None? || parse(input.s).value.Undefined? || parse(input.s).value.Null?)
      ==> Lexical(parse, input).errors == [Error101()]
    ensures var parsed := if input.Str? then parse(input.s) else Some(input);
      parsed.Some? && !parsed.value.Undefined? && !parsed.value.Null? ==>
        var scanned := parsed.value;
        var a := if input.Str? then scanned else CopyValue(input);
        var r := Lexical(parse, input);
        r.annotation == a &&
        (r.errors == Anomalies(scanned) + [Error102()] <==> Blank(a)) &&
        (r.errors == Anomalies(scanned) + [Error103()] <==> !Blank(a) && !a.Obj?) &&
        (r.errors == Anomalies(scanned) <==> !Blank(a) && a.Obj?)
  {
    var parsed := if input.Str? then parse(input.s) else Some(input);
    if parsed.Some? && !parsed.value.Undefined? && !parsed.value.Null? {
      var scanned := parsed.value;
      var a := if input.Str? then scanned else CopyValue(input);
      var base := Anomalies(scanned);
      assert Lexical(parse, input) == Conclude(a, base);
      assert IsObject(a) && |a.members| == 0 <==> a == Obj([]);
      assert a.Arr? && |a.elems| == 0 <==> a == Arr([]);
      assert base + [Error102()] != base + [Error103()] by {
        assert (base + [Error102()])[|base|] != (base + [Error103()])[|base|];
      }
      assert |base + [Error102()]| != |base| && |base + [Error103()]| != |base|;
    }
  }

  /** The closing tests add one of 102 and 103 exactly when they fail. */
  lemma ConcludeVerdict(annotation: Json, errors: seq<ErrorEntry>)
    requires AnomalyCodesOnly(errors)
    ensures var r := Conclude(annotation, errors);
      (r.outcome <==> forall k :: 0 <= k < |r.errors| ==> !LexicalCode(r.errors[k])) &&
      (!r.outcome ==> |r.errors| > 0 && LexicalCode(r.errors[|r.errors| - 1]) &&
                      forall k :: 0 <= k < |r.errors| - 1 ==> !LexicalCode(r.errors[k])) &&
      (r.outcome ==> r.annotation.Obj? && |r.annotation.members| > 0)
  {
    var r := Conclude(annotation, errors);
    if !r.outcome {
      var last := if r.errors == errors + [Error102()] then Error102() else Error103();
      assert r.errors == errors + [last];
      assert LexicalCode(r.errors[|r.errors| - 1]);
      forall k | 0 <= k < |r.errors| - 1 ensures !LexicalCode(r.errors[k]) {
        assert r.errors[k] == errors[k];
      }
    }
  }

  /**
   * A non-string input passes on as its copy, which is plain JSON, and is
   * the input itself when that was plain already.
   */
  lemma LexicalCopies(parse: string -> Option<Json>, input: Json)
    requires !input.Str? && Lexical(parse, input).outcome
    ensures Lexical(parse, input).annotation == CopyValue(input)
    ensures Plain(Lexical(parse, input).annotation)
    ensures Plain(input) ==> Lexical(parse, input).annotation == input
  {
    CopyValuePlain(input);
    if Plain(input) {
      CopyValueIdentity(input);
    }
  }

  /** A non-empty object free of anomalies passes with no error at all. */
  lemma CleanObjectPasses(parse: string -> Option<Json>, input: Json)
    requires input.Obj? && |input.members| > 0 && Clean(input)
    ensures Lexical(parse, input).outcome && Lexical(parse, input).errors == []
  {
    AnomaliesClean(input);
    assert CopyValue(input).Obj?;
    CopyKeepsEntry(input);
  }

  /** Copying a non-empty object keeps an entry when its first one is defined. */
  lemma CopyKeepsEntry(input: Json)
    requires input.Obj? && |input.members| > 0 && !input.members[0].value.Undefined?
    ensures CopyValue(input).Obj? && |CopyValue(input).members| > 0
  {
    var members := input.members;
    var opts := seq(|members|, i requires 0 <= i < |members| =>
      if members[i].value.Undefined? then None else Some(Member(members[i].key, CopyValue(members[i].value))));
    assert opts[0] == Some(Member(members[0].key, CopyValue(members[0].value)));
    assert opts[0].value in Somes(opts);
  }
}

=== FILE: normalizer.dfy ===
/**
 * The rewriting around the JSON-LD compaction (`preProcessAnnotation`):
 * before compaction, every `@context` entry naming schema.org is set to the
 * wished URI, the other entries are collected in the global context that
 * compaction uses, and spaces in property names are encoded as `%20`; after
 * compaction, `%20` is decoded back to a space.
 *
 * The source updates the objects in place while it loops over a snapshot of
 * their keys. Here an object is a value: the state of the loop is the list
 * of entries the object holds so far, each key's value is read from those
 * entries as they stand (a rename onto a later key replaces the value that
 * key's turn rewrites), and `obj[k] = x` and `delete obj[k]` are `SetKey`
 * and `DeleteKey`.
 */
module Normalizer {
  import opened JsStrings
  import opened JsValues
  import opened ContextCheck

  const SdoURI: string := "http://schema.org/"
  const Space: string := " "
  const EncodedSpace: string := "%20"
  const ContextKey: string := "@context"
  const VocabKey: string := "@vocab"
  const SchemaPrefix: string := "schema"
  const Keyword: string := "@"

  /** The global context handed to the compaction: prefix to IRI value. */
  type Context = map<string, Json>

  /** `{'schema': sdoURI}`, the global context before any annotation is seen. */
  const StandardContext: Context := map[SchemaPrefix := Str(SdoURI)]

  // ---------------------------------------------------------------------
  // Property names

  /** `key.replaceAll(" ", "%20")`. */
  function EncodeKey(key: string): string
  {
    ReplaceAll(key, Space, EncodedSpace)
  }

  /** `key.replaceAll("%20", " ")`. */
  function DecodeKey(key: string): string
  {
    ReplaceAll(key, EncodedSpace, Space)
  }

  // ---------------------------------------------------------------------
  // Objects as lists of entries

  /** No two entries share a key, as in a JavaScript object. */
  predicate DistinctKeys(members: seq<Member>)
  {
    forall i, j :: 0 <= i < j < |members| ==> members[i].key != members[j].key
  }

  function KeySet(members: seq<Member>): set<string>
  {
    set m | m in members :: m.key
  }

  /** `obj[key] = value`: an existing entry keeps its place, a new one goes last. */
  function SetKey(members: seq<Member>, key: string, value: Json): (r: seq<Member>)
    ensures |r| == |members| || |r| == |members| + 1
  {
    if |members| == 0 then [Member(key, value)]
    else if members[0].key == key then [Member(key, value)] + members[1..]
    else [members[0]] + SetKey(members[1..], key, value)
  }

  /** `delete obj[key]`. */
  function DeleteKey(members: seq<Member>, key: string): (r: seq<Member>)
    ensures |r| <= |members|
  {
    if |members| == 0 then []
    else if members[0].key == key then DeleteKey(members[1..], key)
    else [members[0]] + DeleteKey(members[1..], key)
  }

  /**
   * `obj[to] = JSON.parse(JSON.stringify(obj[from])); delete obj[from]`;
   * `None` when the copy throws, on an undefined value.
   */
  function Rename(members: seq<Member>, from: string, to: string): (r: Option<seq<Member>>)
    ensures r.None? <==> Lookup(members, from).Undefined?
  {
    var current := Lookup(members, from);
    if current.Undefined? then None
    else Some(DeleteKey(SetKey(members, to, CopyValue(current)), from))
  }

  /**
   * The end of one key of either loop: a rewritten array or object value is
   * stored back, then a key holding `marker` is renamed to `renamed`.
   */
  function Settle(entries: seq<Member>, key: string, nested: bool, value: Json,
                  marker: string, renamed: string): Option<seq<Member>>
  {
    var updated := if nested then SetKey(entries, key, value) else entries;
    if !Contains(key, marker) then Some(updated) else Rename(updated, key, renamed)
  }

  // ---------------------------------------------------------------------
  // How deep the walks go

  /**
   * How deep the replacement walks can descend below a value: through every
   * element of an array and through the non-keyword keys of an object. The
   * walks read each value from the object as it stands, after earlier keys
   * may have been renamed onto it, so they recurse on this measure rather
   * than on the structure of their input.
   */
  function Height(x: Json): nat
    decreases x, 1
  {
    match x
    case Arr(elems) => 1 + ElemsHeight(elems)
    case Obj(members) => 1 + MembersHeight(members)
    case _ => 0
  }

  function ElemsHeight(elems: seq<Json>): nat
    decreases elems, 0
  {
    if |elems| == 0 then 0 else Max(Height(elems[0]), ElemsHeight(elems[1..]))
  }

  function MembersHeight(members: seq<Member>): nat
    decreases members, 0
  {
    if |members| == 0 then 0
    else Max(if StartsWith(members[0].key, Keyword) then 0 else Height(members[0].value), MembersHeight(members[1..]))
  }

  function Max(a: nat, b: nat): nat
  {
    if a < b then b else a
  }

  /** The height of a list of elements bounds each of them, and is the least such bound. */
  lemma {:induction false} ElemsBound(elems: seq<Json>, b: nat)
    ensures ElemsHeight(elems) <= b <==> forall e :: e in elems ==> Height(e) <= b
    decreases |elems|
  {
    if |elems| > 0 {
      var rest := elems[1..];
      ElemsBound(rest, b);
      assert elems == [elems[0]] + rest;
      assert ElemsHeight(elems) == Max(Height(elems[0]), ElemsHeight(rest));
      if forall e :: e in elems ==> Height(e) <= b {
        assert Height(elems[0]) <= b;
        forall e | e in rest ensures Height(e) <= b {
          assert e in elems;
        }
      }
      if ElemsHeight(elems) <= b {
        forall e | e in elems ensures Height(e) <= b {
          if e != elems[0] {
            assert e in rest;
          }
        }
      }
    }
  }

  /** The height of a list of entries bounds its non-keyword values, and is the least such bound. */
  lemma {:induction false} MembersBound(members: seq<Member>, b: nat)
    ensures MembersHeight(members) <= b <==>
      forall m :: m in members && !StartsWith(m.key, Keyword) ==> Height(m.value) <= b
    decreases |members|
  {
    if |members| > 0 {
      MembersBound(members[1..], b);
      assert members == [members[0]] + members[1..];
    }
  }

  lemma ElemBelow(elems: seq<Json>, j: nat)
    requires j < |elems|
    ensures Height(elems[j]) <= ElemsHeight(elems)
  {
    ElemsBound(elems, ElemsHeight(elems));
  }

  lemma ElemsSnocHeight(done: seq<Json>, e: Json, b: nat)
    requires ElemsHeight(done) <= b && Height(e) <= b
    ensures ElemsHeight(done + [e]) <= b
  {
    ElemsBound(done, b);
    ElemsBound(done + [e], b);
  }

  /** The value under a non-keyword key is no higher than the object's entries. */
  lemma LookupHeight(members: seq<Member>, key: string)
    requires !StartsWith(key, Keyword)
    ensures Height(Lookup(members, key)) <= MembersHeight(members)
  {
    MembersBound(members, MembersHeight(members));
    var x := Lookup(members, key);
    if x != Undefined {
      var i :| 0 <= i < |members| && members[i].key == key && members[i].value == x;
      assert members[i] in members;
    }
  }

  lemma {:induction false} SetKeyIn(members: seq<Member>, key: string, value: Json)
    ensures forall m :: m in SetKey(members, key, value) ==> m in members || m == Member(key, value)
    decreases |members|
  {
    if |members| > 0 && members[0].key != key {
      SetKeyIn(members[1..], key, value);
    }
  }

  lemma {:induction false} DeleteKeyIn(members: seq<Member>, key: string)
    ensures forall m :: m in DeleteKey(members, key) ==> m in members
    decreases |members|
  {
    if |members| > 0 {
      DeleteKeyIn(members[1..], key);
    }
  }

  /** `JSON.parse(JSON.stringify(x))` is no higher than `x`. */
  lemma {:induction false} CopyHeight(x: Json)
    ensures Height(CopyValue(x)) <= Height(x)
    decreases x
  {
    match x
    case Arr(elems) =>
      var copies := CopyValue(x).elems;
      forall e | e in copies
        ensures Height(e) <= ElemsHeight(elems)
      {
        var i :| 0 <= i < |copies| && copies[i] == e;
        CopyHeight(elems[i]);
        ElemBelow(elems, i);
      }
      ElemsBound(copies, ElemsHeight(elems));
    case Obj(members) =>
      var opts := seq(|members|, j requires 0 <= j < |members| =>
        if members[j].value.Undefined? then None else Some(Member(members[j].key, CopyValue(members[j].value))));
      var copies := CopyValue(x).members;
      assert copies == Somes(opts);
      MembersBound(members, MembersHeight(members));
      forall m | m in copies && !StartsWith(m.key, Keyword)
        ensures Height(m.value) <= MembersHeight(members)
      {
        var j :| 0 <= j < |opts| && opts[j] == Some(m);
        assert members[j] in members;
        CopyHeight(members[j].value);
      }
      MembersBound(copies, MembersHeight(members));
    case _ =>
  }

  /** Renaming a key never turns a keyword into a walked key, as neither pattern starts with "@". */
  lemma KeywordRenamed(key: string)
    ensures StartsWith(key, Keyword) ==> StartsWith(EncodeKey(key), Keyword) && StartsWith(DecodeKey(key), Keyword)
  {
    if StartsWith(key, Keyword) {
      assert !StartsWith(key, Space) && !StartsWith(key, EncodedSpace);
      assert EncodeKey(key) == [key[0]] + ReplaceAll(key[1..], Space, EncodedSpace);
      assert DecodeKey(key) == [key[0]] + ReplaceAll(key[1..], EncodedSpace, Space);
    }
  }

  /** Storing a value no higher than `bound` and renaming keep the entries within `bound`. */
  lemma SettleHeight(entries: seq<Member>, key: string, nested: bool, value: Json,
                     marker: string, renamed: string, bound: nat)
    requires MembersHeight(entries) <= bound
    requires nested && !StartsWith(key, Keyword) ==> Height(value) <= bound
    requires StartsWith(key, Keyword) ==> StartsWith(renamed, Keyword)
    ensures var r := Settle(entries, key, nested, value, marker, renamed);
      r.Some? ==> MembersHeight(r.value) <= bound
  {
    var updated := if nested then SetKey(entries, key, value) else entries;
    MembersBound(entries, bound);
    SetKeyIn(entries, key, value);
    MembersBound(updated, bound);
    if Contains(key, marker) && Rename(updated, key, renamed).Some? {
      var copy := CopyValue(Lookup(updated, key));
      var stored := SetKey(updated, renamed, copy);
      if !StartsWith(renamed, Keyword) {
        LookupHeight(updated, key);
        CopyHeight(Lookup(updated, key));
      }
      SetKeyIn(updated, renamed, copy);
      MembersBound(stored, bound);
      DeleteKeyIn(stored, key);
      MembersBound(DeleteKey(stored, key), bound);
    }
  }

  // ---------------------------------------------------------------------
  // Before the compaction: recursive_compactPreReplacement

  /** An object's entries, with the global context as it stands. */
  datatype Scoped = Scoped(entries: seq<Member>, global: Context)

  /** The rewritten value and global context; `threw` when a copy threw. */
  datatype PrePass = PrePass(value: Json, global: Context, threw: bool)

  /**
   * The names a plain object literal inherits from `Object.prototype`: reading
   * one that the object does not hold itself gives a function (or, for
   * `__proto__`, the prototype object), never undefined.
   */
  const InheritedNames: set<string> := {
    "constructor", "hasOwnProperty", "isPrototypeOf", "propertyIsEnumerable",
    "toString", "toLocaleString", "valueOf", "__proto__",
    "__defineGetter__", "__defineSetter__", "__lookupGetter__", "__lookupSetter__"
  }

  /**
   * `globalStandardContext[key]`: the context's own entry, else the inherited
   * member (stood in for by an empty object: both are truthy), else undefined.
   */
  function Bound(global: Context, key: string): (r: Json)
    ensures Truthy(r) <==> (key in global && Truthy(global[key])) || (key !in global && key in InheritedNames)
  {
    if key in global then global[key] else if key in InheritedNames then Obj([]) else Undefined
  }

  /** One entry of an object `@context`: moved to the global context, or set to the wished URI. */
  function ContextEntry(acc: Scoped, key: string): Scoped
  {
    var value := Lookup(acc.entries, key);
    if !AllowedContextValue(value) && key != SchemaPrefix && !Truthy(Bound(acc.global, key))
    then Scoped(acc.entries, acc.global[key := value])
    else Scoped(SetKey(acc.entries, key, Str(SdoURI)), acc.global)
  }

  /** The loop over the keys of an object `@context`, from the `i`-th on. */
  function ContextEntries(keys: seq<string>, i: nat, acc: Scoped): Scoped
    requires i <= |keys|
    decreases |keys| - i
  {
    if i == |keys| then acc else ContextEntries(keys, i + 1, ContextEntry(acc, keys[i]))
  }

  function KeysOf(members: seq<Member>): (keys: seq<string>)
    ensures |keys| == |members|
    ensures forall i :: 0 <= i < |members| ==> keys[i] == members[i].key
  {
    seq(|members|, i requires 0 <= i < |members| => members[i].key)
  }

  /**
   * The `@context` step: an object context is rewritten entry by entry, a
   * string context becomes `{"@vocab": sdoURI}`, anything else stays.
   */
  function PreContext(members: seq<Member>, global: Context): Scoped
  {
    var context := Lookup(members, ContextKey);
    if IsObject(context) then
      var done := ContextEntries(KeysOf(context.members), 0, Scoped(context.members, global));
      Scoped(SetKey(members, ContextKey, Obj(done.entries)), done.global)
    else if IsString(context) then
      Scoped(SetKey(members, ContextKey, Obj([Member(VocabKey, Str(SdoURI))])), global)
    else Scoped(members, global)
  }

  /** The `@context` step touches a keyword entry only. */
  lemma PreContextHeight(members: seq<Member>, global: Context)
    ensures MembersHeight(PreContext(members, global).entries) <= MembersHeight(members)
  {
    var r := PreContext(members, global).entries;
    MembersBound(members, MembersHeight(members));
    var context := Lookup(members, ContextKey);
    if IsObject(context) || IsString(context) {
      assert StartsWith(ContextKey, Keyword);
      SetKeyIn(members, ContextKey, Lookup(r, ContextKey));
      var value := if IsObject(context)
        then Obj(ContextEntries(KeysOf(context.members), 0, Scoped(context.members, global)).entries)
        else Obj([Member(VocabKey, Str(SdoURI))]);
      SetKeyIn(members, ContextKey, value);
    }
    MembersBound(r, MembersHeight(members));
  }

  /** The values the walk descends into: arrays and objects under a non-keyword key. */
  predicate Nested(key: string, x: Json)
  {
    !StartsWith(key, Keyword) && (x.Arr? || IsObject(x))
  }

  /** `recursive_compactPreReplacement(v, global)`. */
  function Pre(v: Json, global: Context): (r: PrePass)
    ensures v.Obj? && !r.threw ==> r.value.Obj?
    ensures Height(r.value) <= Height(v)
    decreases Height(v), 3
  {
    if !Truthy(v) then PrePass(v, global, false)
    else if v.Obj? then
      var start := PreContext(v.members, global);
      PreContextHeight(v.members, global);
      PreMembers(v, 0, start.entries, start.global)
    else if v.Arr? then PreElements(v, 0, [], global, true)
    else PrePass(v, global, false)
  }

  /** The value stored back under a key whose value is an array or an object. */
  function PreChild(x: Json, global: Context): (r: PrePass)
    ensures Height(r.value) <= Height(x)
    decreases Height(x), 4
  {
    if x.Arr? then PreElements(x, 0, [], global, false)
    else if IsObject(x) then Pre(x, global)
    else PrePass(x, global, false)
  }

  /**
   * The elements of an array from the `j`-th on, `done` holding the ones
   * before: through `Pre` for the value of a key, through `PreChild` for
   * the index keys of an array being rewritten itself.
   */
  function PreElements(x: Json, j: nat, done: seq<Json>, global: Context, indices: bool): (r: PrePass)
    requires x.Arr? && j <= |x.elems|
    requires ElemsHeight(done) <= ElemsHeight(x.elems)
    ensures Height(r.value) <= Height(x)
    decreases Height(x), 1, |x.elems| - j
  {
    if j == |x.elems| then PrePass(Arr(done), global, false)
    else
      ElemBelow(x.elems, j);
      var step := if indices then PreChild(x.elems[j], global) else Pre(x.elems[j], global);
      if step.threw then PrePass(Arr(done), step.global, true)
      else
        ElemsSnocHeight(done, step.value, ElemsHeight(x.elems));
        PreElements(x, j + 1, done + [step.value], step.global, indices)
  }

  /**
   * One key of the loop over the object `v`, on the entries the loop has
   * left: the key's value as it now stands, if an array or an object, is
   * rewritten and stored back, then a key holding a space is renamed.
   */
  function PreKey(v: Json, i: nat, entries: seq<Member>, global: Context): (r: PrePass)
    requires v.Obj? && i < |v.members|
    requires MembersHeight(entries) <= MembersHeight(v.members)
    ensures r.value.Obj? && MembersHeight(r.value.members) <= MembersHeight(v.members)
    decreases Height(v), 2, |v.members| - i, 0
  {
    var key := v.members[i].key;
    var x := Lookup(entries, key);
    var step := if Nested(key, x) then LookupHeight(entries, key); PreChild(x, global) else PrePass(x, global, false);
    if step.threw then PrePass(Obj(entries), step.global, true)
    else
      KeywordRenamed(key);
      SettleHeight(entries, key, Nested(key, x), step.value, Space, EncodeKey(key), MembersHeight(v.members));
      match Settle(entries, key, Nested(key, x), step.value, Space, EncodeKey(key))
      case None => PrePass(Obj(entries), step.global, true)
      case Some(next) => PrePass(Obj(next), step.global, false)
  }

  /** The loop over the keys of the object `v` from the `i`-th on. */
  function PreMembers(v: Json, i: nat, entries: seq<Member>, global: Context): (r: PrePass)
    requires v.Obj? && i <= |v.members|
    requires MembersHeight(entries) <= MembersHeight(v.members)
    ensures r.value.Obj? && MembersHeight(r.value.members) <= MembersHeight(v.members)
    decreases Height(v), 2, |v.members| - i, 1
  {
    if i == |v.members| then PrePass(Obj(entries), global, false)
    else
      var next := PreKey(v, i, entries, global);
      if next.threw then next else PreMembers(v, i + 1, next.value.members, next.global)
  }

  /** The `@context` step, with its loop over the entries of an object context. */
  method CompactContext(members: seq<Member>, global: Context) returns (r: Scoped)
    ensures r == PreContext(members, global)
  {
    var context := Lookup(members, ContextKey);
    if IsObject(context) {
      var keys := KeysOf(context.members);
      var acc := Scoped(context.members, global);
      var i := 0;
      while i < |keys|
        invariant 0 <= i <= |keys|
        invariant ContextEntries(keys, 0, Scoped(context.members, global)) == ContextEntries(keys, i, acc)
      {
        var key := keys[i];
        var value := Lookup(acc.entries, key);
        if !AllowedContextValue(value) && key != SchemaPrefix && !Truthy(Bound(acc.global, key)) {
          acc := Scoped(acc.entries, acc.global[key := value]);
        } else {
          acc := Scoped(SetKey(acc.entries, key, Str(SdoURI)), acc.global);
        }
        i := i + 1;
      }
      r := Scoped(SetKey(members, ContextKey, Obj(acc.entries)), acc.global);
    } else if IsString(context) {
      r := Scoped(SetKey(members, ContextKey, Obj([Member(VocabKey, Str(SdoURI))])), global);
    } else {
      r := Scoped(members, global);
    }
  }

  /** `recursive_compactPreReplacement`, with its loops over keys and elements. */
  method CompactPreReplacement(v: Json, global: Context) returns (r: PrePass)
    ensures r == Pre(v, global)
    decreases Height(v), 3
  {
    if !Truthy(v) {
      return PrePass(v, global, false);
    }
    if v.Arr? {
      r := ReplaceElements(v, global, true);
      return;
    }
    if !v.Obj? {
      return PrePass(v, global, false);
    }
    var start := CompactContext(v.members, global);
    PreContextHeight(v.members, global);
    var entries := start.entries;
    var g := start.global;
    var i := 0;
    while i < |v.members|
      invariant 0 <= i <= |v.members|
      invariant MembersHeight(entries) <= MembersHeight(v.members)
      invariant Pre(v, global) == PreMembers(v, i, entries, g)
    {
      var next := ReplaceKey(v, i, entries, g);
      if next.threw {
        return next;
      }
      entries := next.value.members;
      g := next.global;
      i := i + 1;
    }
    r := PrePass(Obj(entries), g, false);
  }

  /** One turn of the loop over the keys: the key's current value rewritten, then the key renamed. */
  method ReplaceKey(v: Json, i: nat, entries: seq<Member>, global: Context) returns (r: PrePass)
    requires v.Obj? && i < |v.members|
    requires MembersHeight(entries) <= MembersHeight(v.members)
    ensures r == PreKey(v, i, entries, global)
    decreases Height(v), 2, |v.members| - i, 0
  {
    var key := v.members[i].key;
    var x := Lookup(entries, key);
    var step := PrePass(x, global, false);
    if Nested(key, x) {
      LookupHeight(entries, key);
      step := ReplaceChild(x, global);
      if step.threw {
        return PrePass(Obj(entries), step.global, true);
      }
    }
    var updated := if Nested(key, x) then SetKey(entries, key, step.value) else entries;
    if Contains(key, Space) {
      var renamed := Rename(updated, key, EncodeKey(key));
      if renamed.None? {
        return PrePass(Obj(entries), step.global, true);
      }
      updated := renamed.value;
    }
    r := PrePass(Obj(updated), step.global, false);
  }

  /** The value stored back under a key whose value is an array or an object. */
  method ReplaceChild(x: Json, global: Context) returns (r: PrePass)
    ensures r == PreChild(x, global)
    decreases Height(x), 4
  {
    if x.Arr? {
      r := ReplaceElements(x, global, false);
    } else if IsObject(x) {
      r := CompactPreReplacement(x, global);
    } else {
      r := PrePass(x, global, false);
    }
  }

  /** The loop over the elements of an array. */
  method ReplaceElements(x: Json, global: Context, indices: bool) returns (r: PrePass)
    requires x.Arr?
    ensures r == PreElements(x, 0, [], global, indices)
    decreases Height(x), 1
  {
    var done: seq<Json> := [];
    var g := global;
    var j := 0;
    while j < |x.elems|
      invariant 0 <= j <= |x.elems|
      invariant ElemsHeight(done) <= ElemsHeight(x.elems)
      invariant PreElements(x, 0, [], global, indices) == PreElements(x, j, done, g, indices)
    {
      ElemBelow(x.elems, j);
      var step: PrePass;
      if indices {
        step := ReplaceChild(x.elems[j], g);
      } else {
        step := CompactPreReplacement(x.elems[j], g);
      }
      if step.threw {
        return PrePass(Arr(done), step.global, true);
      }
      ElemsSnocHeight(done, step.value, ElemsHeight(x.elems));
      done := done + [step.value];
      g := step.global;
      j := j + 1;
    }
    r := PrePass(Arr(done), g, false);
  }

  // ---------------------------------------------------------------------
  // After the compaction: recursive_compactPostReplacement

  /** `recursive_compactPostReplacement(v)`; `None` when a copy threw. */
  function Post(v: Json): (r: Option<Json>)
    ensures v.Obj? && r.Some? ==> r.value.Obj?
    ensures r.Some? ==> Height(r.value) <= Height(v)
    decreases Height(v), 3
  {
    if !Truthy(v) then Some(v)
    else if v.Obj? then PostMembers(v, 0, v.members)
    else if v.Arr? then PostElements(v, 0, [], true)
    else Some(v)
  }

  function PostChild(x: Json): (r: Option<Json>)
    ensures r.Some? ==> Height(r.value) <= Height(x)
    decreases Height(x), 4
  {
    if x.Arr? then PostElements(x, 0, [], false)
    else if IsObject(x) then Post(x)
    else Some(x)
  }

  function PostElements(x: Json, j: nat, done: seq<Json>, indices: bool): (r: Option<Json>)
    requires x.Arr? && j <= |x.elems|
    requires ElemsHeight(done) <= ElemsHeight(x.elems)
    ensures r.Some? ==> Height(r.value) <= Height(x)
    decreases Height(x), 1, |x.elems| - j
  {
    if j == |x.elems| then Some(Arr(done))
    else
      ElemBelow(x.elems, j);
      var step := if indices then PostChild(x.elems[j]) else Post(x.elems[j]);
      if step.None? then None
      else
        ElemsSnocHeight(done, step.value, ElemsHeight(x.elems));
        PostElements(x, j + 1, done + [step.value], indices)
  }

  /**
   * One key of the loop over `v`: the key's value as it now stands
   * rewritten, then a key holding `%20` renamed.
   */
  function PostKey(v: Json, i: nat, entries: seq<Member>): (r: Option<seq<Member>>)
    requires v.Obj? && i < |v.members|
    requires MembersHeight(entries) <= MembersHeight(v.members)
    ensures r.Some? ==> MembersHeight(r.value) <= MembersHeight(v.members)
    decreases Height(v), 2, |v.members| - i, 0
  {
    var key := v.members[i].key;
    var x := Lookup(entries, key);
    var step := if Nested(key, x) then LookupHeight(entries, key); PostChild(x) else Some(x);
    if step.None? then None
    else
      KeywordRenamed(key);
      SettleHeight(entries, key, Nested(key, x), step.value, EncodedSpace, DecodeKey(key), MembersHeight(v.members));
      Settle(entries, key, Nested(key, x), step.value, EncodedSpace, DecodeKey(key))
  }

  /** The loop over the keys of `v` from the `i`-th on. */
  function PostMembers(v: Json, i: nat, entries: seq<Member>): (r: Option<Json>)
    requires v.Obj? && i <= |v.members|
    requires MembersHeight(entries) <= MembersHeight(v.members)
    ensures r.Some? ==> r.value.Obj? && MembersHeight(r.value.members) <= MembersHeight(v.members)
    decreases Height(v), 2, |v.members| - i, 1
  {
    if i == |v.members| then Some(Obj(entries))
    else
      match PostKey(v, i, entries)
      case None => None
      case Some(next) => PostMembers(v, i + 1, next)
  }

  /** `recursive_compactPostReplacement`, with its loops over keys and elements. */
  method CompactPostReplacement(v: Json) returns (r: Option<Json>)
    ensures r == Post(v)
    decreases Height(v), 3
  {
    if !Truthy(v) {
      return Some(v);
    }
    if v.Arr? {
      r := RestoreElements(v, true);
      return;
    }
    if !v.Obj? {
      return Some(v);
    }
    var entries := v.members;
    var i := 0;
    while i < |v.members|
      invariant 0 <= i <= |v.members|
      invariant MembersHeight(entries) <= MembersHeight(v.members)
      invariant Post(v) == PostMembers(v, i, entries)
    {
      var next := RestoreKey(v, i, entries);
      if next.None? {
        return None;
      }
      entries := next.value;
      i := i + 1;
    }
    r := Some(Obj(entries));
  }

  /** One turn of the loop over the keys: the key's current value rewritten, then the key renamed. */
  method RestoreKey(v: Json, i: nat, entries: seq<Member>) returns (r: Option<seq<Member>>)
    requires v.Obj? && i < |v.members|
    requires MembersHeight(entries) <= MembersHeight(v.members)
    ensures r == PostKey(v, i, entries)
    decreases Height(v), 2, |v.members| - i, 0
  {
    var key := v.members[i].key;
    var x := Lookup(entries, key);
    var updated := entries;
    if Nested(key, x) {
      LookupHeight(entries, key);
      var step := RestoreChild(x);
      if step.None? {
        return None;
      }
      updated := SetKey(entries, key, step.value);
    }
    if Contains(key, EncodedSpace) {
      var renamed := Rename(updated, key, DecodeKey(key));
      if renamed.None? {
        return None;
      }
      updated := renamed.value;
    }
    r := Some(updated);
  }

  method RestoreChild(x: Json) returns (r: Option<Json>)
    ensures r == PostChild(x)
    decreases Height(x), 4
  {
    if x.Arr? {
      r := RestoreElements(x, false);
    } else if IsObject(x) {
      r := CompactPostReplacement(x);
    } else {
      r := Some(x);
    }
  }

  method RestoreElements(x: Json, indices: bool) returns (r: Option<Json>)
    requires x.Arr?
    ensures r == PostElements(x, 0, [], indices)
    decreases Height(x), 1
  {
    var done: seq<Json> := [];
    var j := 0;
    while j < |x.elems|
      invariant 0 <= j <= |x.elems|
      invariant ElemsHeight(done) <= ElemsHeight(x.elems)
      invariant PostElements(x, 0, [], indices) == PostElements(x, j, done, indices)
    {
      ElemBelow(x.elems, j);
      var step: Option<Json>;
      if indices {
        step := RestoreChild(x.elems[j]);
      } else {
        step := CompactPostReplacement(x.elems[j]);
      }
      if step.None? {
        return None;
      }
      ElemsSnocHeight(done, step.value, ElemsHeight(x.elems));
      done := done + [step.value];
      j := j + 1;
    }
    r := Some(Arr(done));
  }

  // ---------------------------------------------------------------------
  // Property names: what the encoding promises

  /** `s.includes(c)` for a one-character string: some character is `c`. */
  lemma {:induction false} ContainsChar(s: string, c: char)
    ensures Contains(s, [c]) <==> exists i :: 0 <= i < |s| && s[i] == c
    decreases |s|
  {
    if |s| > 0 {
      ContainsChar(s[1..], c);
      if s[0] == c {
        assert s[..1] == [c];
      } else {
        assert s[..1][0] == s[0];
      }
      if exists i :: 0 <= i < |s[1..]| && s[1..][i] == c {
        var i :| 0 <= i < |s[1..]| && s[1..][i] == c;
        assert s[i + 1] == c;
      }
      if exists i :: 0 <= i < |s| && s[i] == c {
        var i :| 0 <= i < |s| && s[i] == c;
        if i > 0 {
          assert s[1..][i - 1] == c;
        }
      }
    }
  }

  /** An encoded name holds no space. */
  lemma {:induction false} EncodedKeyHasNoSpace(key: string)
    ensures !Contains(EncodeKey(key), Space)
  {
    EncodedChars(key);
    ContainsChar(EncodeKey(key), ' ');
  }

  lemma {:induction false} EncodedChars(key: string)
    ensures forall i :: 0 <= i < |EncodeKey(key)| ==> EncodeKey(key)[i] != ' '
    decreases |key|
  {
    if |key| > 0 {
      EncodedChars(key[1..]);
      if key[0] == ' ' {
        assert EncodeKey(key) == EncodedSpace + EncodeKey(key[1..]);
      } else {
        assert EncodeKey(key) == [key[0]] + EncodeKey(key[1..]);
      }
    }
  }

  /** A name without a space is its own encoding. */
  lemma {:induction false} EncodeKeyUnchanged(key: string)
    requires !Contains(key, Space)
    ensures EncodeKey(key) == key
    decreases |key|
  {
    if |key| > 0 {
      EncodeKeyUnchanged(key[1..]);
      assert key == [key[0]] + key[1..];
    }
  }

  /** A name without `%20` is its own decoding. */
  lemma {:induction false} DecodeKeyUnchanged(key: string)
    requires !Contains(key, EncodedSpace)
    ensures DecodeKey(key) == key
    decreases |key|
  {
    if |key| > 0 {
      DecodeKeyUnchanged(key[1..]);
      assert key == [key[0]] + key[1..];
    }
  }

  /** An encoding that starts with "20" encodes a name that starts with "20". */
  lemma EncodedPrefix(u: string)
    requires |EncodeKey(u)| >= 2 && EncodeKey(u)[0] == '2' && EncodeKey(u)[1] == '0'
    ensures |u| >= 2 && u[0] == '2' && u[1] == '0'
  {
    assert |u| > 0 && u[0] != ' ';
    assert EncodeKey(u) == [u[0]] + EncodeKey(u[1..]);
    var rest := u[1..];
    assert |rest| > 0 && rest[0] != ' ';
    assert EncodeKey(rest) == [rest[0]] + EncodeKey(rest[1..]);
  }

  /** A decoding that starts with "20" decodes a name that starts with "20". */
  lemma DecodedPrefix(u: string)
    requires |DecodeKey(u)| >= 2 && DecodeKey(u)[0] == '2' && DecodeKey(u)[1] == '0'
    ensures |u| >= 2 && u[0] == '2' && u[1] == '0'
  {
    assert |u| > 0 && !StartsWith(u, EncodedSpace);
    assert DecodeKey(u) == [u[0]] + DecodeKey(u[1..]);
    var rest := u[1..];
    assert |rest| > 0 && !StartsWith(rest, EncodedSpace);
    assert DecodeKey(rest) == [rest[0]] + DecodeKey(rest[1..]);
  }

  /** Decoding undoes encoding, for every name that does not already hold `%20`. */
  lemma {:induction false} KeyRoundTrip(key: string)
    requires !Contains(key, EncodedSpace)
    ensures DecodeKey(EncodeKey(key)) == key
    decreases |key|
  {
    if |key| > 0 {
      var rest := key[1..];
      var e := EncodeKey(rest);
      KeyRoundTrip(rest);
      if key[0] == ' ' {
        assert EncodeKey(key) == EncodedSpace + e;
        assert (EncodedSpace + e)[3..] == e;
      } else {
        assert EncodeKey(key) == [key[0]] + e;
        if StartsWith([key[0]] + e, EncodedSpace) {
          assert e[0] == ([key[0]] + e)[1];
          assert e[1] == ([key[0]] + e)[2];
          EncodedPrefix(rest);
          assert false;
        }
        assert ([key[0]] + e)[1..] == e;
        assert key == [key[0]] + rest;
      }
    }
  }

  /** A decoded name holds no `%20`. */
  lemma {:induction false} DecodedKeyHasNoEncodedSpace(key: string)
    ensures !Contains(DecodeKey(key), EncodedSpace)
    decreases |key|
  {
    if |key| > 0 {
      if StartsWith(key, EncodedSpace) {
        var rest := key[3..];
        DecodedKeyHasNoEncodedSpace(rest);
        assert DecodeKey(key) == Space + DecodeKey(rest);
        assert (Space + DecodeKey(rest))[1..] == DecodeKey(rest);
      } else {
        var rest := key[1..];
        var d := DecodeKey(rest);
        DecodedKeyHasNoEncodedSpace(rest);
        assert DecodeKey(key) == [key[0]] + d;
        assert ([key[0]] + d)[1..] == d;
        if StartsWith([key[0]] + d, EncodedSpace) {
          assert d[0] == ([key[0]] + d)[1];
          assert d[1] == ([key[0]] + d)[2];
          DecodedPrefix(rest);
          assert false;
        }
      }
    }
  }

  // ---------------------------------------------------------------------
  // Which property names an object ends with

  function EncodedKeys(members: seq<Member>): set<string>
  {
    set m | m in members :: EncodeKey(m.key)
  }

  function DecodedKeys(members: seq<Member>): set<string>
  {
    set m | m in members :: DecodeKey(m.key)
  }

  lemma KeySetCons(m: Member, t: seq<Member>)
    ensures KeySet([m] + t) == {m.key} + KeySet(t)
  {
    assert forall x :: x in [m] + t <==> x == m || x in t;
  }

  lemma DistinctCons(m: Member, t: seq<Member>)
    ensures DistinctKeys([m] + t) <==> DistinctKeys(t) && m.key !in KeySet(t)
  {
    var s := [m] + t;
    if DistinctKeys(s) {
      forall i, j | 0 <= i < j < |t|
        ensures t[i].key != t[j].key
      {
        assert t[i] == s[i + 1] && t[j] == s[j + 1];
      }
      forall x | x in t
        ensures x.key != m.key
      {
        var j :| 0 <= j < |t| && t[j] == x;
        assert s[j + 1] == x && s[0] == m;
        assert s[0].key != s[j + 1].key;
      }
    }
    if DistinctKeys(t) && m.key !in KeySet(t) {
      forall i, j | 0 <= i < j < |s|
        ensures s[i].key != s[j].key
      {
        assert s[j] == t[j - 1] && s[j] in t;
        if i > 0 {
          assert s[i] == t[i - 1];
        }
      }
    }
  }

  /** `obj[key] = value` adds `key` to the names and keeps them distinct. */
  lemma SetKeyKeys(members: seq<Member>, key: string, value: Json)
    ensures KeySet(SetKey(members, key, value)) == KeySet(members) + {key}
    ensures DistinctKeys(members) ==> DistinctKeys(SetKey(members, key, value))
  {
    SetKeyNames(members, key, value);
    if DistinctKeys(members) {
      SetKeyDistinct(members, key, value);
    }
  }

  lemma {:induction false} SetKeyNames(members: seq<Member>, key: string, value: Json)
    ensures KeySet(SetKey(members, key, value)) == KeySet(members) + {key}
    decreases |members|
  {
    if |members| == 0 {
      KeySetCons(Member(key, value), []);
    } else {
      var rest := members[1..];
      assert members == [members[0]] + rest;
      KeySetCons(members[0], rest);
      if members[0].key == key {
        KeySetCons(Member(key, value), rest);
      } else {
        SetKeyNames(rest, key, value);
        KeySetCons(members[0], SetKey(rest, key, value));
      }
    }
  }

  lemma {:induction false} SetKeyDistinct(members: seq<Member>, key: string, value: Json)
    requires DistinctKeys(members)
    ensures DistinctKeys(SetKey(members, key, value))
    decreases |members|
  {
    if |members| == 0 {
    } else {
      var rest := members[1..];
      assert members == [members[0]] + rest;
      DistinctCons(members[0], rest);
      if members[0].key == key {
        KeySetCons(Member(key, value), rest);
        DistinctCons(Member(key, value), rest);
      } else {
        SetKeyDistinct(rest, key, value);
        SetKeyNames(rest, key, value);
        DistinctCons(members[0], SetKey(rest, key, value));
      }
    }
  }

  /** `delete obj[key]` removes `key` from the names and keeps them distinct. */
  lemma {:induction false} DeleteKeyKeys(members: seq<Member>, key: string)
    ensures KeySet(DeleteKey(members, key)) == KeySet(members) - {key}
    ensures DistinctKeys(members) ==> DistinctKeys(DeleteKey(members, key))
    decreases |members|
  {
    if |members| > 0 {
      var rest := members[1..];
      assert members == [members[0]] + rest;
      KeySetCons(members[0], rest);
      DistinctCons(members[0], rest);
      DeleteKeyKeys(rest, key);
      if members[0].key != key {
        KeySetCons(members[0], DeleteKey(rest, key));
        DistinctCons(members[0], DeleteKey(rest, key));
      }
    }
  }

  /** The `@context` step rewrites a value in place: the names stay as they are. */
  lemma PreContextKeys(members: seq<Member>, global: Context)
    requires DistinctKeys(members)
    ensures KeySet(PreContext(members, global).entries) == KeySet(members)
    ensures DistinctKeys(PreContext(members, global).entries)
  {
    var context := Lookup(members, ContextKey);
    if IsObject(context) || IsString(context) {
      var i :| 0 <= i < |members| && members[i].key == ContextKey && members[i].value == context;
      assert members[i] in members;
      SetKeyKeys(members, ContextKey, if IsObject(context)
        then Obj(ContextEntries(KeysOf(context.members), 0, Scoped(context.members, global)).entries)
        else Obj([Member(VocabKey, Str(SdoURI))]));
    }
  }

  /** Splitting the snapshot of names between the keys already seen and the rest. */
  lemma SnapshotStep(ms: seq<Member>, i: nat)
    requires i < |ms|
    ensures EncodedKeys(ms[..i + 1]) == EncodedKeys(ms[..i]) + {EncodeKey(ms[i].key)}
    ensures DecodedKeys(ms[..i + 1]) == DecodedKeys(ms[..i]) + {DecodeKey(ms[i].key)}
    ensures KeySet(ms[i..]) == {ms[i].key} + KeySet(ms[i + 1..])
  {
    assert ms[..i + 1] == ms[..i] + [ms[i]];
    assert forall x :: x in ms[..i + 1] <==> x in ms[..i] || x == ms[i];
    assert ms[i..] == [ms[i]] + ms[i + 1..];
    KeySetCons(ms[i], ms[i + 1..]);
  }

  /** A name of a distinct snapshot does not occur again after its place. */
  lemma DistinctAfter(ms: seq<Member>, i: nat)
    requires DistinctKeys(ms) && i < |ms|
    ensures ms[i].key !in KeySet(ms[i + 1..])
  {
  }

  /** Renaming `from` to `to` swaps the one name for the other. */
  lemma RenameKeys(members: seq<Member>, from: string, to: string)
    requires DistinctKeys(members) && Rename(members, from, to).Some?
    ensures KeySet(Rename(members, from, to).value) == KeySet(members) + {to} - {from}
    ensures DistinctKeys(Rename(members, from, to).value)
  {
    var copy := CopyValue(Lookup(members, from));
    SetKeyKeys(members, to, copy);
    DeleteKeyKeys(SetKey(members, to, copy), from);
  }

  /** The bookkeeping of one renamed name. */
  lemma SwapName(names: set<string>, seen: set<string>, rest: set<string>, key: string, renamed: string)
    requires names == seen + {key} + rest
    requires key !in seen && key !in rest && key != renamed
    ensures names + {renamed} - {key} == (seen + {renamed}) + rest
  {
  }

  /** A name holding a space is no encoded name. */
  lemma EncodedKeysFree(ms: seq<Member>, key: string)
    requires Contains(key, Space)
    ensures key !in EncodedKeys(ms)
  {
    forall m | m in ms
      ensures EncodeKey(m.key) != key
    {
      EncodedKeyHasNoSpace(m.key);
    }
  }

  /** A name holding `%20` is no decoded name. */
  lemma DecodedKeysFree(ms: seq<Member>, key: string)
    requires Contains(key, EncodedSpace)
    ensures key !in DecodedKeys(ms)
  {
    forall m | m in ms
      ensures DecodeKey(m.key) != key
    {
      DecodedKeyHasNoEncodedSpace(m.key);
    }
  }

  /**
   * Storing back keeps the names; a rename swaps `key` for `renamed`. Either
   * way `key` leaves the names still to come and `renamed` joins the seen.
   */
  lemma SettleKeys(entries: seq<Member>, key: string, nested: bool, value: Json, marker: string,
                   renamed: string, seen: set<string>, rest: set<string>)
    requires DistinctKeys(entries) && KeySet(entries) == seen + {key} + rest && key !in rest
    requires Contains(key, marker) ==> key !in seen && key != renamed
    requires !Contains(key, marker) ==> renamed == key
    ensures var r := Settle(entries, key, nested, value, marker, renamed);
      r.Some? ==> DistinctKeys(r.value) && KeySet(r.value) == seen + {renamed} + rest
  {
    var updated := if nested then SetKey(entries, key, value) else entries;
    SetKeyKeys(entries, key, value);
    assert KeySet(updated) == KeySet(entries);
    if Contains(key, marker) && Rename(updated, key, renamed).Some? {
      RenameKeys(updated, key, renamed);
      SwapName(KeySet(updated), seen, rest, key, renamed);
    }
  }

  /** One key of the pre-replacement: its name joins the encoded ones. */
  lemma PreKeyKeys(v: Json, i: nat, entries: seq<Member>, global: Context)
    requires v.Obj? && i < |v.members| && DistinctKeys(v.members)
    requires DistinctKeys(entries) && MembersHeight(entries) <= MembersHeight(v.members)
    requires KeySet(entries) == EncodedKeys(v.members[..i]) + KeySet(v.members[i..])
    ensures !PreKey(v, i, entries, global).threw ==>
      DistinctKeys(PreKey(v, i, entries, global).value.members) &&
      KeySet(PreKey(v, i, entries, global).value.members) ==
        EncodedKeys(v.members[..i + 1]) + KeySet(v.members[i + 1..])
  {
    var ms := v.members;
    var key := ms[i].key;
    var x := Lookup(entries, key);
    if Nested(key, x) {
      LookupHeight(entries, key);
    }
    var step := if Nested(key, x) then PreChild(x, global) else PrePass(x, global, false);
    PreNameStep(ms, i);
    SettleKeys(entries, key, Nested(key, x), step.value, Space, EncodeKey(key),
               EncodedKeys(ms[..i]), KeySet(ms[i + 1..]));
  }

  /** The `i`-th name leaves the names still to come and joins the encoded ones, clashing with none of them. */
  lemma PreNameStep(ms: seq<Member>, i: nat)
    requires DistinctKeys(ms) && i < |ms|
    ensures var key := ms[i].key;
      EncodedKeys(ms[..i]) + KeySet(ms[i..]) == EncodedKeys(ms[..i]) + {key} + KeySet(ms[i + 1..]) &&
      key !in KeySet(ms[i + 1..]) &&
      (Contains(key, Space) ==> key !in EncodedKeys(ms[..i]) && key != EncodeKey(key)) &&
      (!Contains(key, Space) ==> EncodeKey(key) == key) &&
      EncodedKeys(ms[..i + 1]) + KeySet(ms[i + 1..]) == EncodedKeys(ms[..i]) + {EncodeKey(key)} + KeySet(ms[i + 1..])
  {
    var key := ms[i].key;
    SnapshotStep(ms, i);
    DistinctAfter(ms, i);
    if Contains(key, Space) {
      EncodedKeyHasNoSpace(key);
      EncodedKeysFree(ms[..i], key);
    } else {
      EncodeKeyUnchanged(key);
    }
  }

  /**
   * The loop over the names: the names seen so far are encoded, the others
   * are still there, and no two names coincide.
   */
  lemma {:induction false} PreMembersKeys(v: Json, i: nat, entries: seq<Member>, global: Context)
    requires v.Obj? && i <= |v.members| && DistinctKeys(v.members)
    requires DistinctKeys(entries) && MembersHeight(entries) <= MembersHeight(v.members)
    requires KeySet(entries) == EncodedKeys(v.members[..i]) + KeySet(v.members[i..])
    ensures !PreMembers(v, i, entries, global).threw ==>
      DistinctKeys(PreMembers(v, i, entries, global).value.members) &&
      KeySet(PreMembers(v, i, entries, global).value.members) == EncodedKeys(v.members)
    decreases |v.members| - i
  {
    if i == |v.members| {
      assert v.members[..i] == v.members;
      assert v.members[i..] == [];
    } else {
      var next := PreKey(v, i, entries, global);
      assert PreMembers(v, i, entries, global) ==
        (if next.threw then next else PreMembers(v, i + 1, next.value.members, next.global));
      if !next.threw {
        assert DistinctKeys(next.value.members) &&
          KeySet(next.value.members) == EncodedKeys(v.members[..i + 1]) + KeySet(v.members[i + 1..]) by {
          PreKeyKeys(v, i, entries, global);
        }
        PreMembersKeys(v, i + 1, next.value.members, next.global);
      }
    }
  }

  /**
   * After the pre-replacement an object holds exactly the encoded names of
   * its entries, each once, and so no name with a space.
   */
  lemma PreKeys(v: Json, global: Context)
    requires v.Obj? && DistinctKeys(v.members)
    ensures !Pre(v, global).threw ==>
      DistinctKeys(Pre(v, global).value.members) &&
      KeySet(Pre(v, global).value.members) == EncodedKeys(v.members)
    ensures !Pre(v, global).threw ==>
      forall k :: k in KeySet(Pre(v, global).value.members) ==> !Contains(k, Space)
  {
    var start := PreContext(v.members, global);
    PreContextKeys(v.members, global);
    PreContextHeight(v.members, global);
    assert v.members[..0] == [] && v.members[0..] == v.members;
    PreMembersKeys(v, 0, start.entries, start.global);
    forall m | m in v.members
      ensures !Contains(EncodeKey(m.key), Space)
    {
      EncodedKeyHasNoSpace(m.key);
    }
  }

  /** One key of the post-replacement: its name joins the decoded ones. */
  lemma PostKeyKeys(v: Json, i: nat, entries: seq<Member>)
    requires v.Obj? && i < |v.members| && DistinctKeys(v.members)
    requires DistinctKeys(entries) && MembersHeight(entries) <= MembersHeight(v.members)
    requires KeySet(entries) == DecodedKeys(v.members[..i]) + KeySet(v.members[i..])
    ensures PostKey(v, i, entries).Some? ==>
      DistinctKeys(PostKey(v, i, entries).value) &&
      KeySet(PostKey(v, i, entries).value) == DecodedKeys(v.members[..i + 1]) + KeySet(v.members[i + 1..])
  {
    var ms := v.members;
    var key := ms[i].key;
    var x := Lookup(entries, key);
    if Nested(key, x) {
      LookupHeight(entries, key);
    }
    var step := if Nested(key, x) then PostChild(x) else Some(x);
    PostNameStep(ms, i);
    if step.Some? {
      SettleKeys(entries, key, Nested(key, x), step.value, EncodedSpace, DecodeKey(key),
                 DecodedKeys(ms[..i]), KeySet(ms[i + 1..]));
    }
  }

  /** The `i`-th name leaves the names still to come and joins the decoded ones, clashing with none of them. */
  lemma PostNameStep(ms: seq<Member>, i: nat)
    requires DistinctKeys(ms) && i < |ms|
    ensures var key := ms[i].key;
      DecodedKeys(ms[..i]) + KeySet(ms[i..]) == DecodedKeys(ms[..i]) + {key} + KeySet(ms[i + 1..]) &&
      key !in KeySet(ms[i + 1..]) &&
      (Contains(key, EncodedSpace) ==> key !in DecodedKeys(ms[..i]) && key != DecodeKey(key)) &&
      (!Contains(key, EncodedSpace) ==> DecodeKey(key) == key) &&
      DecodedKeys(ms[..i + 1]) + KeySet(ms[i + 1..]) == DecodedKeys(ms[..i]) + {DecodeKey(key)} + KeySet(ms[i + 1..])
  {
    var key := ms[i].key;
    SnapshotStep(ms, i);
    DistinctAfter(ms, i);
    if Contains(key, EncodedSpace) {
      DecodedKeyHasNoEncodedSpace(key);
      DecodedKeysFree(ms[..i], key);
    } else {
      DecodeKeyUnchanged(key);
    }
  }

  /** The post-replacement loop over the names: the names seen so far are decoded. */
  lemma {:induction false} PostMembersKeys(v: Json, i: nat, entries: seq<Member>)
    requires v.Obj? && i <= |v.members| && DistinctKeys(v.members)
    requires DistinctKeys(entries) && MembersHeight(entries) <= MembersHeight(v.members)
    requires KeySet(entries) == DecodedKeys(v.members[..i]) + KeySet(v.members[i..])
    ensures PostMembers(v, i, entries).Some? ==>
      DistinctKeys(PostMembers(v, i, entries).value.members) &&
      KeySet(PostMembers(v, i, entries).value.members) == DecodedKeys(v.members)
    decreases |v.members| - i
  {
    if i == |v.members| {
      assert v.members[..i] == v.members;
      assert v.members[i..] == [];
    } else {
      var next := PostKey(v, i, entries);
      if next.Some? {
        assert DistinctKeys(next.value) &&
          KeySet(next.value) == DecodedKeys(v.members[..i + 1]) + KeySet(v.members[i + 1..]) by {
          PostKeyKeys(v, i, entries);
        }
        PostMembersKeys(v, i + 1, next.value);
      }
    }
  }

  /**
   * After the post-replacement an object holds exactly the decoded names of
   * its entries, each once, and so no name with `%20`.
   */
  lemma PostKeys(v: Json)
    requires v.Obj? && DistinctKeys(v.members)
    ensures Post(v).Some? ==>
      DistinctKeys(Post(v).value.members) && KeySet(Post(v).value.members) == DecodedKeys(v.members)
    ensures Post(v).Some? ==>
      forall k :: k in KeySet(Post(v).value.members) ==> !Contains(k, EncodedSpace)
  {
    assert v.members[..0] == [] && v.members[0..] == v.members;
    PostMembersKeys(v, 0, v.members);
    forall m | m in v.members
      ensures !Contains(DecodeKey(m.key), EncodedSpace)
    {
      DecodedKeyHasNoEncodedSpace(m.key);
    }
  }

  /** The two names of the examples below, with and without an encoded space. */
  lemma SampleNames()
    ensures Contains("a b", Space) && !Contains("a b", EncodedSpace)
    ensures Contains("a%20b", EncodedSpace) && !Contains("a%20b", Space)
    ensures EncodeKey("a b") == "a%20b" && DecodeKey("a%20b") == "a b"
  {
    SpacedName();
    EncodedName();
    EncodedKeyHasNoSpace("a b");
    DecodedKeyHasNoEncodedSpace("a%20b");
  }

  lemma SpacedName()
    ensures Contains("a b", Space) && EncodeKey("a b") == "a%20b"
  {
    assert "a b"[1..] == " b" && " b"[..1] == Space && " b"[1..] == "b" && "b"[1..] == "";
    assert ReplaceAll("b", Space, EncodedSpace) == "b";
    assert ReplaceAll(" b", Space, EncodedSpace) == "%20b";
  }

  lemma EncodedName()
    ensures Contains("a%20b", EncodedSpace) && DecodeKey("a%20b") == "a b"
  {
    assert "a%20b"[1..] == "%20b" && "%20b"[..3] == EncodedSpace && "%20b"[3..] == "b" && "b"[1..] == "";
    assert ReplaceAll("b", EncodedSpace, Space) == "b";
    assert ReplaceAll("%20b", EncodedSpace, Space) == " b";
  }

  /** The renames of the examples below: the renamed value replaces the one already under the new name. */
  lemma SampleRenames()
    ensures Rename([Member("a b", Str("x")), Member("a%20b", Obj([Member("k", Str("y"))]))], "a b", "a%20b")
      == Some([Member("a%20b", Str("x"))])
    ensures Rename([Member("a%20b", Str("x")), Member("a b", Obj([Member("k", Str("y"))]))], "a%20b", "a b")
      == Some([Member("a b", Str("x"))])
  {
    var inner := Obj([Member("k", Str("y"))]);
    var pre := [Member("a b", Str("x")), Member("a%20b", inner)];
    var post := [Member("a%20b", Str("x")), Member("a b", inner)];
    assert pre[1..] == [Member("a%20b", inner)] && post[1..] == [Member("a b", inner)];
    var preBoth := [Member("a b", Str("x")), Member("a%20b", Str("x"))];
    var postBoth := [Member("a%20b", Str("x")), Member("a b", Str("x"))];
    assert SetKey(pre, "a%20b", Str("x")) == preBoth;
    assert SetKey(post, "a b", Str("x")) == postBoth;
    assert preBoth[1..] == [Member("a%20b", Str("x"))] && postBoth[1..] == [Member("a b", Str("x"))];
  }

  /** The first example before the compaction, and what it becomes. */
  const PreSample := Obj([Member("a b", Str("x")), Member("a%20b", Obj([Member("k", Str("y"))]))])
  const PreSampleResult := [Member("a%20b", Str("x"))]

  /** The first turn renames "a b" onto "a%20b", replacing its object by "x". */
  lemma PreSampleFirstKey()
    ensures PreKey(PreSample, 0, PreSample.members, StandardContext) == PrePass(Obj(PreSampleResult), StandardContext, false)
  {
    SampleNames();
    SampleRenames();
    assert Lookup(PreSample.members, "a b") == Str("x");
    assert !Nested("a b", Str("x"));
    assert Settle(PreSample.members, "a b", false, Str("x"), Space, "a%20b") == Some(PreSampleResult);
  }

  /** The second turn finds "x" under "a%20b": nothing to rewrite, nothing to rename. */
  lemma PreSampleSecondKey()
    ensures PreKey(PreSample, 1, PreSampleResult, StandardContext) == PrePass(Obj(PreSampleResult), StandardContext, false)
  {
    SampleNames();
    assert Lookup(PreSampleResult, "a%20b") == Str("x");
    assert !Nested("a%20b", Str("x"));
  }

  /**
   * A rename reaches a key the loop has yet to visit: `{"a b": "x",
   * "a%20b": {"k": "y"}}` becomes `{"a%20b": "x"}`, the string taking the
   * place of the object before the object's turn comes.
   */
  lemma PreRenameOntoLaterKey()
    ensures Pre(PreSample, StandardContext) == PrePass(Obj(PreSampleResult), StandardContext, false)
  {
    assert PreContext(PreSample.members, StandardContext) == Scoped(PreSample.members, StandardContext) by {
      assert Lookup(PreSample.members, ContextKey) == Undefined;
    }
    PreSampleFirstKey();
    PreSampleSecondKey();
    assert PreMembers(PreSample, 1, PreSampleResult, StandardContext) == PrePass(Obj(PreSampleResult), StandardContext, false);
  }

  /** The second example, after the compaction, and what it becomes. */
  const PostSample := Obj([Member("a%20b", Str("x")), Member("a b", Obj([Member("k", Str("y"))]))])
  const PostSampleResult := [Member("a b", Str("x"))]

  lemma PostSampleFirstKey()
    ensures PostKey(PostSample, 0, PostSample.members) == Some(PostSampleResult)
  {
    SampleNames();
    SampleRenames();
    assert Lookup(PostSample.members, "a%20b") == Str("x");
    assert !Nested("a%20b", Str("x"));
    assert Settle(PostSample.members, "a%20b", false, Str("x"), EncodedSpace, "a b") == Some(PostSampleResult);
  }

  lemma PostSampleSecondKey()
    ensures PostKey(PostSample, 1, PostSampleResult) == Some(PostSampleResult)
  {
    SampleNames();
    assert Lookup(PostSampleResult, "a b") == Str("x");
    assert !Nested("a b", Str("x"));
  }

  /** The same after the compaction: `{"a%20b": "x", "a b": {"k": "y"}}` becomes `{"a b": "x"}`. */
  lemma PostRenameOntoLaterKey()
    ensures Post(PostSample) == Some(Obj(PostSampleResult))
  {
    PostSampleFirstKey();
    PostSampleSecondKey();
    assert PostMembers(PostSample, 1, PostSampleResult) == Some(Obj(PostSampleResult));
  }

  /**
   * The two replacements are inverse on property names: when nothing
   * between them renames a property, an object whose names hold no `%20`
   * gets its own names back.
   */
  lemma PreThenPostKeys(v: Json, global: Context)
    requires v.Obj? && DistinctKeys(v.members)
    requires forall m :: m in v.members ==> !Contains(m.key, EncodedSpace)
    ensures var p := Pre(v, global);
      !p.threw && Post(p.value).Some? ==> KeySet(Post(p.value).value.members) == KeySet(v.members)
  {
    var p := Pre(v, global);
    if !p.threw {
      PreKeys(v, global);
      var ms := p.value.members;
      PostKeys(p.value);
      forall k
        ensures k in DecodedKeys(ms) <==> k in KeySet(v.members)
      {
        if k in DecodedKeys(ms) {
          var m' :| m' in ms && DecodeKey(m'.key) == k;
          assert m'.key in KeySet(ms);
          var m :| m in v.members && EncodeKey(m.key) == m'.key;
          KeyRoundTrip(m.key);
        }
        if k in KeySet(v.members) {
          var m :| m in v.members && m.key == k;
          KeyRoundTrip(m.key);
          assert EncodeKey(k) in KeySet(ms);
          var m' :| m' in ms && m'.key == EncodeKey(k);
        }
      }
    }
  }

  // ---------------------------------------------------------------------
  // What the `@context` step promises

  /** An entry of an object `@context` that is handed to the compaction rather than rewritten. */
  predicate HandedOver(global: Context, m: Member)
  {
    !AllowedContextValue(m.value) && m.key != SchemaPrefix && !Truthy(Bound(global, m.key))
  }

  /** An entry of an object `@context` after the step. */
  function Rewritten(global: Context, m: Member): Member
  {
    if HandedOver(global, m) then m else Member(m.key, Str(SdoURI))
  }

  /** The entries of the loop's state after `i` of them: the first `i` rewritten, the rest as they were. */
  predicate EntriesDone(orig: seq<Member>, global: Context, i: nat, acc: Scoped)
    requires i <= |orig|
  {
    |acc.entries| == |orig| &&
    (forall t :: 0 <= t < i ==> acc.entries[t] == Rewritten(global, orig[t])) &&
    (forall t :: i <= t < |orig| ==> acc.entries[t] == orig[t])
  }

  /** Every entry among the first `i` that was handed over is bound to its value. */
  predicate HandedBound(orig: seq<Member>, global: Context, i: nat, acc: Scoped)
    requires i <= |orig|
  {
    forall t :: 0 <= t < i && HandedOver(global, orig[t]) ==>
      orig[t].key in acc.global && acc.global[orig[t].key] == orig[t].value
  }

  /** The global context keeps every prefix it had. */
  predicate GlobalKept(global: Context, acc: Scoped)
  {
    forall k :: k in global ==> k in acc.global
  }

  /** Each binding of the global context is an old one or one handed over among the first `i` entries. */
  predicate GlobalFrom(orig: seq<Member>, global: Context, i: nat, acc: Scoped)
    requires i <= |orig|
  {
    forall k :: k in acc.global ==>
      (k in global && acc.global[k] == global[k]) ||
      exists t :: 0 <= t < i && orig[t].key == k && HandedOver(global, orig[t])
  }

  /** The state of the loop over the entries `orig` of an object `@context` after `i` of them. */
  predicate ContextInvariant(orig: seq<Member>, global: Context, i: nat, acc: Scoped)
    requires i <= |orig|
  {
    EntriesDone(orig, global, i, acc) && HandedBound(orig, global, i, acc) &&
    GlobalKept(global, acc) && GlobalFrom(orig, global, i, acc)
  }

  /** The first entry named `ms[t].key` is the `t`-th. */
  lemma {:induction false} LookupFirst(ms: seq<Member>, t: nat)
    requires t < |ms| && forall s :: 0 <= s < t ==> ms[s].key != ms[t].key
    ensures Lookup(ms, ms[t].key) == ms[t].value
  {
    if t > 0 {
      LookupFirst(ms[1..], t - 1);
    }
  }

  /** Setting the first entry named `ms[t].key` replaces the `t`-th in place. */
  lemma {:induction false} SetKeyFirst(ms: seq<Member>, t: nat, value: Json)
    requires t < |ms| && forall s :: 0 <= s < t ==> ms[s].key != ms[t].key
    ensures SetKey(ms, ms[t].key, value) == ms[t := Member(ms[t].key, value)]
  {
    if t > 0 {
      SetKeyFirst(ms[1..], t - 1, value);
      assert ms == [ms[0]] + ms[1..];
    }
  }

  /** No entry before the `i`-th has bound the `i`-th prefix. */
  lemma UnseenBound(orig: seq<Member>, global: Context, i: nat, acc: Scoped)
    requires DistinctKeys(orig) && i < |orig|
    requires GlobalKept(global, acc) && GlobalFrom(orig, global, i, acc)
    ensures Bound(acc.global, orig[i].key) == Bound(global, orig[i].key)
  {
    var key := orig[i].key;
    assert forall t :: 0 <= t < i ==> orig[t].key != key;
  }

  /** Before the `i`-th entry no entry has its name, and the `i`-th is still the original. */
  lemma UnseenKey(orig: seq<Member>, global: Context, i: nat, acc: Scoped)
    requires DistinctKeys(orig) && i < |orig| && EntriesDone(orig, global, i, acc)
    ensures acc.entries[i] == orig[i]
    ensures forall s :: 0 <= s < i ==> acc.entries[s].key != acc.entries[i].key
  {
    forall s | 0 <= s < i
      ensures acc.entries[s].key != orig[i].key
    {
      assert acc.entries[s].key == orig[s].key;
    }
  }

  /** One entry of the loop: the `i`-th entry rewritten, or its binding added. */
  lemma ContextEntryEffect(orig: seq<Member>, global: Context, i: nat, acc: Scoped)
    requires DistinctKeys(orig) && i < |orig|
    requires EntriesDone(orig, global, i, acc) && GlobalKept(global, acc) && GlobalFrom(orig, global, i, acc)
    ensures ContextEntry(acc, orig[i].key).entries == acc.entries[i := Rewritten(global, orig[i])]
    ensures ContextEntry(acc, orig[i].key).global ==
      if HandedOver(global, orig[i]) then acc.global[orig[i].key := orig[i].value] else acc.global
  {
    UnseenKey(orig, global, i, acc);
    UnseenBound(orig, global, i, acc);
    EntryAt(acc, i, global);
  }

  /** The entry of the loop for the first entry named `acc.entries[i].key`, whose prefix is bound as in `global`. */
  lemma EntryAt(acc: Scoped, i: nat, global: Context)
    requires i < |acc.entries| && forall s :: 0 <= s < i ==> acc.entries[s].key != acc.entries[i].key
    requires Bound(acc.global, acc.entries[i].key) == Bound(global, acc.entries[i].key)
    ensures ContextEntry(acc, acc.entries[i].key).entries == acc.entries[i := Rewritten(global, acc.entries[i])]
    ensures ContextEntry(acc, acc.entries[i].key).global ==
      if HandedOver(global, acc.entries[i]) then acc.global[acc.entries[i].key := acc.entries[i].value] else acc.global
  {
    var m := acc.entries[i];
    LookupFirst(acc.entries, i);
    if !HandedOver(global, m) {
      SetKeyFirst(acc.entries, i, Str(SdoURI));
    } else {
      assert acc.entries[i := Rewritten(global, m)] == acc.entries;
    }
  }

  /** The global context after the `i`-th entry. */
  function GlobalAfter(orig: seq<Member>, global: Context, i: nat, acc: Scoped): Context
    requires i < |orig|
  {
    if HandedOver(global, orig[i]) then acc.global[orig[i].key := orig[i].value] else acc.global
  }

  lemma StepEntries(orig: seq<Member>, global: Context, i: nat, acc: Scoped, next: Scoped)
    requires i < |orig| && EntriesDone(orig, global, i, acc)
    requires next.entries == acc.entries[i := Rewritten(global, orig[i])]
    ensures EntriesDone(orig, global, i + 1, next)
  {
  }

  lemma StepHanded(orig: seq<Member>, global: Context, i: nat, acc: Scoped, next: Scoped)
    requires DistinctKeys(orig) && i < |orig| && HandedBound(orig, global, i, acc)
    requires next.global == GlobalAfter(orig, global, i, acc)
    ensures HandedBound(orig, global, i + 1, next)
  {
    forall t | 0 <= t < i && HandedOver(global, orig[t])
      ensures orig[t].key in next.global && next.global[orig[t].key] == orig[t].value
    {
      assert orig[t].key != orig[i].key;
    }
  }

  lemma StepKept(orig: seq<Member>, global: Context, i: nat, acc: Scoped, next: Scoped)
    requires i < |orig| && GlobalKept(global, acc)
    requires next.global == GlobalAfter(orig, global, i, acc)
    ensures GlobalKept(global, next)
  {
  }

  lemma StepFrom(orig: seq<Member>, global: Context, i: nat, acc: Scoped, next: Scoped)
    requires i < |orig| && GlobalFrom(orig, global, i, acc)
    requires next.global == GlobalAfter(orig, global, i, acc)
    ensures GlobalFrom(orig, global, i + 1, next)
  {
    var key := orig[i].key;
    forall k | k in next.global
      ensures (k in global && next.global[k] == global[k]) ||
        exists t :: 0 <= t < i + 1 && orig[t].key == k && HandedOver(global, orig[t])
    {
      if k != key || !HandedOver(global, orig[i]) {
        assert k in acc.global && next.global[k] == acc.global[k];
        if !(k in global && acc.global[k] == global[k]) {
          var t :| 0 <= t < i && orig[t].key == k && HandedOver(global, orig[t]);
        }
      }
    }
  }

  /** One entry of the loop keeps the invariant. */
  lemma ContextStep(orig: seq<Member>, global: Context, i: nat, acc: Scoped)
    requires DistinctKeys(orig) && i < |orig| && ContextInvariant(orig, global, i, acc)
    ensures ContextInvariant(orig, global, i + 1, ContextEntry(acc, orig[i].key))
  {
    var next := ContextEntry(acc, orig[i].key);
    ContextEntryEffect(orig, global, i, acc);
    StepEntries(orig, global, i, acc, next);
    StepHanded(orig, global, i, acc, next);
    StepKept(orig, global, i, acc, next);
    StepFrom(orig, global, i, acc, next);
  }

  lemma {:induction false} ContextLoop(orig: seq<Member>, global: Context, i: nat, acc: Scoped)
    requires DistinctKeys(orig) && i <= |orig| && ContextInvariant(orig, global, i, acc)
    ensures ContextInvariant(orig, global, |orig|, ContextEntries(KeysOf(orig), i, acc))
    decreases |orig| - i
  {
    if i < |orig| {
      ContextStep(orig, global, i, acc);
      ContextLoop(orig, global, i + 1, ContextEntry(acc, orig[i].key));
    }
  }

  /**
   * The `@context` step on an object context: every entry naming schema.org
   * (an allowed URI, or the `schema` prefix) is set to the wished URI, as is
   * every entry whose prefix the global context already binds; each other
   * entry is kept and handed to the compaction in the global context, which
   * keeps every binding it had otherwise.
   */
  lemma ContextEntriesRules(orig: seq<Member>, global: Context)
    requires DistinctKeys(orig)
    ensures var done := ContextEntries(KeysOf(orig), 0, Scoped(orig, global));
      |done.entries| == |orig| &&
      (forall t :: 0 <= t < |orig| ==> done.entries[t] == Rewritten(global, orig[t])) &&
      (forall t :: 0 <= t < |orig| && HandedOver(global, orig[t]) ==>
        orig[t].key in done.global && done.global[orig[t].key] == orig[t].value) &&
      (forall k :: k in global ==> k in done.global) &&
      (forall k :: k in done.global && !(k in global && done.global[k] == global[k]) ==>
        exists t :: 0 <= t < |orig| && orig[t].key == k && HandedOver(global, orig[t]))
  {
    ContextLoop(orig, global, 0, Scoped(orig, global));
  }

  /** An `@context` entry under an inherited name counts as bound: it is set to the wished URI and nothing is handed over. */
  lemma InheritedNameRewritten(value: Json)
    ensures var done := ContextEntries(["constructor"], 0, Scoped([Member("constructor", value)], StandardContext));
      done.entries == [Member("constructor", Str(SdoURI))] && done.global == StandardContext
  {
    assert "constructor" !in StandardContext;
    assert Truthy(Bound(StandardContext, "constructor"));
  }

  /** The standard `schema` prefix is never rebound, and allowed URIs are never handed over. */
  lemma SchemaPrefixKept(orig: seq<Member>, global: Context)
    requires DistinctKeys(orig)
    ensures var done := ContextEntries(KeysOf(orig), 0, Scoped(orig, global));
      (SchemaPrefix in global ==> SchemaPrefix in done.global && done.global[SchemaPrefix] == global[SchemaPrefix]) &&
      forall k :: k in done.global && AllowedContextValue(done.global[k]) ==>
        k in global && done.global[k] == global[k]
  {
    ContextEntriesRules(orig, global);
  }
}

=== FILE: sdo_vocabulary.dfy ===
/**
 * The schema.org vocabulary as the verification engine queries it, and the
 * vocabulary predicates of GeneralVerification.js: valid classes and
 * properties, the blank-space / letter-case / misspelling ladder that
 * explains an unknown term, action properties and the subclass-aware range
 * test. The vocabulary is an immutable parameter; the string tests the
 * engine borrows from libraries are parameters too (`Oracles`).
 */
module SdoVocabulary {
  import opened JsStrings
  import opened JsValues
  import opened LevDistance
  import opened VerificationUtilities

  /** What `getClass(c)` knows about a class: its properties (inherited ones included) and all its subclasses. */
  datatype ClassInfo = ClassInfo(properties: seq<string>, subClasses: seq<string>)

  /**
   * The term lists of the vocabulary, the classes `getClass` succeeds on,
   * the ranges of every property and a level per class that strictly
   * decreases from a class to each of its subclasses (the class hierarchy is
   * acyclic).
   */
  datatype Vocabulary = Vocabulary(
    classes: seq<string>,
    enumerations: seq<string>,
    properties: seq<string>,
    classInfo: map<string, ClassInfo>,
    ranges: map<string, seq<string>>,
    level: map<string, nat>)

  predicate Valid(voc: Vocabulary)
  {
    (forall p :: p in voc.properties ==> p in voc.ranges)
    && (forall c :: c in voc.classInfo ==> c in voc.level)
    && (forall c, s :: c in voc.classInfo && s in voc.classInfo[c].subClasses && s in voc.classInfo ==>
          voc.level[s] < voc.level[c])
  }

  /** `getSubClasses(true)` is transitive: a subclass of a subclass is listed as a subclass. */
  predicate SubClassesClosed(voc: Vocabulary)
  {
    forall c, s, t ::
      (c in voc.classInfo && s in voc.classInfo[c].subClasses && s in voc.classInfo && t in voc.classInfo[s].subClasses)
      ==> t in voc.classInfo[c].subClasses
  }

  /**
   * The library string tests: the action-value regular expression,
   * `isNumber(Number(s))`, `Number.isInteger(Number(s))`, `isUrl` and the
   * moment-based time, date-time and date parsers.
   */
  datatype Oracles = Oracles(
    actionValue: string -> bool,
    isNumeric: string -> bool,
    isIntegral: string -> bool,
    isUrl: string -> bool,
    isTime: string -> bool,
    isDateTime: string -> bool,
    isDate: string -> bool)

  // ---------------------------------------------------------------------
  // Membership

  /** `checkIfValueIsValidSDOClass`: a class or an enumeration of the vocabulary (never a non-string). */
  predicate IsValidClass(voc: Vocabulary, value: Json)
  {
    value.Str? && (value.s in voc.classes || value.s in voc.enumerations)
  }

  /** `checkIfValueIsValidSDOProperty`. */
  predicate IsValidProperty(voc: Vocabulary, value: string)
  {
    value in voc.properties
  }

  /** `checkIfSDOClassHasBlankSpaces`: the term becomes a class or enumeration once its spaces are removed. */
  predicate ClassHasBlankSpaces(voc: Vocabulary, value: string)
  {
    RemoveChar(value, ' ') in voc.classes || RemoveChar(value, ' ') in voc.enumerations
  }

  /** `checkIfSDOPropertyHasBlankSpaces`. */
  predicate PropertyHasBlankSpaces(voc: Vocabulary, value: string)
  {
    RemoveChar(value, ' ') in voc.properties
  }

  // ---------------------------------------------------------------------
  // Letter case

  /** The first term equal to `value` up to letter case. */
  function CaseMatch(value: string, terms: seq<string>): (r: Option<string>)
    ensures r.Some? ==> r.value in terms && ToLower(r.value) == ToLower(value)
    ensures r.None? <==> forall i :: 0 <= i < |terms| ==> ToLower(terms[i]) != ToLower(value)
    ensures r.Some? ==>
      exists i :: 0 <= i < |terms| && terms[i] == r.value && (forall k :: 0 <= k < i ==> ToLower(terms[k]) != ToLower(value))
  {
    if |terms| == 0 then None
    else if ToLower(value) == ToLower(terms[0]) then Some(terms[0])
    else
      var r := CaseMatch(value, terms[1..]);
      if r.Some? then
        var i :| 0 <= i < |terms[1..]| && terms[1..][i] == r.value
          && (forall k :: 0 <= k < i ==> ToLower(terms[1..][k]) != ToLower(value));
        assert terms[i + 1] == r.value;
        r
      else r
  }

  /** The search loop of the bad-case checks: the lower-cased value against each lower-cased term. */
  method FindCaseMatch(value: string, terms: seq<string>) returns (r: Option<string>)
    ensures r == CaseMatch(value, terms)
  {
    var lower := ToLower(value);
    var i := 0;
    while i < |terms|
      invariant 0 <= i <= |terms|
      invariant CaseMatch(value, terms) == CaseMatch(value, terms[i..])
    {
      if lower == ToLower(terms[i]) {
        return Some(terms[i]);
      }
      assert terms[i..][1..] == terms[i + 1..];
      i := i + 1;
    }
    return None;
  }

  /** `checkIfSDOClassHasBadCase`: the pretty-printed class, else enumeration, that differs only in case. */
  function ClassBadCase(voc: Vocabulary, value: string): (r: Option<string>)
  {
    match CaseMatch(value, voc.classes)
    case Some(c) => Some(PrettyPrintString(c))
    case None =>
      match CaseMatch(value, voc.enumerations)
      case Some(e) => Some(PrettyPrintString(e))
      case None => None
  }

  method CheckIfSDOClassHasBadCase(voc: Vocabulary, value: string) returns (r: Option<string>)
    ensures r == ClassBadCase(voc, value)
    ensures r.None? <==> (forall c :: c in voc.classes ==> ToLower(c) != ToLower(value))
                         && (forall e :: e in voc.enumerations ==> ToLower(e) != ToLower(value))
  {
    var c := FindCaseMatch(value, voc.classes);
    if c.Some? {
      return Some(PrettyPrintString(c.value));
    }
    var e := FindCaseMatch(value, voc.enumerations);
    if e.Some? {
      return Some(PrettyPrintString(e.value));
    }
    return None;
  }

  /** `checkIfSDOPropertyHasBadCase`. */
  function PropertyBadCase(voc: Vocabulary, value: string): (r: Option<string>)
  {
    match CaseMatch(value, voc.properties)
    case Some(p) => Some(PrettyPrintString(p))
    case None => None
  }

  method CheckIfSDOPropertyHasBadCase(voc: Vocabulary, value: string) returns (r: Option<string>)
    ensures r == PropertyBadCase(voc, value)
    ensures r.None? <==> forall p :: p in voc.properties ==> ToLower(p) != ToLower(value)
    ensures r.Some? ==> exists p :: p in voc.properties && ToLower(p) == ToLower(value) && r.value == PrettyPrintString(p)
  {
    var p := FindCaseMatch(value, voc.properties);
    if p.Some? {
      return Some(PrettyPrintString(p.value));
    }
    return None;
  }

  // ---------------------------------------------------------------------
  // Misspellings

  /** The pretty-printed terms within edit distance 2 of `value`, in the order of `terms`. */
  function Misspellings(value: string, terms: seq<string>): (r: seq<string>)
    ensures |r| <= |terms|
    ensures forall x :: x in r <==> exists c :: c in terms && Distance(value, c) < 3 && x == PrettyPrintString(c)
  {
    if |terms| == 0 then []
    else
      var rest := Misspellings(value, terms[1..]);
      assert forall c :: c in terms[1..] ==> c in terms;
      assert forall c :: c in terms ==> c == terms[0] || c in terms[1..];
      (if Distance(value, terms[0]) < 3 then [PrettyPrintString(terms[0])] else []) + rest
  }

  /** No suggestion exactly when every term is at least three edits away. */
  lemma MisspellingsEmpty(value: string, terms: seq<string>)
    ensures |Misspellings(value, terms)| == 0 <==> forall c :: c in terms ==> Distance(value, c) >= 3
  {
    var r := Misspellings(value, terms);
    forall c | c in terms && Distance(value, c) < 3 ensures PrettyPrintString(c) in r {
    }
    if |r| > 0 {
      assert r[0] in r;
    }
  }

  /** The gathering loop of `checkIfValueIsWrongSpelledSDO*`, one edit distance per term. */
  method CollectMisspellings(value: string, terms: seq<string>) returns (found: seq<string>)
    ensures found == Misspellings(value, terms)
  {
    found := [];
    var i := 0;
    while i < |terms|
      invariant 0 <= i <= |terms|
      invariant Misspellings(value, terms) == found + Misspellings(value, terms[i..])
    {
      assert terms[i..][1..] == terms[i + 1..];
      var distance := LevDist(value, terms[i]);
      if distance < 3 {
        found := found + [PrettyPrintString(terms[i])];
      }
      i := i + 1;
    }
  }

  /** The concatenation loop of `checkIfValueIsWrongSpelledSDO*`: the guesses separated by ", ". */
  method JoinGuesses(guesses: seq<string>) returns (text: string)
    ensures text == Join(guesses, ", ")
  {
    text := "";
    var j := 0;
    while j < |guesses|
      invariant 0 <= j <= |guesses|
      invariant text == JoinedSoFar(guesses, ", ", j)
    {
      JoinedStep(guesses, ", ", j);
      if j + 1 == |guesses| {
        text := text + guesses[j];
      } else {
        text := text + guesses[j] + ", ";
      }
      j := j + 1;
    }
    assert guesses[..|guesses|] == guesses;
  }

  /** `checkIfValueIsWrongSpelledSDOClass`: the near classes and enumerations, or nothing (`false`). */
  function WrongSpelledClass(voc: Vocabulary, value: string): (r: Option<string>)
  {
    var guesses := Misspellings(value, voc.classes) + Misspellings(value, voc.enumerations);
    if |guesses| == 0 then None else Some(Join(guesses, ", "))
  }

  method CheckIfValueIsWrongSpelledSDOClass(voc: Vocabulary, value: string) returns (r: Option<string>)
    ensures r == WrongSpelledClass(voc, value)
    ensures r.None? <==> (forall c :: c in voc.classes ==> Distance(value, c) >= 3)
                         && (forall e :: e in voc.enumerations ==> Distance(value, e) >= 3)
  {
    var fromClasses := CollectMisspellings(value, voc.classes);
    var fromEnumerations := CollectMisspellings(value, voc.enumerations);
    var guesses := fromClasses + fromEnumerations;
    MisspellingsEmpty(value, voc.classes);
    MisspellingsEmpty(value, voc.enumerations);
    if |guesses| == 0 {
      return None;
    }
    var text := JoinGuesses(guesses);
    r := Some(text);
  }

  /** `checkIfValueIsWrongSpelledSDOProperty`. */
  function WrongSpelledProperty(voc: Vocabulary, value: string): (r: Option<string>)
  {
    var guesses := Misspellings(value, voc.properties);
    if |guesses| == 0 then None else Some(Join(guesses, ", "))
  }

  method CheckIfValueIsWrongSpelledSDOProperty(voc: Vocabulary, value: string) returns (r: Option<string>)
    ensures r == WrongSpelledProperty(voc, value)
    ensures r.None? <==> forall p :: p in voc.properties ==> Distance(value, p) >= 3
  {
    var guesses := CollectMisspellings(value, voc.properties);
    MisspellingsEmpty(value, voc.properties);
    if |guesses| == 0 {
      return None;
    }
    var text := JoinGuesses(guesses);
    r := Some(text);
  }

  /** A term of the vocabulary is its own nearest guess: it is always among the suggestions. */
  lemma KnownTermIsGuessed(value: string, terms: seq<string>)
    requires value in terms
    ensures PrettyPrintString(value) in Misspellings(value, terms)
  {
    DistanceZeroIff(value, value);
  }

  // ---------------------------------------------------------------------
  // Action properties (https://schema.org/docs/actions.html)

  /** `checkIfActionProperty`: `<property>-input` or `<property>-output` for a property of the vocabulary. */
  predicate IsActionProperty(voc: Vocabulary, property: string)
  {
    (EndsWith(property, "-input") && property[..|property| - |"-input"|] in voc.properties)
    || (EndsWith(property, "-output") && property[..|property| - |"-output"|] in voc.properties)
  }

  /** Every property has its input and output action variants. */
  lemma ActionVariants(voc: Vocabulary, base: string)
    requires base in voc.properties
    ensures IsActionProperty(voc, base + "-input") && IsActionProperty(voc, base + "-output")
  {
    var input := base + "-input";
    assert input[|input| - |"-input"|..] == "-input";
    assert input[..|input| - |"-input"|] == base;
    var output := base + "-output";
    assert output[|output| - |"-output"|..] == "-output";
    assert output[..|output| - |"-output"|] == base;
  }

  /** A key without either suffix is never an action property. */
  lemma NoSuffixNoAction(voc: Vocabulary, property: string)
    requires !EndsWith(property, "-input") && !EndsWith(property, "-output")
    ensures !IsActionProperty(voc, property)
  {
  }

  /**
   * `checkIfValidActionPropertyRange`: a string must match the action-value
   * expression, an object must name PropertyValueSpecification in its
   * `@type`; `None` when reading `@type.includes` throws (no `@type`, or one
   * that is neither a string nor an array).
   */
  function ValidActionPropertyRange(oracles: Oracles, value: Json): (r: Option<bool>)
    ensures value.Str? ==> r == Some(oracles.actionValue(value.s))
    ensures !value.Str? && !value.Obj? ==> r == Some(false)
    ensures value.Obj? ==> (r.None? <==> !Get(value, "@type").Str? && !Get(value, "@type").Arr?)
  {
    if IsString(value) then Some(oracles.actionValue(value.s))
    else if IsObject(value) then
      match Get(value, "@type")
      case Str(t) => Some(Contains(t, "PropertyValueSpecification"))
      case Arr(types) => Some(Str("PropertyValueSpecification") in types)
      case _ => None
    else Some(false)
  }

  // ---------------------------------------------------------------------
  // Ranges

  /** `getProperty(p).getRanges(false)`. */
  function RangesOf(voc: Vocabulary, property: string): seq<string>
  {
    if property in voc.ranges then voc.ranges[property] else []
  }

  /** `getRanges(false, {termType: ["Class", "Enumeration"]}).length > 0`. */
  predicate HasClassRange(voc: Vocabulary, property: string)
  {
    exists r :: r in RangesOf(voc, property) && (r in voc.classes || r in voc.enumerations)
  }

  /** The types an entity lists: the array itself, or the single value. */
  function TypesOf(typeValue: Json): (types: seq<Json>)
    ensures typeValue.Arr? ==> types == typeValue.elems
    ensures !typeValue.Arr? ==> types == [typeValue]
  {
    if typeValue.Arr? then typeValue.elems else [typeValue]
  }

  /** A bound above the level of every listed class. */
  function LevelBound(voc: Vocabulary, terms: seq<string>): (bound: nat)
    requires Valid(voc)
    ensures forall r :: r in terms && r in voc.classInfo ==> voc.level[r] < bound
  {
    if |terms| == 0 then 0
    else
      var rest := LevelBound(voc, terms[1..]);
      assert forall r :: r in terms ==> r == terms[0] || r in terms[1..];
      if terms[0] in voc.classInfo && voc.level[terms[0]] >= rest then voc.level[terms[0]] + 1 else rest
  }

  /**
   * The recursion of `rec_checkIfTypeIsInRangeOfProperty`: some type equals
   * one of the ranges, or lies in the range check of the subclasses of a
   * range that `getClass` knows.
   */
  function InRangeFrom(voc: Vocabulary, types: seq<Json>, rangeTypes: seq<string>, bound: nat): bool
    requires Valid(voc)
    requires forall r :: r in rangeTypes && r in voc.classInfo ==> voc.level[r] < bound
    decreases bound, |rangeTypes|
  {
    if |rangeTypes| == 0 then false
    else
      var range := rangeTypes[0];
      Str(range) in types
      || (range in voc.classInfo && InRangeFrom(voc, types, voc.classInfo[range].subClasses, voc.level[range]))
      || InRangeFrom(voc, types, rangeTypes[1..], bound)
  }

  /** `rec_checkIfTypeIsInRangeOfProperty(type, rangeTypes)`. */
  function RecCheckIfTypeIsInRangeOfProperty(voc: Vocabulary, typeValue: Json, rangeTypes: seq<string>): bool
    requires Valid(voc)
  {
    InRangeFrom(voc, TypesOf(typeValue), rangeTypes, LevelBound(voc, rangeTypes))
  }

  /** A range covers the types when one of them is the range or one of its subclasses. */
  predicate CoveredBy(voc: Vocabulary, types: seq<Json>, range: string)
  {
    Str(range) in types
    || (range in voc.classInfo && exists sub :: sub in voc.classInfo[range].subClasses && Str(sub) in types)
  }

  predicate DirectlyInRange(voc: Vocabulary, types: seq<Json>, rangeTypes: seq<string>)
  {
    exists range :: range in rangeTypes && CoveredBy(voc, types, range)
  }

  /**
   * With a transitive subclass list the recursion adds nothing: a type is in
   * the range of a property exactly when it equals a range or one of the
   * range's subclasses.
   */
  lemma {:induction false} InRangeFromIff(voc: Vocabulary, types: seq<Json>, rangeTypes: seq<string>, bound: nat)
    requires Valid(voc) && SubClassesClosed(voc)
    requires forall r :: r in rangeTypes && r in voc.classInfo ==> voc.level[r] < bound
    ensures InRangeFrom(voc, types, rangeTypes, bound) <==> DirectlyInRange(voc, types, rangeTypes)
    decreases bound, |rangeTypes|
  {
    if |rangeTypes| > 0 {
      var range := rangeTypes[0];
      assert forall r :: r in rangeTypes[1..] ==> r in rangeTypes;
      InRangeFromIff(voc, types, rangeTypes[1..], bound);
      var viaSubClasses := range in voc.classInfo && InRangeFrom(voc, types, voc.classInfo[range].subClasses, voc.level[range]);
      if range in voc.classInfo {
        var subs := voc.classInfo[range].subClasses;
        InRangeFromIff(voc, types, subs, voc.level[range]);
        if viaSubClasses {
          var s :| s in subs && CoveredBy(voc, types, s);
          if !(Str(s) in types) {
            var t :| t in voc.classInfo[s].subClasses && Str(t) in types;
            assert t in subs;
          }
          assert CoveredBy(voc, types, range);
        }
        if CoveredBy(voc, types, range) && !(Str(range) in types) {
          var t :| t in subs && Str(t) in types;
          assert CoveredBy(voc, types, t);
          assert DirectlyInRange(voc, types, subs);
        }
      }
      assert CoveredBy(voc, types, range) <==> Str(range) in types || viaSubClasses;
      if DirectlyInRange(voc, types, rangeTypes) {
        var r :| r in rangeTypes && CoveredBy(voc, types, r);
        if r != range {
          assert r in rangeTypes[1..];
        }
      }
      if DirectlyInRange(voc, types, rangeTypes[1..]) {
        var r :| r in rangeTypes[1..] && CoveredBy(voc, types, r);
        assert r in rangeTypes;
      }
      if CoveredBy(voc, types, range) {
        assert range in rangeTypes;
      }
      assert DirectlyInRange(voc, types, rangeTypes) <==> CoveredBy(voc, types, range) || DirectlyInRange(voc, types, rangeTypes[1..]);
    }
  }

  /** `rec_checkIfTypeIsInRangeOfProperty` holds exactly when a type equals a range or a subclass of one. */
  lemma RecCheckCharacterization(voc: Vocabulary, typeValue: Json, rangeTypes: seq<string>)
    requires Valid(voc) && SubClassesClosed(voc)
    ensures RecCheckIfTypeIsInRangeOfProperty(voc, typeValue, rangeTypes) <==> DirectlyInRange(voc, TypesOf(typeValue), rangeTypes)
  {
    InRangeFromIff(voc, TypesOf(typeValue), rangeTypes, LevelBound(voc, rangeTypes));
  }
}

=== FILE: sdo_walk.dfy ===
/**
 * The vocabulary conformance walk (`recursive_sdo_isAnnotationValid` with
 * `annotationReverseHandling`): key by key in `Object.keys` order, the
 * `@type` is checked, `@id` marks a reference, `@reverse` and every other
 * non-keyword key lead to the objects held under them, and a known property
 * has its domain and range checked. An entity with no `@id`, `@reverse` or
 * property gets a 309. A child entity is walked with a fresh error list
 * that is appended to the parent's once the child returns; a child that
 * throws loses its own entries.
 */
module SdoWalk {
  import opened JsStrings
  import opened JsValues
  import opened ErrorEntries
  import opened ErrorBuilders
  import opened VerificationUtilities
  import opened SdoVocabulary
  import opened Conformance

  /** A JSON-LD keyword: the key starts with "@" (`prop.substring(0, 1) === "@"`). */
  predicate IsKeyword(key: string)
  {
    |key| > 0 && key[0] == '@'
  }

  /** A key that makes the entity more than a bare type: `@id`, `@reverse` or a property. */
  predicate IsEntityKey(key: string)
  {
    key == "@id" || key == "@reverse" || !IsKeyword(key)
  }

  predicate HasEntityKey(members: seq<Member>)
  {
    exists i :: 0 <= i < |members| && IsEntityKey(members[i].key)
  }

  /** What the parent receives from a child walk: nothing of it when it threw. */
  function Shield(o: Outcome): (r: Outcome)
    ensures r.threw == o.threw
    ensures r.threw ==> r.errors == []
    ensures !r.threw ==> r == o
  {
    if o.threw then Outcome([], true) else o
  }

  /** `recursive_sdo_isAnnotationValid` for the entity `v` at `path`. */
  function Walk(voc: Vocabulary, oracles: Oracles, v: Json, path: string): Outcome
    requires SdoVocabulary.Valid(voc) && v.Obj?
    decreases v, 3
  {
    var o := Sequence(MemberSteps(voc, oracles, v, path));
    if o.threw || HasEntityKey(v.members) then o
    else Outcome(o.errors + [Error309(path)], false)
  }

  /** One step per key of the entity. */
  function MemberSteps(voc: Vocabulary, oracles: Oracles, v: Json, path: string): seq<Outcome>
    requires SdoVocabulary.Valid(voc) && v.Obj?
    decreases v, 2
  {
    var members := v.members;
    seq(|members|, i requires 0 <= i < |members| =>
      MemberOutcome(voc, oracles, Get(v, "@type"), members[i].key, members[i].value, path))
  }

  /**
   * The key `key` holding `value` in the entity at `path` whose `@type` is
   * `typeValue`: the type check, nothing for `@id`, the child walks of
   * `@reverse`, and for a non-keyword the property check (unknown key) or
   * the domain and range checks (known property), then the child walks.
   * Other keywords are skipped.
   */
  function MemberOutcome(voc: Vocabulary, oracles: Oracles, typeValue: Json, key: string, value: Json, path: string): Outcome
    requires SdoVocabulary.Valid(voc)
    decreases value, 6
  {
    if key == "@type" then TypeCheck(voc, value, path)
    else if key == "@id" then Quiet
    else if key == "@reverse" then Children(voc, oracles, value, path, key)
    else if !IsKeyword(key) then
      var own := PropertyOutcome(voc, oracles, typeValue, key, value, path);
      Sequence([own, Children(voc, oracles, value, path, key)])
    else Quiet
  }

  /** A non-keyword key's own checks: the property check for an unknown key, else the domain check then the range check. */
  function PropertyOutcome(voc: Vocabulary, oracles: Oracles, typeValue: Json, key: string, value: Json, path: string): Outcome
    requires SdoVocabulary.Valid(voc)
  {
    if !IsValidProperty(voc, key) then PropertyCheck(voc, oracles, key, value, path)
    else Sequence([Outcome(DomainErrors(voc, typeValue, key, path), false), RangeCheck(voc, oracles, key, value, path)])
  }

  /** The walks of the objects held under `key`: a single object at index 0, or the objects of an array. */
  function Children(voc: Vocabulary, oracles: Oracles, x: Json, path: string, key: string): Outcome
    requires SdoVocabulary.Valid(voc)
    decreases x, 5
  {
    match x
    case Obj(_) => Shield(Walk(voc, oracles, x, ChildPath(path, key, 0)))
    case Arr(elems) => Sequence(ElementSteps(voc, oracles, x, path, key))
    case _ => Quiet
  }

  /** One step per element of an array value: the walk of an object, nothing for any other element. */
  function ElementSteps(voc: Vocabulary, oracles: Oracles, x: Json, path: string, key: string): seq<Outcome>
    requires SdoVocabulary.Valid(voc) && x.Arr?
    decreases x, 4
  {
    var elems := x.elems;
    seq(|elems|, j requires 0 <= j < |elems| =>
      if elems[j].Obj? then Shield(Walk(voc, oracles, elems[j], ChildPath(path, key, j))) else Quiet)
  }

  // ---------------------------------------------------------------------
  // The methods

  /** The key loop of `recursive_sdo_isAnnotationValid`, with its `foundProperties` flag. */
  method RecursiveSdo(voc: Vocabulary, oracles: Oracles, v: Json, path: string) returns (o: Outcome)
    requires SdoVocabulary.Valid(voc) && v.Obj?
    ensures o == Walk(voc, oracles, v, path)
    decreases v, 3
  {
    var members := v.members;
    ghost var steps := MemberSteps(voc, oracles, v, path);
    var typeValue := Get(v, "@type");
    var found := false;
    o := Quiet;
    var i := 0;
    while i < |members|
      invariant 0 <= i <= |members|
      invariant o == Sequence(steps[..i]) && !o.threw
      invariant found <==> HasEntityKey(members[..i])
    {
      assert members[i] in v.members;
      var step := CheckMember(voc, oracles, typeValue, members[i].key, members[i].value, path);
      WalkStep(voc, oracles, v, path, i, o, step);
      o := Outcome(o.errors + step.errors, step.threw);
      if step.threw {
        return;
      }
      if IsEntityKey(members[i].key) {
        found := true;
      }
      i := i + 1;
    }
    WalkEnd(voc, oracles, v, path, o, found);
    if !found {
      o := Outcome(o.errors + [Error309(path)], false);
    }
  }

  /** One pass of the key loop: the step extends the walk so far, or ends it when it throws. */
  lemma WalkStep(voc: Vocabulary, oracles: Oracles, v: Json, path: string, i: nat, o: Outcome, step: Outcome)
    requires SdoVocabulary.Valid(voc) && v.Obj? && i < |v.members|
    requires o == Sequence(MemberSteps(voc, oracles, v, path)[..i]) && !o.threw
    requires step == MemberOutcome(voc, oracles, Get(v, "@type"), v.members[i].key, v.members[i].value, path)
    ensures !step.threw ==> Outcome(o.errors + step.errors, false) == Sequence(MemberSteps(voc, oracles, v, path)[..i + 1])
    ensures step.threw ==> Outcome(o.errors + step.errors, true) == Walk(voc, oracles, v, path)
    ensures HasEntityKey(v.members[..i + 1]) <==> HasEntityKey(v.members[..i]) || IsEntityKey(v.members[i].key)
  {
    var steps := MemberSteps(voc, oracles, v, path);
    assert step == steps[i];
    SequenceSnoc(steps, i);
    if step.threw {
      SequenceThrown(steps, i + 1);
    }
    assert v.members[..i + 1] == v.members[..i] + [v.members[i]];
    EntityKeySnoc(v.members[..i + 1]);
  }

  lemma EntityKeySnoc(members: seq<Member>)
    requires |members| > 0
    ensures HasEntityKey(members) <==> HasEntityKey(members[..|members| - 1]) || IsEntityKey(members[|members| - 1].key)
  {
    var n := |members| - 1;
    if HasEntityKey(members) {
      var k :| 0 <= k < |members| && IsEntityKey(members[k].key);
      if k < n {
        assert members[..n][k] == members[k];
      }
    }
    if HasEntityKey(members[..n]) {
      var k :| 0 <= k < n && IsEntityKey(members[..n][k].key);
      assert members[k] == members[..n][k];
    }
  }

  /** After the last key: the walk's outcome, with the 309 when no key made the entity more than a bare type. */
  lemma WalkEnd(voc: Vocabulary, oracles: Oracles, v: Json, path: string, o: Outcome, found: bool)
    requires SdoVocabulary.Valid(voc) && v.Obj?
    requires o == Sequence(MemberSteps(voc, oracles, v, path)[..|v.members|]) && !o.threw
    requires found <==> HasEntityKey(v.members[..|v.members|])
    ensures (if found then o else Outcome(o.errors + [Error309(path)], false)) == Walk(voc, oracles, v, path)
  {
    var steps := MemberSteps(voc, oracles, v, path);
    assert steps[..|v.members|] == steps;
    assert v.members[..|v.members|] == v.members;
  }

  /** One key of the walk. */
  method CheckMember(voc: Vocabulary, oracles: Oracles, typeValue: Json, key: string, value: Json, path: string)
    returns (o: Outcome)
    requires SdoVocabulary.Valid(voc)
    ensures o == MemberOutcome(voc, oracles, typeValue, key, value, path)
    decreases value, 6
  {
    if key == "@type" {
      o := CheckTypes(voc, value, path);
    } else if key == "@id" {
      o := Quiet;
    } else if key == "@reverse" {
      o := VisitChildren(voc, oracles, value, path, key);
    } else if !IsKeyword(key) {
      var own := CheckProperty(voc, oracles, typeValue, key, value, path);
      if own.threw {
        SequencePair(own, Children(voc, oracles, value, path, key));
        return own;
      }
      var below := VisitChildren(voc, oracles, value, path, key);
      SequencePair(own, below);
      o := Outcome(own.errors + below.errors, below.threw);
    } else {
      o := Quiet;
    }
  }

  /** The own checks of a non-keyword key, before its child walks. */
  method CheckProperty(voc: Vocabulary, oracles: Oracles, typeValue: Json, key: string, value: Json, path: string)
    returns (own: Outcome)
    requires SdoVocabulary.Valid(voc)
    ensures own == PropertyOutcome(voc, oracles, typeValue, key, value, path)
  {
    if !IsValidProperty(voc, key) {
      own := PropertyCheck(voc, oracles, key, value, path);
    } else {
      var domain := CheckDomain(voc, typeValue, key, path);
      var range := CheckRange(voc, oracles, key, value, path);
      own := Outcome(domain + range.errors, range.threw);
      SequencePair(Outcome(domain, false), range);
    }
  }

  /** Two steps in a row. */
  lemma SequencePair(first: Outcome, second: Outcome)
    ensures Sequence([first, second]) ==
      if first.threw then first else Outcome(first.errors + second.errors, second.threw)
  {
    assert [first, second][..1] == [first];
    assert [first][..0] == [];
    assert [] + first.errors == first.errors;
    assert Sequence([first]) == first;
  }

  /** `annotationReverseHandling` and the child loop of a property: the walks of the objects under `key`. */
  method VisitChildren(voc: Vocabulary, oracles: Oracles, x: Json, path: string, key: string) returns (o: Outcome)
    requires SdoVocabulary.Valid(voc)
    ensures o == Children(voc, oracles, x, path, key)
    decreases x, 5
  {
    match x
    case Obj(_) =>
      var child := RecursiveSdo(voc, oracles, x, ChildPath(path, key, 0));
      o := Shield(child);
    case Arr(elems) =>
      ghost var steps := ElementSteps(voc, oracles, x, path, key);
      o := Quiet;
      var j := 0;
      while j < |elems|
        invariant 0 <= j <= |elems| == |steps|
        invariant o == Sequence(steps[..j]) && !o.threw
      {
        var step := Quiet;
        if IsObject(elems[j]) {
          var child := RecursiveSdo(voc, oracles, elems[j], ChildPath(path, key, j));
          step := Shield(child);
        }
        assert step == steps[j];
        SequenceSnoc(steps, j);
        o := Outcome(o.errors + step.errors, step.threw);
        if step.threw {
          SequenceThrown(steps, j + 1);
          assert steps[..|steps|] == steps;
          return;
        }
        j := j + 1;
      }
      assert steps[..|elems|] == steps;
    case _ =>
      o := Quiet;
  }

  // ---------------------------------------------------------------------
  // Properties of the walk

  /** The entry names an entity strictly below `path`. */
  predicate Below(e: ErrorEntry, path: string)
  {
    Under(e, path) && |e.annotationPath.value| > |path|
  }

  /** What a key's step may report: entries at or below the entity, a 309 only for an entity below it. */
  predicate MemberFits(e: ErrorEntry, path: string)
  {
    Under(e, path) && (e.errorCode == 309 ==> |e.annotationPath.value| > |path|)
  }

  /** Some entry is a 309 for the entity at `path`. */
  predicate Has309At(errors: seq<ErrorEntry>, path: string)
  {
    exists k :: 0 <= k < |errors| && errors[k].errorCode == 309 && errors[k].annotationPath == Some(path)
  }

  /** An entry below a child's path is strictly below the parent's. */
  lemma UnderChild(e: ErrorEntry, path: string, key: string, index: nat)
    requires Under(e, ChildPath(path, key, index))
    ensures Below(e, path)
  {
    ChildPathExtends(path, key, index);
    StartsWithTrans(e.annotationPath.value, ChildPath(path, key, index), path);
  }

  /**
   * Every entry of the walk from `path` names that entity or one below it,
   * and, unless the walk threw, it reports a 309 for the entity at `path`
   * exactly when the entity has no `@id`, `@reverse` or property key.
   */
  lemma {:induction false} WalkFindings(voc: Vocabulary, oracles: Oracles, v: Json, path: string)
    requires SdoVocabulary.Valid(voc) && v.Obj?
    ensures forall e :: e in Walk(voc, oracles, v, path).errors ==> Under(e, path)
    ensures !Walk(voc, oracles, v, path).threw ==>
      (Has309At(Walk(voc, oracles, v, path).errors, path) <==> !HasEntityKey(v.members))
    decreases v, 3
  {
    var steps := MemberSteps(voc, oracles, v, path);
    var o := Sequence(steps);
    forall e | e in o.errors ensures MemberFits(e, path) {
      SequenceMember(steps, e);
      var i :| 0 <= i < |steps| && e in steps[i].errors;
      assert v.members[i] in v.members;
      MemberFindings(voc, oracles, Get(v, "@type"), v.members[i].key, v.members[i].value, path);
    }
    if !o.threw && !HasEntityKey(v.members) {
      var w := Walk(voc, oracles, v, path);
      assert w.errors == o.errors + [Error309(path)];
      assert w.errors[|o.errors|] == Error309(path);
      assert Under(Error309(path), path) by {
        assert path[..|path|] == path;
      }
    } else if !o.threw {
      forall k | 0 <= k < |o.errors| && o.errors[k].errorCode == 309
        ensures o.errors[k].annotationPath != Some(path)
      {
        assert o.errors[k] in o.errors;
      }
    }
  }

  /** The entries of one key's step fit the entity's path. */
  lemma {:induction false} MemberFindings(voc: Vocabulary, oracles: Oracles, typeValue: Json, key: string, value: Json, path: string)
    requires SdoVocabulary.Valid(voc)
    ensures forall e :: e in MemberOutcome(voc, oracles, typeValue, key, value, path).errors ==> MemberFits(e, path)
    decreases value, 6
  {
    if key == "@type" {
      TypeFindingsFit(voc, value, path);
    } else if key == "@reverse" {
      ChildrenFindings(voc, oracles, value, path, key);
    } else if key != "@id" && !IsKeyword(key) {
      var own := PropertyOutcome(voc, oracles, typeValue, key, value, path);
      var below := Children(voc, oracles, value, path, key);
      forall e | e in own.errors ensures MemberFits(e, path) {
        OwnFindings(voc, oracles, typeValue, key, value, path, e);
      }
      ChildrenFindings(voc, oracles, value, path, key);
      forall e | e in Sequence([own, below]).errors ensures MemberFits(e, path) {
        SequenceMember([own, below], e);
      }
    }
  }

  /** The type check's entries name `path.@type/j`. */
  lemma TypeFindingsFit(voc: Vocabulary, typeValue: Json, path: string)
    ensures forall e :: e in TypeCheck(voc, typeValue, path).errors ==> MemberFits(e, path)
  {
    var steps := TypeSteps(voc, typeValue, path);
    forall e | e in TypeCheck(voc, typeValue, path).errors ensures MemberFits(e, path) {
      SequenceMember(steps, e);
      var j :| 0 <= j < |steps| && e in steps[j].errors;
      var types := TypesOf(typeValue);
      assert steps[j] == TypeElement(voc, types[j], ChildPath(path, "@type", j));
      UnderChild(e, path, "@type", j);
    }
  }

  /** The property, domain and range entries of a key fit the entity's path. */
  lemma OwnFindings(voc: Vocabulary, oracles: Oracles, typeValue: Json, key: string, value: Json, path: string, e: ErrorEntry)
    requires SdoVocabulary.Valid(voc)
    requires e in PropertyOutcome(voc, oracles, typeValue, key, value, path).errors
    ensures MemberFits(e, path)
  {
    assert path[..|path|] == path;
    if IsValidProperty(voc, key) {
      var domain := Outcome(DomainErrors(voc, typeValue, key, path), false);
      var range := RangeCheck(voc, oracles, key, value, path);
      SequenceMember([domain, range], e);
      if e in range.errors {
        RangeCheckRules(voc, oracles, key, value, path);
        var p :| 0 <= p < |TypesOf(value)| && e.annotationPath == Some(ChildPath(path, key, p));
        ChildPathExtends(path, key, p);
      }
    }
  }

  /** The entries of the child walks lie strictly below the entity. */
  lemma {:induction false} ChildrenFindings(voc: Vocabulary, oracles: Oracles, x: Json, path: string, key: string)
    requires SdoVocabulary.Valid(voc)
    ensures forall e :: e in Children(voc, oracles, x, path, key).errors ==> Below(e, path)
    decreases x, 5
  {
    match x
    case Obj(_) =>
      WalkFindings(voc, oracles, x, ChildPath(path, key, 0));
      forall e | e in Children(voc, oracles, x, path, key).errors ensures Below(e, path) {
        UnderChild(e, path, key, 0);
      }
    case Arr(elems) =>
      var steps := ElementSteps(voc, oracles, x, path, key);
      forall e | e in Children(voc, oracles, x, path, key).errors ensures Below(e, path) {
        SequenceMember(steps, e);
        var j :| 0 <= j < |steps| && e in steps[j].errors;
        assert elems[j].Obj?;
        WalkFindings(voc, oracles, elems[j], ChildPath(path, key, j));
        UnderChild(e, path, key, j);
      }
    case _ =>
  }
}

=== FILE: semantic_check.dfy ===
/**
 * The `@type` shape check of the engine (`semanticCheckJSONLD` and
 * `recursive_semantic_isAnnotationValid`): the root entity must have a
 * `@type`, and every `@type` met on the walk must be a string or an array of
 * strings. The walk enters objects held under a key, directly or as an
 * element of an array, and names them by the path `$.key/index`.
 */
module SemanticCheck {
  import opened JsStrings
  import opened JsValues
  import opened ErrorEntries
  import opened ErrorBuilders
  import opened VerificationUtilities

  const NoTypeDescription: string := "The annotation has no @type."

  /** The first index holding a non-string, if there is one. */
  function FirstNonString(elems: seq<Json>): (r: Option<nat>)
    ensures r.Some? ==> r.value < |elems| && !IsString(elems[r.value]) &&
                        forall j :: 0 <= j < r.value ==> IsString(elems[j])
    ensures r.None? ==> forall j :: 0 <= j < |elems| ==> IsString(elems[j])
  {
    if |elems| == 0 then None
    else if !IsString(elems[0]) then Some(0)
    else match FirstNonString(elems[1..])
      case None => None
      case Some(i) => Some(i + 1)
  }

  /** The findings about the `@type` of the entity at `path`. */
  function TypeShapeErrors(v: Json, path: string): seq<ErrorEntry>
  {
    var t := Get(v, "@type");
    if t.Undefined? then (if path == "$" then [Error203(NoTypeDescription, path)] else [])
    else if IsString(t) then []
    else if t.Arr? then
      match FirstNonString(t.elems)
      case None => []
      case Some(i) => [Error204(Some(path + ".@type/" + NatToString(i)), t.elems[i])]
    else [Error204(Some(path + ".@type/0"), t)]
  }

  /** The `@type` test, with the loop that stops at the first non-string. */
  method CheckTypeShape(v: Json, path: string) returns (pushed: seq<ErrorEntry>)
    ensures pushed == TypeShapeErrors(v, path)
  {
    pushed := [];
    var t := Get(v, "@type");
    if t.Undefined? {
      if path == "$" {
        pushed := [Error203(NoTypeDescription, path)];
      }
    } else if !IsString(t) {
      if t.Arr? {
        var i := 0;
        while i < |t.elems|
          invariant 0 <= i <= |t.elems|
          invariant forall j :: 0 <= j < i ==> IsString(t.elems[j])
          invariant pushed == []
        {
          if !IsString(t.elems[i]) {
            pushed := [Error204(Some(path + ".@type/" + NatToString(i)), t.elems[i])];
            break;
          }
          i := i + 1;
        }
        FirstNonStringIs(t.elems, i);
      } else {
        pushed := [Error204(Some(path + ".@type/0"), t)];
      }
    }
  }

  /** The index at which the loop stopped is the first non-string, or the end. */
  lemma FirstNonStringIs(elems: seq<Json>, i: nat)
    requires i <= |elems| && forall j :: 0 <= j < i ==> IsString(elems[j])
    requires i < |elems| ==> !IsString(elems[i])
    ensures FirstNonString(elems) == if i < |elems| then Some(i) else None
  {
  }

  // ---------------------------------------------------------------------
  // The walk

  /** The findings for the entity `v` at `path` and every entity the walk reaches from it. */
  function SemanticErrors(v: Json, path: string): seq<ErrorEntry>
    requires !v.Undefined? && !v.Null?
    decreases v, 2
  {
    TypeShapeErrors(v, path) + ChildrenErrors(v, path)
  }

  /** The findings below the entity, key by key in `Object.keys` order. */
  function ChildrenErrors(v: Json, path: string): seq<ErrorEntry>
    decreases v, 1
  {
    match v
    case Obj(members) =>
      Concat(seq(|members|, i requires 0 <= i < |members| => KeyErrors(members[i].key, members[i].value, path)))
    case Arr(elems) =>
      Concat(seq(|elems|, i requires 0 <= i < |elems| => KeyErrors(NatToString(i), elems[i], path)))
    case _ => []
  }

  /** The findings for the objects held under `key`, alone (index 0) or in an array. */
  function KeyErrors(key: string, x: Json, path: string): seq<ErrorEntry>
    decreases x, 3
  {
    match x
    case Obj(_) => SemanticErrors(x, ChildPath(path, key, 0))
    case Arr(elems) =>
      Concat(seq(|elems|, j requires 0 <= j < |elems| =>
        if elems[j].Obj? then SemanticErrors(elems[j], ChildPath(path, key, j)) else []))
    case _ => []
  }

  /**
   * `semanticCheckJSONLD`: the walk starts at the first item of `@graph`
   * when there is one, else at the annotation. It throws when that item is
   * missing or null (or when `@graph` itself is null).
   */
  function Semantic(annotation: Json): Outcome
    requires !annotation.Undefined? && !annotation.Null?
  {
    var graph := Get(annotation, "@graph");
    if graph.Undefined? then Outcome(SemanticErrors(annotation, "$"), false)
    else if graph.Null? then Outcome([], true)
    else
      var root := Index(graph, "0");
      if root.Undefined? || root.Null? then Outcome([], true)
      else Outcome(SemanticErrors(root, "$"), false)
  }

  method SemanticCheckJSONLD(annotation: Json) returns (o: Outcome)
    requires !annotation.Undefined? && !annotation.Null?
    ensures o == Semantic(annotation)
  {
    var graph := Get(annotation, "@graph");
    if graph.Undefined? {
      var pushed := RecursiveSemantic(annotation, "$");
      return Outcome(pushed, false);
    }
    if graph.Null? {
      return Outcome([], true);
    }
    var root := Index(graph, "0");
    if root.Undefined? || root.Null? {
      return Outcome([], true);
    }
    var pushed := RecursiveSemantic(root, "$");
    o := Outcome(pushed, false);
  }

  /** `recursive_semantic_isAnnotationValid`. */
  method RecursiveSemantic(v: Json, path: string) returns (pushed: seq<ErrorEntry>)
    requires !v.Undefined? && !v.Null?
    ensures pushed == SemanticErrors(v, path)
    decreases v, 2
  {
    var own := CheckTypeShape(v, path);
    var below := CheckChildren(v, path);
    pushed := own + below;
  }

  /** The loop over the keys of the entity. */
  method CheckChildren(v: Json, path: string) returns (pushed: seq<ErrorEntry>)
    ensures pushed == ChildrenErrors(v, path)
    decreases v, 1
  {
    pushed := [];
    match v
    case Obj(members) =>
      ghost var parts := seq(|members|, i requires 0 <= i < |members| => KeyErrors(members[i].key, members[i].value, path));
      var i := 0;
      while i < |members|
        invariant 0 <= i <= |members|
        invariant pushed == Concat(parts[..i])
      {
        var found := CheckKey(members[i].key, members[i].value, path);
        ConcatSnoc(parts, i);
        pushed := pushed + found;
        i := i + 1;
      }
      assert parts[..|members|] == parts;
    case Arr(elems) =>
      ghost var parts := seq(|elems|, i requires 0 <= i < |elems| => KeyErrors(NatToString(i), elems[i], path));
      var i := 0;
      while i < |elems|
        invariant 0 <= i <= |elems|
        invariant pushed == Concat(parts[..i])
      {
        var found := CheckKey(NatToString(i), elems[i], path);
        ConcatSnoc(parts, i);
        pushed := pushed + found;
        i := i + 1;
      }
      assert parts[..|elems|] == parts;
    case _ =>
  }

  /** One key of the walk, with the loop over an array's elements. */
  method CheckKey(key: string, x: Json, path: string) returns (pushed: seq<ErrorEntry>)
    ensures pushed == KeyErrors(key, x, path)
    decreases x, 3
  {
    pushed := [];
    match x
    case Obj(_) => pushed := RecursiveSemantic(x, ChildPath(path, key, 0));
    case Arr(elems) =>
      ghost var parts := seq(|elems|, j requires 0 <= j < |elems| =>
        if elems[j].Obj? then SemanticErrors(elems[j], ChildPath(path, key, j)) else []);
      var j := 0;
      while j < |elems|
        invariant 0 <= j <= |elems|
        invariant pushed == Concat(parts[..j])
      {
        var found: seq<ErrorEntry> := [];
        if IsObject(elems[j]) {
          found := RecursiveSemantic(elems[j], ChildPath(path, key, j));
        }
        ConcatSnoc(parts, j);
        pushed := pushed + found;
        j := j + 1;
      }
      assert parts[..|elems|] == parts;
    case _ =>
  }

  // ---------------------------------------------------------------------
  // Properties of the walk

  /**
   * What the walk from `path` promises of each finding: it lies under
   * `path`, a 203 is only ever the root's, and there is no 204 when the
   * types are well formed.
   */
  predicate Fits(e: ErrorEntry, path: string, wellTyped: bool)
  {
    Under(e, path) &&
    (e.errorCode == 203 ==> path == "$" && e.annotationPath == Some("$")) &&
    (wellTyped ==> e.errorCode != 204)
  }

  /**
   * The findings of the walk lie under its starting path; 203 (no `@type`)
   * is reported for the root only; a value whose every `@type` is well
   * formed gets no 204.
   */
  lemma SemanticFindings(v: Json, path: string)
    requires !v.Undefined? && !v.Null?
    ensures forall k :: 0 <= k < |SemanticErrors(v, path)| ==> Under(SemanticErrors(v, path)[k], path)
    ensures forall k :: 0 <= k < |SemanticErrors(v, path)| && SemanticErrors(v, path)[k].errorCode == 203 ==>
      path == "$" && SemanticErrors(v, path)[k].annotationPath == Some("$")
    ensures TypesWellFormed(v) ==> forall k :: 0 <= k < |SemanticErrors(v, path)| ==> SemanticErrors(v, path)[k].errorCode != 204
  {
    SemanticErrorsFit(v, path);
  }

  /**
   * The converse for the entity's own `@type`: a type that is neither a
   * string nor an array of strings puts a 204 first among the walk's
   * findings, at the first offending index (0 for a non-array).
   */
  lemma OwnTypeFlagged(v: Json, path: string)
    requires v.Obj?
    ensures var t := Get(v, "@type");
      !t.Undefined? && !IsString(t) && !t.Arr? ==>
        |SemanticErrors(v, path)| > 0 && SemanticErrors(v, path)[0] == Error204(Some(path + ".@type/0"), t)
    ensures var t := Get(v, "@type");
      t.Arr? && FirstNonString(t.elems).Some? ==>
        var i := FirstNonString(t.elems).value;
        |SemanticErrors(v, path)| > 0 && SemanticErrors(v, path)[0] == Error204(Some(path + ".@type/" + NatToString(i)), t.elems[i])
  {
    assert SemanticErrors(v, path) == TypeShapeErrors(v, path) + ChildrenErrors(v, path);
  }

  lemma {:induction false} SemanticErrorsFit(v: Json, path: string)
    requires !v.Undefined? && !v.Null?
    ensures forall k :: 0 <= k < |SemanticErrors(v, path)| ==> Fits(SemanticErrors(v, path)[k], path, TypesWellFormed(v))
    decreases v, 2
  {
    TypeShapeFits(v, path);
    var wf := TypesWellFormed(v);
    var p := (e: ErrorEntry) => Fits(e, path, wf);
    match v
    case Obj(members) =>
      var parts := seq(|members|, i requires 0 <= i < |members| => KeyErrors(members[i].key, members[i].value, path));
      forall j | 0 <= j < |parts| ensures forall k :: 0 <= k < |parts[j]| ==> p(parts[j][k]) {
        KeyErrorsFit(members[j].key, members[j].value, path, wf);
      }
      ConcatAll(parts, p);
    case Arr(elems) =>
      var parts := seq(|elems|, i requires 0 <= i < |elems| => KeyErrors(NatToString(i), elems[i], path));
      forall j | 0 <= j < |parts| ensures forall k :: 0 <= k < |parts[j]| ==> p(parts[j][k]) {
        KeyErrorsFit(NatToString(j), elems[j], path, wf);
      }
      ConcatAll(parts, p);
    case _ =>
  }

  /** The `@type` findings name the entity's own path. */
  lemma TypeShapeFits(v: Json, path: string)
    ensures forall k :: 0 <= k < |TypeShapeErrors(v, path)| ==> Fits(TypeShapeErrors(v, path)[k], path, TypesWellFormed(v))
  {
    var t := Get(v, "@type");
    if !t.Undefined? && !IsString(t) {
      if t.Arr? {
        if FirstNonString(t.elems).Some? {
          var q := path + ".@type/" + NatToString(FirstNonString(t.elems).value);
          assert q[..|path|] == path;
        }
      } else {
        assert (path + ".@type/0")[..|path|] == path;
      }
    }
  }

  lemma {:induction false} KeyErrorsFit(key: string, x: Json, path: string, wf: bool)
    requires wf ==> TypesWellFormed(x)
    ensures forall k :: 0 <= k < |KeyErrors(key, x, path)| ==> Fits(KeyErrors(key, x, path)[k], path, wf)
    decreases x, 4
  {
    var p := (e: ErrorEntry) => Fits(e, path, wf);
    match x
    case Obj(_) =>
      ChildFits(x, path, key, 0, wf);
    case Arr(elems) =>
      var parts := seq(|elems|, j requires 0 <= j < |elems| =>
        if elems[j].Obj? then SemanticErrors(elems[j], ChildPath(path, key, j)) else []);
      forall j | 0 <= j < |parts| ensures forall k :: 0 <= k < |parts[j]| ==> p(parts[j][k]) {
        if elems[j].Obj? {
          ChildFits(elems[j], path, key, j, wf);
        }
      }
      ConcatAll(parts, p);
    case _ =>
  }

  /** The findings of a child walk fit the parent's path too: the child's path is never "$". */
  lemma {:induction false} ChildFits(x: Json, path: string, key: string, index: nat, wf: bool)
    requires x.Obj? && (wf ==> TypesWellFormed(x))
    ensures forall k :: 0 <= k < |SemanticErrors(x, ChildPath(path, key, index))| ==>
      Fits(SemanticErrors(x, ChildPath(path, key, index))[k], path, wf)
    decreases x, 3
  {
    var child := ChildPath(path, key, index);
    SemanticErrorsFit(x, child);
    assert child[..|path|] == path;
    assert |child| > 1;
    forall k | 0 <= k < |SemanticErrors(x, child)| ensures Fits(SemanticErrors(x, child)[k], path, wf) {
      StartsWithTrans(SemanticErrors(x, child)[k].annotationPath.value, child, path);
    }
  }
}

=== FILE: verification_utilities.dfy ===
/**
 * The helpers of VerificationUtilities.js besides the edit distance: URI
 * pretty-printing and its inverse, the formatting of multi-typed entities,
 * type comparison, path depth, array merging and the resolution of an
 * annotation path against a graph of entities keyed by `@id`.
 */
module VerificationUtilities {
  import opened JsStrings
  import opened JsValues

  // ---------------------------------------------------------------------
  // URI pretty-printing

  /** One leading "schema:" removed from a string. */
  function PrettyPrintString(uri: string): (r: string)
    ensures StartsWith(uri, "schema:") ==> "schema:" + r == uri
    ensures !StartsWith(uri, "schema:") ==> r == uri
  {
    if StartsWith(uri, "schema:") then uri[|"schema:"|..] else uri
  }

  /** `prettyPrintURI`: strings lose a leading "schema:", other values are returned as they are. */
  function PrettyPrintURI(uri: Json): (r: Json)
    ensures !uri.Str? ==> r == uri
    ensures uri.Str? ==> r == Str(PrettyPrintString(uri.s))
  {
    if IsString(uri) then Str(PrettyPrintString(uri.s)) else uri
  }

  /** `reversePrettyPrintURI`: a term without a prefix gets the "schema:" prefix. */
  function ReversePrettyPrintURI(term: string): (r: string)
    ensures ':' !in term ==> r == "schema:" + term
    ensures ':' in term ==> r == term
  {
    if ':' !in term then "schema:" + term else term
  }

  /** Prefixing a colon-free term and pretty-printing it gives the term back. */
  lemma PrettyPrintOfReverse(term: string)
    requires ':' !in term
    ensures PrettyPrintString(ReversePrettyPrintURI(term)) == term
  {
    var r := "schema:" + term;
    assert StartsWith(r, "schema:") by {
      assert r[..|"schema:"|] == "schema:";
    }
    assert r[|"schema:"|..] == term;
  }

  /** A schema.org term written with its prefix survives pretty-printing and prefixing again. */
  lemma ReverseOfPrettyPrint(term: string)
    requires ':' !in term
    ensures ReversePrettyPrintURI(PrettyPrintString("schema:" + term)) == "schema:" + term
  {
    PrettyPrintOfReverse(term);
  }

  /** Strings without the prefix are left alone in both directions when they hold a colon. */
  lemma PrefixedTermsAreFixed(uri: string)
    requires ':' in uri && !StartsWith(uri, "schema:")
    ensures ReversePrettyPrintURI(PrettyPrintString(uri)) == uri
  {
  }

  /**
   * `prettyPrintURIMTEs`: the pretty-printed types of a multi-typed entity
   * separated by ","; a single term is pretty-printed alone.
   */
  function PrettyPrintTerms(terms: Json): (r: Json)
  {
    if terms.Arr? then
      Str(Join(seq(|terms.elems|, i requires 0 <= i < |terms.elems| => ToJsString(PrettyPrintURI(terms.elems[i]))), ","))
    else PrettyPrintURI(terms)
  }

  /** The text the builders insert for a term or list of terms. */
  function PrettyTermsText(terms: Json): string
  {
    ToJsString(PrettyPrintTerms(terms))
  }

  /**
   * The loop of `prettyPrintURIMTEs`: every term followed by ",", then the
   * last character dropped.
   */
  method PrettyPrintURIMTEs(terms: Json) returns (r: Json)
    ensures r == PrettyPrintTerms(terms)
  {
    if !terms.Arr? {
      return PrettyPrintURI(terms);
    }
    var elems := terms.elems;
    var parts := seq(|elems|, k requires 0 <= k < |elems| => ToJsString(PrettyPrintURI(elems[k])));
    var result := "";
    var i := 0;
    while i < |elems|
      invariant 0 <= i <= |elems|
      invariant result == if i == 0 then "" else Join(parts[..i], ",") + ","
    {
      var part := ToJsString(PrettyPrintURI(elems[i]));
      JoinSnoc(parts[..i], part, ",");
      assert parts[..i + 1] == parts[..i] + [part];
      result := result + part + ",";
      i := i + 1;
    }
    assert parts[..|elems|] == parts;
    r := Str(Substring(result, 0, |result| - 1));
  }

  /** Appending a part to a join adds the separator and the part. */
  lemma {:induction false} JoinSnoc(parts: seq<string>, part: string, sep: string)
    ensures Join(parts + [part], sep) == if |parts| == 0 then part else Join(parts, sep) + sep + part
    decreases |parts|
  {
    if |parts| > 1 {
      JoinSnoc(parts[1..], part, sep);
      assert (parts + [part])[1..] == parts[1..] + [part];
    } else if |parts| == 1 {
      assert (parts + [part])[1..] == [part];
    }
  }

  /**
   * The text a loop that appends each part, and `sep` after all but the
   * last, has built after its first `i` parts.
   */
  function JoinedSoFar(parts: seq<string>, sep: string, i: nat): string
    requires i <= |parts|
  {
    if i == 0 then "" else Join(parts[..i], sep) + (if i < |parts| then sep else "")
  }

  /** One more part: the part, then `sep` unless it is the last one. */
  lemma JoinedStep(parts: seq<string>, sep: string, i: nat)
    requires i < |parts|
    ensures JoinedSoFar(parts, sep, i + 1) == JoinedSoFar(parts, sep, i) + parts[i] + (if i != |parts| - 1 then sep else "")
  {
    JoinSnoc(parts[..i], parts[i], sep);
    assert parts[..i + 1] == parts[..i] + [parts[i]];
  }

  // ---------------------------------------------------------------------
  // Paths and types

  /**
   * The annotation path of the `index`-th value held under `key` by the
   * entity at `path` (a single value has index 0).
   */
  function ChildPath(path: string, key: string, index: nat): string
  {
    path + "." + key + "/" + NatToString(index)
  }

  /** A child path extends its parent's path. */
  lemma ChildPathExtends(path: string, key: string, index: nat)
    ensures StartsWith(ChildPath(path, key, index), path)
    ensures |ChildPath(path, key, index)| > |path|
  {
    assert ChildPath(path, key, index)[..|path|] == path;
  }

  /** `stringifyTypeForPath`: the types joined by "_", no delimiter at either end. */
  method StringifyTypeForPath(types: seq<string>) returns (r: string)
    ensures r == Join(types, "_")
  {
    r := "";
    var i := 0;
    while i < |types|
      invariant 0 <= i <= |types|
      invariant r == JoinedSoFar(types, "_", i)
    {
      JoinedStep(types, "_", i);
      r := r + types[i];
      if i + 1 != |types| {
        r := r + "_";
      }
      i := i + 1;
    }
    assert types[..|types|] == types;
  }

  /** A path segment naming classes without "_" splits back into those classes. */
  lemma StringifiedTypesSplit(types: seq<string>)
    requires |types| >= 1
    requires forall k, i :: 0 <= k < |types| && 0 <= i < |types[k]| ==> types[k][i] != '_'
    ensures Split(Join(types, "_"), '_') == types
  {
    SplitJoin(types, '_');
  }

  /** `getDepthDS`: the number of range steps ("/") in a path. */
  function GetDepthDS(path: string): (depth: int)
    ensures depth == Count(path, '/')
  {
    SplitCount(path, '/');
    |Split(path, '/')| - 1
  }

  /** Strict equality of two type terms; objects are compared by value (see the README). */
  predicate SameTerm(a: Json, b: Json)
  {
    a == b && !(a.Num? && a.n.NaN?)
  }

  /** `types.indexOf(term) !== -1`. */
  predicate ContainsTerm(types: seq<Json>, term: Json)
  {
    exists i :: 0 <= i < |types| && SameTerm(types[i], term)
  }

  /**
   * `checkIfTypesMatch`: two lists match when each contains the other, a
   * list and a single value when the list holds exactly that value, two
   * single values when they are equal.
   */
  predicate TypesMatch(types1: Json, types2: Json)
  {
    if types1.Arr? && types2.Arr? then
      (forall i :: 0 <= i < |types1.elems| ==> ContainsTerm(types2.elems, types1.elems[i]))
      && (forall i :: 0 <= i < |types2.elems| ==> ContainsTerm(types1.elems, types2.elems[i]))
    else if types1.Arr? then |types1.elems| == 1 && SameTerm(types1.elems[0], types2)
    else if types2.Arr? then |types2.elems| == 1 && SameTerm(types2.elems[0], types1)
    else SameTerm(types1, types2)
  }

  /** Matching does not depend on the order of the arguments. */
  lemma TypesMatchSymmetric(types1: Json, types2: Json)
    ensures TypesMatch(types1, types2) == TypesMatch(types2, types1)
  {
  }

  /** Every list of types without NaN matches itself, and so does every other value but NaN. */
  lemma TypesMatchReflexive(types: Json)
    requires !(types.Num? && types.n.NaN?)
    requires types.Arr? ==> forall i :: 0 <= i < |types.elems| ==> !(types.elems[i].Num? && types.elems[i].n.NaN?)
    ensures TypesMatch(types, types)
  {
    if types.Arr? {
      forall i | 0 <= i < |types.elems| ensures ContainsTerm(types.elems, types.elems[i]) {
        assert SameTerm(types.elems[i], types.elems[i]);
      }
    }
  }

  /** A list matches a list holding the same types in another order. */
  lemma TypesMatchPermuted(types1: seq<Json>, types2: seq<Json>)
    requires forall x :: x in types1 <==> x in types2
    requires forall x :: x in types1 ==> !(x.Num? && x.n.NaN?)
    ensures TypesMatch(Arr(types1), Arr(types2))
  {
    forall i | 0 <= i < |types1| ensures ContainsTerm(types2, types1[i]) {
      assert types1[i] in types2;
      var k :| 0 <= k < |types2| && types2[k] == types1[i];
      assert SameTerm(types2[k], types1[i]);
    }
    forall i | 0 <= i < |types2| ensures ContainsTerm(types1, types2[i]) {
      assert types2[i] in types1;
      var k :| 0 <= k < |types1| && types1[k] == types2[i];
      assert SameTerm(types1[k], types2[i]);
    }
  }

  /** `mergeArrays`: the elements of the second array pushed after those of the first. */
  method MergeArrays(arrA: seq<Json>, arrB: seq<Json>) returns (r: seq<Json>)
    ensures r == arrA + arrB
  {
    r := arrA;
    var i := 0;
    while i < |arrB|
      invariant 0 <= i <= |arrB|
      invariant r == arrA + arrB[..i]
    {
      r := r + [arrB[i]];
      assert arrB[..i + 1] == arrB[..i] + [arrB[i]];
      i := i + 1;
    }
    assert arrB[..|arrB|] == arrB;
  }

  // ---------------------------------------------------------------------
  // Resolving an annotation path

  /** The text of `s` before the first `stop1` or `stop2`. */
  function TokenBefore(s: string, stop1: char, stop2: char): (token: string)
    ensures |token| <= |s| && token == s[..|token|]
    ensures forall i :: 0 <= i < |token| ==> token[i] != stop1 && token[i] != stop2
    ensures |token| < |s| ==> s[|token|] == stop1 || s[|token|] == stop2
  {
    if |s| == 0 || s[0] == stop1 || s[0] == stop2 then ""
    else [s[0]] + TokenBefore(s[1..], stop1, stop2)
  }

  /**
   * `resolvePathAnnotation_graphProperty`: the value of an own property of
   * the current value; `None` when it throws (no such own property, or the
   * current value is null or undefined). Inherited members count as absent.
   */
  function GraphProperty(resultRef: Json, propertyUri: string): (r: Option<Json>)
    ensures r.Some? ==> r.value != Undefined
    ensures resultRef.Obj? ==> (r.Some? <==> Lookup(resultRef.members, propertyUri) != Undefined)
    ensures resultRef.Null? || resultRef.Undefined? ==> r.None?
  {
    if resultRef.Undefined? || resultRef.Null? then None
    else if Index(resultRef, propertyUri) != Undefined then Some(Index(resultRef, propertyUri))
    else None
  }

  /** The entity a value refers to: `graphAnn[value]` read as an own entry, `None` when that throws. */
  function GraphEntry(graphAnn: Json, key: string): Option<Json>
  {
    if graphAnn.Undefined? || graphAnn.Null? then None else Some(Index(graphAnn, key))
  }

  /**
   * `resolvePathAnnotation_graphRange`: the value at a range index of the
   * current value; a referenced object is replaced by the graph entry named by
   * its `@id`. `None` when it throws.
   */
  function GraphRange(graphAnn: Json, resultRef: Json, rangeIndex: string): (r: Option<Json>)
    // index 0 on a single value that is not an object: the value itself
    ensures AllDigits(rangeIndex) && DigitsValue(rangeIndex) == 0 && !resultRef.Arr? && !IsObject(resultRef)
      ==> r == Some(resultRef)
    // a non-zero index needs an array long enough
    ensures (AllDigits(rangeIndex) && DigitsValue(rangeIndex) != 0
             && (!resultRef.Arr? || |resultRef.elems| < DigitsValue(rangeIndex) + 1)) ==> r.None?
    ensures !AllDigits(rangeIndex) && !resultRef.Arr? ==> r.None?
    // an index within an array selects that element, or the entry it refers to
    ensures AllDigits(rangeIndex) && resultRef.Arr? && DigitsValue(rangeIndex) < |resultRef.elems| ==>
      var elem := resultRef.elems[DigitsValue(rangeIndex)];
      r == if IsObject(elem) then GraphEntry(graphAnn, ToJsString(Get(elem, "@id"))) else Some(elem)
  {
    var index := TokenToNumber(rangeIndex);
    if index != Finite(0.0) && (!resultRef.Arr? || (index.Finite? && (|resultRef.elems| as real) < index.r + 1.0)) then
      None
    else
      var range :=
        if resultRef.Arr? then
          (if index.Finite? && DigitsValue(rangeIndex) < |resultRef.elems| then resultRef.elems[DigitsValue(rangeIndex)] else Undefined)
        else resultRef;
      if IsObject(range) then GraphEntry(graphAnn, ToJsString(Get(range, "@id"))) else Some(range)
  }

  /** What one pass of the loop does: stop at a non-delimiter, throw, or move on along the path. */
  datatype StepOutcome = Halted | Threw | Moved(rest: string, next: Json)

  /**
   * One step of an annotation path from `result`: "$" moves to the root
   * entity, "." + property to a property value, "/" + index to a range; any
   * other character stops the walk.
   */
  function Advance(graphAnn: Json, rootId: string, path: string, result: Json): (o: StepOutcome)
    ensures o.Moved? ==> |o.rest| < |path|
  {
    if StartsWith(path, "$") then
      if graphAnn.Undefined? || graphAnn.Null? then Threw
      else Moved(path[1..], Index(graphAnn, rootId))
    else if StartsWith(path, ".") then
      var token := TokenBefore(path[1..], '.', '/');
      var next := GraphProperty(result, token);
      if next.None? then Threw else Moved(path[|token| + 1..], next.value)
    else if StartsWith(path, "/") then
      var token := TokenBefore(path[1..], '/', '.');
      var next := GraphRange(graphAnn, result, token);
      if next.None? then Threw else Moved(path[|token| + 1..], next.value)
    else Halted
  }

  /** The value an annotation path leads to from `result`, step by step; `None` when a step throws. */
  function ResolveSteps(graphAnn: Json, rootId: string, path: string, result: Json): Option<Json>
    decreases |path|
  {
    match Advance(graphAnn, rootId, path, result)
    case Halted => Some(result)
    case Threw => None
    case Moved(rest, next) => ResolveSteps(graphAnn, rootId, rest, next)
  }

  /** The value an annotation path leads to, `null` when the path does not fit the annotation. */
  function ResolvedValue(graphAnn: Json, annotationPath: string, rootId: string): Json
  {
    match ResolveSteps(graphAnn, rootId, annotationPath, Obj([]))
    case None => Null
    case Some(v) => v
  }

  /** `resolvePath_graphAnnotation`: the do/while loop consuming the path step by step. */
  method ResolvePathGraphAnnotation(graphAnn: Json, annotationPath: string, rootId: string) returns (r: Json)
    ensures r == ResolvedValue(graphAnn, annotationPath, rootId)
  {
    var foundDelimiter := true;
    var result := Obj([]);
    var path := annotationPath;
    while foundDelimiter
      invariant ResolveSteps(graphAnn, rootId, annotationPath, Obj([]))
        == if foundDelimiter then ResolveSteps(graphAnn, rootId, path, result) else Some(result)
      decreases |path|, foundDelimiter
    {
      match Advance(graphAnn, rootId, path, result)
      case Threw =>
        return Null;
      case Moved(rest, next) =>
        result := next;
        path := rest;
      case Halted =>
        foundDelimiter := false;
    }
    r := result;
  }

  /** The root path "$" resolves to the root entity of the graph. */
  lemma ResolveRoot(graphAnn: Json, rootId: string)
    requires graphAnn.Obj?
    ensures ResolvedValue(graphAnn, "$", rootId) == Lookup(graphAnn.members, rootId)
  {
    assert StartsWith("$", "$");
    assert "$"[1..] == "";
    assert !StartsWith("", "$") && !StartsWith("", ".") && !StartsWith("", "/");
  }

  /** A path step that does not fit the annotation makes the whole path resolve to null. */
  lemma ResolveMissingProperty(graphAnn: Json, rootId: string, property: string)
    requires graphAnn.Obj? && '.' !in property && '/' !in property
    requires Lookup(graphAnn.members, rootId).Obj?
    requires Lookup(Lookup(graphAnn.members, rootId).members, property) == Undefined
    ensures ResolvedValue(graphAnn, "$." + property, rootId) == Null
  {
    var path := "$." + property;
    assert StartsWith(path, "$");
    var rest := path[1..];
    assert rest == "." + property;
    assert StartsWith(rest, ".");
    assert rest[1..] == property;
    TokenWhole(property, '.', '/');
    var root := Index(graphAnn, rootId);
    assert GraphProperty(root, property).None?;
    assert ResolveSteps(graphAnn, rootId, rest, root).None?;
    assert ResolveSteps(graphAnn, rootId, path, Obj([])) == ResolveSteps(graphAnn, rootId, rest, root);
  }

  /** A string without either stop character is one token. */
  lemma {:induction false} TokenWhole(s: string, stop1: char, stop2: char)
    requires stop1 !in s && stop2 !in s
    ensures TokenBefore(s, stop1, stop2) == s
    decreases |s|
  {
    if |s| > 0 {
      assert s[0] in s;
      assert forall c :: c in s[1..] ==> c in s;
      TokenWhole(s[1..], stop1, stop2);
      assert [s[0]] + s[1..] == s;
    }
  }
}
